=== FILE: README.md ===
# Sales-Logger call dashboard, modelled in Dafny

Sales-Logger is a call-centre dashboard. Agents belong to teams, and teams
may belong to campaigns. An agent's work is recorded as hourly call records:
agent id, date, hour of the day, calls made, talk time in minutes and sales
made. Records arrive in three ways: an uploaded CSV file, an agent roster
upload, or an hourly report e-mailed as a CSV attachment and collected from
a mailbox. They are kept in a table keyed by agent, date and hour. Every
screen is a pure function of that table and the rosters. Screens group the
records by team, campaign, agent, hour or date. They add up calls, sales
and talk time, compute guarded averages and conversion rates, sort the
rows by a chosen key and colour each figure.

This project models that data pipeline as pure Dafny functions over
immutable datatypes, and proves what each step promises. The steps are:

- reading a report: the quote-toggling line splitter, the fixed-column
  e-mail report parser, and the six subject patterns that give a report
  its hour;
- the mailbox poll's bookkeeping: which e-mails are imported, how errors
  and counters are kept, and the auto-check setting;
- the CSV upload: header normalisation, column detection, the per-row
  normalisation and its messages, the hour selection, and the export;
- the roster import: the required columns, team creation with cycling
  colours, and the linking of agents to teams;
- the CSV writer and reader of the export utilities, which are mutual
  inverses on clean text;
- the store: the upsert keyed by agent, date and hour, and the realtime
  reducers that keep the agent, team and record lists sorted;
- the aggregation of every screen: daily and per-team summaries,
  time formatting, per-team and per-campaign rankings, the agent list and
  agent history, the hourly breakdown, the rotating team screen and the
  dashboard's tab guards;
- the colour classifier of the team agent view.

Modules follow the source files: one module per file, plus shared
modules. `Wrappers`, `Seqs`, `Sorting`, `Text`, `Numbers` and `Objects`
hold the JavaScript built-ins the source leans on: `trim`, `split`,
`parseInt`, `Math.round`, insertion-ordered objects and a stable sort.
`Domain`, `Totals`, `Groups`, `Extremes` and `Ranking` hold the entities
and the sums, groupings, bounds and sorts that several screens share.

A few conventions hold throughout:

- JavaScript numbers are unbounded integers, except for averages and
  rates. Those are exact `real` quotients, stated through `Totals.IsAverage`.
- The classifier's ratio tests are exact integer cross-multiplications.
- `Math.round(s / 60)` is `(s + 30) / 60` with floor division. This equals
  JavaScript's rounding (half toward plus infinity) for every integer.
- `localeCompare` on names is lexicographic order on characters
  (`Sorting.StrLe`).
- `toLowerCase` lower-cases ASCII letters only.
- Calls to the database, the mail client and the clock become parameters.
  For example, an e-mail carries the answers the client gave for it, and
  the time of the poll and today's date are strings passed in.

Source paths below are relative to the repository root. The repository
holds two generations of the app: one under `src/`, and one under
`project-bolt-sb1-cttxblsk/`.

## Model

| member | source | states |
|---|---|---|
| CsvLine.ParseCsvLine | src/utils/emailParser.ts:69-89 | a line always yields at least one field |
| CsvLine.ParseCsvLineLoop | src/utils/emailParser.ts:69-89 | the character loop with `current`, `result` and the quote flag computes exactly the recursive field splitter |
| CsvLine.FieldsJoin | src/utils/emailParser.ts:74-87 | no field ever holds a double quote, and the fields glued back with commas give the line with its quotes removed |
| CsvLine.FieldsCount | src/utils/emailParser.ts:79-87 | there is one field more than there are commas outside quotes |
| CsvLine.FieldsWithoutQuotes | src/utils/emailParser.ts:77-84 | on a line without quotes the splitter is `split(',')` |
| CsvLine.ParseCsvLineSpec | src/utils/emailParser.ts:69-89 | for a whole line: field count, no quotes in any field, the join gives the unquoted line, and `split(',')` when the line has no quote |
| CsvLine.QuoteFreeRoundTrip | src/utils/emailParser.ts:69-89 | a quote-free line is recovered by joining its fields with commas |
| EmailParser.Cell | src/utils/emailParser.ts:25-27 | a cell is present exactly when the column exists, and it has no surrounding white space |
| EmailParser.ParseRow | src/utils/emailParser.ts:22-55 | a line gives a record exactly when it has a name and a calls cell and the name belongs to a roster agent; the record is for the first agent of that name, carries the caller's date and hour and no sales, its calls are `parseInt` of column E or 0, and its talk time is column F's seconds rounded to the nearest minute (within 30 seconds) |
| EmailParser.ParseLines | src/utils/emailParser.ts:16-60 | the data lines give at most one record each |
| EmailParser.ParseEmailCsv | src/utils/emailParser.ts:6-67 | a report gives at most as many records as it has lines |
| EmailParser.ParseLinesStamped | src/utils/emailParser.ts:48-55 | every record of a block of lines carries the requested date and hour, no sales, and the id of a roster agent |
| EmailParser.ParseEmailCsvStamped | src/utils/emailParser.ts:6-67 | the same for a whole report |
| EmailParser.ParseLinesAppend | src/utils/emailParser.ts:16-60 | lines are read independently: two blocks of lines give their records one after the other |
| EmailParser.ParseLinesSingle | src/utils/emailParser.ts:17-55 | one line yields one record exactly when its trimmed text is usable, and none otherwise |
| EmailParser.SingleLineYieldsNothing | src/utils/emailParser.ts:7-8 | content that is one line after trimming yields nothing, even when that line is data |
| EmailParser.FirstLineRule | src/utils/emailParser.ts:7-18 | in content of two lines or more, the first line is skipped exactly when it mentions "agent" in any case, and every later line is read as data |
| EmailParser.ParseLinesNone | src/utils/emailParser.ts:29-41 | lines with no usable row, such as rows without a name or with unknown names, yield no record |
| SubjectHour.DigitEnds | src/utils/emailParser.ts:94-99 | `(\d{1,2})` captures one or two digits, two tried before one |
| SubjectHour.FirstEnd | src/utils/emailParser.ts:94-99 | the capture chosen is the first, in the engine's order, that lets the rest of the pattern match, and none is chosen only when no capture does |
| SubjectHour.MatchAt | src/utils/emailParser.ts:94-99 | a pattern matched at a position captures one or two ASCII digits |
| SubjectHour.Leftmost | src/utils/emailParser.ts:103 | `subject.match` gives the capture of the leftmost position where the pattern matches, and nothing exactly when it matches at no position |
| SubjectHour.CapturedHourIsParseInt | src/utils/emailParser.ts:105 | the captured hour is what `parseInt` reads from the capture, and at most 99 |
| SubjectHour.Accepted | src/utils/emailParser.ts:104-118 | a pattern contributes an hour only within 8..17 |
| SubjectHour.AcceptedCases | src/utils/emailParser.ts:104-118 | a pattern that does not match contributes nothing; one that matches contributes its am/pm-adjusted hour if that lies within 8..17, and nothing otherwise |
| SubjectHour.Candidates | src/utils/emailParser.ts:93-102 | one candidate per pattern, in the source's pattern order |
| SubjectHour.ExtractHour | src/utils/emailParser.ts:91-122 | the subject's hour, when there is one, lies within 8..17 |
| SubjectHour.FirstSomeIsFirst | src/utils/emailParser.ts:102-121 | the value found is that of the first present candidate, and every earlier candidate is absent; without a present candidate it is `null` |
| SubjectHour.IsFirstSomeUnique | src/utils/emailParser.ts:102-121 | at most one answer is the first accepted one |
| SubjectHour.ExtractHourFirst | src/utils/emailParser.ts:102-121 | the subject's hour is that of the first accepted pattern; a pattern that matches with an hour outside 8..17 does not stop the search |
| SubjectHour.HourWordExample | src/utils/emailParser.ts:94 | "Hour 9" is read as 9 by the first pattern |
| SubjectHour.MeridiemExample | src/utils/emailParser.ts:96-112 | "2 PM" is read by the am/pm pattern and moved to 14 |
| SubjectHour.OnTheHourExample | src/utils/emailParser.ts:97-105 | "9:00" is read as 9 by the on-the-hour pattern |
| SubjectHour.OutOfRangeExample | src/utils/emailParser.ts:95-117 | "25" matches the bare-number pattern, but 25 is outside 8..17 and no later pattern matches, so there is no hour |
| SubjectHour.LateHourExample | src/utils/emailParser.ts:94-117 | "Hour 20" matches the first pattern, but 20 is outside 8..17 and no later pattern matches, so there is no hour |
| Outlook.TryPattern | src/hooks/useOutlookIntegration.ts:113-127 | one turn of the hook's pattern loop gives exactly what the report parser's copy accepts for that pattern |
| Outlook.ExtractHourLoop | src/hooks/useOutlookIntegration.ts:101-132 | the hook's own copy of the hour reader agrees with the report parser's on every subject |
| Outlook.ReportAttachment | src/hooks/useOutlookIntegration.ts:157-169 | the attachment read is a report attachment of the e-mail, and there is none exactly when no attachment is a report |
| Outlook.ProcessEmail | src/hooks/useOutlookIntegration.ts:147-185 | an e-mail counts as processed at most once and then without error; a subject without an hour, or an e-mail without a report attachment, is passed over with no effect; when every step succeeds the parsed report is what is stored; a failing mark-as-read still counts the stored records as imported |
| Outlook.Pass | src/hooks/useOutlookIntegration.ts:146-186 | a pass processes and logs errors for at most as many e-mails as it reads, and counts exactly the records it stores |
| Outlook.PassAppend | src/hooks/useOutlookIntegration.ts:146-186 | passes over consecutive batches of e-mail add up |
| Outlook.Last | src/hooks/useOutlookIntegration.ts:193 | `slice(-n)` keeps the last `n` elements, or all of them when there are fewer |
| Outlook.AfterPass | src/hooks/useOutlookIntegration.ts:189-194 | the counters grow by the pass's counts, the last-poll time is set, the error log is the last 20 of the 10 newest old errors followed by the pass's errors: with at most 10 new errors it is exactly those 10 old ones (or fewer) and then the new ones, and with 20 or more it is the last 20 new ones |
| Outlook.AfterFailure | src/hooks/useOutlookIntegration.ts:199-206 | a failed listing keeps the counters and sets the last-poll time; the log holds at most 20 entries, the newest being the failure message and the rest the newest old ones |
| Outlook.CheckForNewEmails | src/hooks/useOutlookIntegration.ts:134-210 | nothing changes while disconnected or already polling; the error log stays within 20 entries; the imported counter grows by exactly the number of records handed to the store |
| Outlook.ResetStats | src/hooks/useOutlookIntegration.ts:212-221 | the counters, the last-poll time and the error log are cleared |
| Outlook.ToggleAutoCheck | src/hooks/useOutlookIntegration.ts:223-226 | the cookie is set to "true" or "false", the negation of the current setting |
| Outlook.ToggleTwice | src/hooks/useOutlookIntegration.ts:223-230 | toggling twice restores the setting, whatever the cookie held |
| ImportExport.LowerAll | project-bolt-sb1-cttxblsk/project/src/components/ImportExport.tsx:20 | every header is lower-cased, one for one |
| ImportExport.SparseRowKeys | project-bolt-sb1-cttxblsk/project/src/components/ImportExport.tsx:25-32 | a row has a key exactly when some header of that name has a non-empty cell |
| ImportExport.SparseRowCells | project-bolt-sb1-cttxblsk/project/src/components/ImportExport.tsx:24-32 | every value kept in a row is non-empty text without surrounding white space |
| ImportExport.SparseRowGet | project-bolt-sb1-cttxblsk/project/src/components/ImportExport.tsx:24-30 | a key reads the cell of the last header of that name whose cell is non-empty, since later assignments overwrite earlier ones |
| ImportExport.SparseRowAbsent | project-bolt-sb1-cttxblsk/project/src/components/ImportExport.tsx:27-31 | a key none of whose headers has a non-empty cell reads as `undefined` |
| ImportExport.DataRows | project-bolt-sb1-cttxblsk/project/src/components/ImportExport.tsx:23-38 | the data lines give at most one row each |
| ImportExport.DataRowsAppend | project-bolt-sb1-cttxblsk/project/src/components/ImportExport.tsx:23-38 | one more data line adds its row at the end, and only when the row has a key, so rows keep the order of their lines |
| ImportExport.DataRowsShape | project-bolt-sb1-cttxblsk/project/src/components/ImportExport.tsx:34-37 | every row kept has at least one key, and only clean non-empty cells |
| ImportExport.ParseCsv | project-bolt-sb1-cttxblsk/project/src/components/ImportExport.tsx:16-41 | a file gives at most one row per line after the header |
| ImportExport.ParseCsvShape | project-bolt-sb1-cttxblsk/project/src/components/ImportExport.tsx:16-41 | a file of one line gives no rows, and every row has a key and only clean non-empty cells |
| ImportExport.Column | project-bolt-sb1-cttxblsk/project/src/components/ImportExport.tsx:65-78 | the column found is a key of the row that the rule accepts, and none is found exactly when no key is accepted |
| ImportExport.ColumnIsFirst | project-bolt-sb1-cttxblsk/project/src/components/ImportExport.tsx:66-78 | the column found is the first accepted key in insertion order |
| ImportExport.Clamp | project-bolt-sb1-cttxblsk/project/src/components/ImportExport.tsx:125-130 | an hour below 8 becomes 8, above 17 becomes 17, one inside is kept, and NaN stays NaN |
| ImportExport.Normalise | project-bolt-sb1-cttxblsk/project/src/components/ImportExport.tsx:101-141 | a row without an agent name is skipped; a name off the roster is an error that quotes it; otherwise the record is for the first roster agent of that name, dated today; its calls are `parseInt` of the calls cell or 0, its sales those of the first sales-like column or 0 when there is none, its hour the row's hour as `RowHour` states, and its talk time the seconds rounded to the nearest minute |
| ImportExport.NumberOrZero | project-bolt-sb1-cttxblsk/project/src/components/ImportExport.tsx:111-119 | no column, an absent cell and a cell that does not start with a number give 0; a text cell gives what `parseInt` reads from it |
| ImportExport.RowHour | project-bolt-sb1-cttxblsk/project/src/components/ImportExport.tsx:121-130 | the hour is NaN exactly when an hour column exists and its cell does not start with a number; otherwise it lies in 8..17; without an hour column the hour is the current hour clamped into 8..17 (an import at 20:00 files under 17, one at 06:00 under 8); with one, the hour is `parseInt` of its cell, clamped |
| ImportExport.Outcomes | project-bolt-sb1-cttxblsk/project/src/components/ImportExport.tsx:101-142 | one outcome per parsed row, in row order |
| ImportExport.RecordsOf | project-bolt-sb1-cttxblsk/project/src/components/ImportExport.tsx:132-139 | at most one record per row |
| ImportExport.ErrorsOf | project-bolt-sb1-cttxblsk/project/src/components/ImportExport.tsx:106-109 | at most one error per row |
| ImportExport.RowsAccounted | project-bolt-sb1-cttxblsk/project/src/components/ImportExport.tsx:101-142 | every row is a record, an error or a skip, exactly once |
| ImportExport.RecordsStamped | project-bolt-sb1-cttxblsk/project/src/components/ImportExport.tsx:101-142 | every record is dated today, belongs to a roster agent, and lies in business hours unless its hour is NaN |
| ImportExport.SelectMembers | project-bolt-sb1-cttxblsk/project/src/components/ImportExport.tsx:145-147 | an empty selection keeps every record; otherwise a record is kept exactly when its hour is selected, and a NaN hour never is |
| ImportExport.MessageHead | project-bolt-sb1-cttxblsk/project/src/components/ImportExport.tsx:153-159 | the message always opens with the import count, and is only that when nothing was skipped |
| ImportExport.MessageListsAll | project-bolt-sb1-cttxblsk/project/src/components/ImportExport.tsx:154-155 | up to three errors are all listed, at the end of the message |
| ImportExport.MessageCountsRest | project-bolt-sb1-cttxblsk/project/src/components/ImportExport.tsx:156-158 | beyond three errors, the rest are only counted, at the end of the message |
| ImportExport.ResolveColumns | project-bolt-sb1-cttxblsk/project/src/components/ImportExport.tsx:64-94 | the upload stops exactly when the first row has no agent-name or no calls column, naming the agent column first; otherwise the columns found are keys of the first row that the rules accept |
| ImportExport.HandleUpload | project-bolt-sb1-cttxblsk/project/src/components/ImportExport.tsx:57-170 | a file without data stores nothing and says so; the status is a success exactly when a non-empty batch was stored; a store failure reports the file as unreadable |
| ImportExport.UploadNeedsColumns | project-bolt-sb1-cttxblsk/project/src/components/ImportExport.tsx:80-94 | without the agent-name or the calls column nothing is stored, and the message names the missing column |
| ImportExport.UploadBatch | project-bolt-sb1-cttxblsk/project/src/components/ImportExport.tsx:97-151 | every record sent to the store is dated today, for a roster agent, in business hours, and at a selected hour when hours are selected |
| ImportExport.SameNameSameKey | project-bolt-sb1-cttxblsk/project/src/components/ImportExport.tsx:121-139 | two rows without an hour column naming the same roster agent give records under one (agent, date, hour) key: today at the current hour clamped into 8..17 |
| ImportExport.UploadRepeatedKey | project-bolt-sb1-cttxblsk/project/src/hooks/useDatabase.ts:218-224 | when the store's answer is the upsert's, a batch repeating an (agent, date, hour) key is refused, `upsertCallData` throws and the file is reported unreadable (ImportExport.tsx:165-169); a batch naming each key once is reported imported |
| ImportExport.UploadMessage | project-bolt-sb1-cttxblsk/project/src/components/ImportExport.tsx:144-164 | with the columns found and the store answering, the batch is the selected records and the message counts them and lists the roster misses |
| ImportExport.HoursAreBuckets | project-bolt-sb1-cttxblsk/project/src/components/ImportExport.tsx:235 | the hour picker offers exactly the hours of the hourly buckets, 8 to 17 |
| ImportExport.ByTextTotal | project-bolt-sb1-cttxblsk/project/src/components/ImportExport.tsx:231 | the default sort order, numbers compared as text, is a total preorder |
| ImportExport.ToggleMembers | project-bolt-sb1-cttxblsk/project/src/components/ImportExport.tsx:227-233 | toggling flips the hour's membership and leaves every other hour as it was |
| ImportExport.ToggleTwice | project-bolt-sb1-cttxblsk/project/src/components/ImportExport.tsx:227-233 | toggling an hour twice restores the selection as a set |
| ImportExport.ToggleAddSorted | project-bolt-sb1-cttxblsk/project/src/components/ImportExport.tsx:231 | an added hour leaves the selection sorted in text order |
| ImportExport.ToggleTextOrder | project-bolt-sb1-cttxblsk/project/src/components/ImportExport.tsx:231 | the default sort puts 10 before 9 |
| ImportExport.TeamLabel | project-bolt-sb1-cttxblsk/project/src/components/ImportExport.tsx:183-188 | the team cell is never empty, and anything but "No Team" is the name of the agent's campaign team |
| ImportExport.ExportRows | project-bolt-sb1-cttxblsk/project/src/components/ImportExport.tsx:177-195 | one row per roster agent, in roster order: the daily report row of that agent, with the campaign team's label |
| ImportExport.ExportAddsUp | project-bolt-sb1-cttxblsk/project/src/components/ImportExport.tsx:177-197 | with distinct agent ids, the export's totals are today's totals over the roster's records |
| CsvUtils.RowOfKeys | project-bolt-sb1-cttxblsk/project/src/utils/csvUtils.ts:12-16 | with distinct headers, a parsed row has exactly the headers as keys, in header order, each once |
| CsvUtils.RowOfGet | project-bolt-sb1-cttxblsk/project/src/utils/csvUtils.ts:14-16 | with distinct headers, each header holds the cell below it, and `undefined` past the end of a short line |
| CsvUtils.RowsOf | project-bolt-sb1-cttxblsk/project/src/utils/csvUtils.ts:10-19 | one row per data line, in line order, short or blank lines included |
| CsvUtils.ParseCsv | project-bolt-sb1-cttxblsk/project/src/utils/csvUtils.ts:3-22 | nothing for text of one line; otherwise exactly one row per line after the header |
| CsvUtils.ParseCsvRows | project-bolt-sb1-cttxblsk/project/src/utils/csvUtils.ts:3-22 | the rows are those of the header line's trimmed cells over every later line |
| CsvUtils.ValuesOf | project-bolt-sb1-cttxblsk/project/src/utils/csvUtils.ts:30 | a record is written as one value per key, in key order |
| CsvUtils.Lines | project-bolt-sb1-cttxblsk/project/src/utils/csvUtils.ts:30 | one written line per record, in record order |
| CsvUtils.CsvText | project-bolt-sb1-cttxblsk/project/src/utils/csvUtils.ts:24-31 | nothing is written for an empty list, and text otherwise |
| CsvUtils.TextLines | project-bolt-sb1-cttxblsk/project/src/utils/csvUtils.ts:27-31 | the written text splits back into the header line followed by one line per record |
| CsvUtils.LineBack | project-bolt-sb1-cttxblsk/project/src/utils/csvUtils.ts:11-30 | a written line of a clean record reads back as that record |
| CsvUtils.LinesBack | project-bolt-sb1-cttxblsk/project/src/utils/csvUtils.ts:10-30 | written record lines read back as the records |
| CsvUtils.HeaderBack | project-bolt-sb1-cttxblsk/project/src/utils/csvUtils.ts:7-29 | the header line reads back as the first record's keys |
| CsvUtils.RoundTrip | project-bolt-sb1-cttxblsk/project/src/utils/csvUtils.ts:3-31 | reading back what the export writes gives the records back, when they share one set of keys and every key and value is non-empty text without commas, line breaks or surrounding white space |
| CsvUtils.DailyReport | project-bolt-sb1-cttxblsk/project/src/utils/csvUtils.ts:46-66 | one row per roster agent, in roster order, with the agent's id, name and team and the date asked for |
| CsvUtils.ReportRowTotals | project-bolt-sb1-cttxblsk/project/src/utils/csvUtils.ts:47-51 | each row totals exactly its agent's records of the date |
| CsvUtils.ReportAddsUp | project-bolt-sb1-cttxblsk/project/src/utils/csvUtils.ts:46-66 | with distinct agent ids, the rows add up to the date's totals over the roster's records; nothing is counted twice or dropped |
| CsvUtils.ReportAverage | project-bolt-sb1-cttxblsk/project/src/utils/csvUtils.ts:61 | the average is "0.00" without calls, and otherwise a two-decimal number within half a hundredth of call time over calls |
| CsvUtils.ReportObj | project-bolt-sb1-cttxblsk/project/src/utils/csvUtils.ts:53-62 | the report object has the eight columns, in the order the export writes them |
| AgentImport.HeaderIndex | project-bolt-sb1-cttxblsk/project/src/components/AgentImporter.tsx:23-25 | `findIndex` gives the first header holding the word, and -1 exactly when no header holds it |
| AgentImport.Locate | project-bolt-sb1-cttxblsk/project/src/components/AgentImporter.tsx:22-29 | the three columns are found exactly when some header holds "name", some "email" and some "team", each at its first such header |
| AgentImport.EntryOf | project-bolt-sb1-cttxblsk/project/src/components/AgentImporter.tsx:33-40 | a row is kept exactly when it has at least three cells and the three columns are filled; the entry's name, e-mail and team are the cells at the name, e-mail and team columns |
| AgentImport.CellsOf | project-bolt-sb1-cttxblsk/project/src/components/AgentImporter.tsx:33 | each line is split at commas and its cells trimmed |
| AgentImport.Entries | project-bolt-sb1-cttxblsk/project/src/components/AgentImporter.tsx:31-41 | at most one entry per data row |
| AgentImport.EntriesAppend | project-bolt-sb1-cttxblsk/project/src/components/AgentImporter.tsx:31-41 | one more row adds its entry, if it has one, at the end of the list, so the preview keeps row order |
| AgentImport.EntriesFrom | project-bolt-sb1-cttxblsk/project/src/components/AgentImporter.tsx:32-41 | an entry is previewed exactly when some data row yields it |
| AgentImport.LinesOf | project-bolt-sb1-cttxblsk/project/src/components/AgentImporter.tsx:19 | the trimmed file splits into one line more than it has line breaks, none holding a break |
| AgentImport.ParseLines | project-bolt-sb1-cttxblsk/project/src/components/AgentImporter.tsx:18-44 | nothing without a data line; the parse fails exactly when a file of two lines or more lacks one of the three columns, with the source's message; otherwise fewer entries than lines |
| AgentImport.ParseRoster | project-bolt-sb1-cttxblsk/project/src/components/AgentImporter.tsx:18-44 | a roster gives at most one entry per line after the header |
| AgentImport.ParseLinesAppend | project-bolt-sb1-cttxblsk/project/src/components/AgentImporter.tsx:31-43 | once the columns are found, one more line adds its entry, if any, at the end of the preview |
| AgentImport.DataLinesYield | project-bolt-sb1-cttxblsk/project/src/components/AgentImporter.tsx:31-41 | the entries of the data lines are exactly those some line after the header yields |
| AgentImport.ParseRosterEntries | project-bolt-sb1-cttxblsk/project/src/components/AgentImporter.tsx:18-43 | a file without data lines previews nothing; otherwise the preview holds exactly the entries its data lines yield from the columns the header names |
| AgentImport.ParseRosterClean | project-bolt-sb1-cttxblsk/project/src/components/AgentImporter.tsx:33-39 | every previewed value is a non-empty trimmed cell without separators |
| AgentImport.RosterUpload | project-bolt-sb1-cttxblsk/project/src/components/AgentImporter.tsx:46-74 | a status is always shown; it is a success exactly when the roster parses to a non-empty preview, which then replaces the old preview and opens it with the count; otherwise the preview stays and the message says why |
| AgentImport.NewTeamNames | project-bolt-sb1-cttxblsk/project/src/components/AgentImporter.tsx:82-86 | the new team names are the roster's team names that no existing team bears, each once |
| AgentImport.ColorFor | project-bolt-sb1-cttxblsk/project/src/components/AgentImporter.tsx:87-93 | every new team's colour is from the palette |
| AgentImport.ColorsCycle | project-bolt-sb1-cttxblsk/project/src/components/AgentImporter.tsx:93 | the palette repeats every eight teams, and eight teams created in a row all differ in colour |
| AgentImport.CreatedTeams | project-bolt-sb1-cttxblsk/project/src/components/AgentImporter.tsx:89-98 | one created team per new name, in order, each with the id the store hands out and the palette colour of its position |
| AgentImport.LinkSucceeds | project-bolt-sb1-cttxblsk/project/src/components/AgentImporter.tsx:104-115 | linking succeeds exactly when every team name has a team, and then each agent carries its entry's name and e-mail, is active, and points at a team of its team name |
| AgentImport.LinkFails | project-bolt-sb1-cttxblsk/project/src/components/AgentImporter.tsx:105-108 | a failed link reports the first team name that has no team |
| AgentImport.ImportAsWritten | project-bolt-sb1-cttxblsk/project/src/components/AgentImporter.tsx:12-133 | as written, every non-empty preview fails before anything is written: the team list is `undefined`, so reading it throws, and the preview stays on screen |
| AgentImport.Import | project-bolt-sb1-cttxblsk/project/src/components/AgentImporter.tsx:76-133 | the corrected importer does nothing for an empty preview and otherwise runs the import |
| AgentImport.EveryNameHasTeam | project-bolt-sb1-cttxblsk/project/src/components/AgentImporter.tsx:82-101 | once the new teams exist, every team name of the preview has a team |
| AgentImport.ImportCreatesMissingTeams | project-bolt-sb1-cttxblsk/project/src/components/AgentImporter.tsx:82-98 | the corrected importer creates exactly the missing teams, each once, coloured from the palette in turn |
| AgentImport.ImportLinksEveryAgent | project-bolt-sb1-cttxblsk/project/src/components/AgentImporter.tsx:100-129 | with the agent insert succeeding, every previewed agent is inserted, active and linked to a team of its team name, and the counts are reported; a failed insert leaves the created teams, inserts no agent and keeps the preview |
| AgentImport.ImportAsWrittenFails | project-bolt-sb1-cttxblsk/project/src/components/AgentImporter.tsx:12-133 | a one-agent roster for a new team fails as written and is imported by the corrected importer |
| Store.Upsert | project-bolt-sb1-cttxblsk/project/src/hooks/useDatabase.ts:218-224 | a batch naming each agent, date and hour once is accepted, and one naming a key twice is refused whole with the database's message |
| Store.WriteKeeps | project-bolt-sb1-cttxblsk/project/src/hooks/useDatabase.ts:219-221 | keys the batch does not name keep their rows, and no such key appears |
| Store.WriteSets | project-bolt-sb1-cttxblsk/project/src/hooks/useDatabase.ts:219-221 | after the write, each batch row is what its key holds: the incoming row itself |
| Store.WriteDomain | project-bolt-sb1-cttxblsk/project/src/hooks/useDatabase.ts:219-221 | the keys after a write are the old keys and the batch's keys |
| Store.UpsertMeans | project-bolt-sb1-cttxblsk/project/src/hooks/useDatabase.ts:218-224 | an accepted upsert keeps every row outside the batch, sets every batch row, and brings in no other key |
| Store.UpsertIdempotent | project-bolt-sb1-cttxblsk/project/src/hooks/useDatabase.ts:218-224 | upserting a batch twice leaves the table as upserting it once |
| Store.UpsertReplacesNotSums | project-bolt-sb1-cttxblsk/project/src/hooks/useDatabase.ts:219-221 | a second report for the same agent, day and hour replaces the first instead of adding to it |
| Store.ByNameTotal | project-bolt-sb1-cttxblsk/project/src/hooks/useDatabase.ts:77-115 | ordering by name is a total preorder |
| Store.OnInsert | project-bolt-sb1-cttxblsk/project/src/hooks/useDatabase.ts:77-115 | an insert adds exactly the new row to the list |
| Store.Replace | project-bolt-sb1-cttxblsk/project/src/hooks/useDatabase.ts:79-118 | rows with the new row's id become the new row; every other row stays where it was |
| Store.OnUpdate | project-bolt-sb1-cttxblsk/project/src/hooks/useDatabase.ts:79-119 | an update keeps the list's length and holds the replaced rows |
| Store.OnDelete | project-bolt-sb1-cttxblsk/project/src/hooks/useDatabase.ts:83-121 | a delete keeps exactly the rows with another id |
| Store.ReducersSorted | project-bolt-sb1-cttxblsk/project/src/hooks/useDatabase.ts:76-122 | from a name-sorted list, insert, update and delete all leave a name-sorted list |
| Store.OnDeleteKeepsOrder | project-bolt-sb1-cttxblsk/project/src/hooks/useDatabase.ts:83-121 | a delete keeps the relative order of the rows that stay, whatever the order |
| Store.OnUpdateContents | project-bolt-sb1-cttxblsk/project/src/hooks/useDatabase.ts:79-119 | after an update a row is listed exactly when it is the new row replacing one with its id, or an old row with another id |
| Store.FilterKeepsOrder | project-bolt-sb1-cttxblsk/project/src/hooks/useDatabase.ts:142 | a filter keeps the relative order of what it keeps |
| Store.NewerFirstTotal | project-bolt-sb1-cttxblsk/project/src/hooks/useDatabase.ts:134-136 | newest-first order on the date is a total preorder |
| Store.OnCallInsert | project-bolt-sb1-cttxblsk/project/src/hooks/useDatabase.ts:133-136 | a call insert adds exactly the new row to the list |
| Store.OnCallUpdate | project-bolt-sb1-cttxblsk/project/src/hooks/useDatabase.ts:137-140 | a call update keeps the list's length and holds the replaced rows |
| Store.OnCallDelete | project-bolt-sb1-cttxblsk/project/src/hooks/useDatabase.ts:141-142 | a call delete keeps exactly the rows with another id |
| Store.CallReducersSorted | project-bolt-sb1-cttxblsk/project/src/hooks/useDatabase.ts:132-143 | from a newest-first list, every call event leaves a newest-first list |
| Store.SortedByDate | project-bolt-sb1-cttxblsk/project/src/hooks/useDatabase.ts:134-140 | the date sort puts the list newest first |
| Store.OnCallInsertFirst | project-bolt-sb1-cttxblsk/project/src/hooks/useDatabase.ts:134-136 | a newly inserted row comes before the rows of its own date that were already there, and they keep their order |
| DataUtils.DailySummaries | project-bolt-sb1-cttxblsk/project/src/utils/dataUtils.ts:3-19 | one summary per agent, in agent order, totalling exactly that agent's records of the date, with the guarded average call time |
| DataUtils.DailySummariesAddUp | project-bolt-sb1-cttxblsk/project/src/utils/dataUtils.ts:3-19 | with distinct agent ids, the summaries add up to the date's total over the roster's records; no record is counted twice or lost |
| DataUtils.DailySummaryExample | project-bolt-sb1-cttxblsk/project/src/utils/dataUtils.ts:5-17 | an agent's two hours of 5 and 3 calls, 10 and 5 minutes, and 1 and 0 sales give 8 calls, 15 minutes, 1 sale and 1.875 minutes a call |
| DataUtils.TeamAgents | project-bolt-sb1-cttxblsk/project/src/utils/dataUtils.ts:23 | a team's agents are exactly the roster agents whose team is that team |
| DataUtils.TeamSummaries | project-bolt-sb1-cttxblsk/project/src/utils/dataUtils.ts:21-43 | one summary per team, in team order, with its agent count, the total of the day's records whose agent (found by id) is in the team, and the guarded calls per agent |
| DataUtils.TeamGroupsExclusive | project-bolt-sb1-cttxblsk/project/src/utils/dataUtils.ts:24-27 | with distinct team ids, no record belongs to two teams |
| DataUtils.TeamTotalsAreGroups | project-bolt-sb1-cttxblsk/project/src/utils/dataUtils.ts:24-31 | the team totals are the sums of the team groups |
| DataUtils.TeamTotalsWithin | project-bolt-sb1-cttxblsk/project/src/utils/dataUtils.ts:21-43 | with distinct team ids and non-negative figures, the team totals add up to at most the day's total |
| DataUtils.TeamTotalsCover | project-bolt-sb1-cttxblsk/project/src/utils/dataUtils.ts:21-43 | with distinct team ids, and every record of the day belonging to an agent of a listed team, the team totals add up to exactly the day's total |
| DataUtils.JsRem | project-bolt-sb1-cttxblsk/project/src/utils/dataUtils.ts:47 | JavaScript `%`: the remainder takes the sign of the dividend, and agrees with the mathematical one for non-negative counts |
| DataUtils.FormatTimeReadsBack | project-bolt-sb1-cttxblsk/project/src/utils/dataUtils.ts:45-52 | every label of a non-negative minute count reads back as that count, so the label loses nothing |
| DataUtils.FormatTimeShape | project-bolt-sb1-cttxblsk/project/src/utils/dataUtils.ts:45-52 | the label of a non-negative count is built from its whole hours and the minutes under sixty, and they recombine to the count |
| DataUtils.ClockHour | project-bolt-sb1-cttxblsk/project/src/utils/dataUtils.ts:56 | every hour of the day shows a clock figure from 1 to 12 |
| DataUtils.FormatHour | project-bolt-sb1-cttxblsk/project/src/utils/dataUtils.ts:54-58 | the label ends in "PM" exactly for hours from noon on |
| DataUtils.FormatHourReadsBack | project-bolt-sb1-cttxblsk/project/src/utils/dataUtils.ts:54-58 | figure and period give the hour of the day back |
| TeamAgentView.Performance | project-bolt-sb1-cttxblsk/src/components/TeamAgentView.tsx:22-64 | one row per team agent, in roster order, each with ten hour cells for 8 to 17 in ascending order |
| TeamAgentView.OwnCalls | project-bolt-sb1-cttxblsk/src/components/TeamAgentView.tsx:26-33 | with distinct agent ids, a team agent's share of the team's records is all of its own records of the day |
| TeamAgentView.RowCells | project-bolt-sb1-cttxblsk/src/components/TeamAgentView.tsx:32-54 | with distinct agent ids, every hour cell sums exactly that agent's records of the day at that hour, and the row's totals are the agent's whole day |
| TeamAgentView.RowTotalsSplit | project-bolt-sb1-cttxblsk/src/components/TeamAgentView.tsx:36-54 | a row's day totals are its ten cells plus its records outside 8 to 17, and exactly its ten cells when every record is inside |
| TeamAgentView.CallsColumn | project-bolt-sb1-cttxblsk/src/components/TeamAgentView.tsx:261 | the calls cohort holds each listed row's calls, in order |
| TeamAgentView.SalesColumn | project-bolt-sb1-cttxblsk/src/components/TeamAgentView.tsx:268 | the sales cohort holds each listed row's sales, in order |
| TeamAgentView.ColoursOf | project-bolt-sb1-cttxblsk/src/components/TeamAgentView.tsx:224-272 | one colour per hour cell of the row |
| TeamAgentView.SalesColourAgrees | project-bolt-sb1-cttxblsk/src/components/TeamAgentView.tsx:261-268 | a listed agent with no negative sales gets the sales colour the calls rule would give its sales |
| TeamAgentView.HourLabelReadsBack | project-bolt-sb1-cttxblsk/src/components/TeamAgentView.tsx:128-130 | an hour's column label is `hh-hh`, and its two halves read back as the hour and the next one |
| Classifier.CallTimeTier | project-bolt-sb1-cttxblsk/src/components/TeamAgentView.tsx:81-91 | no data for zero minutes, and otherwise the ladder 1.0, 0.75, 0.5 on the exact ratio of the minutes to the 40-minute target |
| Classifier.CallTimeMonotone | project-bolt-sb1-cttxblsk/src/components/TeamAgentView.tsx:81-91 | more minutes never earn a lower tier, and zero minutes are never red |
| Classifier.CallTimeBoundary | project-bolt-sb1-cttxblsk/src/components/TeamAgentView.tsx:84-88 | the 40-minute target itself is green and one minute short is only yellow |
| Classifier.CrossTier | project-bolt-sb1-cttxblsk/src/components/TeamAgentView.tsx:102-107 | the integer cross-multiplication test gives exactly the ladder 0.8, 0.6, 0.4 on the exact ratio |
| Classifier.LadderStep | project-bolt-sb1-cttxblsk/src/components/TeamAgentView.tsx:104-106 | a ratio reaches k fifths exactly when five times the numerator reaches k times the spread |
| Classifier.CallsTierMeans | project-bolt-sb1-cttxblsk/src/components/TeamAgentView.tsx:94-108 | the calls tier is red when no peer is positive, flat when the peers do not spread, and otherwise the ladder on the exact ratio of the value above the lowest positive peer to the peers' spread |
| Classifier.CallsMonotone | project-bolt-sb1-cttxblsk/src/components/TeamAgentView.tsx:94-108 | for a fixed cohort, a larger value never earns a lower calls tier |
| Classifier.CallsExtremes | project-bolt-sb1-cttxblsk/src/components/TeamAgentView.tsx:94-108 | when the peers spread, the best of them is green and the weakest positive one is red |
| Classifier.SalesDiffersIff | project-bolt-sb1-cttxblsk/src/components/TeamAgentView.tsx:94-125 | the sales tier differs from the calls tier exactly for a non-zero value among peers none of whom is positive; calls then go red on a NaN ratio and sales orange on the 0.5 fallback |
| Classifier.SalesMatchesCalls | project-bolt-sb1-cttxblsk/src/components/TeamAgentView.tsx:111-125 | for a value from the cohort that is not negative, the sales and the calls gradings agree |
| Extremes.MaxOf | project-bolt-sb1-cttxblsk/src/components/TeamAgentView.tsx:97 | `Math.max` of integers is never plus infinity |
| Extremes.MinPositive | project-bolt-sb1-cttxblsk/src/components/TeamAgentView.tsx:98 | `Math.min` of the positive values is never minus infinity |
| Extremes.MaxOfMeans | project-bolt-sb1-cttxblsk/src/components/TeamAgentView.tsx:97 | the maximum is minus infinity only for no values; otherwise it is one of the values and no value exceeds it |
| Extremes.MinPositiveMeans | project-bolt-sb1-cttxblsk/src/components/TeamAgentView.tsx:98 | the minimum over the positive values is plus infinity exactly when none is positive; otherwise it is a positive value and no positive value is below it |
| Extremes.Bounds | project-bolt-sb1-cttxblsk/src/components/TeamAgentView.tsx:97-100 | the lower bound is finite exactly when some value is positive, and then it is positive and at most the maximum |
| Ranking.OrderPreorder | project-bolt-sb1-cttxblsk/src/components/TeamAgentView.tsx:67-78 | each of the four comparators, by name or by calls, sales or call time largest first, is a total preorder |
| Ranking.Ranked | project-bolt-sb1-cttxblsk/src/components/TeamAgentView.tsx:67-78 | a ranking holds the same rows |
| Ranking.RankedMeans | project-bolt-sb1-cttxblsk/src/components/TeamAgentView.tsx:67-78 | a ranking holds the same rows in the chosen order, with tied rows in their original order; the agent grid sorts its rows by agent name or figures, and the team grid (TeamDashboard.tsx:82-93) its rows by team name or figures, ties staying in roster or team order |
| Ranking.RankedDescending | project-bolt-sb1-cttxblsk/src/components/TeamOverview.tsx:151-152 | ranked by calls, the figures read largest first |
| Ranking.MostCallsFirst | project-bolt-sb1-cttxblsk/src/components/TeamOverview.tsx:151-152 | the overview ranking holds the same summaries; the campaign overview (CampaignOverview.tsx:160-161) ranks its summaries the same way |
| Ranking.MostCallsFirstMeans | project-bolt-sb1-cttxblsk/src/components/TeamOverview.tsx:151-153 | the ranking lists every summary once, most calls first, summaries with equal calls in list order, so teams and campaigns with equal calls keep their order |
| Ranking.SumByAppend | project-bolt-sb1-cttxblsk/src/components/TeamDashboard.tsx:262-292 | the sum of the figures of two lists of rows is the sum of their sums |
| Ranking.SortSum | project-bolt-sb1-cttxblsk/src/components/TeamDashboard.tsx:262-292 | sorting changes no grand total |
| Ranking.RankedSum | project-bolt-sb1-cttxblsk/src/components/TeamDashboard.tsx:262-292 | a ranking's grand total is that of the unsorted rows |
| Ranking.SumByColumn | project-bolt-sb1-cttxblsk/src/components/TeamDashboard.tsx:262-292 | summing a row figure is summing the column of that figure |
| Ranking.FirstFour | project-bolt-sb1-cttxblsk/src/components/TeamOverview.tsx:48 | the compact views list the first four rows, or all rows when fewer |
| Ranking.Joined | project-bolt-sb1-cttxblsk/src/components/TeamOverview.tsx:48-50 | at most one pair is drawn per summary |
| Ranking.JoinedPairs | project-bolt-sb1-cttxblsk/src/components/TeamOverview.tsx:48-50 | every pair drawn is an entity of the list with a summary of the list that carries the entity's id |
| Ranking.JoinedInOrder | project-bolt-sb1-cttxblsk/src/components/TeamOverview.tsx:48-50 | when `find` by each summary's id returns the entity at the same position, every summary is drawn with that entity, in order |
| Ranking.FirstFourJoined | project-bolt-sb1-cttxblsk/src/components/TeamOverview.tsx:48-50 | with distinct ids and summaries in entity order, the compact view draws the first four entities with their own summaries |
| TeamDashboard.Performance | project-bolt-sb1-cttxblsk/src/components/TeamDashboard.tsx:37-79 | one row per team, in team order, with the team's agents and ten hour cells for 8 to 17 in ascending order |
| TeamDashboard.OnlySelectedDate | project-bolt-sb1-cttxblsk/src/components/TeamDashboard.tsx:38 | records of other dates never reach any team figure |
| TeamDashboard.RowFigures | project-bolt-sb1-cttxblsk/src/components/TeamDashboard.tsx:41-67 | a team's totals sum the day's records whose agent (found by id) is in the team, and each cell those records at its hour |
| TeamDashboard.RowsGuarded | project-bolt-sb1-cttxblsk/src/components/TeamDashboard.tsx:76-77 | every row's average call time and conversion rate are the exact quotients they stand for, and zero without calls |
| TeamDashboard.SameAsOverview | project-bolt-sb1-cttxblsk/src/components/TeamDashboard.tsx:41-67 | the grid and the team summaries show the same totals and agent count for a team |
| TeamDashboard.CardsAddUp | project-bolt-sb1-cttxblsk/src/components/TeamDashboard.tsx:258-292 | the three summary cards add up the per-team totals whatever the sort; with distinct team ids, and every record of the day belonging to an agent of a listed team, they are the day's totals |
| TeamOverview.CardQuotients | project-bolt-sb1-cttxblsk/src/components/TeamOverview.tsx:21-83 | a card's average call time, calls per agent and conversion rate are the exact ratios they stand for, and zero where their denominator is |
| TeamOverview.CompactShowsFirstFour | project-bolt-sb1-cttxblsk/src/components/TeamOverview.tsx:43-70 | with distinct team ids, the compact view shows the first four teams of the list, in list order, each with its own summary |
| CampaignOverview.TeamIdsOf | project-bolt-sb1-cttxblsk/project/src/components/CampaignOverview.tsx:24 | a campaign has at most as many team ids as there are teams |
| CampaignOverview.TeamIdsMeans | project-bolt-sb1-cttxblsk/project/src/components/CampaignOverview.tsx:24 | an id is listed exactly when some team of the campaign has it |
| CampaignOverview.Summaries | project-bolt-sb1-cttxblsk/project/src/components/CampaignOverview.tsx:22-45 | one summary per campaign, in campaign order, with its team count, the count of agents on its teams, and the total of the day's records whose agent (found by id) is on one of its teams |
| CampaignOverview.NoTeamAgent | project-bolt-sb1-cttxblsk/project/src/components/CampaignOverview.tsx:25-28 | an agent with no campaign team counts for a campaign exactly when one of the campaign's teams has the empty id |
| CampaignOverview.AgentInCampaignIff | project-bolt-sb1-cttxblsk/project/src/components/CampaignOverview.tsx:25 | an agent counts for a campaign exactly when its team is one of the campaign's |
| CampaignOverview.CampaignGroupsExclusive | project-bolt-sb1-cttxblsk/project/src/components/CampaignOverview.tsx:24-29 | with distinct team and campaign ids, no record counts for two campaigns |
| CampaignOverview.CampaignTotalsWithin | project-bolt-sb1-cttxblsk/project/src/components/CampaignOverview.tsx:22-45 | with distinct ids and non-negative figures, the campaign cards together never show more than the day holds |
| CampaignOverview.CardQuotients | project-bolt-sb1-cttxblsk/project/src/components/CampaignOverview.tsx:42-87 | a card's average call time, calls per agent and conversion rate are the exact ratios they stand for, and zero where their denominator is |
| CampaignOverview.CompactShowsFirstFour | project-bolt-sb1-cttxblsk/project/src/components/CampaignOverview.tsx:47-74 | with distinct campaign ids, the compact view shows the first four campaigns in list order, each with its own summary |
| AgentsList.Listed | project-bolt-sb1-cttxblsk/project/src/components/AgentsList.tsx:44-49 | an agent is listed exactly when the lower-cased search term occurs in its lower-cased name or email and the team filter is empty or equals its campaign team |
| AgentsList.EmptyFilterListsAll | project-bolt-sb1-cttxblsk/project/src/components/AgentsList.tsx:44-49 | with an empty search and no team chosen every agent is listed, in roster order |
| AgentsList.TeamFilterSelects | project-bolt-sb1-cttxblsk/project/src/components/AgentsList.tsx:47 | once a team is chosen, every listed agent belongs to it |
| AgentsList.CardOfMeans | project-bolt-sb1-cttxblsk/project/src/components/AgentsList.tsx:28-119 | every listed agent finds a card, dated the chosen day, holding that agent's own totals for the day |
| AgentsList.TeamName | project-bolt-sb1-cttxblsk/project/src/components/AgentsList.tsx:51 | the team label is never empty: a missing team or a nameless one reads "No Team" |
| AgentsList.TeamNameMeans | project-bolt-sb1-cttxblsk/project/src/components/AgentsList.tsx:51 | with distinct team ids the label is the agent's team's name when it has one, and "No Team" when no team has the agent's id |
| AgentsList.CampaignName | project-bolt-sb1-cttxblsk/project/src/components/AgentsList.tsx:53-56 | the campaign label is never empty |
| AgentsList.CampaignNameMeans | project-bolt-sb1-cttxblsk/project/src/components/AgentsList.tsx:53-56 | with distinct ids the label is the name of the campaign of the agent's team, and "No Campaign" for an agent without a team or a team without a campaign |
| AgentsList.History | project-bolt-sb1-cttxblsk/project/src/components/AgentsList.tsx:59-81 | the history has at most one entry per record of the agent in range |
| AgentsList.AccumulateLength | project-bolt-sb1-cttxblsk/project/src/components/AgentsList.tsx:67-75 | grouping by date never makes more entries than there were records |
| AgentsList.AddToDates | project-bolt-sb1-cttxblsk/project/src/components/AgentsList.tsx:68-75 | one `Map.set` keeps one entry per date and adds the record's date |
| AgentsList.AddToAt | project-bolt-sb1-cttxblsk/project/src/components/AgentsList.tsx:69-74 | one step adds the record's figures to its own date's entry and to no other |
| AgentsList.AccumulateDates | project-bolt-sb1-cttxblsk/project/src/components/AgentsList.tsx:67-75 | the grouped map has one entry per date, and an entry for exactly the dates of the records |
| AgentsList.AccumulateAt | project-bolt-sb1-cttxblsk/project/src/components/AgentsList.tsx:67-75 | each date's entry is what it held before plus the sum of that date's records |
| AgentsList.FromEmpty | project-bolt-sb1-cttxblsk/project/src/components/AgentsList.tsx:67-75 | starting from an empty map, each entry holds exactly the sum of its date's records |
| AgentsList.ReversedRangeIsEmpty | project-bolt-sb1-cttxblsk/project/src/components/AgentsList.tsx:60-64 | a range whose start is after its end yields an empty history |
| AgentsList.HistoryAscending | project-bolt-sb1-cttxblsk/project/src/components/AgentsList.tsx:77-80 | the history is sorted by date with no date twice |
| AgentsList.HistoryDateSet | project-bolt-sb1-cttxblsk/project/src/components/AgentsList.tsx:60-75 | the history has an entry for a date exactly when the agent has a record of that date within the range |
| AgentsList.HistoryEntries | project-bolt-sb1-cttxblsk/project/src/components/AgentsList.tsx:59-81 | each entry's date lies in the range and its figures are the agent's totals for that day, the same as the daily card would show |
| AgentsList.HistoryCardsAddUp | project-bolt-sb1-cttxblsk/project/src/components/AgentsList.tsx:258-282 | the three history cards are the totals over all the agent's records in range: grouping by date neither drops nor repeats a record |
| AgentsList.DaysAddUp | project-bolt-sb1-cttxblsk/project/src/components/AgentsList.tsx:67-80 | the grouped entries add up to the records grouped |
| AgentsList.ScaleMeans | project-bolt-sb1-cttxblsk/project/src/components/AgentsList.tsx:245-339 | each chart scale is at least 1 and at least every value, and is one of the values or 1, so every bar of a non-negative value is between 0 and 100 percent wide |
| HourlyBreakdown.PassesMeans | src/components/HourlyBreakdown.tsx:26-34 | with distinct agent and team ids, a record passes a campaign filter exactly when its date is in the range and its agent's campaign team belongs to that campaign |
| HourlyBreakdown.NoCampaignFiltersDatesOnly | src/components/HourlyBreakdown.tsx:27-29 | with no campaign chosen only the date range filters |
| HourlyBreakdown.Rows | src/components/HourlyBreakdown.tsx:37-53 | one row per hour 8..17, ascending |
| HourlyBreakdown.RowMeans | src/components/HourlyBreakdown.tsx:39-51 | a row sums the records of its hour, counts their distinct agents (never more than its records, at least one when it has any), and its average is guarded against zero calls |
| HourlyBreakdown.RowsAddUp | src/components/HourlyBreakdown.tsx:37-53 | the rows add up to the filtered records inside 8..17; the filtered total is the rows plus the records outside those hours, which no row shows |
| HourlyBreakdown.BarsMeans | src/components/HourlyBreakdown.tsx:55-188 | every bar of a non-negative value is 0..100 percent wide, the busiest hour's bar is full, and with no positive value every bar is empty |
| HourlyBreakdown.RowsNonNegative | src/components/HourlyBreakdown.tsx:39-42 | records without negative figures give rows without negative calls or sales |
| RotatingDashboard.TeamsWithAgents | src/components/RotatingDashboard.tsx:29-31 | the rotation never lists more teams than there are |
| RotatingDashboard.TeamsWithAgentsMeans | src/components/RotatingDashboard.tsx:29-31 | a team is in the rotation exactly when it is listed and some agent's campaign team is it |
| RotatingDashboard.NextIndex | src/components/RotatingDashboard.tsx:42-53 | the next index exists exactly when some team is staffed and is then in range; from an index in range it is the next one, wrapping from the last to the first |
| RotatingDashboard.RotationCycles | src/components/RotatingDashboard.tsx:42-53 | repeated advances stay in range, one full round returns to the starting team, and a round from the first team visits every team in order |
| RotatingDashboard.AdvanceWithin | src/components/RotatingDashboard.tsx:53 | short of the end, k advances move k places |
| RotatingDashboard.AdvanceSplit | src/components/RotatingDashboard.tsx:53 | advancing a+b times is advancing a times and then b times |
| RotatingDashboard.AdvanceInRange | src/components/RotatingDashboard.tsx:53 | advancing from an index in range stays in range |
| RotatingDashboard.CampaignName | src/components/RotatingDashboard.tsx:124-198 | the campaign name is shown exactly when the team has a campaign id that some campaign has, and it is that campaign's name |
| RotatingDashboard.View | src/components/RotatingDashboard.tsx:101-124 | the screen built for a team is about that team |
| RotatingDashboard.CardsRoster | src/components/RotatingDashboard.tsx:102-109 | there is one card per agent of the team, in roster order, and no card for anyone else |
| RotatingDashboard.CardsTotals | src/components/RotatingDashboard.tsx:103-121 | with distinct agent ids each card holds its agent's totals for the day |
| RotatingDashboard.HeaderAddsUp | src/components/RotatingDashboard.tsx:204-210 | with distinct agent ids the header's calls and sales are the team's totals for the day: each record of a team agent lands on exactly one card |
| RotatingDashboard.ScreenAsWrittenCrashes | src/components/RotatingDashboard.tsx:22-102 | with two staffed teams the rotation moves to the second; once that team's only agent leaves, the stored index points past the list and the screen as written throws |
| RotatingDashboard.BothStaffed | src/components/RotatingDashboard.tsx:29-31 | two teams that each have an agent are both in the rotation |
| RotatingDashboard.OneStaffed | src/components/RotatingDashboard.tsx:29-31 | a team that no agent belongs to drops out of the rotation |
| RotatingDashboard.Screen | src/components/RotatingDashboard.tsx:33-102 | the screen with the index wrapped into the current list never throws |
| RotatingDashboard.ScreenPlaceholderIff | src/components/RotatingDashboard.tsx:89-99 | the "No Teams Available" placeholder shows exactly when no listed team has an agent |
| RotatingDashboard.ScreenShowsStaffed | src/components/RotatingDashboard.tsx:33-102 | otherwise the screen shows a listed team that has an agent, and while the stored index is in range it is exactly the component's screen |
| Dashboard.TodayOverviewMeans | src/components/Dashboard.tsx:23-52 | the overview cards sum today's records; the active-agent count is the number of distinct agent ids among them, at most one per record and at least one when there is any; the call-time card is the minutes to the nearest hour, a half hour rounding up |
| Dashboard.OverviewChartKeepsToday | src/components/Dashboard.tsx:144 | the overview's hourly chart, handed today's records with its default range of today and no campaign, keeps every one of them, so its bars and the cards describe the same records |
| Dashboard.RangeOfOneDay | src/components/HourlyBreakdown.tsx:27 | a record passes the range from today to today exactly when it is dated today |
| Dashboard.Tabs | src/components/Dashboard.tsx:31-47 | the tab bar has six to ten tabs |
| Dashboard.Panel | src/components/Dashboard.tsx:124-158 | a panel, when one renders, is the active tab's |
| Dashboard.TabsMatchGuards | src/components/Dashboard.tsx:31-158 | the bar offers exactly the tabs whose panels the role guards let render, each once, six plus three for administrators plus one for super-administrators |
| Dashboard.PanelIff | src/components/Dashboard.tsx:102-158 | a panel renders exactly when data has loaded without error and its tab is on the bar |
| Dashboard.ActiveRoster | src/components/Dashboard.tsx:69 | the header's active count never exceeds the roster |
| Dashboard.ActiveRosterMeans | src/components/Dashboard.tsx:69 | the count is the whole roster exactly when every agent is active, and zero exactly when none is |
| Seqs.FindIndex | project-bolt-sb1-cttxblsk/project/src/components/AgentsList.tsx:68-70 | the position found is the first whose element passes, and there is none exactly when no element passes |
| Seqs.Map | project-bolt-sb1-cttxblsk/project/src/components/AgentsList.tsx:77-80 | `map` gives one value per element, in order, each the function of its element |
| Seqs.Find | project-bolt-sb1-cttxblsk/project/src/components/AgentsList.tsx:51 | the element found is the first that passes, and there is none exactly when no member passes |
| Seqs.FilterMembers | project-bolt-sb1-cttxblsk/project/src/components/AgentsList.tsx:44-49 | a filter keeps exactly the members that pass |
| Seqs.FilterAll | src/components/Dashboard.tsx:144 | a filter keeps the whole array exactly when every element passes |
| Seqs.FilterFilter | project-bolt-sb1-cttxblsk/src/components/TeamAgentView.tsx:26-33 | filtering twice is filtering once by both conditions |
| Seqs.Distinct | src/components/HourlyBreakdown.tsx:43 | the distinct elements are each element once, and no others |
| Text.Trim | src/utils/emailParser.ts:7-17 | trimming gives the stretch of the string left after removing white space from both ends, which has no white space at either end |
| Text.TrimIdempotent | src/utils/emailParser.ts:35 | trimming twice is trimming once |
| Text.TrimAll | project-bolt-sb1-cttxblsk/project/src/utils/csvUtils.ts:7-11 | trimming every piece keeps one piece per piece, each trimmed |
| Text.Lower | project-bolt-sb1-cttxblsk/project/src/components/ImportExport.tsx:20 | lower-casing keeps the length and folds each letter on its own |
| Text.Split | project-bolt-sb1-cttxblsk/project/src/utils/csvUtils.ts:4-11 | splitting on a character gives one more piece than it has separators, no piece holds the separator, and joining the pieces back gives the string |
| Text.SplitJoin | project-bolt-sb1-cttxblsk/project/src/utils/csvUtils.ts:7-31 | splitting what was joined from separator-free pieces gives the pieces back |
| Numbers.NatToString | project-bolt-sb1-cttxblsk/src/components/TeamAgentView.tsx:129 | the decimal writing of a number is digits with no leading zero |
| Numbers.ValueOfNatToString | project-bolt-sb1-cttxblsk/src/components/TeamAgentView.tsx:129 | the digits written read as the number |
| Numbers.ParseIntOfIntToString | project-bolt-sb1-cttxblsk/project/src/components/ImportExport.tsx:111 | `parseInt` reads back what `String(n)` writes, stopping at the first character that cannot continue the number |
| Numbers.ParseIntOfDigits | src/utils/emailParser.ts:105 | `parseInt` of a run of decimal digits is their value |
| Numbers.RoundDiv60 | src/utils/emailParser.ts:46 | seconds become the nearest whole number of minutes, a half rounding up |
| Numbers.PadTwo | project-bolt-sb1-cttxblsk/src/components/TeamAgentView.tsx:129 | padding to two characters adds only leading zeros and keeps the string at its end |
| Numbers.RoundedCents | project-bolt-sb1-cttxblsk/project/src/utils/csvUtils.ts:61 | the hundredths written are the quotient's hundredths to the nearest, a half rounding up |
| Numbers.FixedTwoReadsBack | project-bolt-sb1-cttxblsk/project/src/utils/csvUtils.ts:61 | what `toFixed(2)` writes is a sign for negative quotients, then whole digits, a point and two digits reading as the rounded hundredths |
| Objects.Keys | project-bolt-sb1-cttxblsk/project/src/utils/csvUtils.ts:27 | the keys of an object are its entries' keys in insertion order |
| Objects.GetAt | project-bolt-sb1-cttxblsk/project/src/utils/csvUtils.ts:15-30 | with distinct keys each entry is what its key reads |
| Objects.PutKeys | project-bolt-sb1-cttxblsk/project/src/utils/csvUtils.ts:14-15 | storing under a present key keeps the key order; a new key goes at the end |
| Objects.PutGet | project-bolt-sb1-cttxblsk/project/src/utils/csvUtils.ts:15 | after a store the key reads the new value and every other key reads as before |
| Objects.PutUnique | project-bolt-sb1-cttxblsk/project/src/utils/csvUtils.ts:14-15 | storing keeps keys distinct |
| Sorting.StrLeTotal | project-bolt-sb1-cttxblsk/project/src/components/AgentsList.tsx:62-80 | string order compares any two strings |
| Sorting.StrLeTransitive | project-bolt-sb1-cttxblsk/project/src/components/AgentsList.tsx:62-80 | string order is transitive |
| Sorting.SortBy | project-bolt-sb1-cttxblsk/src/components/TeamAgentView.tsx:67 | sorting rearranges the array: same elements, same count |
| Sorting.SortBySorted | project-bolt-sb1-cttxblsk/src/components/TeamAgentView.tsx:67-78 | under a total preorder the sorted array is in order |
| Sorting.SortByStable | project-bolt-sb1-cttxblsk/src/components/TeamAgentView.tsx:67-78 | sorting keeps elements that compare equal in their original order |
| Totals.SumAppend | project-bolt-sb1-cttxblsk/project/src/components/AgentsList.tsx:30-32 | the three sums over two runs of records add up |
| Totals.Average | project-bolt-sb1-cttxblsk/project/src/components/AgentsList.tsx:40 | the average is the exact quotient when there are calls, and zero otherwise |
| Totals.ConversionRate | project-bolt-sb1-cttxblsk/src/components/TeamDashboard.tsx:77 | the conversion rate times the calls is a hundred times the sales, and zero without calls |
| Totals.ConversionRateBounded | project-bolt-sb1-cttxblsk/src/components/TeamDashboard.tsx:77 | with sales never above calls the rate lies between 0 and 100 |
| Totals.HourlyBuckets | project-bolt-sb1-cttxblsk/src/components/TeamAgentView.tsx:35-47 | ten buckets, hours 8 to 17 in order |
| Totals.Buckets | project-bolt-sb1-cttxblsk/src/components/TeamAgentView.tsx:37-41 | each bucket sums exactly the records at its hour |
| Totals.BucketsTotal | project-bolt-sb1-cttxblsk/src/components/TeamAgentView.tsx:35-47 | the buckets together hold exactly the records in their hour range |
| Totals.DayTotalSplit | project-bolt-sb1-cttxblsk/src/components/TeamAgentView.tsx:35-47 | a day's total is its ten buckets plus the records outside 8..17 |
| Totals.DayTotalIsBucketSum | project-bolt-sb1-cttxblsk/src/components/TeamAgentView.tsx:35-47 | when every record lies within 8..17 the ten buckets add up to the day's total |
| Totals.ActiveAgents | src/components/HourlyBreakdown.tsx:43 | the active count never exceeds the records |
| Totals.ActiveAgentsCount | src/components/HourlyBreakdown.tsx:43 | the active count is the number of distinct agent ids, and at least one when there is a record |
| Groups.Totalled | project-bolt-sb1-cttxblsk/project/src/utils/dataUtils.ts:21-43 | one total per group, in group order, each the sum of that group's records |
| Groups.GroupsAddUp | project-bolt-sb1-cttxblsk/project/src/utils/dataUtils.ts:21-43 | groups that share no record add up to the records some group admits |
| Groups.GroupsWithin | project-bolt-sb1-cttxblsk/project/src/utils/dataUtils.ts:21-43 | with non-negative figures, groups inside a wider filter never total more than it |
| Groups.GroupsCover | project-bolt-sb1-cttxblsk/project/src/utils/dataUtils.ts:21-43 | and exactly as much when every record of the wider filter is in some group |
| Groups.AgentGroupsExclusive | project-bolt-sb1-cttxblsk/project/src/utils/dataUtils.ts:3-19 | distinct agent ids give per-agent groups that share no record |
| Groups.RosterTotals | src/components/RotatingDashboard.tsx:204-210 | the per-agent day totals of a roster with distinct ids add up to the day's records of that roster |
| Domain.AgentById | src/components/RotatingDashboard.tsx:104 | the agent found by id is on the roster with that id, and none is found exactly when no roster agent has it |
| Domain.TeamById | project-bolt-sb1-cttxblsk/project/src/components/AgentsList.tsx:51 | the team found by id is listed with that id, and none is found exactly when no listed team has it |
| Domain.AgentByName | src/utils/emailParser.ts:34-36 | the agent found is the first whose name matches lower-cased and trimmed, and none is found exactly when no roster name matches |
| Domain.AgentInTeamIff | project-bolt-sb1-cttxblsk/src/components/TeamAgentView.tsx:26-29 | with distinct agent ids a record's agent is in a team exactly when the roster agent with that id is |
| Domain.AgentByIdUnique | src/components/RotatingDashboard.tsx:104 | with distinct ids finding a roster agent's id finds that agent |
| Domain.TeamByIdUnique | project-bolt-sb1-cttxblsk/project/src/components/AgentsList.tsx:51 | with distinct ids finding a listed team's id finds that team |

## Left out

- Network, database and mail I/O: the Supabase client, the Outlook mail client (`outlookUtils`) and authentication are not part of this model. The database appears as a parameter (the roster, teams and records), and the mailbox as the list of messages and attachments a poll returns.
- Timers and polling: the auto-check interval, the rotation timer and its countdown are left out. The countdown shadows `setInterval` and clears an undefined id, so it cannot be modelled as written. Only the index step the timer triggers is modelled (`RotatingDashboard.NextIndex`).
- The wall clock: today's date, the current hour and the time of a poll are parameters.
- React rendering and styling, CRUD forms, the admin panel and the cookie utilities. The one exception is the auto-check flag, which is modelled as a boolean.
- Colour strings other than the tier a figure gets, and the team colour fallback `#6b7280`.
- Number formatting through `toLocaleString`, `toFixed(1)` and `toLocaleDateString`: these depend on the locale.
- Numbers.FixedTwoReadsBack: `toFixed(2)` is modelled as exact rounding half up of the true quotient; a double can round differently at some ties.
- Numbers.ParseIntOfIntToString: `parseInt` is modelled on unbounded integers, so the loss of precision beyond 2^53 is not modelled.
- Text.Lower: only ASCII letters are folded. The full Unicode case mapping of `toLowerCase` is not modelled, and neither is Unicode normalisation.
- Sorting.StrLe: `localeCompare` is replaced by code-unit order, which is what `<=` on strings gives. Date comparisons on `YYYY-MM-DD` strings use the same order.
- Objects.Keys: keys are kept in insertion order. JavaScript lists integer-like keys first, and that ordering is not modelled.
- Regular expressions: the subject-line patterns are recognised by hand-written matchers for exactly those patterns, not by a general regex engine.
- Store.Upsert: a batch that repeats a key is refused, as PostgreSQL's `ON CONFLICT` refuses it. Database errors and row-level security are not modelled.
- Classifier.SalesMatchesCalls: proved only for a value that is not negative. For a negative value with no positive peer the two gradings differ; `Classifier.SalesDiffersIff` states exactly when.
- HourlyBreakdown.PassesMeans: a record whose agent has no campaign team never passes a campaign filter. CampaignOverview's `|| ''` fallback does not apply on this screen.
- AgentImport.Import: `createTeam` is assumed to return the created team. Its falsy-return and throwing paths are not modelled.
- ImportExport.HandleUpload: the `FileReader` and the early return when no file is chosen are left out. The upload starts from the file's text. The store's answer is a parameter: any failure of `upsertCallData`, including the network, makes the file read as unreadable. ImportExport.UploadRepeatedKey ties that answer to Store.Upsert for batches whose hours are all numbers.
- ImportExport.UploadRepeatedKey: a batch holding a NaN hour reaches the database as `null`. Whether the table accepts it depends on its schema, which is not part of this model, so for such a batch the store's answer stays free.
- EmailParser.ParseEmailCsv: the list of "Agent not found" and per-line parse messages, which the source only writes to the console with `console.warn` (src/utils/emailParser.ts:58-64), is not modelled; an unknown name simply gives no record.
- Floating-point division: averages and rates are exact rationals (`real`), and the tier thresholds are decided by integer cross-multiplication.

## Findings

| source | as written | input that shows it | evidently intended | confidence | as-written member | corrected member |
|---|---|---|---|---|---|---|
| project-bolt-sb1-cttxblsk/project/src/components/AgentImporter.tsx:12, project-bolt-sb1-cttxblsk/project/src/components/AgentImporter.tsx:83 | the importer destructures `teams` and `createTeam` from `useDatabase`, which returns neither (project-bolt-sb1-cttxblsk/project/src/hooks/useDatabase.ts:247-267), so `teams.map` throws and every import with a non-empty preview fails | a preview with one row "John Smith, john.smith@company.com, Alpha Team" | read `campaignTeams` and create teams with `createCampaignTeam`, so the agents are imported and linked to their teams | not executed | AgentImport.ImportAsWrittenFails | AgentImport.ImportLinksEveryAgent |
| src/components/RotatingDashboard.tsx:33, src/components/RotatingDashboard.tsx:102 | the stored index is reduced modulo the number of staffed teams only when it advances, so after the list shrinks `teamsWithAgents[currentTeamIndex]` is undefined and reading its `id` throws | teams t1 and t2 with agents a1 in t1 and a2 in t2; the rotation moves to index 1; then a2 is removed, leaving only t1 in the list | show a staffed team whatever the stored index, by wrapping it into the current list | not executed | RotatingDashboard.ScreenAsWrittenCrashes | RotatingDashboard.ScreenShowsStaffed |

=== FILE: agent_import.dfy ===
/** The roster importer: a CSV of agents with their team names is read into
    a preview, the teams the roster names but the store lacks are created
    with colours from a fixed palette, and every agent is inserted linked
    to the team of its name. The component as written reads its team list
    and team constructor from fields the database hook does not return, so
    every import fails; `ImportAsWritten` models that, and `Import` the
    importer wired to the campaign teams the hook does return. */
module AgentImport {
  import opened Wrappers
  import opened Text
  import Seqs
  import Numbers
  import opened Domain
  import CsvUtils
  import ImportExport

  /** One previewed row: the trimmed name, e-mail and team name. */
  datatype RosterEntry = RosterEntry(name: string, email: string, teamName: string)

  const MissingColumns := "CSV must contain columns for name, email, and team"
  const NoValidData := "No valid data found in CSV file"

  // Headers.

  /** Some header holds `word`. */
  predicate HasColumn(headers: seq<string>, word: string) {
    exists i :: 0 <= i < |headers| && Contains(headers[i], word)
  }

  /** `i` is the first header holding `word`. */
  predicate FirstWith(headers: seq<string>, word: string, i: nat) {
    i < |headers| && Contains(headers[i], word)
    && forall j :: 0 <= j < i ==> !Contains(headers[j], word)
  }

  /** Where each of the three columns sits. */
  datatype Indices = Indices(name: nat, email: nat, team: nat)

  /** `headers.findIndex(h => h.includes(word))`. */
  function HeaderIndex(headers: seq<string>, word: string): (r: Option<nat>)
    ensures r.Some? ==> FirstWith(headers, word, r.value)
    ensures r.None? <==> !HasColumn(headers, word)
  {
    Seqs.FindIndex(headers, (h: string) => Contains(h, word))
  }

  /** The three column positions, or nothing when a column is missing. */
  function Locate(headers: seq<string>): (r: Option<Indices>)
    ensures r.None? <==> !(HasColumn(headers, "name") && HasColumn(headers, "email") && HasColumn(headers, "team"))
    ensures r.Some? ==> FirstWith(headers, "name", r.value.name) && FirstWith(headers, "email", r.value.email)
    ensures r.Some? ==> FirstWith(headers, "team", r.value.team)
  {
    match (HeaderIndex(headers, "name"), HeaderIndex(headers, "email"), HeaderIndex(headers, "team"))
    case (Some(n), Some(e), Some(t)) => Some(Indices(n, e, t))
    case _ => None
  }

  // Rows.

  /** A row is kept when it has at least three cells and the three columns
      are all filled; the entry takes their trimmed text. */
  function EntryOf(values: seq<string>, ix: Indices): (r: Option<RosterEntry>)
    ensures r.Some? <==> |values| >= 3 && ImportExport.Kept(values, ix.name)
                         && ImportExport.Kept(values, ix.email) && ImportExport.Kept(values, ix.team)
    ensures r.Some? ==> r.value.name in values && r.value.email in values && r.value.teamName in values
    ensures r.Some? ==> ix.name < |values| && ix.email < |values| && ix.team < |values|
                        && r.value.name == values[ix.name] && r.value.email == values[ix.email]
                        && r.value.teamName == values[ix.team]
  {
    if |values| >= 3 && ImportExport.Kept(values, ix.name) && ImportExport.Kept(values, ix.email)
       && ImportExport.Kept(values, ix.team)
    then Some(RosterEntry(values[ix.name], values[ix.email], values[ix.team]))
    else None
  }

  /** The cells of each line. */
  function CellsOf(lines: seq<string>): (rows: seq<seq<string>>)
    ensures |rows| == |lines|
    ensures forall i :: 0 <= i < |lines| ==> rows[i] == CsvUtils.Fields(lines[i])
  {
    seq(|lines|, i requires 0 <= i < |lines| => CsvUtils.Fields(lines[i]))
  }

  /** The entries of the data rows, in row order. */
  function Entries(rows: seq<seq<string>>, ix: Indices): (es: seq<RosterEntry>)
    ensures |es| <= |rows|
    decreases |rows|
  {
    if |rows| == 0 then [] else EntryList(rows[0], ix) + Entries(rows[1..], ix)
  }

  /** What one more row contributes: its entry, when it has one. */
  function EntryList(values: seq<string>, ix: Indices): seq<RosterEntry> {
    if EntryOf(values, ix).Some? then [EntryOf(values, ix).value] else []
  }

  /** One more row adds its entry at the end: the preview keeps row order. */
  lemma {:induction false} EntriesAppend(rows: seq<seq<string>>, row: seq<string>, ix: Indices)
    ensures Entries(rows + [row], ix) == Entries(rows, ix) + EntryList(row, ix)
    decreases |rows|
  {
    var all := rows + [row];
    if |rows| == 0 {
      assert all == [row];
      assert Entries(all, ix) == EntryList(row, ix) + Entries(all[1..], ix);
    } else {
      assert all[0] == rows[0];
      assert all[1..] == rows[1..] + [row];
      EntriesAppend(rows[1..], row, ix);
      var head := EntryList(rows[0], ix);
      assert Entries(all, ix) == head + Entries(all[1..], ix);
      assert Entries(rows, ix) == head + Entries(rows[1..], ix);
      assert head + (Entries(rows[1..], ix) + EntryList(row, ix)) == (head + Entries(rows[1..], ix)) + EntryList(row, ix);
    }
  }

  /** Some row from `lo` on yields the entry. */
  predicate YieldedBy(rows: seq<seq<string>>, ix: Indices, e: RosterEntry, lo: nat) {
    exists i :: lo <= i < |rows| && EntryOf(rows[i], ix) == Some(e)
  }

  /** An entry is in the preview exactly when some data row yields it. */
  lemma {:induction false} EntriesFrom(rows: seq<seq<string>>, ix: Indices, e: RosterEntry)
    ensures e in Entries(rows, ix) <==> YieldedBy(rows, ix, e, 0)
    decreases |rows|
  {
    if |rows| > 0 {
      EntriesFrom(rows[1..], ix, e);
      YieldedShift(rows, ix, e);
    }
  }

  /** Dropping the first row shifts the positions down by one. */
  lemma YieldedShift(rows: seq<seq<string>>, ix: Indices, e: RosterEntry)
    requires |rows| > 0
    ensures YieldedBy(rows[1..], ix, e, 0) <==> YieldedBy(rows, ix, e, 1)
    ensures YieldedBy(rows, ix, e, 0) <==> EntryOf(rows[0], ix) == Some(e) || YieldedBy(rows, ix, e, 1)
  {
    var t := rows[1..];
    if YieldedBy(t, ix, e, 0) {
      var i :| 0 <= i < |t| && EntryOf(t[i], ix) == Some(e);
      assert t[i] == rows[i + 1];
    }
    if YieldedBy(rows, ix, e, 1) {
      var i :| 1 <= i < |rows| && EntryOf(rows[i], ix) == Some(e);
      assert t[i - 1] == rows[i];
    }
    if YieldedBy(rows, ix, e, 0) {
      var i :| 0 <= i < |rows| && EntryOf(rows[i], ix) == Some(e);
      if i > 0 {
        assert YieldedBy(rows, ix, e, 1);
      }
    }
  }

  /** The lines of the trimmed file. */
  function LinesOf(content: string): (lines: seq<string>)
    ensures |lines| == 1 + Count(Trim(content), '\n')
    ensures forall i :: 0 <= i < |lines| ==> '\n' !in lines[i]
  {
    Split(Trim(content), '\n')
  }

  /** `parseCSV` on the lines of the file: nothing without a data line, an
      error when a column is missing, and otherwise one entry per complete
      data line. */
  function ParseLines(lines: seq<string>): (r: Result<seq<RosterEntry>, string>)
    ensures |lines| < 2 ==> r == Success([])
    ensures r.Failure? <==> |lines| >= 2 && Locate(ImportExport.HeaderKeys(lines[0])).None?
    ensures r.Failure? ==> r.error == MissingColumns
    ensures r.Success? ==> |r.value| < |lines| || |lines| == 0
  {
    if |lines| < 2 then Success([])
    else match Locate(ImportExport.HeaderKeys(lines[0]))
      case None => Failure(MissingColumns)
      case Some(ix) => Success(Entries(CellsOf(lines[1..]), ix))
  }

  /** `parseCSV`. */
  function ParseRoster(content: string): (r: Result<seq<RosterEntry>, string>)
    ensures r.Success? ==> |r.value| <= Count(Trim(content), '\n')
  {
    ParseLines(LinesOf(content))
  }

  /** A cell of a line: trimmed, and free of separators. */
  predicate CleanCell(s: string) {
    |s| > 0 && NoEdgeSpace(s) && ',' !in s && '\n' !in s
  }

  predicate CleanEntry(e: RosterEntry) {
    CleanCell(e.name) && CleanCell(e.email) && CleanCell(e.teamName)
  }

  /** The cells of a line without line breaks are trimmed and hold neither
      separator. */
  lemma FieldsClean(line: string, k: nat)
    requires '\n' !in line && k < |CsvUtils.Fields(line)|
    ensures NoEdgeSpace(CsvUtils.Fields(line)[k])
    ensures ',' !in CsvUtils.Fields(line)[k] && '\n' !in CsvUtils.Fields(line)[k]
  {
    var parts := Split(line, ',');
    SplitWithout(line, ',', '\n');
    TrimWithout(parts[k], ',');
    TrimWithout(parts[k], '\n');
  }

  /** Every entry of lines without line breaks is made of clean cells. */
  lemma EntriesClean(lines: seq<string>, ix: Indices)
    requires forall i :: 0 <= i < |lines| ==> '\n' !in lines[i]
    ensures forall e :: e in Entries(CellsOf(lines), ix) ==> CleanEntry(e)
  {
    var rows := CellsOf(lines);
    forall e | e in Entries(rows, ix) ensures CleanEntry(e) {
      EntriesFrom(rows, ix, e);
      var i :| 0 <= i < |rows| && EntryOf(rows[i], ix) == Some(e);
      FieldsClean(lines[i], ix.name);
      FieldsClean(lines[i], ix.email);
      FieldsClean(lines[i], ix.team);
    }
  }

  lemma ParsedEntries(lines: seq<string>, ix: Indices)
    requires |lines| >= 2 && Locate(ImportExport.HeaderKeys(lines[0])) == Some(ix)
    ensures ParseLines(lines) == Success(Entries(CellsOf(lines[1..]), ix))
  {
  }

  lemma CellsOfAppend(lines: seq<string>, line: string)
    ensures CellsOf(lines + [line]) == CellsOf(lines) + [CsvUtils.Fields(line)]
  {
    var a := CellsOf(lines + [line]);
    var b := CellsOf(lines) + [CsvUtils.Fields(line)];
    forall i | 0 <= i < |a| ensures a[i] == b[i] {
      if i < |lines| {
        assert (lines + [line])[i] == lines[i];
      } else {
        assert (lines + [line])[i] == line;
      }
    }
  }

  /** With the columns found, one more line adds its entry, if any, at the
      end of the preview. */
  lemma ParseLinesAppend(lines: seq<string>, line: string)
    requires |lines| >= 2 && ParseLines(lines).Success?
    ensures var ix := Locate(ImportExport.HeaderKeys(lines[0])).value;
      ParseLines(lines + [line]) == Success(ParseLines(lines).value + EntryList(CsvUtils.Fields(line), ix))
  {
    var ix := Locate(ImportExport.HeaderKeys(lines[0])).value;
    var all := lines + [line];
    Seqs.SnocTail(lines, line);
    CellsOfAppend(lines[1..], line);
    EntriesAppend(CellsOf(lines[1..]), CsvUtils.Fields(line), ix);
    ParsedEntries(lines, ix);
    ParsedEntries(all, ix);
  }

  /** Lines without line breaks parse into entries of clean cells. */
  lemma ParseLinesClean(lines: seq<string>)
    requires forall i :: 0 <= i < |lines| ==> '\n' !in lines[i]
    requires ParseLines(lines).Success?
    ensures forall e :: e in ParseLines(lines).value ==> CleanEntry(e)
  {
    if |lines| >= 2 {
      var ix := Locate(ImportExport.HeaderKeys(lines[0])).value;
      NoBreakTail(lines);
      EntriesClean(lines[1..], ix);
    }
  }

  /** The lines after the first keep the first's freedom from breaks. */
  lemma NoBreakTail(lines: seq<string>)
    requires |lines| > 0 && forall i :: 0 <= i < |lines| ==> '\n' !in lines[i]
    ensures forall i :: 0 <= i < |lines[1..]| ==> '\n' !in lines[1..][i]
  {
  }

  /** Some data line, after the header, yields the entry. */
  predicate LineYields(lines: seq<string>, ix: Indices, e: RosterEntry) {
    exists i :: 1 <= i < |lines| && EntryOf(CsvUtils.Fields(lines[i]), ix) == Some(e)
  }

  /** The entries of the data lines are those some data line yields. */
  lemma DataLinesYield(lines: seq<string>, ix: Indices, e: RosterEntry)
    requires |lines| >= 1
    ensures e in Entries(CellsOf(lines[1..]), ix) <==> LineYields(lines, ix, e)
  {
    var rows := CellsOf(lines[1..]);
    EntriesFrom(rows, ix, e);
    if YieldedBy(rows, ix, e, 0) {
      var i :| 0 <= i < |rows| && EntryOf(rows[i], ix) == Some(e);
      Seqs.TailAt(lines, i + 1);
    }
    if LineYields(lines, ix, e) {
      var i :| 1 <= i < |lines| && EntryOf(CsvUtils.Fields(lines[i]), ix) == Some(e);
      Seqs.TailAt(lines, i);
      assert rows[i - 1] == CsvUtils.Fields(lines[i]);
    }
  }

  /** A file with a header and data lines previews exactly the entries its
      data lines yield from the columns the header names; a file without
      data lines previews nothing. */
  lemma ParseRosterEntries(content: string)
    requires ParseRoster(content).Success?
    ensures |LinesOf(content)| < 2 ==> ParseRoster(content).value == []
    ensures var lines := LinesOf(content);
      |lines| >= 2 ==>
        var ix := Locate(ImportExport.HeaderKeys(lines[0])).value;
        forall e :: e in ParseRoster(content).value <==> LineYields(lines, ix, e)
  {
    var lines := LinesOf(content);
    if |lines| >= 2 {
      var ix := Locate(ImportExport.HeaderKeys(lines[0])).value;
      ParsedEntries(lines, ix);
      forall e ensures e in ParseRoster(content).value <==> LineYields(lines, ix, e) {
        DataLinesYield(lines, ix, e);
      }
    }
  }

  /** Every previewed value is a non-empty trimmed cell. */
  lemma ParseRosterClean(content: string)
    requires ParseRoster(content).Success?
    ensures forall e :: e in ParseRoster(content).value ==> CleanEntry(e)
  {
    ParseLinesClean(LinesOf(content));
  }

  // The screen.

  /** What the importer shows: the last status, the preview and whether the
      preview is open. */
  datatype Screen = Screen(status: Option<ImportExport.Status>, preview: seq<RosterEntry>, showPreview: bool)

  function FoundMessage(n: nat): string {
    "Found " + Numbers.NatToString(n) + " agents to import"
  }

  /** `handleFileUpload`: a parsed, non-empty roster replaces the preview and
      opens it; any other outcome only sets an error status. */
  function RosterUpload(content: string, s: Screen): (r: Screen)
    ensures r.status.Some?
    ensures r.status.value.success <==> ParseRoster(content).Success? && |ParseRoster(content).value| > 0
    ensures r.status.value.success ==> r.preview == ParseRoster(content).value && r.showPreview
    ensures r.status.value.success ==> r.status.value.message == FoundMessage(|r.preview|)
    ensures !r.status.value.success ==> r.preview == s.preview && r.showPreview == s.showPreview
    ensures ParseRoster(content).Failure? ==> r.status.value.message == MissingColumns
    ensures ParseRoster(content) == Success([]) ==> r.status.value.message == NoValidData
  {
    match ParseRoster(content)
    case Failure(m) => s.(status := Some(ImportExport.Status(false, m)))
    case Success(es) =>
      if |es| == 0 then s.(status := Some(ImportExport.Status(false, NoValidData)))
      else Screen(Some(ImportExport.Status(true, FoundMessage(|es|))), es, true)
  }

  // Planning the teams.

  function TeamNames(es: seq<RosterEntry>): (names: seq<string>)
    ensures |names| == |es|
    ensures forall i :: 0 <= i < |es| ==> names[i] == es[i].teamName
  {
    seq(|es|, i requires 0 <= i < |es| => es[i].teamName)
  }

  function NamesOf(teams: seq<Team>): (names: seq<string>)
    ensures |names| == |teams|
    ensures forall i :: 0 <= i < |teams| ==> names[i] == teams[i].name
  {
    seq(|teams|, i requires 0 <= i < |teams| => teams[i].name)
  }

  /** The roster's team names the store lacks, once each, in order of first
      mention. */
  function NewTeamNames(es: seq<RosterEntry>, teams: seq<Team>): (names: seq<string>)
    ensures Seqs.NoDuplicates(names)
    ensures forall n :: n in names <==> n in TeamNames(es) && n !in NamesOf(teams)
  {
    var unique := Seqs.Distinct(TeamNames(es));
    var existing := NamesOf(teams);
    Seqs.FilterNoDuplicates(unique, (n: string) => n !in existing);
    Seqs.FilterMembers(unique, (n: string) => n !in existing);
    Seqs.Filter(unique, (n: string) => n !in existing)
  }

  /** The palette new teams take their colours from, in turn. */
  const TeamColors := ["#3b82f6", "#10b981", "#f59e0b", "#ef4444", "#8b5cf6", "#06b6d4", "#84cc16", "#f97316"]

  function ColorFor(i: nat): (c: string)
    ensures c in TeamColors
  {
    TeamColors[i % |TeamColors|]
  }

  /** The palette repeats every eight teams, and any eight teams created in
      a row all differ in colour. */
  lemma ColorsCycle(i: nat, j: nat)
    ensures ColorFor(i + |TeamColors|) == ColorFor(i)
    ensures i < j < i + |TeamColors| ==> ColorFor(i) != ColorFor(j)
  {
    assert (i + 8) % 8 == i % 8;
    if i < j < i + 8 {
      assert i % 8 != j % 8;
      assert forall a, b :: 0 <= a < b < 8 ==> TeamColors[a] != TeamColors[b];
    }
  }

  /** The teams the store creates, one per new name, with the ids it hands
      out; the campaign is left unset. */
  function CreatedTeams(names: seq<string>, newId: nat -> string): (ts: seq<Team>)
    ensures |ts| == |names|
    ensures NamesOf(ts) == names
    ensures forall i :: 0 <= i < |ts| ==> ts[i].id == newId(i) && ts[i].color == ColorFor(i)
  {
    seq(|names|, i requires 0 <= i < |names| => Team(newId(i), names[i], ColorFor(i), None))
  }

  // Linking agents.

  /** An agent as handed to the store. */
  datatype NewAgent = NewAgent(name: string, email: string, teamId: string, isActive: bool)

  predicate HasTeamNamed(teams: seq<Team>, name: string) {
    exists t :: t in teams && t.name == name
  }

  function TeamNamed(teams: seq<Team>, name: string): Option<Team> {
    Seqs.Find(teams, (t: Team) => t.name == name)
  }

  function NotFound(name: string): string {
    "Team \"" + name + "\" not found"
  }

  /** `previewData.map(...)`: each agent takes the id of the first team of
      its team name; the first name without a team throws. */
  function Link(es: seq<RosterEntry>, teams: seq<Team>): Result<seq<NewAgent>, string>
    decreases |es|
  {
    if |es| == 0 then Success([])
    else match TeamNamed(teams, es[0].teamName)
      case None => Failure(NotFound(es[0].teamName))
      case Some(t) =>
        match Link(es[1..], teams)
        case Failure(m) => Failure(m)
        case Success(rest) => Success([NewAgent(es[0].name, es[0].email, t.id, true)] + rest)
  }

  /** The agent carries the entry's name and e-mail, is active, and points
      at a team bearing the entry's team name. */
  predicate Linked(a: NewAgent, e: RosterEntry, teams: seq<Team>) {
    a.name == e.name && a.email == e.email && a.isActive
    && exists t :: t in teams && t.id == a.teamId && t.name == e.teamName
  }

  /** The first entry whose team name no team bears. */
  predicate FirstUnmatched(es: seq<RosterEntry>, teams: seq<Team>, i: int) {
    0 <= i < |es| && !HasTeamNamed(teams, es[i].teamName)
    && forall j :: 0 <= j < i ==> HasTeamNamed(teams, es[j].teamName)
  }

  predicate AllMatched(es: seq<RosterEntry>, teams: seq<Team>) {
    forall i :: 0 <= i < |es| ==> HasTeamNamed(teams, es[i].teamName)
  }

  /** Every agent is linked to its entry. */
  predicate LinkedAll(agents: seq<NewAgent>, es: seq<RosterEntry>, teams: seq<Team>) {
    |agents| == |es| && forall i :: 0 <= i < |es| ==> Linked(agents[i], es[i], teams)
  }

  /** Linking succeeds exactly when every team name has a team, and then
      links every entry in order. */
  lemma {:induction false} LinkSucceeds(es: seq<RosterEntry>, teams: seq<Team>)
    ensures Link(es, teams).Success? <==> AllMatched(es, teams)
    ensures Link(es, teams).Success? ==> LinkedAll(Link(es, teams).value, es, teams)
    decreases |es|
  {
    if |es| > 0 {
      var t := es[1..];
      LinkSucceeds(t, teams);
      var found := TeamNamed(teams, es[0].teamName);
      if found.Some? {
        assert found.value in teams && found.value.name == es[0].teamName;
        if Link(t, teams).Success? {
          var rest := Link(t, teams).value;
          var all := Link(es, teams).value;
          assert all == [NewAgent(es[0].name, es[0].email, found.value.id, true)] + rest;
          forall i | 0 <= i < |es| ensures Linked(all[i], es[i], teams) {
            if i > 0 {
              assert all[i] == rest[i - 1] && es[i] == t[i - 1];
            }
          }
          forall i | 0 <= i < |es| ensures HasTeamNamed(teams, es[i].teamName) {
            if i > 0 {
              assert es[i] == t[i - 1];
            }
          }
        } else {
          var i :| 0 <= i < |t| && !HasTeamNamed(teams, t[i].teamName);
          assert es[i + 1] == t[i];
        }
      }
    }
  }

  /** A failed link names the first team name without a team. */
  lemma {:induction false} LinkFails(es: seq<RosterEntry>, teams: seq<Team>)
    requires Link(es, teams).Failure?
    ensures exists i :: FirstUnmatched(es, teams, i) && Link(es, teams).error == NotFound(es[i].teamName)
    decreases |es|
  {
    var t := es[1..];
    var found := TeamNamed(teams, es[0].teamName);
    if found.None? {
      assert FirstUnmatched(es, teams, 0);
    } else {
      assert HasTeamNamed(teams, es[0].teamName) by {
        assert found.value in teams;
      }
      LinkFails(t, teams);
      var i :| FirstUnmatched(t, teams, i) && Link(t, teams).error == NotFound(t[i].teamName);
      assert es[i + 1] == t[i];
      assert FirstUnmatched(es, teams, i + 1) by {
        forall j | 0 <= j < i + 1 ensures HasTeamNamed(teams, es[j].teamName) {
          if j > 0 {
            assert es[j] == t[j - 1];
          }
        }
      }
    }
  }

  // Importing.

  function ImportedMessage(agents: nat, teams: nat): string {
    "Successfully imported " + Numbers.NatToString(agents) + " agents and "
    + Numbers.NatToString(teams) + " new teams"
  }

  /** What one import leaves behind: the teams and agents written to the
      store and the screen afterwards. */
  datatype Run = Run(createdTeams: seq<Team>, createdAgents: seq<NewAgent>, screen: Screen)

  /** The message a browser gives when `map` is called on `undefined`. */
  const TeamsUndefined := "Cannot read properties of undefined (reading 'map')"

  /** `handleImport` given the team list it reads (`None` when that is
      `undefined`), the ids the store hands new teams, and the message of a
      failed agent insert. An empty preview does nothing. */
  function ImportWith(s: Screen, teams: Option<seq<Team>>, newId: nat -> string, agentsError: Option<string>): Option<Run> {
    if |s.preview| == 0 then None
    else match teams
      case None => Some(Run([], [], s.(status := Some(ImportExport.Status(false, TeamsUndefined)))))
      case Some(existing) =>
        var names := NewTeamNames(s.preview, existing);
        var created := CreatedTeams(names, newId);
        match Link(s.preview, existing + created)
        case Failure(m) => Some(Run(created, [], s.(status := Some(ImportExport.Status(false, m)))))
        case Success(agents) =>
          match agentsError
          case Some(m) => Some(Run(created, [], s.(status := Some(ImportExport.Status(false, m)))))
          case None =>
            Some(Run(created, agents, Screen(Some(ImportExport.Status(true, ImportedMessage(|s.preview|, |names|))), [], false)))
  }

  /** The team list the component reads from the database hook: the hook
      returns `campaignTeams` and no `teams`, so it is `undefined`. */
  const HookTeams: Option<seq<Team>> := None

  /** The importer as written: every non-empty preview fails before anything
      is written, and the preview stays on screen. */
  function ImportAsWritten(s: Screen, newId: nat -> string, agentsError: Option<string>): (r: Option<Run>)
    ensures r.None? <==> |s.preview| == 0
    ensures r.Some? ==> r.value.screen.status == Some(ImportExport.Status(false, TeamsUndefined))
    ensures r.Some? ==> r.value.createdTeams == [] && r.value.createdAgents == []
    ensures r.Some? ==> r.value.screen.preview == s.preview
  {
    ImportWith(s, HookTeams, newId, agentsError)
  }

  /** The importer reading the campaign teams the hook returns. */
  function Import(s: Screen, campaignTeams: seq<Team>, newId: nat -> string, agentsError: Option<string>): (r: Option<Run>)
    ensures r.None? <==> |s.preview| == 0
  {
    ImportWith(s, Some(campaignTeams), newId, agentsError)
  }

  /** Every team name of the preview has a team once the new ones exist. */
  lemma EveryNameHasTeam(es: seq<RosterEntry>, existing: seq<Team>, newId: nat -> string)
    ensures forall i :: 0 <= i < |es| ==> HasTeamNamed(existing + CreatedTeams(NewTeamNames(es, existing), newId), es[i].teamName)
  {
    var names := NewTeamNames(es, existing);
    var created := CreatedTeams(names, newId);
    var all := existing + created;
    forall i | 0 <= i < |es| ensures HasTeamNamed(all, es[i].teamName) {
      var n := es[i].teamName;
      assert n == TeamNames(es)[i];
      if n in NamesOf(existing) {
        var k :| 0 <= k < |existing| && NamesOf(existing)[k] == n;
        assert all[k] == existing[k];
      } else {
        assert n in names;
        var k :| 0 <= k < |names| && names[k] == n;
        assert NamesOf(created)[k] == n;
        assert all[|existing| + k] == created[k];
      }
    }
  }

  /** The corrected importer creates exactly the missing teams, each once,
      coloured from the palette in turn. */
  lemma ImportCreatesMissingTeams(s: Screen, campaignTeams: seq<Team>, newId: nat -> string, agentsError: Option<string>)
    requires |s.preview| > 0
    ensures var created := Import(s, campaignTeams, newId, agentsError).value.createdTeams;
            && Seqs.NoDuplicates(NamesOf(created))
            && (forall n :: n in NamesOf(created) <==> n in TeamNames(s.preview) && n !in NamesOf(campaignTeams))
            && (forall i :: 0 <= i < |created| ==> created[i].color == ColorFor(i) && created[i].id == newId(i))
  {
    var all := campaignTeams + CreatedTeams(NewTeamNames(s.preview, campaignTeams), newId);
    EveryNameHasTeam(s.preview, campaignTeams, newId);
    LinkSucceeds(s.preview, all);
  }

  /** The screen after a successful import: counts reported, preview
      cleared and closed. */
  predicate Imported(sc: Screen, agents: nat, teams: nat) {
    sc == Screen(Some(ImportExport.Status(true, ImportedMessage(agents, teams))), [], false)
  }

  /** With the agent insert succeeding, the corrected importer inserts every
      previewed agent, active and linked to a team of its team name, and
      reports the counts; a failed insert leaves the created teams in
      place, inserts no agent and keeps the preview. */
  lemma ImportLinksEveryAgent(s: Screen, campaignTeams: seq<Team>, newId: nat -> string, agentsError: Option<string>)
    requires |s.preview| > 0
    ensures var run := Import(s, campaignTeams, newId, agentsError).value;
            agentsError.None? ==> LinkedAll(run.createdAgents, s.preview, campaignTeams + run.createdTeams)
                                  && Imported(run.screen, |s.preview|, |run.createdTeams|)
    ensures var run := Import(s, campaignTeams, newId, agentsError).value;
            agentsError.Some? ==> run.createdAgents == [] && run.screen.preview == s.preview
                                  && run.screen.status == Some(ImportExport.Status(false, agentsError.value))
                                  && run.createdTeams == CreatedTeams(NewTeamNames(s.preview, campaignTeams), newId)
  {
    var all := campaignTeams + CreatedTeams(NewTeamNames(s.preview, campaignTeams), newId);
    EveryNameHasTeam(s.preview, campaignTeams, newId);
    LinkSucceeds(s.preview, all);
  }

  /** A one-agent roster for a new team: the corrected importer imports it,
      the importer as written fails. */
  lemma ImportAsWrittenFails(newId: nat -> string)
    ensures var s := Screen(None, [RosterEntry("John Smith", "john.smith@company.com", "Alpha Team")], true);
            && !ImportAsWritten(s, newId, None).value.screen.status.value.success
            && Import(s, [], newId, None).value.screen.status.value.success
  {
    var s := Screen(None, [RosterEntry("John Smith", "john.smith@company.com", "Alpha Team")], true);
    ImportLinksEveryAgent(s, [], newId, None);
  }
}

=== FILE: agents_list.dfy ===
/** The agent cards: the day's summary of every agent, the search and team
    filter, the team and campaign labels with their fallbacks, and the
    per-agent history over a date range (one entry per date, ascending,
    with the chart scales). */
module AgentsList {
  import opened Wrappers
  import opened Domain
  import opened Totals
  import Seqs
  import Text
  import Sorting
  import Groups
  import Ranking
  import Extremes
  import DataUtils

  // The filter.

  /** Case-insensitive `includes` on name or email, and the team filter
      empty or equal to the agent's `campaign_team_id`. */
  function Matches(term: string, team: string): Agent -> bool {
    (a: Agent) =>
      && (Text.Contains(Text.Lower(a.name), Text.Lower(term)) || Text.Contains(Text.Lower(a.email), Text.Lower(term)))
      && (team == "" || a.campaignTeamId == Some(team))
  }

  /** `filteredAgents`. */
  function Listed(agents: seq<Agent>, term: string, team: string): (r: seq<Agent>)
    ensures forall a :: a in r <==> a in agents && Matches(term, team)(a)
  {
    Seqs.FilterMembers(agents, Matches(term, team));
    Seqs.Filter(agents, Matches(term, team))
  }

  /** With an empty search and no team chosen every agent is listed, in
      roster order. */
  lemma EmptyFilterListsAll(agents: seq<Agent>)
    ensures Listed(agents, "", "") == agents
  {
    forall a | a in agents ensures Matches("", "")(a) {
      assert Text.Lower("") <= Text.Lower(a.name);
    }
    Seqs.FilterAll(agents, Matches("", ""));
  }

  /** Choosing a team lists only that team's agents. */
  lemma TeamFilterSelects(agents: seq<Agent>, term: string, team: string, a: Agent)
    requires team != "" && a in Listed(agents, term, team)
    ensures a.campaignTeamId == Some(team)
  {
  }

  // Cards.

  /** `dailySummaries.find(s => s.agentId === agent.id)`. */
  function CardOf(agents: seq<Agent>, rs: seq<CallRecord>, date: string, a: Agent): Option<DataUtils.DailySummary> {
    Seqs.Find(DataUtils.DailySummaries(agents, rs, date), (s: DataUtils.DailySummary) => s.agentId == a.id)
  }

  /** Every listed agent has a card, and the card shows that agent's
      figures for the day, even when another roster entry shares its id. */
  lemma CardOfMeans(agents: seq<Agent>, rs: seq<CallRecord>, date: string, a: Agent)
    requires a in agents
    ensures CardOf(agents, rs, date, a).Some?
    ensures CardOf(agents, rs, date, a).value.totals == AgentDay(rs, a.id, date)
    ensures CardOf(agents, rs, date, a).value.date == date
  {
    var ss := DataUtils.DailySummaries(agents, rs, date);
    var i :| 0 <= i < |agents| && agents[i] == a;
    assert ss[i] in ss;
    var c := CardOf(agents, rs, date, a).value;
    var j :| 0 <= j < |ss| && ss[j] == c;
  }

  // Labels.

  /** `find(team => team.id === teamId)?.name || 'No Team'`: an agent
      without a team, an unknown team and a team with an empty name all
      read "No Team". */
  function TeamName(teams: seq<Team>, teamId: Option<string>): (r: string)
    ensures r != ""
  {
    match teamId
    case None => "No Team"
    case Some(id) =>
      match TeamById(teams, id)
      case Some(t) => if t.name == "" then "No Team" else t.name
      case None => "No Team"
  }

  /** `campaigns.find(c => c.id === team?.campaign_id)?.name || 'No Campaign'`. */
  function CampaignName(campaigns: seq<Campaign>, teams: seq<Team>, teamId: Option<string>): (r: string)
    ensures r != ""
  {
    var team := if teamId.Some? then TeamById(teams, teamId.value) else None;
    if team.Some? && team.value.campaignId.Some? then
      match Seqs.Find(campaigns, (c: Campaign) => c.id == team.value.campaignId.value)
      case Some(c) => if c.name == "" then "No Campaign" else c.name
      case None => "No Campaign"
    else "No Campaign"
  }

  /** With distinct team ids an agent's team label is its team's name when
      that is not empty, and the fallback when there is no such team. */
  lemma TeamNameMeans(teams: seq<Team>, teamId: Option<string>)
    requires UniqueTeamIds(teams)
    ensures forall t :: t in teams && teamId == Some(t.id) && t.name != "" ==> TeamName(teams, teamId) == t.name
    ensures (forall t :: t in teams ==> teamId != Some(t.id)) ==> TeamName(teams, teamId) == "No Team"
  {
    forall t | t in teams && teamId == Some(t.id) && t.name != "" ensures TeamName(teams, teamId) == t.name {
      TeamByIdUnique(teams, t);
    }
  }

  /** With distinct ids the campaign label is the name of the campaign of
      the agent's team when that is not empty, and the fallback for an
      agent without a team or a team without a campaign. */
  lemma CampaignNameMeans(campaigns: seq<Campaign>, teams: seq<Team>, teamId: Option<string>)
    requires UniqueTeamIds(teams) && UniqueCampaignIds(campaigns)
    ensures forall t, c :: t in teams && c in campaigns && teamId == Some(t.id) && t.campaignId == Some(c.id) && c.name != "" ==>
      CampaignName(campaigns, teams, teamId) == c.name
    ensures teamId.None? ==> CampaignName(campaigns, teams, teamId) == "No Campaign"
    ensures forall t :: t in teams && teamId == Some(t.id) && t.campaignId.None? ==>
      CampaignName(campaigns, teams, teamId) == "No Campaign"
  {
    forall t | t in teams && teamId == Some(t.id) ensures TeamById(teams, t.id) == Some(t) {
      TeamByIdUnique(teams, t);
    }
    forall t, c | t in teams && c in campaigns && teamId == Some(t.id) && t.campaignId == Some(c.id) && c.name != ""
      ensures CampaignName(campaigns, teams, teamId) == c.name
    {
      var f := Seqs.Find(campaigns, (c': Campaign) => c'.id == c.id);
      var d := f.value;
      var i :| 0 <= i < |campaigns| && campaigns[i] == c;
      var j :| 0 <= j < |campaigns| && campaigns[j] == d;
      assert i == j;
    }
  }

  // History.

  /** One entry of the history: a date and the figures summed for it. */
  datatype Day = Day(date: string, totals: Totals)

  function Dates(days: seq<Day>): seq<string> {
    Seqs.Map(days, (d: Day) => d.date)
  }

  function DateIs(d: string): Day -> bool {
    (e: Day) => e.date == d
  }

  /** `dailyData.get(date) || { calls: 0, callTime: 0, sales: 0 }`. */
  function At(days: seq<Day>, d: string): Totals {
    match Seqs.FindIndex(days, DateIs(d))
    case None => Zero
    case Some(i) => days[i].totals
  }

  /** One step of the `forEach`: add the record to its date's entry, or
      append a new entry; `Map.set` on a present key keeps its place. */
  function AddTo(days: seq<Day>, r: CallRecord): seq<Day> {
    match Seqs.FindIndex(days, DateIs(r.date))
    case None => days + [Day(r.date, Of(r))]
    case Some(i) => days[i := Day(r.date, days[i].totals.Plus(Of(r)))]
  }

  /** The `forEach` over the records, in record order. */
  function Accumulate(days: seq<Day>, rs: seq<CallRecord>): seq<Day>
    decreases |rs|
  {
    if |rs| == 0 then days else Accumulate(AddTo(days, rs[0]), rs[1..])
  }

  /** The agent's records with `start <= date <= end` in string order. */
  function InRange(agentId: string, start: string, end: string): Groups.Admits {
    (r: CallRecord) => r.agentId == agentId && Sorting.StrLe(start, r.date) && Sorting.StrLe(r.date, end)
  }

  function DateLe(a: Day, b: Day): bool {
    Sorting.StrLe(a.date, b.date)
  }

  /** `getAgentHistory`: the map's entries sorted by date. */
  function History(rs: seq<CallRecord>, agentId: string, start: string, end: string): (h: seq<Day>)
    ensures |h| <= |rs|
  {
    var range := Seqs.Filter(rs, InRange(agentId, start, end));
    var days := Accumulate([], range);
    AccumulateLength([], range);
    Sorting.SortBy(days, DateLe)
  }

  lemma {:induction false} AccumulateLength(days: seq<Day>, rs: seq<CallRecord>)
    ensures |Accumulate(days, rs)| <= |days| + |rs|
    decreases |rs|
  {
    if |rs| > 0 {
      AccumulateLength(AddTo(days, rs[0]), rs[1..]);
    }
  }

  /** With distinct dates, the entry found for a date is the only one. */
  lemma AtEntry(days: seq<Day>, i: nat)
    requires Seqs.NoDuplicates(Dates(days)) && i < |days|
    ensures At(days, days[i].date) == days[i].totals
  {
    var k := Seqs.FindIndex(days, DateIs(days[i].date)).value;
    assert Dates(days)[k] == Dates(days)[i];
  }

  lemma AtAbsent(days: seq<Day>, d: string)
    requires d !in Dates(days)
    ensures At(days, d) == Zero
  {
  }

  /** One step keeps one entry per date and adds the record's date. */
  lemma AddToDates(days: seq<Day>, r: CallRecord)
    requires Seqs.NoDuplicates(Dates(days))
    ensures Seqs.NoDuplicates(Dates(AddTo(days, r)))
    ensures forall d :: d in Dates(AddTo(days, r)) <==> d in Dates(days) || d == r.date
  {
    var f := Seqs.FindIndex(days, DateIs(r.date));
    if f.None? {
      assert r.date !in Dates(days);
      assert Dates(AddTo(days, r)) == Dates(days) + [r.date];
    } else {
      assert Dates(AddTo(days, r)) == Dates(days);
    }
  }

  /** One step adds the record's figures to its own date and to no
      other. */
  lemma AddToAt(days: seq<Day>, r: CallRecord, d: string)
    requires Seqs.NoDuplicates(Dates(days))
    ensures At(AddTo(days, r), d) == if d == r.date then At(days, d).Plus(Of(r)) else At(days, d)
  {
    var after := AddTo(days, r);
    AddToDates(days, r);
    if Seqs.FindIndex(days, DateIs(r.date)).None? {
      assert r.date !in Dates(days);
      assert after == days + [Day(r.date, Of(r))];
    } else {
      assert Dates(after) == Dates(days);
    }
    if d in Dates(days) {
      var i :| 0 <= i < |days| && Dates(days)[i] == d;
      AtEntry(days, i);
      AtEntry(after, i);
    } else {
      AtAbsent(days, d);
      if d == r.date {
        AtEntry(after, |days|);
      } else {
        AtAbsent(after, d);
      }
    }
  }

  /** The dates of the records, in record order. */
  function RecordDates(rs: seq<CallRecord>): seq<string> {
    Seqs.Map(rs, (r: CallRecord) => r.date)
  }

  /** The fold keeps one entry per date, and has an entry for every date
      of the records. */
  lemma {:induction false} AccumulateDates(days: seq<Day>, rs: seq<CallRecord>)
    requires Seqs.NoDuplicates(Dates(days))
    ensures Seqs.NoDuplicates(Dates(Accumulate(days, rs)))
    ensures forall d :: d in Dates(Accumulate(days, rs)) <==> d in Dates(days) || d in RecordDates(rs)
    decreases |rs|
  {
    if |rs| > 0 {
      AddToDates(days, rs[0]);
      AccumulateDates(AddTo(days, rs[0]), rs[1..]);
      assert RecordDates(rs) == [rs[0].date] + RecordDates(rs[1..]);
    }
  }

  /** The fold adds each date's records onto that date's entry. */
  lemma {:induction false} AccumulateAt(days: seq<Day>, rs: seq<CallRecord>, d: string)
    requires Seqs.NoDuplicates(Dates(days))
    ensures At(Accumulate(days, rs), d) == At(days, d).Plus(Sum(Seqs.Filter(rs, OnDate(d))))
    decreases |rs|
  {
    if |rs| > 0 {
      var next := AddTo(days, rs[0]);
      var rest := Sum(Seqs.Filter(rs[1..], OnDate(d)));
      assert Accumulate(days, rs) == Accumulate(next, rs[1..]);
      assert Seqs.NoDuplicates(Dates(next)) by { AddToDates(days, rs[0]); }
      AccumulateAt(next, rs[1..], d);
      assert At(next, d) == if d == rs[0].date then At(days, d).Plus(Of(rs[0])) else At(days, d) by {
        AddToAt(days, rs[0], d);
      }
      if rs[0].date == d {
        assert Sum(Seqs.Filter(rs, OnDate(d))) == Of(rs[0]).Plus(rest) by { SumFilterIn(rs, OnDate(d)); }
        PlusAssoc(At(days, d), Of(rs[0]), rest);
      } else {
        assert Sum(Seqs.Filter(rs, OnDate(d))) == rest by { SumFilterOut(rs, OnDate(d)); }
      }
    } else {
      FoldNothing(days, rs, d);
    }
  }

  lemma FoldNothing(days: seq<Day>, rs: seq<CallRecord>, d: string)
    requires |rs| == 0
    ensures At(Accumulate(days, rs), d) == At(days, d).Plus(Sum(Seqs.Filter(rs, OnDate(d))))
  {
    assert Accumulate(days, rs) == days;
    assert Sum(Seqs.Filter(rs, OnDate(d))) == Zero;
    var a := At(days, d);
    assert a.Plus(Zero) == a;
  }

  /** Starting from no entries, each entry holds exactly its date's
      records. */
  lemma FromEmpty(rs: seq<CallRecord>, k: nat)
    requires k < |Accumulate([], rs)|
    ensures Accumulate([], rs)[k].totals == Sum(Seqs.Filter(rs, OnDate(Accumulate([], rs)[k].date)))
  {
    var days := Accumulate([], rs);
    var d := days[k].date;
    AccumulateDates([], rs);
    AccumulateAt([], rs, d);
    AtEntry(days, k);
    ZeroPlus(Sum(Seqs.Filter(rs, OnDate(d))));
  }

  lemma DateLePreorder()
    ensures Sorting.TotalPreorder(DateLe)
  {
    forall a, b ensures DateLe(a, b) || DateLe(b, a) {
      Sorting.StrLeTotal(a.date, b.date);
    }
    forall a, b, c | DateLe(a, b) && DateLe(b, c) ensures DateLe(a, c) {
      Sorting.StrLeTransitive(a.date, b.date, c.date);
    }
  }

  /** The history of a date range whose start comes after its end is
      empty. */
  lemma ReversedRangeIsEmpty(rs: seq<CallRecord>, agentId: string, start: string, end: string)
    requires !Sorting.StrLe(start, end)
    ensures History(rs, agentId, start, end) == []
  {
    forall r | r in rs ensures !InRange(agentId, start, end)(r) {
      if Sorting.StrLe(start, r.date) && Sorting.StrLe(r.date, end) {
        Sorting.StrLeTransitive(start, r.date, end);
      }
    }
    Seqs.FilterNone(rs, InRange(agentId, start, end));
  }

  /** The history is strictly ascending by date: sorted, and no date
      twice. */
  lemma HistoryAscending(rs: seq<CallRecord>, agentId: string, start: string, end: string)
    ensures Sorting.Sorted(History(rs, agentId, start, end), DateLe)
    ensures Seqs.NoDuplicates(Dates(History(rs, agentId, start, end)))
  {
    var range := Seqs.Filter(rs, InRange(agentId, start, end));
    var days := Accumulate([], range);
    var h := History(rs, agentId, start, end);
    DateLePreorder();
    Sorting.SortBySorted(days, DateLe);
    AccumulateDates([], range);
    DatesDistinctDays(days);
    Seqs.PermutationNoDuplicates(days, h);
    forall i, j | 0 <= i < j < |h| ensures Dates(h)[i] != Dates(h)[j] {
      DistinctDaysDistinctDates(days, h, i, j);
    }
  }

  /** The history has an entry for a date exactly when the agent has a
      record of that date in the range. */
  lemma HistoryDateSet(rs: seq<CallRecord>, agentId: string, start: string, end: string, d: string)
    ensures d in Dates(History(rs, agentId, start, end)) <==> exists r :: r in rs && InRange(agentId, start, end)(r) && r.date == d
  {
    var range := Seqs.Filter(rs, InRange(agentId, start, end));
    var days := Accumulate([], range);
    AccumulateDates([], range);
    SameDates(days, History(rs, agentId, start, end), d);
    FilteredDates(rs, InRange(agentId, start, end), d);
  }

  /** Rearranged days carry the same dates. */
  lemma SameDates(days: seq<Day>, h: seq<Day>, d: string)
    requires multiset(h) == multiset(days)
    ensures d in Dates(h) <==> d in Dates(days)
  {
    if d in Dates(h) {
      var i :| 0 <= i < |h| && Dates(h)[i] == d;
      assert h[i] in multiset(days);
      var k :| 0 <= k < |days| && days[k] == h[i];
      assert Dates(days)[k] == d;
    }
    if d in Dates(days) {
      var k :| 0 <= k < |days| && Dates(days)[k] == d;
      assert days[k] in multiset(h);
      var i :| 0 <= i < |h| && h[i] == days[k];
      assert Dates(h)[i] == d;
    }
  }

  lemma FilteredDates(rs: seq<CallRecord>, p: Groups.Admits, d: string)
    ensures d in RecordDates(Seqs.Filter(rs, p)) <==> exists r :: r in rs && p(r) && r.date == d
  {
    var range := Seqs.Filter(rs, p);
    Seqs.FilterMembers(rs, p);
    if exists r :: r in rs && p(r) && r.date == d {
      var r :| r in rs && p(r) && r.date == d;
      var k :| 0 <= k < |range| && range[k] == r;
      assert RecordDates(range)[k] == d;
    }
  }

  /** Days with distinct dates are distinct days. */
  lemma DatesDistinctDays(days: seq<Day>)
    requires Seqs.NoDuplicates(Dates(days))
    ensures Seqs.NoDuplicates(days)
  {
    forall i, j | 0 <= i < j < |days| ensures days[i] != days[j] {
      assert Dates(days)[i] != Dates(days)[j];
    }
  }

  /** Two entries of a rearrangement of days with distinct dates never
      share a date. */
  lemma DistinctDaysDistinctDates(days: seq<Day>, h: seq<Day>, i: nat, j: nat)
    requires Seqs.NoDuplicates(Dates(days)) && Seqs.NoDuplicates(h) && multiset(h) == multiset(days)
    requires i < j < |h|
    ensures h[i].date != h[j].date
  {
    assert h[i] in multiset(days) && h[j] in multiset(days);
    var p :| 0 <= p < |days| && days[p] == h[i];
    var q :| 0 <= q < |days| && days[q] == h[j];
    assert Dates(days)[p] == h[i].date && Dates(days)[q] == h[j].date;
  }

  /** Each entry holds exactly the agent's figures for that day: the same
      figures the daily summary shows for it. */
  lemma HistoryEntries(rs: seq<CallRecord>, agentId: string, start: string, end: string, i: nat)
    requires i < |History(rs, agentId, start, end)|
    ensures var e := History(rs, agentId, start, end)[i];
      && Sorting.StrLe(start, e.date) && Sorting.StrLe(e.date, end)
      && e.totals == AgentDay(rs, agentId, e.date)
  {
    var range := Seqs.Filter(rs, InRange(agentId, start, end));
    var days := Accumulate([], range);
    var e := History(rs, agentId, start, end)[i];
    assert e.date in Dates(History(rs, agentId, start, end));
    HistoryDateSet(rs, agentId, start, end, e.date);
    assert e in multiset(days);
    var k :| 0 <= k < |days| && days[k] == e;
    FromEmpty(range, k);
    Seqs.FilterFilter(rs, InRange(agentId, start, end), OnDate(e.date), OfAgentOn(agentId, e.date));
  }

  function DayTotals(e: Day): Totals {
    e.totals
  }

  /** The three history cards: calls, sales and call time added over the
      entries. */
  function HistoryCards(h: seq<Day>): Totals {
    Ranking.SumBy(h, DayTotals)
  }

  /** The cards add up to the totals over the agent's records in the
      range: grouping by date neither drops nor repeats a record. */
  lemma HistoryCardsAddUp(rs: seq<CallRecord>, agentId: string, start: string, end: string)
    ensures HistoryCards(History(rs, agentId, start, end)) == Sum(Seqs.Filter(rs, InRange(agentId, start, end)))
  {
    var range := Seqs.Filter(rs, InRange(agentId, start, end));
    var days := Accumulate([], range);
    Ranking.SortSum(days, DateLe, DayTotals);
    DaysAddUp(range);
  }

  /** The fold's entries add up to the sum over all the records folded. */
  lemma DaysAddUp(rs: seq<CallRecord>)
    ensures Ranking.SumBy(Accumulate([], rs), DayTotals) == Sum(rs)
  {
    var days := Accumulate([], rs);
    var ps := DateGroups(Dates(days));
    var all: Groups.Admits := (r: CallRecord) => true;
    assert Ranking.SumBy(days, DayTotals) == Groups.SumAll(Groups.Totalled(rs, ps)) by {
      DaysColumn(rs);
      Ranking.SumByColumn(days, DayTotals, Groups.Totalled(rs, ps));
    }
    assert Groups.SumAll(Groups.Totalled(rs, ps)) == Sum(Seqs.Filter(rs, all)) by {
      AccumulateDates([], rs);
      DateGroupsExclusive(Dates(days));
      DaysCover(rs, all);
      Groups.GroupsCover(rs, ps, all);
    }
    Seqs.FilterAll(rs, all);
  }

  /** Entry `k` of the fold is the total of the group of its date. */
  lemma DaysColumn(rs: seq<CallRecord>)
    ensures var days := Accumulate([], rs);
      var column := Groups.Totalled(rs, DateGroups(Dates(days)));
      |column| == |days| && forall k :: 0 <= k < |days| ==> column[k] == DayTotals(days[k])
  {
    var days := Accumulate([], rs);
    forall k | 0 <= k < |days| ensures Groups.Totalled(rs, DateGroups(Dates(days)))[k] == DayTotals(days[k]) {
      FromEmpty(rs, k);
    }
  }

  /** Every record falls in the group of some entry's date. */
  lemma DaysCover(rs: seq<CallRecord>, all: Groups.Admits)
    ensures forall r :: r in rs && all(r) ==>
      exists k :: 0 <= k < |DateGroups(Dates(Accumulate([], rs)))| && DateGroups(Dates(Accumulate([], rs)))[k](r)
  {
    var days := Accumulate([], rs);
    var ps := DateGroups(Dates(days));
    AccumulateDates([], rs);
    forall r | r in rs && all(r) ensures exists k :: 0 <= k < |ps| && ps[k](r) {
      var j :| 0 <= j < |rs| && rs[j] == r;
      assert r.date == RecordDates(rs)[j];
      assert Dates([]) == [];
      assert r.date in Dates(days);
      var k :| 0 <= k < |days| && Dates(days)[k] == r.date;
      assert ps[k](r);
    }
    assert ps == DateGroups(Dates(Accumulate([], rs)));
  }

  lemma DateGroupsExclusive(ds: seq<string>)
    requires Seqs.NoDuplicates(ds)
    ensures Groups.Exclusive(DateGroups(ds))
  {
    var ps := DateGroups(ds);
    forall a, b, r | 0 <= a < b < |ps| ensures !(ps[a](r) && ps[b](r)) {
      assert ds[a] != ds[b];
    }
  }

  /** One group per date: the records of that date. */
  function DateGroups(ds: seq<string>): (ps: seq<Groups.Admits>)
    ensures |ps| == |ds|
    ensures forall k :: 0 <= k < |ds| ==> ps[k] == OnDate(ds[k])
  {
    seq(|ds|, k requires 0 <= k < |ds| => OnDate(ds[k]))
  }

  // Chart scales.

  /** `Math.max(...values, 1)`. */
  function Scale(values: seq<int>): int {
    var b := Extremes.MaxOf(values + [1]);
    if b.Fin? then b.n else 1
  }

  /** The scale is at least 1 and at least every value, and it is one of
      the values or 1; so a bar `value / scale * 100` of a value that is
      not negative lies in 0..100. */
  lemma ScaleMeans(values: seq<int>)
    ensures Scale(values) >= 1
    ensures forall i :: 0 <= i < |values| ==> values[i] <= Scale(values)
    ensures Scale(values) == 1 || Scale(values) in values
    ensures forall i :: 0 <= i < |values| && values[i] >= 0 ==>
      0.0 <= values[i] as real / Scale(values) as real * 100.0 <= 100.0
  {
    var xs := values + [1];
    Extremes.MaxOfMeans(xs);
    assert xs[|values|] == 1;
    forall i | 0 <= i < |values| ensures values[i] <= Scale(values) {
      assert xs[i] == values[i];
    }
    var m := Scale(values);
    assert m in xs;
    forall i | 0 <= i < |values| && values[i] >= 0
      ensures 0.0 <= values[i] as real / m as real * 100.0 <= 100.0
    {
      assert values[i] <= m;
      Fraction(values[i], m);
    }
  }

  lemma Fraction(v: int, m: int)
    requires 0 <= v <= m && m >= 1
    ensures 0.0 <= v as real / m as real <= 1.0
  {
  }
}

=== FILE: campaign_overview.dfy ===
/** The campaign cards. A campaign owns the teams whose `campaign_id` is its
    id; an agent belongs to it through `campaign_team_id`, where a missing
    team counts as the empty id; a record counts when its agent, found by
    id, belongs and the record is of the selected date. */
module CampaignOverview {
  import opened Wrappers
  import opened Domain
  import opened Totals
  import Seqs
  import Sorting
  import Groups
  import Ranking

  /** `campaignTeams.filter(t => t.campaign_id === id).map(t => t.id)`. */
  function TeamIdsOf(teams: seq<Team>, campaignId: string): (ids: seq<string>)
    ensures |ids| <= |teams|
    decreases |teams|
  {
    if |teams| == 0 then []
    else (if teams[0].campaignId == Some(campaignId) then [teams[0].id] else []) + TeamIdsOf(teams[1..], campaignId)
  }

  /** An id is listed exactly when some team of the campaign has it. */
  lemma {:induction false} TeamIdsMeans(teams: seq<Team>, campaignId: string, id: string)
    ensures id in TeamIdsOf(teams, campaignId) <==> exists t :: t in teams && t.campaignId == Some(campaignId) && t.id == id
    decreases |teams|
  {
    if |teams| > 0 {
      TeamIdsMeans(teams[1..], campaignId, id);
      if exists t :: t in teams && t.campaignId == Some(campaignId) && t.id == id {
        var t :| t in teams && t.campaignId == Some(campaignId) && t.id == id;
        if t != teams[0] {
          assert t in teams[1..];
        }
      }
    }
  }

  /** `agent.campaign_team_id || ''`. */
  function TeamKey(a: Agent): string {
    a.campaignTeamId.GetOr("")
  }

  function InCampaign(ids: seq<string>): Agent -> bool {
    (a: Agent) => TeamKey(a) in ids
  }

  /** The record's agent, found by id, is in one of the teams, and the
      record is of the date. */
  function InCampaignOn(agents: seq<Agent>, ids: seq<string>, date: string): Groups.Admits {
    (r: CallRecord) =>
      match AgentById(agents, r.agentId)
      case None => false
      case Some(a) => TeamKey(a) in ids && r.date == date
  }

  datatype CampaignSummary = CampaignSummary(
    campaignId: string,
    totals: Totals,
    agentCount: nat,
    teamCount: nat,
    averageCallTime: real,
    averageCallsPerAgent: real)

  function SummaryOf(c: Campaign, teams: seq<Team>, agents: seq<Agent>, rs: seq<CallRecord>, date: string): CampaignSummary {
    var ids := TeamIdsOf(teams, c.id);
    var n := |Seqs.Filter(agents, InCampaign(ids))|;
    var t := Sum(Seqs.Filter(rs, InCampaignOn(agents, ids, date)));
    CampaignSummary(c.id, t, n, |ids|, Average(t.callTime, t.calls), Average(t.calls, n))
  }

  /** `campaignSummaries`: one per campaign, in campaign order. */
  function Summaries(campaigns: seq<Campaign>, teams: seq<Team>, agents: seq<Agent>, rs: seq<CallRecord>, date: string): (ss: seq<CampaignSummary>)
    ensures |ss| == |campaigns|
    ensures forall i :: 0 <= i < |campaigns| ==> ss[i].campaignId == campaigns[i].id
    ensures forall i :: 0 <= i < |campaigns| ==> ss[i].teamCount == |TeamIdsOf(teams, campaigns[i].id)|
    ensures forall i :: 0 <= i < |campaigns| ==>
      ss[i].agentCount == |Seqs.Filter(agents, InCampaign(TeamIdsOf(teams, campaigns[i].id)))|
    ensures forall i :: 0 <= i < |campaigns| ==>
      ss[i].totals == Sum(Seqs.Filter(rs, InCampaignOn(agents, TeamIdsOf(teams, campaigns[i].id), date)))
  {
    seq(|campaigns|, i requires 0 <= i < |campaigns| => SummaryOf(campaigns[i], teams, agents, rs, date))
  }

  /** An agent with no campaign team is counted in a campaign exactly when
      one of the campaign's teams has the empty id: the fallback `''` only
      matches such a team. */
  lemma NoTeamAgent(teams: seq<Team>, campaignId: string, a: Agent)
    requires a.campaignTeamId.None?
    ensures InCampaign(TeamIdsOf(teams, campaignId))(a)
        <==> exists t :: t in teams && t.campaignId == Some(campaignId) && t.id == ""
  {
    TeamIdsMeans(teams, campaignId, "");
  }

  /** An agent is counted in a campaign exactly when its team is one of
      the campaign's. */
  lemma AgentInCampaignIff(teams: seq<Team>, campaignId: string, a: Agent)
    ensures InCampaign(TeamIdsOf(teams, campaignId))(a)
        <==> exists t :: t in teams && t.campaignId == Some(campaignId) && t.id == TeamKey(a)
  {
    TeamIdsMeans(teams, campaignId, TeamKey(a));
  }

  // Campaigns as groups of records.

  function CampaignGroups(campaigns: seq<Campaign>, teams: seq<Team>, agents: seq<Agent>, date: string): (ps: seq<Groups.Admits>)
    ensures |ps| == |campaigns|
    ensures forall i :: 0 <= i < |campaigns| ==> ps[i] == InCampaignOn(agents, TeamIdsOf(teams, campaigns[i].id), date)
  {
    seq(|campaigns|, i requires 0 <= i < |campaigns| => InCampaignOn(agents, TeamIdsOf(teams, campaigns[i].id), date))
  }

  function CampaignTotals(ss: seq<CampaignSummary>): seq<Totals> {
    Seqs.Map(ss, (s: CampaignSummary) => s.totals)
  }

  /** A team id names one team, and a team has one campaign: so with
      distinct team and campaign ids no record counts for two campaigns. */
  lemma CampaignGroupsExclusive(campaigns: seq<Campaign>, teams: seq<Team>, agents: seq<Agent>, date: string)
    requires UniqueTeamIds(teams) && UniqueCampaignIds(campaigns)
    ensures Groups.Exclusive(CampaignGroups(campaigns, teams, agents, date))
  {
    var ps := CampaignGroups(campaigns, teams, agents, date);
    forall i, j, r | 0 <= i < j < |ps| ensures !(ps[i](r) && ps[j](r)) {
      if ps[i](r) && ps[j](r) {
        var a := AgentById(agents, r.agentId).value;
        TeamIdsMeans(teams, campaigns[i].id, TeamKey(a));
        TeamIdsMeans(teams, campaigns[j].id, TeamKey(a));
      }
    }
  }

  /** With distinct ids and non-negative figures, the campaign cards
      together never show more than the day holds: no record is counted
      for two campaigns. */
  lemma CampaignTotalsWithin(campaigns: seq<Campaign>, teams: seq<Team>, agents: seq<Agent>, rs: seq<CallRecord>, date: string)
    requires UniqueTeamIds(teams) && UniqueCampaignIds(campaigns) && AllNonNegative(rs)
    ensures AtMost(Groups.SumAll(CampaignTotals(Summaries(campaigns, teams, agents, rs, date))), Sum(Seqs.Filter(rs, OnDate(date))))
  {
    var ps := CampaignGroups(campaigns, teams, agents, date);
    assert CampaignTotals(Summaries(campaigns, teams, agents, rs, date)) == Groups.Totalled(rs, ps);
    CampaignGroupsExclusive(campaigns, teams, agents, date);
    Groups.GroupsWithin(rs, ps, OnDate(date));
  }

  /** `summary.totalCalls > 0 ? totalSales / totalCalls * 100 : 0`. */
  function ConversionRateOf(s: CampaignSummary): real {
    ConversionRate(s.totals.sales, s.totals.calls)
  }

  lemma CardQuotients(campaigns: seq<Campaign>, teams: seq<Team>, agents: seq<Agent>, rs: seq<CallRecord>, date: string, i: nat)
    requires i < |campaigns|
    ensures var s := Summaries(campaigns, teams, agents, rs, date)[i];
      Quotients(s.totals, s.agentCount, s.averageCallTime, s.averageCallsPerAgent, ConversionRateOf(s))
  {
    var s := Summaries(campaigns, teams, agents, rs, date)[i];
    assert s == SummaryOf(campaigns[i], teams, agents, rs, date);
    QuotientsOf(s.totals, s.agentCount);
  }

  // Ranking and compact view.

  function SummaryKey(s: CampaignSummary): Ranking.Key {
    Ranking.Key(s.campaignId, s.totals)
  }

  /** `campaignSummaries.sort((a, b) => b.totalCalls - a.totalCalls)`. */
  function Rankings(ss: seq<CampaignSummary>): seq<CampaignSummary> {
    Ranking.MostCallsFirst(ss, SummaryKey)
  }

  function CampaignId(c: Campaign): string {
    c.id
  }

  function SummaryCampaignId(s: CampaignSummary): string {
    s.campaignId
  }

  /** The compact view: the first four summaries with their campaigns. */
  function Compact(campaigns: seq<Campaign>, ss: seq<CampaignSummary>): seq<(Campaign, CampaignSummary)> {
    Ranking.Joined(campaigns, Ranking.FirstFour(ss), CampaignId, SummaryCampaignId)
  }

  /** With distinct campaign ids the compact view shows the first four
      campaigns in list order, each with its own summary. */
  lemma CompactShowsFirstFour(campaigns: seq<Campaign>, teams: seq<Team>, agents: seq<Agent>, rs: seq<CallRecord>, date: string)
    requires UniqueCampaignIds(campaigns)
    ensures var ss := Summaries(campaigns, teams, agents, rs, date);
      var c := Compact(campaigns, ss);
      && |c| == (if |campaigns| < 4 then |campaigns| else 4)
      && forall i :: 0 <= i < |c| ==> c[i] == (campaigns[i], ss[i])
  {
    var ss := Summaries(campaigns, teams, agents, rs, date);
    Ranking.FirstFourJoined(campaigns, ss, CampaignId, SummaryCampaignId);
  }
}

=== FILE: classifier.dfy ===
/** The colour tiers of the team agent view. Call time is graded against a
    40-minute target; calls and sales are graded against the spread of the
    agent's peers, `(v - min) / (max - min)`, where `max` is taken over the
    whole cohort and `min` over its positive members. The screen divides in
    floating point; here every ratio test is an exact integer
    cross-multiplication, and each grading is proved equal to the same
    ladder applied to the exact real ratio. */
module Classifier {
  import opened Extremes

  datatype Tier = NoData | Flat | Green | Yellow | Orange | Red

  /** Position on the red-to-green ladder; the two tiers off the ladder sit
      at the bottom. */
  function Rank(t: Tier): nat {
    match t
    case Green => 3
    case Yellow => 2
    case Orange => 1
    case _ => 0
  }

  // Call time.

  const TargetMinutes := 40

  /** The ladder on a real ratio to the target: 1.0, 0.75, 0.5. */
  function TimeLadder(ratio: real): Tier {
    if ratio >= 1.0 then Green
    else if ratio >= 0.75 then Yellow
    else if ratio >= 0.5 then Orange
    else Red
  }

  /** `getCallTimeColor`: no data for zero minutes, otherwise the ladder on
      `minutes / 40`, decided on whole minutes as 40, 30 and 20. */
  function CallTimeTier(minutes: int): (t: Tier)
    ensures t == if minutes == 0 then NoData else TimeLadder(minutes as real / TargetMinutes as real)
  {
    if minutes == 0 then NoData
    else if minutes >= 40 then Green
    else if minutes >= 30 then Yellow
    else if minutes >= 20 then Orange
    else Red
  }

  /** More minutes never earn a lower tier, and an idle hour is never
      shown red. */
  lemma CallTimeMonotone(m: int, m': int)
    requires m != 0 && m' != 0 && m <= m'
    ensures Rank(CallTimeTier(m)) <= Rank(CallTimeTier(m'))
    ensures CallTimeTier(0) != Red
  {
  }

  /** The target itself is green; one minute short is only yellow. */
  lemma CallTimeBoundary()
    ensures CallTimeTier(TargetMinutes) == Green
    ensures CallTimeTier(TargetMinutes - 1) == Yellow
  {
  }

  // Peer tiers.

  /** The ladder on a real ratio to the peers' spread: 0.8, 0.6, 0.4. */
  function PeerLadder(ratio: real): Tier {
    if ratio >= 0.8 then Green
    else if ratio >= 0.6 then Yellow
    else if ratio >= 0.4 then Orange
    else Red
  }

  /** The ladder on `above / spread`, decided without dividing. */
  function CrossTier(above: int, spread: int): (t: Tier)
    requires spread > 0
    ensures t == PeerLadder(above as real / spread as real)
  {
    var r := above as real / spread as real;
    assert r * spread as real == above as real;
    if 5 * above >= 4 * spread then
      assert r >= 0.8 by { LadderStep(above, spread, r, 4); }
      Green
    else if 5 * above >= 3 * spread then
      assert r < 0.8 && r >= 0.6 by { LadderStep(above, spread, r, 4); LadderStep(above, spread, r, 3); }
      Yellow
    else if 5 * above >= 2 * spread then
      assert r < 0.6 && r >= 0.4 by { LadderStep(above, spread, r, 3); LadderStep(above, spread, r, 2); }
      Orange
    else
      assert r < 0.4 by { LadderStep(above, spread, r, 2); }
      Red
  }

  /** `above / spread >= k / 5` exactly when `5 * above >= k * spread`. */
  lemma LadderStep(above: int, spread: int, r: real, k: int)
    requires spread > 0 && r * spread as real == above as real
    ensures r >= k as real / 5.0 <==> 5 * above >= k * spread
  {
    var s := spread as real;
    if r >= k as real / 5.0 {
      assert r * s >= (k as real / 5.0) * s;
    } else {
      assert r * s < (k as real / 5.0) * s;
    }
  }

  /** `getCallsColor(v, cohort)`. With no positive peer the lower bound is
      infinite, the ratio is NaN, and NaN passes no threshold: red. */
  function CallsTier(v: int, cohort: seq<int>): Tier {
    if v == 0 then NoData
    else
      var hi := MaxOf(cohort);
      var lo := MinPositive(cohort);
      if hi == lo then Flat
      else if hi.Fin? && lo.Fin? then Bounds(cohort); CrossTier(v - lo.n, hi.n - lo.n)
      else Red
  }

  /** `getSalesColor(v, cohort)`: as for calls, except that the ratio falls
      back to 0.5 when `max > min` fails. */
  function SalesTier(v: int, cohort: seq<int>): Tier {
    if v == 0 then NoData
    else
      var hi := MaxOf(cohort);
      var lo := MinPositive(cohort);
      if hi == lo then Flat
      else if Above(hi, lo) then Bounds(cohort); CrossTier(v - lo.n, hi.n - lo.n)
      else PeerLadder(0.5)
  }

  /** The calls tier is the peer ladder on the exact ratio when the peers
      spread, flat when they do not, and red when no peer is positive. */
  lemma CallsTierMeans(v: int, cohort: seq<int>)
    requires v != 0
    ensures !HasPositive(cohort) ==> CallsTier(v, cohort) == Red
    ensures HasPositive(cohort) <==> MinPositive(cohort).Fin?
    ensures HasPositive(cohort) && MaxOf(cohort) == MinPositive(cohort) ==> CallsTier(v, cohort) == Flat
    ensures forall hi, lo :: MaxOf(cohort) == Fin(hi) && MinPositive(cohort) == Fin(lo) && hi != lo ==>
      hi > lo && CallsTier(v, cohort) == PeerLadder((v - lo) as real / (hi - lo) as real)
  {
    Bounds(cohort);
  }

  /** For a fixed cohort a larger value never earns a lower tier. */
  lemma CallsMonotone(v: int, v': int, cohort: seq<int>)
    requires v != 0 && v' != 0 && v <= v'
    ensures Rank(CallsTier(v, cohort)) <= Rank(CallsTier(v', cohort))
  {
    Bounds(cohort);
  }

  /** When the peers spread, the best of them is green and the weakest
      positive one is red. */
  lemma CallsExtremes(cohort: seq<int>, hi: int, lo: int)
    requires MaxOf(cohort) == Fin(hi) && MinPositive(cohort) == Fin(lo) && hi != lo
    ensures CallsTier(hi, cohort) == Green
    ensures CallsTier(lo, cohort) == Red
  {
    Bounds(cohort);
  }

  /** The sales tier differs from the calls tier exactly for a non-zero
      value among peers none of whom is positive: calls turn red on a NaN
      ratio while sales take the 0.5 fallback, orange. */
  lemma SalesDiffersIff(v: int, cohort: seq<int>)
    ensures SalesTier(v, cohort) != CallsTier(v, cohort) <==> v != 0 && !HasPositive(cohort)
    ensures v != 0 && !HasPositive(cohort) ==> CallsTier(v, cohort) == Red && SalesTier(v, cohort) == Orange
  {
    Bounds(cohort);
  }

  /** On the screen the value is the agent's own total, a member of the
      cohort: for any value that is not negative the two gradings agree. */
  lemma SalesMatchesCalls(v: int, cohort: seq<int>)
    requires v in cohort && v >= 0
    ensures SalesTier(v, cohort) == CallsTier(v, cohort)
  {
    SalesDiffersIff(v, cohort);
  }
}

=== FILE: csv_line.dfy ===
/** The quote-toggling field splitter used on e-mailed call reports
    (`parseCSVLine`). A double quote flips the "inside quotes" state and is
    dropped; a comma outside quotes ends a field; every other character,
    including a comma inside quotes, goes into the current field. It is a
    subset of section 2 of RFC 4180: the doubled-quote escape of rule 7 is
    not recognised, so `""` inside a quoted field simply flips twice. */
module CsvLine {
  import opened Text

  /** The fields of `s` when scanning starts with the given quote state;
      the first field continues whatever field was open before `s`. */
  function Fields(s: string, inQuotes: bool): (r: seq<string>)
    ensures |r| >= 1
    decreases |s|
  {
    if |s| == 0 then [""]
    else if s[0] == '"' then Fields(s[1..], !inQuotes)
    else if s[0] == ',' && !inQuotes then [""] + Fields(s[1..], inQuotes)
    else
      var rest := Fields(s[1..], inQuotes);
      [[s[0]] + rest[0]] + rest[1..]
  }

  /** `parseCSVLine(line)`. */
  function ParseCsvLine(line: string): (r: seq<string>)
    ensures |r| >= 1
  {
    Fields(line, false)
  }

  /** The line with every double quote removed. */
  function Unquoted(s: string): (r: string)
    ensures '"' !in r
    decreases |s|
  {
    if |s| == 0 then ""
    else if s[0] == '"' then Unquoted(s[1..])
    else [s[0]] + Unquoted(s[1..])
  }

  /** The commas of `s` that lie outside quotes, scanning from the given
      state. */
  function CommasOutside(s: string, inQuotes: bool): nat
    decreases |s|
  {
    if |s| == 0 then 0
    else if s[0] == '"' then CommasOutside(s[1..], !inQuotes)
    else (if s[0] == ',' && !inQuotes then 1 else 0) + CommasOutside(s[1..], inQuotes)
  }

  /** No field holds a double quote. */
  predicate QuoteFree(fields: seq<string>) {
    forall i :: 0 <= i < |fields| ==> '"' !in fields[i]
  }

  /** No field ever holds a double quote, and gluing the fields back with
      commas gives the line with its quotes removed: the separators were
      exactly the commas outside quotes, and commas inside quotes stayed
      inside their field. */
  lemma {:induction false} FieldsJoin(s: string, inQuotes: bool)
    ensures QuoteFree(Fields(s, inQuotes))
    ensures Join(Fields(s, inQuotes), ",") == Unquoted(s)
    decreases |s|
  {
    if |s| > 0 {
      FieldsJoin(s[1..], inQuotes);
      FieldsJoin(s[1..], !inQuotes);
      var rest := Fields(s[1..], inQuotes);
      if s[0] == '"' {
      } else if s[0] == ',' && !inQuotes {
        NewField(rest);
      } else {
        JoinPrefixFirst([s[0]], rest, ",");
        Glued(s[0], rest);
      }
    }
  }

  /** Opening an empty field before quote-free fields. */
  lemma NewField(rest: seq<string>)
    requires |rest| >= 1 && QuoteFree(rest)
    ensures QuoteFree([""] + rest)
    ensures Join([""] + rest, ",") == "," + Join(rest, ",")
  {
    var r := [""] + rest;
    assert r[1..] == rest;
    forall i | 0 <= i < |r| ensures '"' !in r[i] {
      if i > 0 { assert r[i] == rest[i - 1]; }
    }
  }

  /** Putting a character other than a quote in front of the first of
      quote-free fields. */
  lemma Glued(c: char, rest: seq<string>)
    requires |rest| >= 1 && QuoteFree(rest) && c != '"'
    ensures QuoteFree([[c] + rest[0]] + rest[1..])
  {
    var r := [[c] + rest[0]] + rest[1..];
    forall i | 0 <= i < |r| ensures '"' !in r[i] {
      if i > 0 { assert r[i] == rest[i]; }
      else { assert '"' !in rest[0]; }
    }
  }

  /** One field more than there are commas outside quotes. */
  lemma {:induction false} FieldsCount(s: string, inQuotes: bool)
    ensures |Fields(s, inQuotes)| == 1 + CommasOutside(s, inQuotes)
    decreases |s|
  {
    if |s| > 0 {
      FieldsCount(s[1..], inQuotes);
      FieldsCount(s[1..], !inQuotes);
    }
  }

  /** Without quotes the splitter is `line.split(',')`. */
  lemma {:induction false} FieldsWithoutQuotes(s: string)
    requires '"' !in s
    ensures Fields(s, false) == Split(s, ',')
    decreases |s|
  {
    if |s| > 0 {
      FieldsWithoutQuotes(s[1..]);
    }
  }

  /** The properties of `ParseCsvLine` for a whole line. */
  lemma ParseCsvLineSpec(line: string)
    ensures |ParseCsvLine(line)| == 1 + CommasOutside(line, false)
    ensures QuoteFree(ParseCsvLine(line))
    ensures Join(ParseCsvLine(line), ",") == Unquoted(line)
    ensures '"' !in line ==> ParseCsvLine(line) == Split(line, ',')
  {
    FieldsCount(line, false);
    FieldsJoin(line, false);
    if '"' !in line {
      FieldsWithoutQuotes(line);
    }
  }

  /** A quote-free line is recovered by joining its fields with commas. */
  lemma QuoteFreeRoundTrip(line: string)
    requires '"' !in line
    ensures Join(ParseCsvLine(line), ",") == line
  {
    FieldsWithoutQuotes(line);
  }

  /** What the scan of `s` from the given state makes of the finished
      fields and the open field: the open field runs into the first field
      of `s`. */
  function Resume(result: seq<string>, current: string, s: string, inQuotes: bool): seq<string> {
    var rest := Fields(s, inQuotes);
    result + [current + rest[0]] + rest[1..]
  }

  /** A quote flips the state and is dropped. */
  lemma QuoteStep(result: seq<string>, current: string, s: string, inQuotes: bool)
    requires |s| > 0 && s[0] == '"'
    ensures Resume(result, current, s, inQuotes) == Resume(result, current, s[1..], !inQuotes)
  {
  }

  /** A comma outside quotes closes the open field. */
  lemma CommaStep(result: seq<string>, current: string, s: string, inQuotes: bool)
    requires |s| > 0 && s[0] == ',' && !inQuotes
    ensures Resume(result, current, s, inQuotes) == Resume(result + [current], "", s[1..], inQuotes)
  {
    var rest := Fields(s[1..], inQuotes);
    assert Fields(s, inQuotes) == [""] + rest;
    assert current + "" == current && "" + rest[0] == rest[0];
    assert rest == [rest[0]] + rest[1..];
  }

  /** Any other character joins the open field. */
  lemma CharStep(result: seq<string>, current: string, s: string, inQuotes: bool)
    requires |s| > 0 && s[0] != '"' && !(s[0] == ',' && !inQuotes)
    ensures Resume(result, current, s, inQuotes) == Resume(result, current + [s[0]], s[1..], inQuotes)
  {
    var rest := Fields(s[1..], inQuotes);
    assert current + ([s[0]] + rest[0]) == (current + [s[0]]) + rest[0];
  }

  /** The loop of the source: walk the characters once, keeping the
      finished fields, the open field and the quote state. */
  method ParseCsvLineLoop(line: string) returns (result: seq<string>)
    ensures result == ParseCsvLine(line)
  {
    result := [];
    var current := "";
    var inQuotes := false;
    assert line[0..] == line;
    var start := Fields(line, false);
    assert current + start[0] == start[0];
    assert [start[0]] + start[1..] == start;
    for i := 0 to |line|
      invariant ParseCsvLine(line) == Resume(result, current, line[i..], inQuotes)
    {
      assert line[i..][1..] == line[i + 1..];
      if line[i] == '"' {
        QuoteStep(result, current, line[i..], inQuotes);
        inQuotes := !inQuotes;
      } else if line[i] == ',' && !inQuotes {
        CommaStep(result, current, line[i..], inQuotes);
        result := result + [current];
        current := "";
      } else {
        CharStep(result, current, line[i..], inQuotes);
        current := current + [line[i]];
      }
    }
    assert line[|line|..] == "";
    assert current + "" == current;
    result := result + [current];
  }
}

=== FILE: csv_utils.dfy ===
/** The generic CSV helpers: `parseCSV`, which turns every line after the
    header into an object keyed by the trimmed header cells, and the text
    part of `exportToCSV`, which writes the first record's keys and then
    every record's values in that key order. Neither side quotes or
    escapes anything, so a comma or line break inside a value breaks the
    layout; rule 6 of section 2 of RFC 4180 would quote such a field. */
module CsvUtils {
  import opened Wrappers
  import opened Text
  import opened Objects
  import Seqs
  import Numbers
  import opened Domain
  import opened Totals
  import Groups

  /** `values[index]`, or `undefined` past the end of a short line. */
  function CellValue(values: seq<string>, i: nat): Value {
    if i < |values| then Text(values[i]) else Absent
  }

  /** `headers.forEach((header, index) => { row[header] = values[index] })`:
      the headers are stored one after the other, a repeated header taking
      the later value. */
  function RowOf(headers: seq<string>, values: seq<string>): (row: Obj)
    decreases |headers|
  {
    if |headers| == 0 then []
    else Put(RowOf(headers[..|headers| - 1], values), headers[|headers| - 1], CellValue(values, |headers| - 1))
  }

  /** With distinct headers the row has exactly the headers as keys, in
      header order. */
  lemma {:induction false} RowOfKeys(headers: seq<string>, values: seq<string>)
    requires Seqs.NoDuplicates(headers)
    ensures Keys(RowOf(headers, values)) == headers
    ensures UniqueKeys(RowOf(headers, values))
    decreases |headers|
  {
    if |headers| > 0 {
      var n := |headers| - 1;
      var init := headers[..n];
      assert Seqs.NoDuplicates(init);
      RowOfKeys(init, values);
      assert headers[n] !in init;
      assert init + [headers[n]] == headers;
      PutKeys(RowOf(init, values), headers[n], CellValue(values, n));
      PutUnique(RowOf(init, values), headers[n], CellValue(values, n));
    }
  }

  /** With distinct headers each header holds the cell below it; a short
      line leaves the trailing headers `undefined`. */
  lemma {:induction false} RowOfGet(headers: seq<string>, values: seq<string>, i: nat)
    requires Seqs.NoDuplicates(headers) && i < |headers|
    ensures Get(RowOf(headers, values), headers[i]) == CellValue(values, i)
    decreases |headers|
  {
    var n := |headers| - 1;
    var init := headers[..n];
    PutGet(RowOf(init, values), headers[n], CellValue(values, n), headers[i]);
    if i < n {
      Seqs.NoDuplicatesInit(headers);
      RowOfGet(init, values, i);
      assert headers[i] == init[i];
    }
  }

  /** `line.split(',').map(v => v.trim())`. */
  function Fields(line: string): seq<string> {
    TrimAll(Split(line, ','))
  }

  /** One object per line, keyed by the headers. */
  function RowsOf(headers: seq<string>, lines: seq<string>): (rows: seq<Obj>)
    ensures |rows| == |lines|
    ensures forall i :: 0 <= i < |lines| ==> rows[i] == RowOf(headers, Fields(lines[i]))
  {
    seq(|lines|, i requires 0 <= i < |lines| => RowOf(headers, Fields(lines[i])))
  }

  /** `parseCSV(csvContent)`: nothing unless the trimmed text has a header
      line and at least one more line; then one object per later line,
      blank lines included. */
  function ParseCsv(content: string): (rows: seq<Obj>)
    ensures |rows| == 0 || |rows| == Count(Trim(content), '\n')
    ensures '\n' !in Trim(content) ==> rows == []
  {
    var lines := Split(Trim(content), '\n');
    if |lines| < 2 then
      NoLineBreak(Trim(content));
      []
    else RowsOf(Fields(lines[0]), lines[1..])
  }

  /** The rows `parseCSV` builds, one per line after the header. */
  lemma ParseCsvRows(content: string)
    ensures var lines := Split(Trim(content), '\n');
      |lines| >= 2 ==> ParseCsv(content) == RowsOf(Fields(lines[0]), lines[1..])
  {
  }

  lemma {:induction false} NoLineBreak(s: string)
    ensures Count(s, '\n') == 0 <==> '\n' !in s
    decreases |s|
  {
    if |s| > 0 {
      NoLineBreak(s[1..]);
      assert s == [s[0]] + s[1..];
    }
  }

  /** The header line: the first record's keys. */
  function HeaderLine(data: seq<Obj>): string
    requires |data| > 0
  {
    Join(Keys(data[0]), ",")
  }

  /** One record written under the given keys: a missing key is an empty
      field. */
  function ValuesOf(row: Obj, keys: seq<string>): (vs: seq<string>)
    ensures |vs| == |keys|
    ensures forall j :: 0 <= j < |keys| ==> vs[j] == Display(Get(row, keys[j]))
  {
    seq(|keys|, j requires 0 <= j < |keys| => Display(Get(row, keys[j])))
  }

  function Lines(data: seq<Obj>, keys: seq<string>): (ls: seq<string>)
    ensures |ls| == |data|
    ensures forall i :: 0 <= i < |data| ==> ls[i] == Join(ValuesOf(data[i], keys), ",")
  {
    seq(|data|, i requires 0 <= i < |data| => Join(ValuesOf(data[i], keys), ","))
  }

  /** The text `exportToCSV` downloads; nothing for an empty list. */
  function CsvText(data: seq<Obj>): (t: Option<string>)
    ensures t.None? <==> |data| == 0
  {
    if |data| == 0 then None
    else Some(Join([HeaderLine(data)] + Lines(data, Keys(data[0])), "\n"))
  }

  /** A value the text can carry unchanged: no separator, no line break,
      no edge white space, not empty. */
  predicate Clean(s: string) {
    |s| > 0 && ',' !in s && '\n' !in s && NoEdgeSpace(s)
  }

  /** A record with exactly the given keys, each holding clean text. */
  ghost predicate CleanRow(row: Obj, keys: seq<string>) {
    Keys(row) == keys && UniqueKeys(row)
    && forall j :: 0 <= j < |row| ==> row[j].value.Text? && Clean(row[j].value.s)
  }

  /** Records of one shape with clean keys and clean text values. */
  ghost predicate Uniform(data: seq<Obj>) {
    |data| > 0 && |data[0]| > 0
    && (forall j :: 0 <= j < |data[0]| ==> Clean(data[0][j].key))
    && forall i :: 0 <= i < |data| ==> CleanRow(data[i], Keys(data[0]))
  }

  /** A record of the uniform shape is its own values under its keys. */
  lemma {:induction false} RowOfValues(row: Obj, n: nat)
    requires n <= |row| && UniqueKeys(row)
    requires forall j :: 0 <= j < |row| ==> row[j].value.Text?
    ensures RowOf(Keys(row)[..n], ValuesOf(row, Keys(row))) == row[..n]
    decreases n
  {
    if n > 0 {
      var keys := Keys(row);
      var prev := row[..n - 1];
      RowOfValues(row, n - 1);
      RowOfSnoc(keys, ValuesOf(row, keys), n);
      OwnCell(row, n - 1);
      PrefixFresh(row, n - 1);
      PutKeys(prev, keys[n - 1], row[n - 1].value);
      SnocEntry(row, n);
    }
  }

  /** The first `n` entries are the first `n - 1` and then the last one,
      rebuilt from its key and value. */
  lemma SnocEntry(row: Obj, n: nat)
    requires 0 < n <= |row|
    ensures row[..n - 1] + [Entry(Keys(row)[n - 1], row[n - 1].value)] == row[..n]
  {
  }

  /** Storing the first `n` headers is storing the first `n - 1` and then
      the last of them. */
  lemma RowOfSnoc(headers: seq<string>, values: seq<string>, n: nat)
    requires 0 < n <= |headers|
    ensures RowOf(headers[..n], values) == Put(RowOf(headers[..n - 1], values), headers[n - 1], CellValue(values, n - 1))
  {
    assert headers[..n][..n - 1] == headers[..n - 1];
  }

  /** A text entry of a record with distinct keys is the cell written for
      its key. */
  lemma OwnCell(row: Obj, j: nat)
    requires j < |row| && UniqueKeys(row) && row[j].value.Text?
    ensures CellValue(ValuesOf(row, Keys(row)), j) == row[j].value
  {
    GetAt(row, j);
  }

  /** With distinct keys, an entry's key is not among the keys before it. */
  lemma PrefixFresh(row: Obj, j: nat)
    requires j < |row| && UniqueKeys(row)
    ensures Keys(row[..j]) == Keys(row)[..j]
    ensures row[j].key !in Keys(row[..j])
  {
  }

  /** A clean record's fields, in key order, are its own text values. */
  lemma RowValues(row: Obj, keys: seq<string>)
    requires CleanRow(row, keys)
    ensures forall j :: 0 <= j < |keys| ==> ValuesOf(row, keys)[j] == row[j].value.s
    ensures forall j :: 0 <= j < |keys| ==> Clean(ValuesOf(row, keys)[j])
  {
    forall j | 0 <= j < |keys| ensures ValuesOf(row, keys)[j] == row[j].value.s {
      assert keys[j] == row[j].key;
      GetAt(row, j);
    }
  }

  /** A line of clean fields is non-empty, has clean edges and no line
      break. */
  lemma LineClean(parts: seq<string>)
    requires |parts| >= 1
    requires forall j :: 0 <= j < |parts| ==> Clean(parts[j])
    ensures |Join(parts, ",")| > 0 && NoEdgeSpace(Join(parts, ","))
    ensures '\n' !in Join(parts, ",")
  {
    JoinNoEdgeSpace(parts, ",");
    JoinEdges(parts, ",");
    JoinWithout(parts, ",", '\n');
  }

  /** A clean record's line is non-empty, has clean edges and no line
      break. */
  lemma RecordLineClean(row: Obj, keys: seq<string>)
    requires CleanRow(row, keys) && |keys| > 0
    ensures var line := Join(ValuesOf(row, keys), ",");
      |line| > 0 && NoEdgeSpace(line) && '\n' !in line
  {
    RowValues(row, keys);
    LineClean(ValuesOf(row, keys));
  }

  /** Every record line of clean records is non-empty, has clean edges and
      no line break. */
  lemma LinesClean(data: seq<Obj>, keys: seq<string>)
    requires |keys| > 0
    requires forall i :: 0 <= i < |data| ==> CleanRow(data[i], keys)
    ensures forall i :: 0 <= i < |data| ==>
      |Lines(data, keys)[i]| > 0 && NoEdgeSpace(Lines(data, keys)[i]) && '\n' !in Lines(data, keys)[i]
  {
    forall i | 0 <= i < |data|
      ensures |Lines(data, keys)[i]| > 0 && NoEdgeSpace(Lines(data, keys)[i]) && '\n' !in Lines(data, keys)[i]
    {
      RecordLineClean(data[i], keys);
    }
  }

  /** No line of the written text holds a line break, and the first and
      last lines have clean edges. */
  lemma TextLinesClean(data: seq<Obj>, all: seq<string>)
    requires Uniform(data)
    requires all == [HeaderLine(data)] + Lines(data, Keys(data[0]))
    ensures forall i :: 0 <= i < |all| ==> '\n' !in all[i]
    ensures |all[0]| > 0 && NoEdgeSpace(all[0])
    ensures |all[|all| - 1]| > 0 && NoEdgeSpace(all[|all| - 1])
  {
    var keys := Keys(data[0]);
    LineClean(keys);
    LinesClean(data, keys);
    EdgesClean(HeaderLine(data), Lines(data, keys), all);
  }

  /** A header followed by record lines, each non-empty with clean edges
      and no line break, has no line break in any line and clean first and
      last lines. */
  lemma EdgesClean(header: string, lines: seq<string>, all: seq<string>)
    requires all == [header] + lines
    requires |header| > 0 && NoEdgeSpace(header) && '\n' !in header
    requires forall i :: 0 <= i < |lines| ==> |lines[i]| > 0 && NoEdgeSpace(lines[i]) && '\n' !in lines[i]
    ensures forall i :: 0 <= i < |all| ==> '\n' !in all[i]
    ensures |all[0]| > 0 && NoEdgeSpace(all[0])
    ensures |all[|all| - 1]| > 0 && NoEdgeSpace(all[|all| - 1])
  {
    forall i | 1 <= i < |all| ensures '\n' !in all[i] {
      assert all[i] == lines[i - 1];
    }
  }

  /** The lines of the written text. */
  lemma TextLines(data: seq<Obj>)
    requires Uniform(data)
    ensures Split(Trim(CsvText(data).value), '\n') == [HeaderLine(data)] + Lines(data, Keys(data[0]))
  {
    var all := [HeaderLine(data)] + Lines(data, Keys(data[0]));
    TextLinesClean(data, all);
    JoinNoEdgeSpace(all, "\n");
    TrimKeeps(Join(all, "\n"));
    SplitJoin(all, '\n');
  }

  /** The fields of a written record line are its values. */
  lemma LineFields(row: Obj, keys: seq<string>)
    requires CleanRow(row, keys) && |keys| > 0
    ensures Fields(Join(ValuesOf(row, keys), ",")) == ValuesOf(row, keys)
  {
    var vs := ValuesOf(row, keys);
    RowValues(row, keys);
    SplitJoin(vs, ',');
    TrimAllKeeps(vs);
  }

  /** Storing a clean record's values under its keys rebuilds it. */
  lemma RowOfOwnValues(row: Obj, keys: seq<string>)
    requires CleanRow(row, keys)
    ensures RowOf(keys, ValuesOf(row, keys)) == row
  {
    RowOfValues(row, |row|);
    assert keys[..|row|] == keys;
    assert row[..|row|] == row;
  }

  /** A written record line reads back as the record. */
  lemma LineBack(row: Obj, keys: seq<string>)
    requires CleanRow(row, keys) && |keys| > 0
    ensures RowOf(keys, Fields(Join(ValuesOf(row, keys), ","))) == row
  {
    LineFields(row, keys);
    RowOfOwnValues(row, keys);
  }

  /** Written record lines read back as the records. */
  lemma LinesBack(data: seq<Obj>, keys: seq<string>)
    requires |keys| > 0
    requires forall i :: 0 <= i < |data| ==> CleanRow(data[i], keys)
    ensures RowsOf(keys, Lines(data, keys)) == data
  {
    var rows := RowsOf(keys, Lines(data, keys));
    forall i | 0 <= i < |data| ensures rows[i] == data[i] {
      LineBack(data[i], keys);
    }
  }

  /** The header line reads back as the keys. */
  lemma HeaderBack(data: seq<Obj>)
    requires Uniform(data)
    ensures Fields(HeaderLine(data)) == Keys(data[0])
  {
    var keys := Keys(data[0]);
    forall j | 0 <= j < |keys| ensures Clean(keys[j]) {
      assert keys[j] == data[0][j].key;
    }
    SplitJoin(keys, ',');
    TrimAllKeeps(keys);
  }

  /** Reading back what was written gives the records back, provided they
      share one shape and every key and value is clean. */
  lemma RoundTrip(data: seq<Obj>)
    requires Uniform(data)
    ensures ParseCsv(CsvText(data).value) == data
  {
    var keys := Keys(data[0]);
    var all := [HeaderLine(data)] + Lines(data, keys);
    TextLines(data);
    ParseCsvRows(CsvText(data).value);
    HeaderBack(data);
    assert all[1..] == Lines(data, keys);
    LinesBack(data, keys);
  }

  // The daily report.

  /** One line of `generateDailyReport`. */
  datatype ReportRow = ReportRow(
    agentId: string,
    agentName: string,
    team: Option<string>,
    date: string,
    totals: Totals,
    average: string)

  /** `totalCalls > 0 ? (totalCallTime / totalCalls).toFixed(2) : '0.00'`. */
  function AverageText(t: Totals): string {
    if t.calls > 0 then Numbers.FixedTwo(t.callTime, t.calls) else "0.00"
  }

  function ReportRowOf(rs: seq<CallRecord>, a: Agent, date: string): ReportRow {
    var t := AgentDay(rs, a.id, date);
    ReportRow(a.id, a.name, a.teamId, date, t, AverageText(t))
  }

  /** `generateDailyReport(agents, callData, date)`: one row per agent, in
      roster order, totalling that agent's records of the date. */
  function DailyReport(agents: seq<Agent>, rs: seq<CallRecord>, date: string): (rows: seq<ReportRow>)
    ensures |rows| == |agents|
    ensures forall i :: 0 <= i < |agents| ==>
      rows[i].agentId == agents[i].id && rows[i].agentName == agents[i].name
      && rows[i].team == agents[i].teamId && rows[i].date == date
  {
    seq(|agents|, i requires 0 <= i < |agents| => ReportRowOf(rs, agents[i], date))
  }

  function RowTotals(rows: seq<ReportRow>): seq<Totals> {
    Seqs.Map(rows, (r: ReportRow) => r.totals)
  }

  /** Each row totals exactly its agent's records of the date. */
  lemma ReportRowTotals(agents: seq<Agent>, rs: seq<CallRecord>, date: string)
    ensures RowTotals(DailyReport(agents, rs, date)) == Groups.Totalled(rs, Groups.AgentGroups(Groups.Ids(agents), date))
  {
  }

  /** With distinct agent ids the report's rows add up to the day's totals
      over the roster's records: no record counted twice or dropped. */
  lemma ReportAddsUp(agents: seq<Agent>, rs: seq<CallRecord>, date: string)
    requires UniqueAgentIds(agents)
    ensures Groups.SumAll(RowTotals(DailyReport(agents, rs, date)))
         == Sum(Seqs.Filter(rs, Groups.RosterOn(agents, date)))
  {
    ReportRowTotals(agents, rs, date);
    Groups.RosterTotals(rs, agents, date);
  }

  /** The average column: "0.00" without calls, otherwise a two-decimal
      number within half a hundredth of call time over calls. */
  lemma ReportAverage(t: Totals)
    requires t.callTime >= 0
    ensures t.calls <= 0 ==> AverageText(t) == "0.00"
    ensures t.calls > 0 ==>
      var c := Numbers.RoundedCents(t.callTime, t.calls);
      Numbers.ReadsAsCents(AverageText(t), c)
      && t.calls * (2 * c - 1) <= 200 * t.callTime < t.calls * (2 * c + 1)
  {
    if t.calls > 0 {
      Numbers.FixedTwoReadsBack(t.callTime, t.calls);
    }
  }

  /** The report columns, in the order the export writes them. */
  const ReportColumns: seq<string> := [
    "Agent ID", "Agent Name", "Team", "Date", "Total Calls",
    "Total Call Time (minutes)", "Total Sales", "Average Call Time (minutes)"]

  /** The object the report builds for a row; an agent without a team
      leaves `Team` undefined. */
  function ReportObj(row: ReportRow): (o: Obj)
    ensures Keys(o) == ReportColumns
  {
    [Entry("Agent ID", Text(row.agentId)),
     Entry("Agent Name", Text(row.agentName)),
     Entry("Team", if row.team.Some? then Text(row.team.value) else Absent),
     Entry("Date", Text(row.date)),
     Entry("Total Calls", Int(row.totals.calls)),
     Entry("Total Call Time (minutes)", Int(row.totals.callTime)),
     Entry("Total Sales", Int(row.totals.sales)),
     Entry("Average Call Time (minutes)", Text(row.average))]
  }
}

=== FILE: dashboard.dfy ===
/** The main screen: today's overview cards, the tab bar offered to the
    signed-in role, and the guards that decide which panel renders. */
module Dashboard {
  import opened Wrappers
  import opened Domain
  import opened Totals
  import Seqs
  import Numbers
  import Sorting
  import HourlyBreakdown

  datatype Overview = Overview(totals: Totals, activeAgents: nat, callTimeHours: int)

  /** `todayData` and the four cards: calls, distinct agents with a record
      today, sales, and call time as `Math.round(minutes / 60)` hours. */
  function TodayOverview(rs: seq<CallRecord>, today: string): Overview {
    var todayData := Seqs.Filter(rs, OnDate(today));
    var t := Sum(todayData);
    Overview(t, ActiveAgents(todayData), Numbers.RoundDiv60(t.callTime))
  }

  /** The cards sum today's records; the agent count is the number of
      distinct agent ids among them, at most one per record and at least
      one when there is any; the hours are the minutes to the nearest hour,
      a half hour rounding up. */
  lemma TodayOverviewMeans(rs: seq<CallRecord>, today: string)
    ensures var o := TodayOverview(rs, today);
      var todayData := Seqs.Filter(rs, OnDate(today));
      && o.totals == Sum(todayData)
      && o.activeAgents == |AgentIdSet(todayData)|
      && o.activeAgents <= |todayData|
      && (|todayData| > 0 ==> o.activeAgents >= 1)
      && 60 * o.callTimeHours - 30 <= o.totals.callTime < 60 * o.callTimeHours + 30
  {
    ActiveAgentsCount(Seqs.Filter(rs, OnDate(today)));
  }

  /** The overview's hourly chart gets today's records and filters them by
      the range today..today with no campaign: it keeps every one of them,
      so its bars and the cards describe the same records. */
  lemma OverviewChartKeepsToday(rs: seq<CallRecord>, agents: seq<Agent>, teams: seq<Team>, today: string)
    ensures var todayData := Seqs.Filter(rs, OnDate(today));
      HourlyBreakdown.Breakdown(todayData, agents, teams, today, today, "") == HourlyBreakdown.Rows(todayData)
  {
    var todayData := Seqs.Filter(rs, OnDate(today));
    var p := HourlyBreakdown.Passes(agents, teams, today, today, "");
    Seqs.FilterMembers(rs, OnDate(today));
    forall r | r in todayData ensures p(r) {
      Sorting.StrLeTotal(today, today);
    }
    Seqs.FilterAll(todayData, p);
  }

  /** Only records of today pass the range today..today. */
  lemma RangeOfOneDay(agents: seq<Agent>, teams: seq<Team>, today: string, r: CallRecord)
    ensures HourlyBreakdown.Passes(agents, teams, today, today, "")(r) <==> r.date == today
  {
    Sorting.StrLeTotal(today, today);
    if HourlyBreakdown.Passes(agents, teams, today, today, "")(r) {
      Sorting.StrLeAntisymmetric(today, r.date);
    }
  }

  // Tabs.

  datatype Tab =
    | OverviewTab | AgentsTab | CampaignsTab | CampaignDashboardTab | HourlyTab | RotatingTab
    | AgentManagementTab | ImportTab | AgentImportTab | AdminTab

  /** `tabs`: six for everyone, then three for administrators, then the
      admin panel for super-administrators. */
  function Tabs(isAdmin: bool, isSuperAdmin: bool): (ts: seq<Tab>)
    ensures 6 <= |ts| <= 10
  {
    [OverviewTab, AgentsTab, CampaignsTab, CampaignDashboardTab, HourlyTab, RotatingTab]
    + (if isAdmin then [AgentManagementTab, ImportTab, AgentImportTab] else [])
    + (if isSuperAdmin then [AdminTab] else [])
  }

  /** The role a tab's panel is guarded by. */
  predicate Permitted(tab: Tab, isAdmin: bool, isSuperAdmin: bool) {
    match tab
    case AgentManagementTab => isAdmin
    case ImportTab => isAdmin
    case AgentImportTab => isAdmin
    case AdminTab => isSuperAdmin
    case _ => true
  }

  /** The panel rendered below the tab bar: none while loading or after an
      error, and none for a tab whose role guard fails. */
  function Panel(active: Tab, isAdmin: bool, isSuperAdmin: bool, loading: bool, failed: bool): (p: Option<Tab>)
    ensures p.Some? ==> p.value == active
  {
    if !loading && !failed && Permitted(active, isAdmin, isSuperAdmin) then Some(active) else None
  }

  /** The tab bar offers exactly the tabs whose panels may render, each
      once; a super-administrator who is not an administrator sees the
      admin panel without the three administrator tabs. */
  lemma TabsMatchGuards(isAdmin: bool, isSuperAdmin: bool)
    ensures forall t :: t in Tabs(isAdmin, isSuperAdmin) <==> Permitted(t, isAdmin, isSuperAdmin)
    ensures Seqs.NoDuplicates(Tabs(isAdmin, isSuperAdmin))
    ensures |Tabs(isAdmin, isSuperAdmin)| == 6 + (if isAdmin then 3 else 0) + (if isSuperAdmin then 1 else 0)
  {
  }

  /** A panel renders exactly when data is loaded without error and its
      tab is on the bar. */
  lemma PanelIff(active: Tab, isAdmin: bool, isSuperAdmin: bool, loading: bool, failed: bool)
    ensures Panel(active, isAdmin, isSuperAdmin, loading, failed) == Some(active)
      <==> !loading && !failed && active in Tabs(isAdmin, isSuperAdmin)
  {
    TabsMatchGuards(isAdmin, isSuperAdmin);
  }

  // Header.

  function IsActive(a: Agent): bool {
    a.isActive
  }

  /** `agents.filter(agent => agent.is_active).length`. */
  function ActiveRoster(agents: seq<Agent>): (n: nat)
    ensures n <= |agents|
  {
    |Seqs.Filter(agents, IsActive)|
  }

  /** The header count is the whole roster exactly when every agent is
      active, and zero exactly when none is. */
  lemma {:induction false} ActiveRosterMeans(agents: seq<Agent>)
    ensures ActiveRoster(agents) == |agents| <==> forall a :: a in agents ==> a.isActive
    ensures ActiveRoster(agents) == 0 <==> forall a :: a in agents ==> !a.isActive
    decreases |agents|
  {
    if |agents| > 0 {
      var t := agents[1..];
      ActiveRosterMeans(t);
      assert agents == [agents[0]] + t;
      assert forall a :: a in agents <==> a == agents[0] || a in t;
    }
  }
}

=== FILE: data_utils.dfy ===
/** The summary helpers of the original dashboard: per-agent and per-team
    totals for a day, and the minute and hour labels. */
module DataUtils {
  import opened Wrappers
  import opened Domain
  import opened Totals
  import Seqs
  import Groups
  import Numbers
  import Text

  // Daily summaries.

  datatype DailySummary = DailySummary(agentId: string, date: string, totals: Totals, averageCallTime: real)

  function SummaryOf(a: Agent, rs: seq<CallRecord>, date: string): DailySummary {
    var t := AgentDay(rs, a.id, date);
    DailySummary(a.id, date, t, Average(t.callTime, t.calls))
  }

  /** `calculateDailySummary`: one summary per agent, in agent order. */
  function DailySummaries(agents: seq<Agent>, rs: seq<CallRecord>, date: string): (ss: seq<DailySummary>)
    ensures |ss| == |agents|
    ensures forall i :: 0 <= i < |agents| ==> ss[i].agentId == agents[i].id && ss[i].date == date
    ensures forall i :: 0 <= i < |agents| ==> ss[i].totals == Sum(Seqs.Filter(rs, OfAgentOn(agents[i].id, date)))
    ensures forall i :: 0 <= i < |agents| ==> ss[i].averageCallTime == Average(ss[i].totals.callTime, ss[i].totals.calls)
  {
    seq(|agents|, i requires 0 <= i < |agents| => SummaryOf(agents[i], rs, date))
  }

  function SummaryTotals(ss: seq<DailySummary>): seq<Totals> {
    Seqs.Map(ss, (s: DailySummary) => s.totals)
  }

  /** With distinct agent ids the summaries add up to the day's total over
      the roster's records: no record is counted twice or lost. */
  lemma DailySummariesAddUp(agents: seq<Agent>, rs: seq<CallRecord>, date: string)
    requires UniqueAgentIds(agents)
    ensures Groups.SumAll(SummaryTotals(DailySummaries(agents, rs, date)))
         == Sum(Seqs.Filter(rs, Groups.RosterOn(agents, date)))
  {
    assert SummaryTotals(DailySummaries(agents, rs, date))
        == Groups.Totalled(rs, Groups.AgentGroups(Groups.Ids(agents), date));
    Groups.RosterTotals(rs, agents, date);
  }

  /** Two hours of one agent: 5 and 3 calls, 10 and 5 minutes, 1 and 0
      sales give 8 calls, 15 minutes, 1 sale and 1.875 minutes a call. */
  lemma DailySummaryExample(a: Agent, x: CallRecord, y: CallRecord, date: string)
    requires x.agentId == a.id && y.agentId == a.id && x.date == date && y.date == date
    requires x.callsMade == 5 && x.totalCallTime == 10 && x.salesMade == 1
    requires y.callsMade == 3 && y.totalCallTime == 5 && y.salesMade == 0
    ensures DailySummaries([a], [x, y], date)[0].totals == Totals(8, 15, 1)
    ensures DailySummaries([a], [x, y], date)[0].averageCallTime == 1.875
  {
    TwoHours(a, x, y, date);
  }

  /** An agent's two records of the day add up. */
  lemma TwoHours(a: Agent, x: CallRecord, y: CallRecord, date: string)
    requires x.agentId == a.id && y.agentId == a.id && x.date == date && y.date == date
    ensures DailySummaries([a], [x, y], date)[0].totals == Of(x).Plus(Of(y))
  {
    Seqs.FilterAll([x, y], OfAgentOn(a.id, date));
    SumCons(x, [y]);
    SumCons(y, []);
    assert [x] + [y] == [x, y];
    assert [y] + [] == [y];
  }

  // Team summaries.

  /** The day's records whose agent, found by id, has `team_id` = the team. */
  function InTeamOn(agents: seq<Agent>, teamId: string, date: string): Groups.Admits {
    (r: CallRecord) => AgentInTeam(agents, ByTeamId, teamId, r.agentId) && r.date == date
  }

  function IsMember(teamId: string): Agent -> bool {
    (a: Agent) => a.teamId == Some(teamId)
  }

  /** `agents.filter(agent => agent.teamId === team.id)`. */
  function TeamAgents(agents: seq<Agent>, teamId: string): (r: seq<Agent>)
    ensures forall a :: a in r <==> a in agents && a.teamId == Some(teamId)
  {
    Seqs.FilterMembers(agents, IsMember(teamId));
    Seqs.Filter(agents, IsMember(teamId))
  }

  datatype TeamSummary = TeamSummary(
    teamId: string,
    totals: Totals,
    agentCount: nat,
    averageCallTime: real,
    averageCallsPerAgent: real)

  function TeamSummaryOf(t: Team, agents: seq<Agent>, rs: seq<CallRecord>, date: string): TeamSummary {
    var tot := Sum(Seqs.Filter(rs, InTeamOn(agents, t.id, date)));
    var n := |TeamAgents(agents, t.id)|;
    TeamSummary(t.id, tot, n, Average(tot.callTime, tot.calls), Average(tot.calls, n))
  }

  /** `calculateTeamSummary`: one summary per team, in team order. */
  function TeamSummaries(teams: seq<Team>, agents: seq<Agent>, rs: seq<CallRecord>, date: string): (ss: seq<TeamSummary>)
    ensures |ss| == |teams|
    ensures forall i :: 0 <= i < |teams| ==> ss[i].teamId == teams[i].id
    ensures forall i :: 0 <= i < |teams| ==> ss[i].agentCount == |TeamAgents(agents, teams[i].id)|
    ensures forall i :: 0 <= i < |teams| ==> ss[i].totals == Sum(Seqs.Filter(rs, InTeamOn(agents, teams[i].id, date)))
    ensures forall i :: 0 <= i < |teams| ==> ss[i].averageCallsPerAgent == Average(ss[i].totals.calls, ss[i].agentCount)
  {
    seq(|teams|, i requires 0 <= i < |teams| => TeamSummaryOf(teams[i], agents, rs, date))
  }

  function TeamGroups(teams: seq<Team>, agents: seq<Agent>, date: string): (ps: seq<Groups.Admits>)
    ensures |ps| == |teams|
    ensures forall i :: 0 <= i < |teams| ==> ps[i] == InTeamOn(agents, teams[i].id, date)
  {
    seq(|teams|, i requires 0 <= i < |teams| => InTeamOn(agents, teams[i].id, date))
  }

  function TeamTotals(ss: seq<TeamSummary>): seq<Totals> {
    Seqs.Map(ss, (s: TeamSummary) => s.totals)
  }

  /** A record's agent has one team, so distinct teams share no record. */
  lemma TeamGroupsExclusive(teams: seq<Team>, agents: seq<Agent>, date: string)
    requires UniqueTeamIds(teams)
    ensures Groups.Exclusive(TeamGroups(teams, agents, date))
  {
    var ps := TeamGroups(teams, agents, date);
    forall i, j, r | 0 <= i < j < |ps| ensures !(ps[i](r) && ps[j](r)) {
      assert teams[i].id != teams[j].id;
    }
  }

  lemma TeamTotalsAreGroups(teams: seq<Team>, agents: seq<Agent>, rs: seq<CallRecord>, date: string)
    ensures TeamTotals(TeamSummaries(teams, agents, rs, date)) == Groups.Totalled(rs, TeamGroups(teams, agents, date))
  {
  }

  /** With distinct team ids and non-negative figures, the team totals add
      up to at most the day's total. */
  lemma TeamTotalsWithin(teams: seq<Team>, agents: seq<Agent>, rs: seq<CallRecord>, date: string)
    requires UniqueTeamIds(teams) && AllNonNegative(rs)
    ensures AtMost(Groups.SumAll(TeamTotals(TeamSummaries(teams, agents, rs, date))), Sum(Seqs.Filter(rs, OnDate(date))))
  {
    TeamGroupsExclusive(teams, agents, date);
    TeamTotalsAreGroups(teams, agents, rs, date);
    Groups.GroupsWithin(rs, TeamGroups(teams, agents, date), OnDate(date));
  }

  /** Every record of the day belongs to an agent of a listed team. */
  ghost predicate Covered(teams: seq<Team>, agents: seq<Agent>, rs: seq<CallRecord>, date: string) {
    forall r :: r in rs && r.date == date ==>
      exists i :: 0 <= i < |teams| && AgentInTeam(agents, ByTeamId, teams[i].id, r.agentId)
  }

  /** ... and exactly to it when every record of the day is covered. */
  lemma TeamTotalsCover(teams: seq<Team>, agents: seq<Agent>, rs: seq<CallRecord>, date: string)
    requires UniqueTeamIds(teams) && Covered(teams, agents, rs, date)
    ensures Groups.SumAll(TeamTotals(TeamSummaries(teams, agents, rs, date))) == Sum(Seqs.Filter(rs, OnDate(date)))
  {
    var ps := TeamGroups(teams, agents, date);
    TeamGroupsExclusive(teams, agents, date);
    TeamTotalsAreGroups(teams, agents, rs, date);
    forall r | r in rs && OnDate(date)(r) ensures exists i :: 0 <= i < |ps| && ps[i](r) {
      var i :| 0 <= i < |teams| && AgentInTeam(agents, ByTeamId, teams[i].id, r.agentId);
      assert ps[i](r);
    }
    Groups.GroupsCover(rs, ps, OnDate(date));
  }

  // Labels.

  /** JavaScript `%`: the remainder takes the sign of the dividend. */
  function JsRem(n: int, d: int): (r: int)
    requires d > 0
    ensures n >= 0 ==> 0 <= r < d
    ensures n < 0 ==> -d < r <= 0
    ensures n >= 0 ==> r == n % d
  {
    if n >= 0 then n % d else -((-n) % d)
  }

  /** `formatTime`: whole minutes as "Hh Mm", or "Mm" under an hour. */
  function FormatTime(minutes: int): string {
    var hours := minutes / 60;
    var mins := JsRem(minutes, 60);
    if hours > 0 then Numbers.IntToString(hours) + "h " + Numbers.IntToString(mins) + "m"
    else Numbers.IntToString(mins) + "m"
  }

  /** Reads a run of decimal digits. */
  function Digits(s: string): Option<nat> {
    if |s| > 0 && Numbers.AllDigits(s, 10) then Some(Numbers.ValueOf(s, 10)) else None
  }

  /** Reads a label back into minutes: "Mm" is M, "Hh Mm" is 60H + M. */
  function ReadTime(s: string): Option<int> {
    if |s| == 0 || s[|s| - 1] != 'm' then None
    else ReadParts(Text.Split(s[..|s| - 1], ' '))
  }

  /** The space-separated pieces of a label without its final "m". */
  function ReadParts(parts: seq<string>): Option<int> {
    if |parts| == 1 then
      match Digits(parts[0])
      case Some(m) => Some(m)
      case None => None
    else if |parts| == 2 && |parts[0]| > 0 && parts[0][|parts[0]| - 1] == 'h' then
      match (Digits(parts[0][..|parts[0]| - 1]), Digits(parts[1]))
      case (Some(h), Some(m)) => if m < 60 then Some(60 * h + m) else None
      case _ => None
    else None
  }

  /** Digits hold no space. */
  lemma NoSpaceInDigits(n: nat)
    ensures ' ' !in Numbers.NatToString(n)
  {
    var s := Numbers.NatToString(n);
    forall i | 0 <= i < |s| ensures s[i] != ' ' {
      assert Numbers.IsDigitIn(s[i], 10);
    }
  }

  /** Every label of a non-negative minute count reads back as that count:
      the hours and the minutes under sixty recombine to it. */
  lemma FormatTimeReadsBack(minutes: int)
    requires minutes >= 0
    ensures ReadTime(FormatTime(minutes)) == Some(minutes)
  {
    var h, m := minutes / 60, minutes % 60;
    FormatTimeShape(minutes, h, m);
    if h > 0 {
      LongTimeReadsBack(h, m);
    } else {
      ShortTimeReadsBack(m);
    }
  }

  /** The label of a non-negative count is built from its whole hours and
      the minutes left over. */
  lemma FormatTimeShape(minutes: int, h: int, m: int)
    requires minutes >= 0 && h == minutes / 60 && m == minutes % 60
    ensures h >= 0 && 0 <= m < 60 && minutes == 60 * h + m
    ensures FormatTime(minutes) == if h > 0 then Numbers.NatToString(h) + "h " + Numbers.NatToString(m) + "m"
                                   else Numbers.NatToString(m) + "m"
  {
    assert JsRem(minutes, 60) == m;
  }

  lemma ShortTimeReadsBack(m: nat)
    requires m < 60
    ensures ReadTime(Numbers.NatToString(m) + "m") == Some(m)
  {
    var ms := Numbers.NatToString(m);
    var s := ms + "m";
    assert s[..|s| - 1] == ms;
    assert Text.Split(ms, ' ') == [ms] by {
      NoSpaceInDigits(m);
      Text.SplitNoSep(ms, ' ');
    }
    assert ReadParts([ms]) == Some(m) by {
      Numbers.ValueOfNatToString(m);
    }
  }

  lemma LongTimeReadsBack(h: nat, m: nat)
    requires h > 0 && m < 60
    ensures ReadTime(Numbers.NatToString(h) + "h " + Numbers.NatToString(m) + "m") == Some(60 * h + m)
  {
    var hs := Numbers.NatToString(h);
    var ms := Numbers.NatToString(m);
    var s := hs + "h " + ms + "m";
    var body := (hs + "h") + " " + ms;
    assert s[..|s| - 1] == body;
    assert Text.Split(body, ' ') == [hs + "h", ms] by {
      NoSpaceInDigits(h);
      NoSpaceInDigits(m);
      SplitTwo(hs + "h", ms);
    }
    assert ReadParts([hs + "h", ms]) == Some(60 * h + m) by {
      LongParts(h, m);
    }
  }

  lemma LongParts(h: nat, m: nat)
    requires m < 60
    ensures ReadParts([Numbers.NatToString(h) + "h", Numbers.NatToString(m)]) == Some(60 * h + m)
  {
    var hs := Numbers.NatToString(h);
    assert (hs + "h")[..|hs + "h"| - 1] == hs;
    DigitsBack(h);
    DigitsBack(m);
  }

  /** A number's digits read back as the number. */
  lemma DigitsBack(n: nat)
    ensures Digits(Numbers.NatToString(n)) == Some(n)
  {
    Numbers.ValueOfNatToString(n);
  }

  /** Two pieces without spaces, joined by one, split back apart. */
  lemma SplitTwo(a: string, b: string)
    requires ' ' !in a && ' ' !in b
    ensures Text.Split(a + " " + b, ' ') == [a, b]
  {
    var parts := [a, b];
    assert Text.Join(parts, " ") == a + " " + b by {
      assert parts[1..] == [b];
    }
    Text.SplitJoin(parts, ' ');
  }

  /** The period of an hour of the day. */
  function Period(hour: int): string {
    if hour >= 12 then "PM" else "AM"
  }

  /** The 12-hour clock figure: 12 for midnight and noon. */
  function ClockHour(hour: int): (d: int)
    ensures 0 <= hour <= 23 ==> 1 <= d <= 12
  {
    if hour > 12 then hour - 12 else if hour == 0 then 12 else hour
  }

  /** `formatHour`: "H:00 AM" or "H:00 PM". */
  function FormatHour(hour: int): (r: string)
    ensures Text.EndsWith(r, "PM") <==> hour >= 12
  {
    Numbers.IntToString(ClockHour(hour)) + ":00 " + Period(hour)
  }

  /** The 24-hour clock hour a 12-hour figure and period denote. */
  function Hour24(clock: int, pm: bool): int {
    if pm then (if clock == 12 then 12 else clock + 12)
    else (if clock == 12 then 0 else clock)
  }

  /** The label determines the hour: figure and period give it back. */
  lemma FormatHourReadsBack(hour: int)
    requires 0 <= hour <= 23
    ensures Hour24(ClockHour(hour), Period(hour) == "PM") == hour
  {
  }
}

=== FILE: domain.dfy ===
/** The rows the dashboard works on. Two schema generations coexist: the
    older screens put an agent in a team through `team_id`, the newer ones
    through `campaign_team_id`; `Membership` says which field a screen reads. */
module Domain {
  import opened Wrappers
  import Text
  import Seqs

  datatype Agent = Agent(
    id: string,
    name: string,
    email: string,
    teamId: Option<string>,
    campaignTeamId: Option<string>,
    isActive: bool)

  /** A team (`teams` or `campaign_teams` row); `campaignId` is null for a
      team outside every campaign. */
  datatype Team = Team(id: string, name: string, color: string, campaignId: Option<string>)

  datatype Campaign = Campaign(id: string, name: string, color: string, isActive: bool)

  /** One agent's figures for one hour of one day; `totalCallTime` is in
      minutes. */
  datatype CallRecord = CallRecord(
    agentId: string,
    date: string,
    hour: int,
    callsMade: int,
    totalCallTime: int,
    salesMade: int)

  datatype Membership = ByTeamId | ByCampaignTeamId

  function TeamOf(a: Agent, m: Membership): Option<string> {
    match m
    case ByTeamId => a.teamId
    case ByCampaignTeamId => a.campaignTeamId
  }

  function HasId(id: string): Agent -> bool {
    (a: Agent) => a.id == id
  }

  /** `agents.find(a => a.id === id)`. */
  function AgentById(agents: seq<Agent>, id: string): (r: Option<Agent>)
    ensures r.Some? ==> r.value in agents && r.value.id == id
    ensures r.None? <==> forall a :: a in agents ==> a.id != id
  {
    Seqs.Find(agents, HasId(id))
  }

  /** `teams.find(t => t.id === id)`. */
  function TeamById(teams: seq<Team>, id: string): (r: Option<Team>)
    ensures r.Some? ==> r.value in teams && r.value.id == id
    ensures r.None? <==> forall t :: t in teams ==> t.id != id
  {
    Seqs.Find(teams, (t: Team) => t.id == id)
  }

  /** Roster names and imported names are compared lower-cased and
      trimmed. */
  function NameKey(name: string): string {
    Text.Trim(Text.Lower(name))
  }

  function NamedAs(name: string): Agent -> bool {
    (a: Agent) => NameKey(a.name) == NameKey(name)
  }

  /** `agents.find(a => a.name.toLowerCase().trim() === name.toLowerCase().trim())`. */
  function AgentByName(agents: seq<Agent>, name: string): (r: Option<Agent>)
    ensures r.Some? ==> r.value in agents && NameKey(r.value.name) == NameKey(name)
    ensures r.None? <==> forall a :: a in agents ==> NameKey(a.name) != NameKey(name)
    ensures r.Some? ==> exists i :: 0 <= i < |agents| && agents[i] == r.value && NoneNamedBefore(agents, name, i)
  {
    FindNamedFirst(agents, name);
    Seqs.Find(agents, NamedAs(name))
  }

  /** No agent before position `i` goes by `name`. */
  predicate NoneNamedBefore(agents: seq<Agent>, name: string, i: nat) {
    forall j :: 0 <= j < i && j < |agents| ==> NameKey(agents[j].name) != NameKey(name)
  }

  lemma FindNamedFirst(agents: seq<Agent>, name: string)
    ensures var r := Seqs.Find(agents, NamedAs(name));
      r.Some? ==> exists i :: 0 <= i < |agents| && agents[i] == r.value && NoneNamedBefore(agents, name, i)
  {
    var r := Seqs.Find(agents, NamedAs(name));
    if r.Some? {
      var i :| 0 <= i < |agents| && agents[i] == r.value && forall j :: 0 <= j < i ==> !NamedAs(name)(agents[j]);
      forall j | 0 <= j < i ensures NameKey(agents[j].name) != NameKey(name) {
        assert !NamedAs(name)(agents[j]);
      }
      assert NoneNamedBefore(agents, name, i);
    }
  }

  /** The first roster agent going by this name has this id. */
  ghost predicate FirstNamedAgent(agents: seq<Agent>, id: string, name: string) {
    exists i :: 0 <= i < |agents| && agents[i].id == id && NameKey(agents[i].name) == NameKey(name)
                && NoneNamedBefore(agents, name, i)
  }

  /** The roster has an agent with this id under this name. */
  ghost predicate NamedAgent(agents: seq<Agent>, id: string, name: string) {
    exists a :: a in agents && a.id == id && NameKey(a.name) == NameKey(name)
  }

  /** `agent?.team_id === teamId` for the agent found by the record's
      `agent_id`: false for an unknown agent and for an agent without a team. */
  predicate AgentInTeam(agents: seq<Agent>, m: Membership, teamId: string, agentId: string) {
    match AgentById(agents, agentId)
    case None => false
    case Some(a) => TeamOf(a, m) == Some(teamId)
  }

  /** Agent ids are primary keys: no two roster entries share one. */
  ghost predicate UniqueAgentIds(agents: seq<Agent>) {
    forall i, j :: 0 <= i < j < |agents| ==> agents[i].id != agents[j].id
  }

  ghost predicate UniqueTeamIds(teams: seq<Team>) {
    forall i, j :: 0 <= i < j < |teams| ==> teams[i].id != teams[j].id
  }

  ghost predicate UniqueCampaignIds(campaigns: seq<Campaign>) {
    forall i, j :: 0 <= i < j < |campaigns| ==> campaigns[i].id != campaigns[j].id
  }

  /** The record's agent is in the team exactly when some roster entry with
      that id is: with unique ids the first match is the only one. */
  lemma AgentInTeamIff(agents: seq<Agent>, m: Membership, teamId: string, agentId: string)
    requires UniqueAgentIds(agents)
    ensures AgentInTeam(agents, m, teamId, agentId)
        <==> exists a :: a in agents && a.id == agentId && TeamOf(a, m) == Some(teamId)
  {
    if exists a :: a in agents && a.id == agentId && TeamOf(a, m) == Some(teamId) {
      var a :| a in agents && a.id == agentId && TeamOf(a, m) == Some(teamId);
      var b := AgentById(agents, agentId).value;
      var i :| 0 <= i < |agents| && agents[i] == a;
      var j :| 0 <= j < |agents| && agents[j] == b;
      assert i == j;
    }
  }

  /** With distinct ids, finding a listed agent's id finds that agent. */
  lemma AgentByIdUnique(agents: seq<Agent>, a: Agent)
    requires UniqueAgentIds(agents) && a in agents
    ensures AgentById(agents, a.id) == Some(a)
  {
    var b := AgentById(agents, a.id).value;
    var i :| 0 <= i < |agents| && agents[i] == a;
    var j :| 0 <= j < |agents| && agents[j] == b;
    assert i == j;
  }

  /** With distinct ids, finding a listed team's id finds that team. */
  lemma TeamByIdUnique(teams: seq<Team>, t: Team)
    requires UniqueTeamIds(teams) && t in teams
    ensures TeamById(teams, t.id) == Some(t)
  {
    var u := TeamById(teams, t.id).value;
    var i :| 0 <= i < |teams| && teams[i] == t;
    var j :| 0 <= j < |teams| && teams[j] == u;
    assert i == j;
  }

  /** Filtering a roster keeps its ids distinct. */
  lemma {:induction false} FilterUniqueAgentIds(agents: seq<Agent>, p: Agent -> bool)
    requires UniqueAgentIds(agents)
    ensures UniqueAgentIds(Seqs.Filter(agents, p))
    decreases |agents|
  {
    if |agents| > 0 {
      var t := agents[1..];
      assert UniqueAgentIds(t) by {
        forall i, j | 0 <= i < j < |t| ensures t[i].id != t[j].id {
          assert t[i] == agents[i + 1] && t[j] == agents[j + 1];
        }
      }
      FilterUniqueAgentIds(t, p);
      var rest := Seqs.Filter(t, p);
      Seqs.FilterMembers(t, p);
      forall a | a in rest ensures a.id != agents[0].id {
        var k :| 0 <= k < |t| && t[k] == a;
        assert t[k] == agents[k + 1];
      }
      if p(agents[0]) {
        var r := Seqs.Filter(agents, p);
        assert r == [agents[0]] + rest;
        forall i, j | 0 <= i < j < |r| ensures r[i].id != r[j].id {
          assert r[j] == rest[j - 1];
          if i > 0 {
            assert r[i] == rest[i - 1];
          }
        }
      }
    }
  }
}

=== FILE: email_parser.dfy ===
/** `parseEmailCSV`: the call report attached to an e-mail, read by fixed
    column position. Column B (index 1) holds the agent's name, column E
    (index 4) the calls and column F (index 5) the talk time in seconds.
    Every record gets the date and hour the caller passes in, and no sales. */
module EmailParser {
  import opened Wrappers
  import opened Text
  import Numbers
  import CsvLine
  import Seqs
  import opened Domain

  /** `columns[k]?.trim()`: the trimmed cell, or nothing past the end. */
  function Cell(cols: seq<string>, k: nat): (c: Option<string>)
    ensures c.Some? <==> k < |cols|
    ensures c.Some? ==> NoEdgeSpace(c.value)
  {
    if k < |cols| then Some(Trim(cols[k])) else None
  }

  /** A cell that is neither missing nor empty (JavaScript truthiness). */
  predicate Present(c: Option<string>) {
    c.Some? && |c.value| > 0
  }

  /** The roster has an agent under this name. */
  ghost predicate Known(agents: seq<Agent>, name: string) {
    exists a :: a in agents && NameKey(a.name) == NameKey(name)
  }

  /** A data line can become a record: it has a name and a call count, and
      the name belongs to the roster. */
  ghost predicate Usable(line: string, agents: seq<Agent>) {
    var cols := CsvLine.ParseCsvLine(line);
    Present(Cell(cols, 1)) && Present(Cell(cols, 4)) && Known(agents, Cell(cols, 1).value)
  }

  /** One trimmed data line: a record for the first roster agent of that
      name, or nothing for a line without name or calls or with an unknown
      name. */
  function ParseRow(line: string, agents: seq<Agent>, date: string, hour: int): (r: Option<CallRecord>)
    ensures r.Some? <==> Usable(line, agents)
    ensures r.Some? ==> r.value.date == date && r.value.hour == hour && r.value.salesMade == 0
    ensures r.Some? ==> NamedAgent(agents, r.value.agentId, Cell(CsvLine.ParseCsvLine(line), 1).value)
    ensures r.Some? ==> FirstNamedAgent(agents, r.value.agentId, Cell(CsvLine.ParseCsvLine(line), 1).value)
    ensures r.Some? ==> r.value.callsMade == Numbers.ParseOrZero(Cell(CsvLine.ParseCsvLine(line), 4))
    ensures r.Some? ==>
      var secs := Numbers.ParseOrZero(Cell(CsvLine.ParseCsvLine(line), 5));
      60 * r.value.totalCallTime - 30 <= secs < 60 * r.value.totalCallTime + 30
  {
    var cols := CsvLine.ParseCsvLine(line);
    var name := Cell(cols, 1);
    var calls := Cell(cols, 4);
    if !Present(name) || !Present(calls) then None
    else match AgentByName(agents, name.value)
      case None => None
      case Some(a) =>
        var seconds := Numbers.ParseOrZero(Cell(cols, 5));
        Some(CallRecord(a.id, date, hour, Numbers.ParseOrZero(calls), Numbers.RoundDiv60(seconds), 0))
  }

  /** The well-formedness every imported record has. */
  ghost predicate Stamped(r: CallRecord, agents: seq<Agent>, date: string, hour: int) {
    r.date == date && r.hour == hour && r.salesMade == 0
    && exists a :: a in agents && a.id == r.agentId
  }

  /** The records of the data lines, in line order; blank lines are passed
      over. */
  function ParseLines(lines: seq<string>, agents: seq<Agent>, date: string, hour: int): (r: seq<CallRecord>)
    ensures |r| <= |lines|
    decreases |lines|
  {
    if |lines| == 0 then []
    else
      var rest := ParseLines(lines[1..], agents, date, hour);
      var line := Trim(lines[0]);
      if |line| == 0 then rest
      else match ParseRow(line, agents, date, hour)
        case None => rest
        case Some(rec) => [rec] + rest
  }

  /** The line that starts the report is a header when it mentions
      "agent" in any case. */
  predicate IsHeader(line: string) {
    Contains(Lower(line), "agent")
  }

  /** `parseEmailCSV(csvContent, agents, date, hour)`. */
  function ParseEmailCsv(content: string, agents: seq<Agent>, date: string, hour: int): (r: seq<CallRecord>)
    ensures |r| <= 1 + Count(Trim(content), '\n')
  {
    var lines := Split(Trim(content), '\n');
    if |lines| < 2 then []
    else if IsHeader(lines[0]) then ParseLines(lines[1..], agents, date, hour)
    else ParseLines(lines, agents, date, hour)
  }

  /** Every record carries the requested date and hour, no sales, and the
      id of a roster agent. */
  lemma {:induction false} ParseLinesStamped(lines: seq<string>, agents: seq<Agent>, date: string, hour: int)
    ensures forall rec :: rec in ParseLines(lines, agents, date, hour) ==> Stamped(rec, agents, date, hour)
    decreases |lines|
  {
    if |lines| > 0 {
      ParseLinesStamped(lines[1..], agents, date, hour);
    }
  }

  lemma ParseEmailCsvStamped(content: string, agents: seq<Agent>, date: string, hour: int)
    ensures forall rec :: rec in ParseEmailCsv(content, agents, date, hour) ==> Stamped(rec, agents, date, hour)
  {
    var lines := Split(Trim(content), '\n');
    if |lines| >= 2 {
      ParseLinesStamped(lines[1..], agents, date, hour);
      ParseLinesStamped(lines, agents, date, hour);
    }
  }

  /** Lines are read independently: the records of two blocks of lines are
      the records of the first followed by those of the second. */
  lemma {:induction false} ParseLinesAppend(a: seq<string>, b: seq<string>, agents: seq<Agent>, date: string, hour: int)
    ensures ParseLines(a + b, agents, date, hour) == ParseLines(a, agents, date, hour) + ParseLines(b, agents, date, hour)
    decreases |a|
  {
    if |a| == 0 {
      assert a + b == b;
    } else {
      assert (a + b)[1..] == a[1..] + b;
      ParseLinesAppend(a[1..], b, agents, date, hour);
    }
  }

  /** One line yields one record exactly when it is usable. */
  lemma ParseLinesSingle(line: string, agents: seq<Agent>, date: string, hour: int)
    ensures |ParseLines([line], agents, date, hour)| == if Usable(Trim(line), agents) then 1 else 0
  {
    var t := Trim(line);
    assert [line][1..] == [];
    if |t| == 0 {
      var cols := CsvLine.ParseCsvLine(t);
      CsvLine.ParseCsvLineSpec(t);
      CsvLine.FieldsWithoutQuotes(t);
      assert cols == [""];
    }
  }

  /** Content that is a single line after trimming, data or not, yields
      nothing. */
  lemma SingleLineYieldsNothing(content: string, agents: seq<Agent>, date: string, hour: int)
    requires '\n' !in Trim(content)
    ensures ParseEmailCsv(content, agents, date, hour) == []
  {
    SplitNoSep(Trim(content), '\n');
  }

  /** In content of two lines or more, the first line contributes its
      record unless it is a header; every later line is read as data. */
  lemma FirstLineRule(content: string, agents: seq<Agent>, date: string, hour: int)
    requires '\n' in Trim(content)
    ensures var lines := Split(Trim(content), '\n');
      ParseEmailCsv(content, agents, date, hour)
        == (if IsHeader(lines[0]) then [] else ParseLines([lines[0]], agents, date, hour))
           + ParseLines(lines[1..], agents, date, hour)
  {
    var lines := Split(Trim(content), '\n');
    CountPositive(Trim(content), '\n');
    if !IsHeader(lines[0]) {
      assert lines == [lines[0]] + lines[1..];
      ParseLinesAppend([lines[0]], lines[1..], agents, date, hour);
    } else {
      assert [] + ParseLines(lines[1..], agents, date, hour) == ParseLines(lines[1..], agents, date, hour);
    }
  }

  lemma {:induction false} CountPositive(s: string, c: char)
    requires c in s
    ensures Count(s, c) >= 1
    decreases |s|
  {
    if s[0] != c {
      CountPositive(s[1..], c);
    }
  }

  /** Only usable lines produce records, so a report whose lines are all
      unusable produces none. */
  lemma {:induction false} ParseLinesNone(lines: seq<string>, agents: seq<Agent>, date: string, hour: int)
    requires forall i :: 0 <= i < |lines| ==> !Usable(Trim(lines[i]), agents)
    ensures ParseLines(lines, agents, date, hour) == []
    decreases |lines|
  {
    if |lines| > 0 {
      ParseLinesNone(lines[1..], agents, date, hour);
      ParseLinesSingle(lines[0], agents, date, hour);
      assert lines == [lines[0]] + lines[1..];
      ParseLinesAppend([lines[0]], lines[1..], agents, date, hour);
    }
  }
}

=== FILE: extremes.dfy ===
/** `Math.max(...xs)` and `Math.min(...xs)` over integer lists, with the
    infinities JavaScript returns for an empty list. */
module Extremes {

  /** `Math.max(...xs)` and `Math.min(...xs)` are infinite on an empty
      list. */
  datatype Bound = NegInf | Fin(n: int) | PosInf

  /** `a > b` on bounds. */
  predicate Above(a: Bound, b: Bound) {
    match (a, b)
    case (Fin(x), Fin(y)) => x > y
    case (PosInf, PosInf) => false
    case (PosInf, _) => true
    case (_, NegInf) => a != NegInf
    case _ => false
  }

  /** `Math.max(...xs)`. */
  function MaxOf(xs: seq<int>): (b: Bound)
    ensures b != PosInf
    decreases |xs|
  {
    if |xs| == 0 then NegInf
    else
      var rest := MaxOf(xs[1..]);
      if rest.Fin? && rest.n > xs[0] then rest else Fin(xs[0])
  }

  /** `Math.min(...xs.filter(x => x > 0))`. */
  function MinPositive(xs: seq<int>): (b: Bound)
    ensures b != NegInf
    decreases |xs|
  {
    if |xs| == 0 then PosInf
    else
      var rest := MinPositive(xs[1..]);
      if xs[0] > 0 && (rest == PosInf || xs[0] <= rest.n) then Fin(xs[0]) else rest
  }

  /** Some member of the cohort is positive. */
  predicate HasPositive(xs: seq<int>) {
    exists i :: 0 <= i < |xs| && xs[i] > 0
  }

  /** The maximum is minus infinity only for no values, and otherwise one
      of the values and at least every one of them. */
  lemma {:induction false} MaxOfMeans(xs: seq<int>)
    ensures MaxOf(xs) == NegInf <==> |xs| == 0
    ensures MaxOf(xs) != PosInf
    ensures MaxOf(xs).Fin? ==> MaxOf(xs).n in xs && forall i :: 0 <= i < |xs| ==> xs[i] <= MaxOf(xs).n
    decreases |xs|
  {
    if |xs| > 0 {
      MaxOfMeans(xs[1..]);
      forall i | 1 <= i < |xs| ensures xs[i] == xs[1..][i - 1] { }
    }
  }

  /** The minimum over the positive values is plus infinity exactly when
      there is none, and otherwise a positive value at most every positive
      value. */
  lemma {:induction false} MinPositiveMeans(xs: seq<int>)
    ensures MinPositive(xs) == PosInf <==> !HasPositive(xs)
    ensures MinPositive(xs) != NegInf
    ensures MinPositive(xs).Fin? ==>
      MinPositive(xs).n in xs && MinPositive(xs).n > 0 &&
      forall i :: 0 <= i < |xs| && xs[i] > 0 ==> MinPositive(xs).n <= xs[i]
    decreases |xs|
  {
    if |xs| > 0 {
      MinPositiveMeans(xs[1..]);
      forall i | 1 <= i < |xs| ensures xs[i] == xs[1..][i - 1] { }
      if HasPositive(xs[1..]) {
        var j :| 0 <= j < |xs[1..]| && xs[1..][j] > 0;
        assert xs[j + 1] > 0;
      }
      if HasPositive(xs) && xs[0] <= 0 {
        var i :| 0 <= i < |xs| && xs[i] > 0;
        assert xs[1..][i - 1] > 0;
      }
    }
  }

  /** The lower bound is finite exactly when some value is positive, and
      then the upper bound is finite and no smaller. */
  lemma Bounds(xs: seq<int>)
    ensures MinPositive(xs) == PosInf <==> !HasPositive(xs)
    ensures MinPositive(xs).Fin? ==> MaxOf(xs).Fin? && 0 < MinPositive(xs).n <= MaxOf(xs).n
  {
    MaxOfMeans(xs);
    MinPositiveMeans(xs);
    if MinPositive(xs).Fin? {
      var i :| 0 <= i < |xs| && xs[i] == MinPositive(xs).n;
    }
  }
}

=== FILE: groups.dfy ===
/** The rollup every summary screen runs once per group (agent, team,
    campaign): each group is a record filter, and each group's totals are
    the sum over the records it admits. When no record belongs to two
    groups, the group totals add up to the total over the records some
    group admits; with non-negative figures they never exceed a total over
    a wider filter, and reach it when the groups cover every record. */
module Groups {
  import opened Domain
  import opened Totals
  import Seqs

  type Admits = CallRecord -> bool

  /** One total per group, in group order. */
  function Totalled(rs: seq<CallRecord>, ps: seq<Admits>): (ts: seq<Totals>)
    ensures |ts| == |ps|
    ensures forall i :: 0 <= i < |ps| ==> ts[i] == Sum(Seqs.Filter(rs, ps[i]))
  {
    seq(|ps|, i requires 0 <= i < |ps| => Sum(Seqs.Filter(rs, ps[i])))
  }

  /** The grand total of a column of totals. */
  function SumAll(ts: seq<Totals>): Totals
    decreases |ts|
  {
    if |ts| == 0 then Zero else ts[0].Plus(SumAll(ts[1..]))
  }

  /** Admitted by at least one group. */
  function AnyOf(ps: seq<Admits>): Admits
    decreases |ps|
  {
    if |ps| == 0 then (r: CallRecord) => false
    else (r: CallRecord) => ps[0](r) || AnyOf(ps[1..])(r)
  }

  lemma {:induction false} AnyOfMeans(ps: seq<Admits>, r: CallRecord)
    ensures AnyOf(ps)(r) <==> exists i :: 0 <= i < |ps| && ps[i](r)
    decreases |ps|
  {
    if |ps| > 0 {
      AnyOfMeans(ps[1..], r);
      if exists i :: 0 <= i < |ps| && ps[i](r) {
        var i :| 0 <= i < |ps| && ps[i](r);
        if i > 0 {
          assert ps[1..][i - 1] == ps[i];
        }
      }
      if exists j :: 0 <= j < |ps[1..]| && ps[1..][j](r) {
        var j :| 0 <= j < |ps[1..]| && ps[1..][j](r);
        assert ps[j + 1] == ps[1..][j];
      }
    }
  }

  /** No record is admitted by two groups. */
  ghost predicate Exclusive(ps: seq<Admits>) {
    forall i, j, r :: 0 <= i < j < |ps| ==> !(ps[i](r) && ps[j](r))
  }

  /** Exclusive groups add up to the total over the records some group
      admits: nothing is counted twice. */
  lemma {:induction false} GroupsAddUp(rs: seq<CallRecord>, ps: seq<Admits>)
    requires Exclusive(ps)
    ensures SumAll(Totalled(rs, ps)) == Sum(Seqs.Filter(rs, AnyOf(ps)))
    decreases |ps|
  {
    if |ps| == 0 {
      Seqs.FilterNone(rs, AnyOf(ps));
    } else {
      var t := ps[1..];
      TailExclusive(ps);
      GroupsAddUp(rs, t);
      TotalledTail(rs, ps);
      HeadApart(ps);
      SumFilterOr(rs, ps[0], AnyOf(t), AnyOf(ps));
    }
  }

  lemma TailExclusive(ps: seq<Admits>)
    requires |ps| > 0 && Exclusive(ps)
    ensures Exclusive(ps[1..])
  {
    var t := ps[1..];
    forall i, j, r | 0 <= i < j < |t| ensures !(t[i](r) && t[j](r)) {
      assert t[i] == ps[i + 1] && t[j] == ps[j + 1];
    }
  }

  lemma TotalledTail(rs: seq<CallRecord>, ps: seq<Admits>)
    requires |ps| > 0
    ensures SumAll(Totalled(rs, ps)) == Sum(Seqs.Filter(rs, ps[0])).Plus(SumAll(Totalled(rs, ps[1..])))
  {
    assert Totalled(rs, ps)[1..] == Totalled(rs, ps[1..]);
  }

  /** The first group shares no record with the rest. */
  lemma HeadApart(ps: seq<Admits>)
    requires |ps| > 0 && Exclusive(ps)
    ensures forall r :: !(ps[0](r) && AnyOf(ps[1..])(r))
  {
    var t := ps[1..];
    forall r ensures !(ps[0](r) && AnyOf(t)(r)) {
      AnyOfMeans(t, r);
      if AnyOf(t)(r) {
        var j :| 0 <= j < |t| && t[j](r);
        assert t[j] == ps[j + 1];
      }
    }
  }

  /** Groups inside a wider filter: with non-negative figures their grand
      total is at most the wider total. */
  lemma GroupsWithin(rs: seq<CallRecord>, ps: seq<Admits>, wide: Admits)
    requires Exclusive(ps) && AllNonNegative(rs)
    requires forall i, r :: 0 <= i < |ps| && ps[i](r) ==> wide(r)
    ensures AtMost(SumAll(Totalled(rs, ps)), Sum(Seqs.Filter(rs, wide)))
  {
    GroupsAddUp(rs, ps);
    forall r | AnyOf(ps)(r) ensures wide(r) {
      AnyOfMeans(ps, r);
    }
    SumFilterMonotone(rs, AnyOf(ps), wide);
  }

  /** ... and equal to it when every record the wider filter admits
      belongs to some group. */
  lemma GroupsCover(rs: seq<CallRecord>, ps: seq<Admits>, wide: Admits)
    requires Exclusive(ps)
    requires forall i, r :: 0 <= i < |ps| && ps[i](r) ==> wide(r)
    requires forall r :: r in rs && wide(r) ==> exists i :: 0 <= i < |ps| && ps[i](r)
    ensures SumAll(Totalled(rs, ps)) == Sum(Seqs.Filter(rs, wide))
  {
    GroupsAddUp(rs, ps);
    forall r | r in rs ensures AnyOf(ps)(r) == wide(r) {
      AnyOfMeans(ps, r);
    }
    Seqs.FilterSame(rs, AnyOf(ps), wide);
  }

  // Agents as groups.

  /** One group per agent id: that agent's records on the date. */
  function AgentGroups(ids: seq<string>, date: string): (ps: seq<Admits>)
    ensures |ps| == |ids|
    ensures forall i :: 0 <= i < |ids| ==> ps[i] == OfAgentOn(ids[i], date)
  {
    seq(|ids|, i requires 0 <= i < |ids| => OfAgentOn(ids[i], date))
  }

  /** Distinct ids give exclusive groups. */
  lemma AgentGroupsExclusive(ids: seq<string>, date: string)
    requires Seqs.NoDuplicates(ids)
    ensures Exclusive(AgentGroups(ids, date))
  {
    var ps := AgentGroups(ids, date);
    forall i, j, r | 0 <= i < j < |ps| ensures !(ps[i](r) && ps[j](r)) {
      assert ids[i] != ids[j];
    }
  }

  /** The ids of a roster, in roster order. */
  function Ids(agents: seq<Agent>): (ids: seq<string>)
    ensures |ids| == |agents|
    ensures forall i :: 0 <= i < |agents| ==> ids[i] == agents[i].id
  {
    seq(|agents|, i requires 0 <= i < |agents| => agents[i].id)
  }

  /** Records of the date whose agent is on the roster. */
  function RosterOn(agents: seq<Agent>, date: string): Admits {
    (r: CallRecord) => r.date == date && r.agentId in Ids(agents)
  }

  /** Per-agent day totals of a roster with distinct ids add up to the
      day's total over the roster's records. */
  lemma RosterTotals(rs: seq<CallRecord>, agents: seq<Agent>, date: string)
    requires UniqueAgentIds(agents)
    ensures SumAll(Totalled(rs, AgentGroups(Ids(agents), date))) == Sum(Seqs.Filter(rs, RosterOn(agents, date)))
  {
    var ids := Ids(agents);
    var ps := AgentGroups(ids, date);
    assert Seqs.NoDuplicates(ids) by {
      forall i, j | 0 <= i < j < |ids| ensures ids[i] != ids[j] {
        assert agents[i].id != agents[j].id;
      }
    }
    AgentGroupsExclusive(ids, date);
    forall r | r in rs && RosterOn(agents, date)(r) ensures exists i :: 0 <= i < |ps| && ps[i](r) {
      var i :| 0 <= i < |ids| && ids[i] == r.agentId;
      assert ps[i](r);
    }
    GroupsCover(rs, ps, RosterOn(agents, date));
  }
}

=== FILE: hourly_breakdown.dfy ===
/** The hourly breakdown: the records of a date range, optionally narrowed
    to one campaign through agent and campaign team, rolled up into the ten
    hours 8..17 with the distinct agents active in each, and the bar chart
    scaled to the busiest hour. */
module HourlyBreakdown {
  import opened Wrappers
  import opened Domain
  import opened Totals
  import Seqs
  import Sorting
  import Groups
  import Extremes

  /** `campaignTeams.find(t => t.id === agent?.campaign_team_id)?.campaign_id`:
      nothing for an unknown agent, an agent without a campaign team or an
      unknown team. */
  function CampaignOfRecord(agents: seq<Agent>, teams: seq<Team>, r: CallRecord): Option<string> {
    match AgentById(agents, r.agentId)
    case None => None
    case Some(a) =>
      match a.campaignTeamId
      case None => None
      case Some(tid) =>
        match TeamById(teams, tid)
        case None => None
        case Some(t) => t.campaignId
  }

  /** `filteredCallData`: `start <= date <= end` in string order, and the
      record's campaign when one is selected. */
  function Passes(agents: seq<Agent>, teams: seq<Team>, start: string, end: string, campaign: string): Groups.Admits {
    (r: CallRecord) =>
      && Sorting.StrLe(start, r.date) && Sorting.StrLe(r.date, end)
      && (campaign == "" || CampaignOfRecord(agents, teams, r) == Some(campaign))
  }

  /** With distinct agent and team ids, a record passes a campaign filter
      exactly when it is in the range and its agent's campaign team belongs
      to the campaign. */
  lemma PassesMeans(agents: seq<Agent>, teams: seq<Team>, start: string, end: string, campaign: string, r: CallRecord)
    requires UniqueAgentIds(agents) && UniqueTeamIds(teams) && campaign != ""
    ensures Passes(agents, teams, start, end, campaign)(r) <==>
      && Sorting.StrLe(start, r.date) && Sorting.StrLe(r.date, end)
      && exists a, t :: a in agents && t in teams && a.id == r.agentId && a.campaignTeamId == Some(t.id) && t.campaignId == Some(campaign)
  {
    if exists a, t :: a in agents && t in teams && a.id == r.agentId && a.campaignTeamId == Some(t.id) && t.campaignId == Some(campaign) {
      var a, t :| a in agents && t in teams && a.id == r.agentId && a.campaignTeamId == Some(t.id) && t.campaignId == Some(campaign);
      AgentByIdUnique(agents, a);
      TeamByIdUnique(teams, t);
    }
  }

  /** With no campaign selected, only the date range filters. */
  lemma NoCampaignFiltersDatesOnly(agents: seq<Agent>, teams: seq<Team>, start: string, end: string, r: CallRecord)
    ensures Passes(agents, teams, start, end, "")(r) <==> Sorting.StrLe(start, r.date) && Sorting.StrLe(r.date, end)
  {
  }

  datatype HourRow = HourRow(hour: int, totals: Totals, activeAgents: nat, averageCallTime: real)

  function RowAt(filtered: seq<CallRecord>, hour: int): (row: HourRow)
    ensures row.hour == hour
  {
    var hourData := Seqs.Filter(filtered, AtHour(hour));
    var t := Sum(hourData);
    HourRow(hour, t, ActiveAgents(hourData), Average(t.callTime, t.calls))
  }

  /** `hourlyData`: one row for each hour 8..17, in order. */
  function Rows(filtered: seq<CallRecord>): (rows: seq<HourRow>)
    ensures |rows| == BucketCount
    ensures forall j :: 0 <= j < |rows| ==> rows[j].hour == FirstHour + j
  {
    var rows := seq(BucketCount, j => RowAt(filtered, FirstHour + j));
    assert forall j :: 0 <= j < |rows| ==> rows[j] == RowAt(filtered, FirstHour + j);
    rows
  }

  function Breakdown(rs: seq<CallRecord>, agents: seq<Agent>, teams: seq<Team>, start: string, end: string, campaign: string): seq<HourRow> {
    Rows(Seqs.Filter(rs, Passes(agents, teams, start, end, campaign)))
  }

  /** Each row sums the records of its hour and counts their distinct
      agents, never more than its records and at least one when it has
      any; the average is guarded. */
  lemma RowMeans(filtered: seq<CallRecord>, j: nat)
    requires j < BucketCount
    ensures var row := Rows(filtered)[j];
      var hourData := Seqs.Filter(filtered, AtHour(FirstHour + j));
      && row.totals == Sum(hourData)
      && row.activeAgents == |AgentIdSet(hourData)|
      && row.activeAgents <= |hourData|
      && (|hourData| > 0 ==> row.activeAgents >= 1)
      && IsAverage(row.averageCallTime, row.totals.callTime, row.totals.calls)
  {
    assert Rows(filtered)[j] == RowAt(filtered, FirstHour + j);
    ActiveAgentsCount(Seqs.Filter(filtered, AtHour(FirstHour + j)));
  }

  function AsBuckets(rows: seq<HourRow>): (bs: seq<HourBucket>)
    ensures |bs| == |rows|
    ensures forall j :: 0 <= j < |rows| ==> bs[j] == HourBucket(rows[j].hour, rows[j].totals)
  {
    seq(|rows|, j requires 0 <= j < |rows| => HourBucket(rows[j].hour, rows[j].totals))
  }

  /** The rows add up to the records in hours 8..17; the filtered total is
      the rows plus the records outside those hours, which no row shows. */
  lemma RowsAddUp(filtered: seq<CallRecord>)
    ensures BucketSum(AsBuckets(Rows(filtered))) == Sum(Seqs.Filter(filtered, InHours(FirstHour, LastHour + 1)))
    ensures Sum(filtered) == BucketSum(AsBuckets(Rows(filtered))).Plus(Sum(Seqs.Filter(filtered, OutsideHours(FirstHour, LastHour + 1))))
  {
    var rows := Rows(filtered);
    assert AsBuckets(rows) == HourlyBuckets(filtered) by {
      forall j | 0 <= j < BucketCount ensures AsBuckets(rows)[j] == HourlyBuckets(filtered)[j] {
        assert rows[j] == RowAt(filtered, FirstHour + j);
      }
    }
    BucketsTotal(filtered, FirstHour, BucketCount);
    DayTotalSplit(filtered);
  }

  // The bars.

  function CallsColumn(rows: seq<HourRow>): (c: seq<int>)
    ensures |c| == |rows| && forall j :: 0 <= j < |rows| ==> c[j] == rows[j].totals.calls
  {
    seq(|rows|, j requires 0 <= j < |rows| => rows[j].totals.calls)
  }

  function SalesColumn(rows: seq<HourRow>): (c: seq<int>)
    ensures |c| == |rows| && forall j :: 0 <= j < |rows| ==> c[j] == rows[j].totals.sales
  {
    seq(|rows|, j requires 0 <= j < |rows| => rows[j].totals.sales)
  }

  /** `max > 0 ? value / max * 100 : 0`, with `max` the `Math.max` of the
      column: minus infinity for an empty one. */
  function BarWidth(value: int, max: Extremes.Bound): real {
    if max.Fin? && max.n > 0 then value as real / max.n as real * 100.0 else 0.0
  }

  /** Every bar of a value that is not negative lies in 0..100, the
      largest value fills its bar, and when no value is positive every bar
      is empty. */
  lemma BarsMeans(column: seq<int>)
    ensures forall j :: 0 <= j < |column| && column[j] >= 0 ==> 0.0 <= BarWidth(column[j], Extremes.MaxOf(column)) <= 100.0
    ensures forall j :: 0 <= j < |column| && Extremes.MaxOf(column) == Extremes.Fin(column[j]) && column[j] > 0 ==>
      BarWidth(column[j], Extremes.MaxOf(column)) == 100.0
    ensures (forall j :: 0 <= j < |column| ==> column[j] <= 0) ==>
      forall j :: 0 <= j < |column| ==> BarWidth(column[j], Extremes.MaxOf(column)) == 0.0
  {
    var m := Extremes.MaxOf(column);
    Extremes.MaxOfMeans(column);
    forall j | 0 <= j < |column| && column[j] >= 0 ensures 0.0 <= BarWidth(column[j], m) <= 100.0 {
      if m.Fin? && m.n > 0 {
        BarWithin(column[j], m.n);
      }
    }
    forall j | 0 <= j < |column| && m == Extremes.Fin(column[j]) && column[j] > 0
      ensures BarWidth(column[j], m) == 100.0
    {
      BarFull(column[j]);
    }
    if forall j :: 0 <= j < |column| ==> column[j] <= 0 {
      assert !(m.Fin? && m.n > 0);
    }
  }

  lemma BarWithin(v: int, max: int)
    requires 0 <= v <= max && max >= 1
    ensures 0.0 <= BarWidth(v, Extremes.Fin(max)) <= 100.0
  {
    var q := v as real / max as real;
    assert q * max as real == v as real;
    assert 0.0 <= q <= 1.0;
  }

  lemma BarFull(v: int)
    requires v >= 1
    ensures BarWidth(v, Extremes.Fin(v)) == 100.0
  {
  }

  /** Non-negative records give non-negative rows, so every call and sales
      bar of the breakdown lies in 0..100. */
  lemma RowsNonNegative(filtered: seq<CallRecord>)
    requires AllNonNegative(filtered)
    ensures forall j :: 0 <= j < BucketCount ==> Rows(filtered)[j].totals.calls >= 0 && Rows(filtered)[j].totals.sales >= 0
  {
    var none := (r: CallRecord) => false;
    Seqs.FilterNone(filtered, none);
    forall j | 0 <= j < BucketCount
      ensures Rows(filtered)[j].totals.calls >= 0 && Rows(filtered)[j].totals.sales >= 0
    {
      assert Rows(filtered)[j] == RowAt(filtered, FirstHour + j);
      SumFilterMonotone(filtered, none, AtHour(FirstHour + j));
    }
  }
}

=== FILE: import_export.dfy ===
/** The call-data import and the daily export of the import/export screen.
    The import reads a CSV file whose columns are found by name, turns each
    row into an hourly record for a roster agent dated today, keeps the
    hours the user selected and hands the batch to the store; the export
    writes one report line per agent. "Today", the current hour and the
    store's answer are parameters. */
module ImportExport {
  import opened Wrappers
  import opened Text
  import Numbers
  import opened Objects
  import Seqs
  import opened Domain
  import opened Totals
  import Sorting
  import CsvUtils
  import Groups
  import Store

  // parseCSV: lower-cased headers, blank cells left out, empty rows dropped.

  function LowerAll(parts: seq<string>): (r: seq<string>)
    ensures |r| == |parts|
    ensures forall i :: 0 <= i < |parts| ==> r[i] == Lower(parts[i])
  {
    seq(|parts|, i requires 0 <= i < |parts| => Lower(parts[i]))
  }

  /** `h.trim().toLowerCase()` for every header cell. */
  function HeaderKeys(line: string): seq<string> {
    LowerAll(CsvUtils.Fields(line))
  }

  /** `values[index] && values[index] !== ''`: the cell exists and is not
      empty. */
  predicate Kept(values: seq<string>, i: nat) {
    i < |values| && |values[i]| > 0
  }

  /** The object of one line: each header in turn takes its cell when the
      cell is kept; a repeated header takes the later kept cell. */
  function SparseRow(headers: seq<string>, values: seq<string>): Obj
    decreases |headers|
  {
    if |headers| == 0 then []
    else
      var n := |headers| - 1;
      var prev := SparseRow(headers[..n], values);
      if Kept(values, n) then Put(prev, headers[n], Text(values[n])) else prev
  }

  /** A key is present exactly when some header of that name has a kept
      cell. */
  lemma {:induction false} SparseRowKeys(headers: seq<string>, values: seq<string>, k: string)
    ensures k in Keys(SparseRow(headers, values))
        <==> exists i :: 0 <= i < |headers| && headers[i] == k && Kept(values, i)
    decreases |headers|
  {
    if |headers| > 0 {
      var n := |headers| - 1;
      var prev := SparseRow(headers[..n], values);
      SparseRowKeys(headers[..n], values, k);
      if Kept(values, n) {
        PutKeys(prev, headers[n], Text(values[n]));
      }
      KeptSnoc(headers, values, k);
    }
  }

  /** Some header of a non-empty list names `k` with a kept cell exactly
      when one of all but the last does, or the last does. */
  lemma KeptSnoc(headers: seq<string>, values: seq<string>, k: string)
    requires |headers| > 0
    ensures var n := |headers| - 1;
      (exists i :: 0 <= i < |headers| && headers[i] == k && Kept(values, i))
      <==> (exists i :: 0 <= i < |headers[..n]| && headers[..n][i] == k && Kept(values, i))
           || (headers[n] == k && Kept(values, n))
  {
    var n := |headers| - 1;
    if exists i :: 0 <= i < |headers| && headers[i] == k && Kept(values, i) {
      var i :| 0 <= i < |headers| && headers[i] == k && Kept(values, i);
      if i < n {
        assert headers[..n][i] == k;
      }
    }
    if exists i :: 0 <= i < |headers[..n]| && headers[..n][i] == k && Kept(values, i) {
      var i :| 0 <= i < |headers[..n]| && headers[..n][i] == k && Kept(values, i);
      assert headers[i] == k;
    }
  }

  /** Every value of a parsed row is a non-empty cell with clean edges. */
  ghost predicate TextCells(row: Obj) {
    forall e :: e in row ==> e.value.Text? && |e.value.s| > 0 && NoEdgeSpace(e.value.s)
  }

  lemma {:induction false} SparseRowCells(headers: seq<string>, values: seq<string>)
    requires forall i :: 0 <= i < |values| ==> NoEdgeSpace(values[i])
    ensures TextCells(SparseRow(headers, values))
    decreases |headers|
  {
    if |headers| > 0 {
      var n := |headers| - 1;
      SparseRowCells(headers[..n], values);
      if Kept(values, n) {
        PutEntries(SparseRow(headers[..n], values), headers[n], Text(values[n]));
      }
    }
  }

  /** A key reads the cell of the last header of that name whose cell is
      kept: a later assignment to `row[header]` overwrites an earlier one. */
  lemma {:induction false} SparseRowGet(headers: seq<string>, values: seq<string>, k: string, i: nat)
    requires i < |headers| && headers[i] == k && Kept(values, i)
    requires forall j :: i < j < |headers| && headers[j] == k ==> !Kept(values, j)
    ensures Get(SparseRow(headers, values), k) == Text(values[i])
    decreases |headers|
  {
    var n := |headers| - 1;
    var prev := SparseRow(headers[..n], values);
    if Kept(values, n) {
      PutGet(prev, headers[n], Text(values[n]), k);
    }
    if i < n {
      SparseRowGet(headers[..n], values, k, i);
    }
  }

  /** A key none of whose headers has a kept cell reads as `undefined`. */
  lemma SparseRowAbsent(headers: seq<string>, values: seq<string>, k: string)
    requires forall i :: 0 <= i < |headers| && headers[i] == k ==> !Kept(values, i)
    ensures Get(SparseRow(headers, values), k) == Absent
  {
    SparseRowKeys(headers, values, k);
  }

  /** The row object of one data line. */
  function LineRow(headers: seq<string>, line: string): Obj {
    SparseRow(headers, CsvUtils.Fields(line))
  }

  /** The row object of every data line, in line order. */
  function LineRows(headers: seq<string>, lines: seq<string>): (rows: seq<Obj>)
    ensures |rows| == |lines|
    ensures forall i :: 0 <= i < |lines| ==> rows[i] == LineRow(headers, lines[i])
  {
    seq(|lines|, i requires 0 <= i < |lines| => LineRow(headers, lines[i]))
  }

  predicate HasKey(row: Obj) {
    |row| > 0
  }

  /** The rows of the data lines that keep at least one cell, in line order. */
  function DataRows(headers: seq<string>, lines: seq<string>): (rows: seq<Obj>)
    ensures |rows| <= |lines|
  {
    Seqs.Filter(LineRows(headers, lines), HasKey)
  }

  /** One more line adds its row at the end, when the row has a key: rows
      come out in the order of their lines. */
  lemma DataRowsAppend(headers: seq<string>, lines: seq<string>, line: string)
    ensures DataRows(headers, lines + [line])
         == DataRows(headers, lines) + (if HasKey(LineRow(headers, line)) then [LineRow(headers, line)] else [])
  {
    var row := LineRow(headers, line);
    assert LineRows(headers, lines + [line]) == LineRows(headers, lines) + [row];
    Seqs.FilterAppend(LineRows(headers, lines), [row], HasKey);
    assert Seqs.Filter([row], HasKey) == (if HasKey(row) then [row] else []);
  }

  lemma FieldsClean(line: string)
    ensures forall i :: 0 <= i < |CsvUtils.Fields(line)| ==> NoEdgeSpace(CsvUtils.Fields(line)[i])
  {
  }

  /** Every returned row has a key and only non-empty trimmed text. */
  lemma DataRowsShape(headers: seq<string>, lines: seq<string>)
    ensures forall row :: row in DataRows(headers, lines) ==> |row| > 0 && TextCells(row)
  {
    var rows := LineRows(headers, lines);
    Seqs.FilterMembers(rows, HasKey);
    forall row | row in DataRows(headers, lines) ensures |row| > 0 && TextCells(row) {
      var i :| 0 <= i < |rows| && rows[i] == row;
      FieldsClean(lines[i]);
      SparseRowCells(headers, CsvUtils.Fields(lines[i]));
    }
  }

  /** `parseCSV(csvContent)` of the import screen. */
  function ParseCsv(content: string): (rows: seq<Obj>)
    ensures |rows| <= Count(Trim(content), '\n')
  {
    var lines := Split(Trim(content), '\n');
    if |lines| < 2 then [] else DataRows(HeaderKeys(lines[0]), lines[1..])
  }

  lemma ParseCsvShape(content: string)
    ensures '\n' !in Trim(content) ==> ParseCsv(content) == []
    ensures forall row :: row in ParseCsv(content) ==> |row| > 0 && TextCells(row)
  {
    var lines := Split(Trim(content), '\n');
    CsvUtils.NoLineBreak(Trim(content));
    if |lines| >= 2 {
      DataRowsShape(HeaderKeys(lines[0]), lines[1..]);
    }
  }

  // Column resolution.

  /** The agent-name column: a key mentioning both "agent" and "name", or
      exactly "name" or "agent". */
  predicate IsAgentColumn(k: string) {
    (Contains(k, "agent") && Contains(k, "name")) || k == "name" || k == "agent"
  }

  predicate IsCallsColumn(k: string) {
    Contains(k, "call") || k == "calls"
  }

  predicate IsSecondsColumn(k: string) {
    Contains(k, "second") || Contains(k, "time")
  }

  predicate IsSalesColumn(k: string) {
    Contains(k, "sale") || Contains(k, "conversion")
  }

  predicate IsHourColumn(k: string) {
    Contains(k, "hour") || k == "time"
  }

  /** `Object.keys(row).find(p)`: the first key, in insertion order, that
      the test accepts. */
  function Column(row: Obj, p: string -> bool): (c: Option<string>)
    ensures c.Some? ==> c.value in Keys(row) && p(c.value)
    ensures c.None? <==> forall k :: k in Keys(row) ==> !p(k)
  {
    Seqs.Find(Keys(row), p)
  }

  ghost predicate FirstAccepted(row: Obj, p: string -> bool, k: string) {
    exists i :: 0 <= i < |row| && row[i].key == k && NoneBefore(row, p, i)
  }

  predicate NoneBefore(row: Obj, p: string -> bool, i: nat) {
    forall j :: 0 <= j < i && j < |row| ==> !p(row[j].key)
  }

  /** The column found is the first accepted key: no earlier key passes. */
  lemma ColumnIsFirst(row: Obj, p: string -> bool)
    requires Column(row, p).Some?
    ensures FirstAccepted(row, p, Column(row, p).value)
  {
    var i := Seqs.FindIndex(Keys(row), p).value;
    assert Keys(row)[i] == row[i].key;
    forall j | 0 <= j < i ensures !p(row[j].key) {
      assert Keys(row)[j] == row[j].key;
    }
  }

  // Row normalisation.

  /** JavaScript truthiness of a cell. */
  predicate Truthy(v: Value) {
    match v
    case Text(s) => |s| > 0
    case Int(n) => n != 0
    case Absent => false
  }

  /** The text `parseInt` reads from a cell; nothing for `undefined`. */
  function CellText(v: Value): Option<string> {
    match v
    case Text(s) => Some(s)
    case Int(n) => Some(Numbers.IntToString(n))
    case Absent => None
  }

  /** `parseInt(row[col])`, NaN written `None`. */
  function ParseCell(row: Obj, col: string): Option<int> {
    match CellText(Get(row, col))
    case None => None
    case Some(s) => Numbers.ParseInt(s)
  }

  /** `col ? parseInt(row[col]) || 0 : 0`: no column, an absent cell and
      a cell that does not start with a number all give 0. */
  function NumberOrZero(row: Obj, col: Option<string>): (n: int)
    ensures col.None? ==> n == 0
    ensures col.Some? && Get(row, col.value).Absent? ==> n == 0
    ensures col.Some? && Get(row, col.value).Text? ==>
      n == Numbers.ParseOrZero(Some(Get(row, col.value).s))
    ensures col.Some? && Get(row, col.value).Int? ==> n == Get(row, col.value).n
  {
    if col.Some? && Get(row, col.value).Int? then
      Numbers.ParseIntOfIntToStringAlone(Get(row, col.value).n);
      ParseCell(row, col.value).GetOr(0)
    else if col.None? then 0 else ParseCell(row, col.value).GetOr(0)
  }

  /** `if (hour < 8 || hour > 17) hour = Math.max(8, Math.min(17, hour))`.
      NaN compares false both ways and passes through unchanged. */
  function Clamp(h: Option<int>): (r: Option<int>)
    ensures r.None? <==> h.None?
    ensures r.Some? ==> FirstHour <= r.value <= LastHour
    ensures h.Some? && FirstHour <= h.value <= LastHour ==> r == h
    ensures h.Some? && h.value < FirstHour ==> r == Some(FirstHour)
    ensures h.Some? && h.value > LastHour ==> r == Some(LastHour)
  {
    match h
    case None => None
    case Some(v) =>
      if v < 8 || v > 17 then
        var low := if v < 17 then v else 17;
        Some(if 8 > low then 8 else low)
      else Some(v)
  }

  /** The row's hour: its hour column when it has one, otherwise the
      current hour; clamped into business hours. */
  function RowHour(row: Obj, currentHour: int): (h: Option<int>)
    ensures h.None? <==> (var col := Column(row, IsHourColumn);
      col.Some? && ParseCell(row, col.value).None?)
    ensures h.Some? ==> FirstHour <= h.value <= LastHour
    ensures Column(row, IsHourColumn).None? && FirstHour <= currentHour <= LastHour ==> h == Some(currentHour)
    ensures Column(row, IsHourColumn).None? ==> h == Clamp(Some(currentHour))
    ensures Column(row, IsHourColumn).Some? && Get(row, Column(row, IsHourColumn).value).Text? ==>
      h == Clamp(Numbers.ParseInt(Get(row, Column(row, IsHourColumn).value).s))
  {
    var col := Column(row, IsHourColumn);
    Clamp(if col.Some? then ParseCell(row, col.value) else Some(currentHour))
  }

  /** A record as the import builds it; `hour` is `None` for NaN. */
  datatype Imported = Imported(
    agentId: string,
    date: string,
    hour: Option<int>,
    callsMade: int,
    totalCallTime: int,
    salesMade: int)

  /** The columns resolved on the first row. */
  datatype Columns = Columns(agent: string, calls: string, seconds: Option<string>)

  datatype RowOutcome = Skipped | NotFound(name: string) | Found(rec: Imported)

  /** One parsed row: skipped without an agent name, an error for a name
      off the roster, otherwise a record for today. */
  function Normalise(row: Obj, cols: Columns, agents: seq<Agent>, today: string, currentHour: int): (o: RowOutcome)
    ensures o.Skipped? <==> !Truthy(Get(row, cols.agent))
    ensures o.NotFound? <==> Truthy(Get(row, cols.agent)) && AgentByName(agents, Display(Get(row, cols.agent))).None?
    ensures o.NotFound? ==> o.name == Display(Get(row, cols.agent))
    ensures o.Found? ==> NamedAgent(agents, o.rec.agentId, Display(Get(row, cols.agent)))
    ensures o.Found? ==> FirstNamedAgent(agents, o.rec.agentId, Display(Get(row, cols.agent)))
    ensures o.Found? ==> o.rec.date == today
    ensures o.Found? && o.rec.hour.Some? ==> FirstHour <= o.rec.hour.value <= LastHour
    ensures o.Found? ==> o.rec.hour == RowHour(row, currentHour)
    ensures o.Found? ==> o.rec.callsMade == NumberOrZero(row, Some(cols.calls))
    ensures o.Found? ==> o.rec.salesMade == NumberOrZero(row, Column(row, IsSalesColumn))
    ensures o.Found? ==>
      var secs := NumberOrZero(row, cols.seconds);
      60 * o.rec.totalCallTime - 30 <= secs < 60 * o.rec.totalCallTime + 30
  {
    var name := Get(row, cols.agent);
    if !Truthy(name) then Skipped
    else match AgentByName(agents, Display(name))
      case None => NotFound(Display(name))
      case Some(a) =>
        Found(Imported(
          a.id, today, RowHour(row, currentHour),
          NumberOrZero(row, Some(cols.calls)),
          Numbers.RoundDiv60(NumberOrZero(row, cols.seconds)),
          NumberOrZero(row, Column(row, IsSalesColumn))))
  }

  function Outcomes(rows: seq<Obj>, cols: Columns, agents: seq<Agent>, today: string, currentHour: int): (os: seq<RowOutcome>)
    ensures |os| == |rows|
    ensures forall i :: 0 <= i < |rows| ==> os[i] == Normalise(rows[i], cols, agents, today, currentHour)
  {
    seq(|rows|, i requires 0 <= i < |rows| => Normalise(rows[i], cols, agents, today, currentHour))
  }

  /** The records of the outcomes, in row order. */
  function RecordsOf(os: seq<RowOutcome>): (rs: seq<Imported>)
    ensures |rs| <= |os|
    decreases |os|
  {
    if |os| == 0 then []
    else (if os[0].Found? then [os[0].rec] else []) + RecordsOf(os[1..])
  }

  /** `Agent "X" not found` for every name off the roster, in row order. */
  function ErrorsOf(os: seq<RowOutcome>): (es: seq<string>)
    ensures |es| <= |os|
    decreases |os|
  {
    if |os| == 0 then []
    else (if os[0].NotFound? then ["Agent \"" + os[0].name + "\" not found"] else []) + ErrorsOf(os[1..])
  }

  function SkipsOf(os: seq<RowOutcome>): nat
    decreases |os|
  {
    if |os| == 0 then 0 else (if os[0].Skipped? then 1 else 0) + SkipsOf(os[1..])
  }

  /** Every row is accounted for exactly once: a record, an error or a
      silent skip. */
  lemma {:induction false} RowsAccounted(os: seq<RowOutcome>)
    ensures |RecordsOf(os)| + |ErrorsOf(os)| + SkipsOf(os) == |os|
    decreases |os|
  {
    if |os| > 0 {
      RowsAccounted(os[1..]);
    }
  }

  /** A record of today, for a roster agent, in business hours unless its
      hour cell was not a number. */
  ghost predicate Stamped(r: Imported, agents: seq<Agent>, today: string) {
    r.date == today && (exists a :: a in agents && a.id == r.agentId)
    && (r.hour.Some? ==> FirstHour <= r.hour.value <= LastHour)
  }

  lemma {:induction false} RecordsStamped(rows: seq<Obj>, cols: Columns, agents: seq<Agent>, today: string, currentHour: int)
    ensures forall r :: r in RecordsOf(Outcomes(rows, cols, agents, today, currentHour)) ==> Stamped(r, agents, today)
    decreases |rows|
  {
    if |rows| > 0 {
      var os := Outcomes(rows, cols, agents, today, currentHour);
      RecordsStamped(rows[1..], cols, agents, today, currentHour);
      assert os[1..] == Outcomes(rows[1..], cols, agents, today, currentHour);
    }
  }

  // Hour selection.

  function InSelection(selected: seq<int>): Imported -> bool {
    (r: Imported) => r.hour.Some? && r.hour.value in selected
  }

  /** `selectedHours.length > 0 ? records.filter(r => selectedHours.includes(r.hour)) : records`. */
  function Select(recs: seq<Imported>, selected: seq<int>): seq<Imported> {
    if |selected| > 0 then Seqs.Filter(recs, InSelection(selected)) else recs
  }

  /** A non-empty selection keeps exactly the records at a selected hour;
      an empty one keeps everything. A record whose hour is NaN is never
      selected. */
  lemma SelectMembers(recs: seq<Imported>, selected: seq<int>)
    ensures |selected| == 0 ==> Select(recs, selected) == recs
    ensures forall r :: r in Select(recs, selected) <==>
      (r in recs && (|selected| == 0 || (r.hour.Some? && r.hour.value in selected)))
  {
    Seqs.FilterMembers(recs, InSelection(selected));
  }

  // The status line.

  function Head(imported: nat): string {
    "Successfully imported " + Numbers.NatToString(imported) + " records"
  }

  /** The error count and the first three errors. */
  function Listing(errors: seq<string>): string {
    ". Skipped " + Numbers.NatToString(|errors|) + " rows: "
      + Join(errors[..if |errors| < 3 then |errors| else 3], ", ")
  }

  /** How many errors were not listed, when any were left out. */
  function More(errors: seq<string>): string {
    if |errors| > 3 then " and " + Numbers.NatToString(|errors| - 3) + " more" else ""
  }

  /** The summary: the count, then up to three errors and how many more. */
  function Message(imported: nat, errors: seq<string>): string {
    if |errors| == 0 then Head(imported) else Head(imported) + (Listing(errors) + More(errors))
  }

  /** The message always opens with the import count, and is nothing
      more when no row failed. */
  lemma MessageHead(imported: nat, errors: seq<string>)
    ensures Head(imported) <= Message(imported, errors)
    ensures |errors| == 0 ==> Message(imported, errors) == Head(imported)
  {
    if |errors| > 0 {
      PrefixAppend(Head(imported), Listing(errors) + More(errors));
    }
  }

  /** Up to three errors are all listed, at the end. */
  lemma MessageListsAll(imported: nat, errors: seq<string>)
    requires 0 < |errors| <= 3
    ensures EndsWith(Message(imported, errors), Join(errors, ", "))
  {
    assert errors[..|errors|] == errors;
    var front := ". Skipped " + Numbers.NatToString(|errors|) + " rows: ";
    assert More(errors) == "";
    assert Listing(errors) + More(errors) == front + Join(errors, ", ");
    AppendAssoc(Head(imported), front, Join(errors, ", "));
    EndsWithAppend(Head(imported) + front, Join(errors, ", "));
  }

  /** Beyond three, the rest are only counted. */
  lemma MessageCountsRest(imported: nat, errors: seq<string>)
    requires |errors| > 3
    ensures EndsWith(Message(imported, errors), " and " + Numbers.NatToString(|errors| - 3) + " more")
  {
    AppendAssoc(Head(imported), Listing(errors), More(errors));
    EndsWithAppend(Head(imported) + Listing(errors), More(errors));
  }

  lemma AppendAssoc(a: string, b: string, c: string)
    ensures a + (b + c) == (a + b) + c
  {
  }

  lemma PrefixAppend(a: string, b: string)
    ensures a <= a + b
  {
    assert (a + b)[..|a|] == a;
  }

  lemma EndsWithAppend(a: string, b: string)
    ensures EndsWith(a + b, b)
  {
    assert (a + b)[|a + b| - |b|..] == b;
  }

  // The upload handler.

  datatype Status = Status(success: bool, message: string)

  /** The status shown and the batch handed to the store. */
  datatype Upload = Upload(status: Status, batch: seq<Imported>)

  const NoData := "No data found in CSV file"
  const NoAgentColumn := "Missing agent name column. Please include a column with agent names."
  const NoCallsColumn := "Missing calls column. Please include a column with call counts."
  const Unreadable := "Error parsing CSV file. Please check the format."

  /** The columns of the first row, agent name checked first. */
  function ResolveColumns(first: Obj): (r: Result<Columns, string>)
    ensures r.Failure? <==> Column(first, IsAgentColumn).None? || Column(first, IsCallsColumn).None?
    ensures Column(first, IsAgentColumn).None? ==> r == Failure(NoAgentColumn)
    ensures Column(first, IsAgentColumn).Some? && Column(first, IsCallsColumn).None? ==> r == Failure(NoCallsColumn)
    ensures r.Success? ==> IsAgentColumn(r.value.agent) && IsCallsColumn(r.value.calls)
    ensures r.Success? ==> r.value.agent in Keys(first) && r.value.calls in Keys(first)
  {
    var agent := Column(first, IsAgentColumn);
    var calls := Column(first, IsCallsColumn);
    if agent.None? then Failure(NoAgentColumn)
    else if calls.None? then Failure(NoCallsColumn)
    else Success(Columns(agent.value, calls.value, Column(first, IsSecondsColumn)))
  }

  /** The records of the kept hours, before the store sees them. */
  function Batch(rows: seq<Obj>, cols: Columns, agents: seq<Agent>, today: string, currentHour: int, selected: seq<int>): seq<Imported> {
    Select(RecordsOf(Outcomes(rows, cols, agents, today, currentHour)), selected)
  }

  /** `handleFileUpload` after the file is read. `storeFails` is whether
      `upsertCallData` throws; the handler's `catch` then reports the
      file as unreadable. */
  function HandleUpload(content: string, agents: seq<Agent>, today: string, currentHour: int,
                        selected: seq<int>, storeFails: bool): (u: Upload)
    ensures ParseCsv(content) == [] ==> u == Upload(Status(false, NoData), [])
    ensures u.status.success <==> |u.batch| > 0 && !storeFails
    ensures storeFails && |u.batch| > 0 ==> u.status == Status(false, Unreadable)
  {
    var rows := ParseCsv(content);
    if |rows| == 0 then Upload(Status(false, NoData), [])
    else match ResolveColumns(rows[0])
      case Failure(e) => Upload(Status(false, e), [])
      case Success(cols) =>
        var os := Outcomes(rows, cols, agents, today, currentHour);
        var kept := Select(RecordsOf(os), selected);
        if |kept| > 0 && storeFails then Upload(Status(false, Unreadable), kept)
        else Upload(Status(|kept| > 0, Message(|kept|, ErrorsOf(os))), kept)
  }

  /** A file whose first row lacks an agent-name or a calls column stores
      nothing and says which column is missing, the agent column first. */
  lemma UploadNeedsColumns(content: string, agents: seq<Agent>, today: string, currentHour: int,
                           selected: seq<int>, storeFails: bool)
    requires |ParseCsv(content)| > 0
    requires ResolveColumns(ParseCsv(content)[0]).Failure?
    ensures HandleUpload(content, agents, today, currentHour, selected, storeFails)
         == Upload(Status(false, ResolveColumns(ParseCsv(content)[0]).error), [])
  {
  }

  /** What reaches the store: records of today for roster agents, in
      business hours, at a selected hour when hours are selected. */
  lemma UploadBatch(content: string, agents: seq<Agent>, today: string, currentHour: int,
                    selected: seq<int>, storeFails: bool)
    ensures forall r :: r in HandleUpload(content, agents, today, currentHour, selected, storeFails).batch ==>
      Stamped(r, agents, today) && (|selected| == 0 || (r.hour.Some? && r.hour.value in selected))
  {
    var rows := ParseCsv(content);
    if |rows| > 0 && ResolveColumns(rows[0]).Success? {
      var cols := ResolveColumns(rows[0]).value;
      var recs := RecordsOf(Outcomes(rows, cols, agents, today, currentHour));
      RecordsStamped(rows, cols, agents, today, currentHour);
      SelectMembers(recs, selected);
    }
  }

  /** With columns found and the store answering, the message counts the
      stored records and lists the roster misses. */
  lemma UploadMessage(content: string, agents: seq<Agent>, today: string, currentHour: int, selected: seq<int>)
    requires |ParseCsv(content)| > 0
    requires ResolveColumns(ParseCsv(content)[0]).Success?
    ensures var rows := ParseCsv(content);
      var cols := ResolveColumns(rows[0]).value;
      var u := HandleUpload(content, agents, today, currentHour, selected, false);
      u.batch == Batch(rows, cols, agents, today, currentHour, selected)
      && u.status.message == Message(|u.batch|, ErrorsOf(Outcomes(rows, cols, agents, today, currentHour)))
  {
  }

  // What the store makes of the batch.

  /** Every record of the batch has a numeric hour. A NaN hour reaches the
      database as `null`, whose handling the table's schema decides. */
  predicate HoursNumeric(batch: seq<Imported>) {
    forall i :: 0 <= i < |batch| ==> batch[i].hour.Some?
  }

  /** The rows `upsertCallData` sends for a batch whose hours are numbers. */
  function SentRows(batch: seq<Imported>): (rs: seq<CallRecord>)
    requires HoursNumeric(batch)
    ensures |rs| == |batch|
    ensures forall i :: 0 <= i < |batch| ==>
      Store.KeyOf(rs[i]) == Store.Key(batch[i].agentId, batch[i].date, batch[i].hour.value)
      && rs[i].callsMade == batch[i].callsMade && rs[i].totalCallTime == batch[i].totalCallTime
      && rs[i].salesMade == batch[i].salesMade
  {
    seq(|batch|, i requires 0 <= i < |batch| =>
      CallRecord(batch[i].agentId, batch[i].date, batch[i].hour.value,
                 batch[i].callsMade, batch[i].totalCallTime, batch[i].salesMade))
  }

  /** Two rows without an hour column that name the same roster agent give
      records under one (agent, date, hour) key: today at the current hour
      clamped into business hours. */
  lemma SameNameSameKey(r1: Obj, r2: Obj, cols: Columns, agents: seq<Agent>, today: string, currentHour: int)
    requires Column(r1, IsHourColumn).None? && Column(r2, IsHourColumn).None?
    requires Display(Get(r1, cols.agent)) == Display(Get(r2, cols.agent))
    requires Normalise(r1, cols, agents, today, currentHour).Found?
    requires Normalise(r2, cols, agents, today, currentHour).Found?
    ensures var a := Normalise(r1, cols, agents, today, currentHour).rec;
      var b := Normalise(r2, cols, agents, today, currentHour).rec;
      a.agentId == b.agentId && a.date == b.date == today
      && a.hour == b.hour == Clamp(Some(currentHour))
  {
  }

  /** A batch repeating an (agent, date, hour) key is refused by the store,
      `upsertCallData` throws, and the handler's `catch` reports the file as
      unreadable; a batch naming each key once is stored and reported as
      imported. `storeFails` is the store's answer to the rows sent. */
  lemma UploadRepeatedKey(t: Store.Table, content: string, agents: seq<Agent>, today: string, currentHour: int,
                          selected: seq<int>, storeFails: bool)
    requires var b := HandleUpload(content, agents, today, currentHour, selected, storeFails).batch;
      HoursNumeric(b) ==> (storeFails <==> Store.Upsert(t, SentRows(b)).Failure?)
    ensures var u := HandleUpload(content, agents, today, currentHour, selected, storeFails);
      HoursNumeric(u.batch) && !Store.DistinctKeys(SentRows(u.batch)) ==> u.status == Status(false, Unreadable)
    ensures var u := HandleUpload(content, agents, today, currentHour, selected, storeFails);
      HoursNumeric(u.batch) && Store.DistinctKeys(SentRows(u.batch)) && |u.batch| > 0 ==> u.status.success
  {
  }

  // The hour picker.

  /** The hours offered: 8 to 17. */
  const Hours: seq<int> := [8, 9, 10, 11, 12, 13, 14, 15, 16, 17]

  /** The picker offers exactly the hours of the hourly buckets. */
  lemma HoursAreBuckets(rs: seq<CallRecord>)
    ensures |Hours| == |HourlyBuckets(rs)|
    ensures forall i :: 0 <= i < |Hours| ==> Hours[i] == HourlyBuckets(rs)[i].hour
  {
  }

  /** The default `Array.prototype.sort` order: numbers compared as their
      decimal text. */
  function ByText(): (int, int) -> bool {
    (a: int, b: int) => Sorting.StrLe(Numbers.IntToString(a), Numbers.IntToString(b))
  }

  lemma ByTextTotal()
    ensures Sorting.TotalPreorder(ByText())
  {
    forall a, b ensures ByText()(a, b) || ByText()(b, a) {
      Sorting.StrLeTotal(Numbers.IntToString(a), Numbers.IntToString(b));
    }
    forall a, b, c | ByText()(a, b) && ByText()(b, c) ensures ByText()(a, c) {
      Sorting.StrLeTransitive(Numbers.IntToString(a), Numbers.IntToString(b), Numbers.IntToString(c));
    }
  }

  function Other(h: int): int -> bool {
    (x: int) => x != h
  }

  /** `toggleHour(hour)`: drop a selected hour, or add it and sort. */
  function ToggleHour(prev: seq<int>, h: int): seq<int> {
    if h in prev then Seqs.Filter(prev, Other(h)) else Sorting.SortBy(prev + [h], ByText())
  }

  /** Toggling flips the hour's membership and leaves every other hour
      as it was. */
  lemma ToggleMembers(prev: seq<int>, h: int)
    ensures forall x :: x in ToggleHour(prev, h) <==> (if x == h then h !in prev else x in prev)
  {
    if h in prev {
      Seqs.FilterMembers(prev, Other(h));
    } else {
      var s := prev + [h];
      assert forall x :: x in Sorting.SortBy(s, ByText()) <==> x in multiset(s);
    }
  }

  /** Toggling an hour twice restores the selection as a set. */
  lemma ToggleTwice(prev: seq<int>, h: int)
    ensures forall x :: x in ToggleHour(ToggleHour(prev, h), h) <==> x in prev
  {
    ToggleMembers(prev, h);
    ToggleMembers(ToggleHour(prev, h), h);
  }

  /** An added hour leaves the selection in text order. */
  lemma ToggleAddSorted(prev: seq<int>, h: int)
    requires h !in prev
    ensures Sorting.Sorted(ToggleHour(prev, h), ByText())
  {
    ByTextTotal();
    Sorting.SortBySorted(prev + [h], ByText());
  }

  /** Hours are kept in text order: adding 10 to a selection of 9 puts
      10 first. */
  lemma ToggleTextOrder()
    ensures ToggleHour([9], 10) == [10, 9]
  {
    assert Numbers.IntToString(10) == "10" && Numbers.IntToString(9) == "9";
    assert !ByText()(9, 10);
    assert [9] + [10] == [9, 10];
    assert Sorting.SortBy([9, 10], ByText()) == Sorting.Insert(Sorting.SortBy([9], ByText()), 10, ByText());
  }

  // The daily report export.

  function HasTeamId(id: string): Team -> bool {
    (t: Team) => t.id == id
  }

  /** `campaignTeams.find(t => t.id === agent.campaign_team_id)?.name || 'No Team'`:
      an agent without a team, an unknown team and a team with an empty
      name all read "No Team". */
  function TeamLabel(teams: seq<Team>, teamId: Option<string>): (r: string)
    ensures |r| > 0
    ensures r != "No Team" ==> teamId.Some? && exists t :: t in teams && t.id == teamId.value && t.name == r
  {
    if teamId.None? then "No Team"
    else match Seqs.Find(teams, HasTeamId(teamId.value))
      case None => "No Team"
      case Some(t) => if |t.name| > 0 then t.name else "No Team"
  }

  /** `exportDailyReport`'s rows: the generic daily report of today, with
      the team column holding the campaign team's name. */
  function ExportRows(agents: seq<Agent>, teams: seq<Team>, rs: seq<CallRecord>, today: string): (rows: seq<CsvUtils.ReportRow>)
    ensures |rows| == |agents|
    ensures forall i :: 0 <= i < |agents| ==>
      rows[i] == CsvUtils.DailyReport(agents, rs, today)[i].(team := Some(TeamLabel(teams, agents[i].campaignTeamId)))
  {
    seq(|agents|, i requires 0 <= i < |agents| =>
      var t := AgentDay(rs, agents[i].id, today);
      CsvUtils.ReportRow(agents[i].id, agents[i].name, Some(TeamLabel(teams, agents[i].campaignTeamId)),
                         today, t, CsvUtils.AverageText(t)))
  }

  /** The export's rows add up to today's totals over the roster. */
  lemma ExportAddsUp(agents: seq<Agent>, teams: seq<Team>, rs: seq<CallRecord>, today: string)
    requires UniqueAgentIds(agents)
    ensures Groups.SumAll(CsvUtils.RowTotals(ExportRows(agents, teams, rs, today)))
         == Sum(Seqs.Filter(rs, Groups.RosterOn(agents, today)))
  {
    assert CsvUtils.RowTotals(ExportRows(agents, teams, rs, today))
        == CsvUtils.RowTotals(CsvUtils.DailyReport(agents, rs, today));
    CsvUtils.ReportAddsUp(agents, rs, today);
  }
}

=== FILE: numbers.dfy ===
/** JavaScript number conversions the pipeline relies on: `parseInt`,
    `String(n)`, `Math.round(x / 60)`, `padStart(2, '0')` and
    `toFixed(2)`, all on exact integers. */
module Numbers {
  import opened Wrappers
  import opened Text

  /** Value of an alphanumeric digit in radices up to 36; 36 for any other
      character, so that `DigitValue(c) < radix` tests digit-hood. */
  function DigitValue(c: char): nat {
    if '0' <= c <= '9' then c as int - '0' as int
    else if 'a' <= c <= 'z' then c as int - 'a' as int + 10
    else if 'A' <= c <= 'Z' then c as int - 'A' as int + 10
    else 36
  }

  predicate IsDigitIn(c: char, radix: nat) {
    DigitValue(c) < radix
  }

  predicate AllDigits(ds: string, radix: nat) {
    forall i :: 0 <= i < |ds| ==> IsDigitIn(ds[i], radix)
  }

  /** The longest prefix of `s` made of digits of `radix`. */
  function DigitRun(s: string, radix: nat): (ds: string)
    ensures ds <= s && AllDigits(ds, radix)
    ensures |ds| < |s| ==> !IsDigitIn(s[|ds|], radix)
  {
    if |s| > 0 && IsDigitIn(s[0], radix) then [s[0]] + DigitRun(s[1..], radix) else ""
  }

  /** Positional value of a digit string, most significant digit first. */
  function ValueOf(ds: string, radix: nat): nat
    requires AllDigits(ds, radix)
  {
    if |ds| == 0 then 0
    else ValueOf(ds[..|ds| - 1], radix) * radix + DigitValue(ds[|ds| - 1])
  }

  /** The unsigned part of `parseInt`: a `0x`/`0X` prefix switches to
      radix 16, then the longest run of digits is read; no digit is NaN. */
  function ParseUnsigned(body: string): Option<nat> {
    var hex := |body| >= 2 && body[0] == '0' && (body[1] == 'x' || body[1] == 'X');
    var radix := if hex then 16 else 10;
    var ds := DigitRun(if hex then body[2..] else body, radix);
    if |ds| == 0 then None else Some(ValueOf(ds, radix))
  }

  /** `parseInt(s)` without a radix argument: leading whitespace is
      skipped, then the signed part is read; NaN is written `None`. */
  function ParseInt(s: string): Option<int> {
    ParseSigned(TrimStart(s))
  }

  /** One `+` or `-` is taken, then the unsigned part is read. */
  function ParseSigned(t: string): Option<int> {
    var negative := |t| > 0 && t[0] == '-';
    var body := if |t| > 0 && (t[0] == '-' || t[0] == '+') then t[1..] else t;
    match ParseUnsigned(body)
    case None => None
    case Some(v) =>
      var w: int := v;
      Some(if negative then -w else w)
  }

  /** `parseInt(cell) || 0`: NaN and an absent cell both become 0. */
  function ParseOrZero(cell: Option<string>): int {
    match cell
    case None => 0
    case Some(s) => ParseInt(s).GetOr(0)
  }

  function DecimalDigit(d: nat): (c: char)
    requires d < 10
    ensures IsDigitIn(c, 10) && DigitValue(c) == d
  {
    ('0' as int + d) as char
  }

  /** Decimal rendering of a natural number, as `String(n)` gives it. */
  function NatToString(n: nat): (s: string)
    ensures |s| >= 1 && AllDigits(s, 10)
    ensures |s| > 1 ==> s[0] != '0'
  {
    if n < 10 then [DecimalDigit(n)] else NatToString(n / 10) + [DecimalDigit(n % 10)]
  }

  /** The digits `String(n)` writes have value `n`. */
  lemma {:induction false} ValueOfNatToString(n: nat)
    ensures ValueOf(NatToString(n), 10) == n
  {
    if n >= 10 {
      ValueOfNatToString(n / 10);
      var s := NatToString(n);
      assert s[..|s| - 1] == NatToString(n / 10);
    }
  }

  /** Decimal rendering of an integer, as `String(n)` gives it. */
  function IntToString(n: int): string {
    if n < 0 then "-" + NatToString(-n) else NatToString(n)
  }

  lemma {:induction false} DigitRunOfDigits(ds: string, rest: string, radix: nat)
    requires AllDigits(ds, radix)
    requires |rest| == 0 || !IsDigitIn(rest[0], radix)
    ensures DigitRun(ds + rest, radix) == ds
    decreases |ds|
  {
    if |ds| > 0 {
      DigitRunOfDigits(ds[1..], rest, radix);
      assert (ds + rest)[1..] == ds[1..] + rest;
      assert [ds[0]] + ds[1..] == ds;
    } else {
      assert ds + rest == rest;
    }
  }

  lemma ParseUnsignedOfNat(m: nat, rest: string)
    requires |rest| == 0 || (!IsDigitIn(rest[0], 10) && rest[0] != 'x' && rest[0] != 'X')
    ensures ParseUnsigned(NatToString(m) + rest) == Some(m)
  {
    var ds := NatToString(m);
    var body := ds + rest;
    DigitRunOfDigits(ds, rest, 10);
    ValueOfNatToString(m);
    assert !(|body| >= 2 && body[0] == '0' && (body[1] == 'x' || body[1] == 'X')) by {
      if |body| >= 2 && body[0] == '0' {
        assert |ds| == 1;
        assert body[1] == rest[0];
      }
    }
  }

  /** `parseInt` reads back what `String(n)` writes, and stops at the first
      character that is not a digit: `parseInt("3600 sec") == 3600`. An `x`
      right after a lone `0` would turn on hexadecimal (`parseInt("0x5")`
      is 5), so it is excluded. */
  lemma ParseIntOfIntToString(n: int, rest: string)
    requires |rest| == 0 || (!IsDigitIn(rest[0], 10) && rest[0] != 'x' && rest[0] != 'X')
    ensures ParseInt(IntToString(n) + rest) == Some(n)
  {
    var s := IntToString(n) + rest;
    if n < 0 {
      NegativeRoundTrip(n, rest);
    } else {
      PositiveRoundTrip(n, rest);
      assert s == NatToString(n) + rest;
    }
  }

  lemma PositiveRoundTrip(n: nat, rest: string)
    requires |rest| == 0 || (!IsDigitIn(rest[0], 10) && rest[0] != 'x' && rest[0] != 'X')
    ensures ParseInt(NatToString(n) + rest) == Some(n)
  {
    var u := NatToString(n) + rest;
    ParseUnsignedOfNat(n, rest);
    assert ParseUnsigned(u) == Some(n);
    UnsignedBody(u);
    assert ParseInt(u) == ParseUnsigned(u);
  }

  lemma NegativeRoundTrip(n: int, rest: string)
    requires n < 0
    requires |rest| == 0 || (!IsDigitIn(rest[0], 10) && rest[0] != 'x' && rest[0] != 'X')
    ensures ParseInt(IntToString(n) + rest) == Some(n)
  {
    var u := NatToString(-n) + rest;
    ParseUnsignedOfNat(-n, rest);
    MinusSign(u, n);
    NegativeShape(n, rest);
    LeadingMinusKept(n, rest);
  }

  lemma MinusSign(u: string, n: int)
    requires n < 0 && ParseUnsigned(u) == Some(-n)
    ensures ParseSigned(['-'] + u) == Some(n)
  {
    assert (['-'] + u)[1..] == u;
  }

  lemma NegativeShape(n: int, rest: string)
    requires n < 0
    ensures IntToString(n) + rest == ['-'] + (NatToString(-n) + rest)
  {
  }

  lemma LeadingMinusKept(n: int, rest: string)
    requires n < 0
    ensures TrimStart(IntToString(n) + rest) == IntToString(n) + rest
  {
    TrimStartKeeps(IntToString(n) + rest);
  }

  lemma UnsignedBody(u: string)
    requires |u| > 0 && IsDigitIn(u[0], 10)
    ensures ParseInt(u) == ParseUnsigned(u)
  {
    TrimStartKeeps(u);
  }

  /** `parseInt` of a plain run of decimal digits is its value. */
  lemma ParseIntOfDigits(ds: string)
    requires |ds| > 0 && AllDigits(ds, 10)
    ensures ParseInt(ds) == Some(ValueOf(ds, 10) as int)
  {
    UnsignedBody(ds);
    ParseUnsignedOfDigits(ds);
  }

  lemma ParseUnsignedOfDigits(ds: string)
    requires |ds| > 0 && AllDigits(ds, 10)
    ensures ParseUnsigned(ds) == Some(ValueOf(ds, 10))
  {
    DigitRunOfDigits(ds, "", 10);
    assert ds + "" == ds;
    assert !(|ds| >= 2 && ds[0] == '0' && (ds[1] == 'x' || ds[1] == 'X')) by {
      if |ds| >= 2 {
        assert IsDigitIn(ds[1], 10);
      }
    }
  }

  lemma ParseIntOfIntToStringAlone(n: int)
    ensures ParseInt(IntToString(n)) == Some(n)
  {
    ParseIntOfIntToString(n, "");
    assert IntToString(n) + "" == IntToString(n);
  }

  /** `Math.round(n / 60)` for an integer `n`: the nearest integer, halves
      rounded up. Used for seconds to minutes and minutes to hours. */
  function RoundDiv60(n: int): (r: int)
    ensures 60 * r - 30 <= n < 60 * r + 30
  {
    (n + 30) / 60
  }

  /** `s.padStart(2, '0')`. */
  function PadTwo(s: string): (r: string)
    ensures |r| == if |s| < 2 then 2 else |s|
    ensures EndsWith(r, s)
    ensures forall i :: 0 <= i < |r| - |s| ==> r[i] == '0'
  {
    if |s| == 0 then "00" else if |s| == 1 then "0" + s else s
  }

  /** Hundredths of `num / den`, rounded to nearest with halves up: the
      integer `n` that `toFixed(2)` picks for a non-negative value. */
  function RoundedCents(num: nat, den: int): (c: nat)
    requires den > 0
    ensures den * (2 * c - 1) <= 200 * num < den * (2 * c + 1)
  {
    var c := (200 * num + den) / (2 * den);
    assert 2 * den * c <= 200 * num + den < 2 * den * c + 2 * den;
    c
  }

  /** `(num / den).toFixed(2)` computed on the exact quotient. */
  function FixedTwo(num: int, den: int): string
    requires den > 0
  {
    var c := RoundedCents(if num < 0 then -num else num, den);
    var digits := NatToString(c / 100) + "." + PadTwo(NatToString(c % 100));
    if num < 0 then "-" + digits else digits
  }

  /** A string `w.ff`: whole digits, a point and two fractional digits,
      worth `c` hundredths. */
  predicate ReadsAsCents(body: string, c: nat) {
    |body| >= 4 && body[|body| - 3] == '.'
    && AllDigits(body[..|body| - 3], 10) && AllDigits(body[|body| - 2..], 10)
    && ValueOf(body[..|body| - 3], 10) * 100 + ValueOf(body[|body| - 2..], 10) == c
  }

  /** Two digits worth `r`, a leading zero added below ten. */
  lemma TwoDigits(r: nat)
    requires r < 100
    ensures |PadTwo(NatToString(r))| == 2
    ensures AllDigits(PadTwo(NatToString(r)), 10) && ValueOf(PadTwo(NatToString(r)), 10) == r
  {
    var p := PadTwo(NatToString(r));
    var hi := if r < 10 then '0' else DecimalDigit(r / 10);
    if r >= 10 {
      assert NatToString(r / 10) == [DecimalDigit(r / 10)];
    }
    assert p == [hi, DecimalDigit(r % 10)];
    assert p[..1] == [hi] && p[..1][..0] == [];
    assert ValueOf(p[..1], 10) == r / 10;
  }

  /** Whole digits, a point and two digits read as the hundredths they
      spell. */
  lemma PointJoin(whole: string, frac: string)
    requires |whole| > 0 && AllDigits(whole, 10)
    requires |frac| == 2 && AllDigits(frac, 10)
    ensures ReadsAsCents(whole + "." + frac, ValueOf(whole, 10) * 100 + ValueOf(frac, 10))
  {
    var t := whole + "." + frac;
    assert t[..|t| - 3] == whole;
    assert t[|t| - 2..] == frac;
  }

  /** What `toFixed(2)` writes reads back, after an optional minus sign for
      a negative value, as the rounded number of hundredths. */
  lemma FixedTwoReadsBack(num: int, den: int)
    requires den > 0
    ensures |FixedTwo(num, den)| >= 4
    ensures FixedTwo(num, den)[0] == '-' <==> num < 0
    ensures ReadsAsCents(if num < 0 then FixedTwo(num, den)[1..] else FixedTwo(num, den),
                         RoundedCents(if num < 0 then -num else num, den))
  {
    var c := RoundedCents(if num < 0 then -num else num, den);
    var q, r := c / 100, c % 100;
    assert c == q * 100 + r;
    var whole := NatToString(q);
    var frac := PadTwo(NatToString(r));
    TwoDigits(r);
    ValueOfNatToString(q);
    PointJoin(whole, frac);
    var digits := whole + "." + frac;
    assert IsDigitIn(digits[0], 10);
    if num < 0 {
      assert FixedTwo(num, den) == "-" + digits;
      assert FixedTwo(num, den)[1..] == digits;
    } else {
      assert FixedTwo(num, den) == digits;
    }
  }
}

=== FILE: objects.dfy ===
/** The plain JavaScript objects the CSV code builds and reads: string keys
    in insertion order, each holding a string, a number or nothing
    (`undefined`/`null`). Keys that look like array indices, which
    JavaScript would list first, are not distinguished. */
module Objects {
  import Numbers

  datatype Value = Text(s: string) | Int(n: int) | Absent

  /** How `Array.prototype.join` writes an element: `undefined` and `null`
      become the empty string. */
  function Display(v: Value): string {
    match v
    case Text(s) => s
    case Int(n) => Numbers.IntToString(n)
    case Absent => ""
  }

  datatype Entry = Entry(key: string, value: Value)

  type Obj = seq<Entry>

  /** `Object.keys(o)`. */
  function Keys(o: Obj): (ks: seq<string>)
    ensures |ks| == |o|
    ensures forall i :: 0 <= i < |o| ==> ks[i] == o[i].key
  {
    seq(|o|, i requires 0 <= i < |o| => o[i].key)
  }

  ghost predicate UniqueKeys(o: Obj) {
    forall i, j :: 0 <= i < j < |o| ==> o[i].key != o[j].key
  }

  /** `o[k]`: the value stored under `k`, or nothing. */
  function Get(o: Obj, k: string): (v: Value)
    ensures k !in Keys(o) ==> v == Absent
    decreases |o|
  {
    if |o| == 0 then Absent
    else if o[0].key == k then o[0].value
    else Get(o[1..], k)
  }

  /** With distinct keys, each entry's value is what its key reads. */
  lemma {:induction false} GetAt(o: Obj, i: nat)
    requires UniqueKeys(o) && i < |o|
    ensures Get(o, o[i].key) == o[i].value
    decreases i
  {
    if i > 0 {
      assert o[0].key != o[i].key;
      GetAt(o[1..], i - 1);
    }
  }

  /** `o[k] = v`. */
  function Put(o: Obj, k: string, v: Value): Obj
    decreases |o|
  {
    if |o| == 0 then [Entry(k, v)]
    else if o[0].key == k then [Entry(k, v)] + o[1..]
    else [o[0]] + Put(o[1..], k, v)
  }

  /** An existing key keeps its place and takes the new value; a new key is
      appended at the end. */
  lemma PutKeys(o: Obj, k: string, v: Value)
    ensures Keys(Put(o, k, v)) == if k in Keys(o) then Keys(o) else Keys(o) + [k]
    ensures k !in Keys(o) ==> Put(o, k, v) == o + [Entry(k, v)]
  {
    if k in Keys(o) {
      PutKeeps(o, k, v);
    } else {
      PutAppends(o, k, v);
      assert Keys(o + [Entry(k, v)]) == Keys(o) + [k];
    }
  }

  lemma {:induction false} PutKeeps(o: Obj, k: string, v: Value)
    requires k in Keys(o)
    ensures Keys(Put(o, k, v)) == Keys(o)
    decreases |o|
  {
    KeysCons(o);
    if o[0].key != k {
      PutKeeps(o[1..], k, v);
      KeysCons(Put(o, k, v));
    } else {
      KeysCons(Put(o, k, v));
    }
  }

  lemma {:induction false} PutAppends(o: Obj, k: string, v: Value)
    requires k !in Keys(o)
    ensures Put(o, k, v) == o + [Entry(k, v)]
    decreases |o|
  {
    if |o| > 0 {
      KeysCons(o);
      assert o[0].key != k;
      PutAppends(o[1..], k, v);
      var e := Entry(k, v);
      assert Put(o, k, v) == [o[0]] + (o[1..] + [e]);
      assert [o[0]] + (o[1..] + [e]) == ([o[0]] + o[1..]) + [e];
      assert [o[0]] + o[1..] == o;
    }
  }

  lemma KeysCons(o: Obj)
    requires |o| > 0
    ensures Keys(o) == [o[0].key] + Keys(o[1..])
  {
  }

  /** After `o[k] = v`, `k` reads `v` and every other key reads as before. */
  lemma {:induction false} PutGet(o: Obj, k: string, v: Value, k': string)
    ensures Get(Put(o, k, v), k') == if k' == k then v else Get(o, k')
    decreases |o|
  {
    if |o| > 0 && o[0].key != k {
      PutGet(o[1..], k, v, k');
    }
  }

  /** Storing keeps keys distinct. */
  lemma PutUnique(o: Obj, k: string, v: Value)
    requires UniqueKeys(o)
    ensures UniqueKeys(Put(o, k, v))
  {
    var r := Put(o, k, v);
    PutKeys(o, k, v);
    forall i, j | 0 <= i < j < |r| ensures r[i].key != r[j].key {
      assert Keys(r)[i] == r[i].key && Keys(r)[j] == r[j].key;
      assert Keys(o) == Keys(o)[..|o|];
      if k !in Keys(o) && j == |o| {
        assert Keys(o)[i] == o[i].key;
      } else {
        assert Keys(o)[i] == o[i].key && Keys(o)[j] == o[j].key;
      }
    }
  }

  /** Storing brings in no entry but the stored one. */
  lemma {:induction false} PutEntries(o: Obj, k: string, v: Value)
    ensures forall e :: e in Put(o, k, v) ==> e == Entry(k, v) || e in o
    decreases |o|
  {
    if |o| > 0 && o[0].key != k {
      PutEntries(o[1..], k, v);
    }
  }
}

=== FILE: outlook.dfy ===
/** The mailbox poll of `useOutlookIntegration`: which e-mails are
    imported, how one pass's counts and errors are folded into the stored
    statistics, and the auto-check setting kept in a cookie. The mail
    client itself is not modelled: each unread e-mail arrives with the
    answers the client gave for it (its attachment list, the download of the
    first report attachment, and whether the upsert and the mark-as-read
    calls failed). */
module Outlook {
  import opened Wrappers
  import opened Text
  import Numbers
  import opened Domain
  import SubjectHour
  import EmailParser
  import Seqs

  /** One turn of the hook's pattern loop: match, read the hour, apply
      the am/pm adjustment, and keep the hour only inside 8..17. */
  method TryPattern(subject: string, p: SubjectHour.Pattern) returns (r: Option<int>)
    ensures r == SubjectHour.Accepted(subject, p)
    ensures r.Some? ==> 8 <= r.value <= 17
  {
    SubjectHour.AcceptedCases(subject, p);
    var m := SubjectHour.Leftmost(subject, p, 0);
    if m.None? {
      return None;
    }
    var parsed: int := SubjectHour.CapturedHour(m.value);
    var lower := Lower(subject);
    var hour :=
      if Contains(lower, "pm") && parsed < 12 then parsed + 12
      else if Contains(lower, "am") && parsed == 12 then 0
      else parsed;
    assert hour == SubjectHour.Adjust(subject, parsed);
    r := if 8 <= hour <= 17 then Some(hour) else None;
  }

  /** The hook's own copy of `extractHourFromSubject`, written as its loop:
      try the patterns in order and return the first adjusted hour inside
      8..17. It agrees with the report parser's copy on every subject. */
  method ExtractHourLoop(subject: string) returns (r: Option<int>)
    ensures r == SubjectHour.ExtractHour(subject)
    ensures r.Some? ==> 8 <= r.value <= 17
  {
    ghost var xs := SubjectHour.Candidates(subject);
    var k := 0;
    while k < |SubjectHour.Patterns|
      invariant 0 <= k <= |SubjectHour.Patterns|
      invariant SubjectHour.FirstSome(xs[k..]) == SubjectHour.FirstSome(xs)
    {
      var h := TryPattern(subject, SubjectHour.Patterns[k]);
      assert xs[k..][0] == h;
      if h.Some? {
        return h;
      }
      assert xs[k..][1..] == xs[k + 1..];
      k := k + 1;
    }
    return None;
  }

  /** An attachment as the mail client lists it; name and content type may
      be missing. */
  datatype Attachment = Attachment(id: string, name: Option<string>, contentType: Option<string>)

  /** A report attachment: a name ending in ".csv" in any case, or a content
      type mentioning "csv" or "text/plain". */
  predicate IsReport(att: Attachment) {
    (att.name.Some? && EndsWith(Lower(att.name.value), ".csv"))
    || (att.contentType.Some? && (Contains(att.contentType.value, "csv") || Contains(att.contentType.value, "text/plain")))
  }

  function IsReportFn(): Attachment -> bool {
    (att: Attachment) => IsReport(att)
  }

  /** The attachment whose content is read: the first report attachment. */
  function ReportAttachment(atts: seq<Attachment>): (r: Option<Attachment>)
    ensures r.Some? ==> r.value in atts && IsReport(r.value)
    ensures r.None? <==> forall a :: a in atts ==> !IsReport(a)
  {
    Seqs.Find(atts, IsReportFn())
  }

  /** One unread e-mail with the client's answers about it. `download` is
      the content of its first report attachment; `upsertError` and
      `markReadError` hold the message of a call that throws. */
  datatype Email = Email(
    subject: string,
    attachments: Result<seq<Attachment>, string>,
    download: Result<string, string>,
    upsertError: Option<string>,
    markReadError: Option<string>)

  /** What one e-mail adds to a pass: 1 or 0 processed, the records counted
      as imported, the batch sent to the store, and an error. */
  datatype Outcome = Outcome(processed: nat, imported: nat, upserted: seq<CallRecord>, errors: seq<string>)

  const Nothing := Outcome(0, 0, [], [])

  function Failed(subject: string, msg: string): Outcome {
    Outcome(0, 0, [], ["Error processing email \"" + subject + "\": " + msg])
  }

  /** The body of the per-e-mail `try` block in `checkForNewEmails`. */
  function ProcessEmail(e: Email, agents: seq<Agent>, today: string): (o: Outcome)
    ensures o.processed <= 1 && |o.errors| <= 1
    ensures o.processed == 1 ==> |o.errors| == 0
    ensures o.imported == |o.upserted|
    ensures o.processed == 1 ==> SubjectHour.ExtractHour(e.subject).Some?
    // a subject without an hour in 8..17, or no report attachment: passed
    // over without a count, an error, an upsert or a mark-as-read
    ensures SubjectHour.ExtractHour(e.subject).None? ==> o == Nothing
    ensures e.attachments.Success? && (forall a :: a in e.attachments.value ==> !IsReport(a)) ==> o == Nothing
    // every step succeeds: processed, and the parsed report is what is stored
    ensures SubjectHour.ExtractHour(e.subject).Some? && e.attachments.Success?
         && ReportAttachment(e.attachments.value).Some? && e.download.Success?
         && e.upsertError.None? && e.markReadError.None?
         ==> o.processed == 1 && o.errors == []
             && o.upserted == EmailParser.ParseEmailCsv(e.download.value, agents, today, SubjectHour.ExtractHour(e.subject).value)
    // a failing mark-as-read still leaves the records counted as imported
    ensures o.processed == 0 && o.imported > 0 ==> e.markReadError.Some? && |o.errors| == 1
  {
    match SubjectHour.ExtractHour(e.subject)
    case None => Nothing
    case Some(hour) =>
      match e.attachments
      case Failure(msg) => Failed(e.subject, msg)
      case Success(atts) =>
        if ReportAttachment(atts).None? then Nothing
        else match e.download
          case Failure(msg) => Failed(e.subject, msg)
          case Success(content) =>
            var records := EmailParser.ParseEmailCsv(content, agents, today, hour);
            if |records| > 0 && e.upsertError.Some? then Failed(e.subject, e.upsertError.value)
            else
              var imported := Outcome(0, |records|, records, []);
              match e.markReadError
              case Some(msg) => Outcome(0, |records|, records, Failed(e.subject, msg).errors)
              case None => imported.(processed := 1)
  }

  function Combine(a: Outcome, b: Outcome): Outcome {
    Outcome(a.processed + b.processed, a.imported + b.imported, a.upserted + b.upserted, a.errors + b.errors)
  }

  /** The loop over the unread e-mails, in order. */
  function Pass(emails: seq<Email>, agents: seq<Agent>, today: string): (o: Outcome)
    ensures o.processed <= |emails| && |o.errors| <= |emails|
    ensures o.processed + |o.errors| <= |emails|
    ensures o.imported == |o.upserted|
    decreases |emails|
  {
    if |emails| == 0 then Nothing
    else Combine(ProcessEmail(emails[0], agents, today), Pass(emails[1..], agents, today))
  }

  lemma CombineAssoc(a: Outcome, b: Outcome, c: Outcome)
    ensures Combine(Combine(a, b), c) == Combine(a, Combine(b, c))
  {
    assert a.upserted + b.upserted + c.upserted == a.upserted + (b.upserted + c.upserted);
    assert a.errors + b.errors + c.errors == a.errors + (b.errors + c.errors);
  }

  lemma CombineNothing(a: Outcome)
    ensures Combine(Nothing, a) == a
  {
    assert [] + a.upserted == a.upserted;
    assert [] + a.errors == a.errors;
  }

  /** Passes over consecutive batches of e-mail add up. */
  lemma {:induction false} PassAppend(a: seq<Email>, b: seq<Email>, agents: seq<Agent>, today: string)
    ensures Pass(a + b, agents, today) == Combine(Pass(a, agents, today), Pass(b, agents, today))
    decreases |a|
  {
    if |a| == 0 {
      assert a + b == b;
      CombineNothing(Pass(b, agents, today));
    } else {
      assert (a + b)[1..] == a[1..] + b;
      assert (a + b)[0] == a[0];
      PassAppend(a[1..], b, agents, today);
      CombineAssoc(ProcessEmail(a[0], agents, today), Pass(a[1..], agents, today), Pass(b, agents, today));
    }
  }

  /** The statistics the hook keeps. */
  datatype Stats = Stats(emailsProcessed: nat, recordsImported: nat, lastCheck: Option<string>, errors: seq<string>)

  /** `s.slice(-n)` for `n > 0`: the last `n` elements, or all of them. */
  function Last<T>(s: seq<T>, n: nat): (r: seq<T>)
    ensures |r| == if |s| < n then |s| else n
    ensures r == s[|s| - |r|..]
  {
    if |s| <= n then s else s[|s| - n..]
  }

  /** The statistics after a pass that reached the mailbox: counters grow
      by the pass's counts and the error log keeps the last 20 of the last
      10 old errors followed by the new ones. */
  function AfterPass(old_: Stats, o: Outcome, now: string): (s: Stats)
    ensures s.emailsProcessed == old_.emailsProcessed + o.processed
    ensures s.recordsImported == old_.recordsImported + o.imported
    ensures s.lastCheck == Some(now)
    ensures |s.errors| <= 20
    ensures |o.errors| <= 20 ==> |o.errors| <= |s.errors| && s.errors[|s.errors| - |o.errors|..] == o.errors
    ensures var kept := Last(old_.errors, 10) + o.errors;
      |s.errors| == (if |kept| < 20 then |kept| else 20) && s.errors == kept[|kept| - |s.errors|..]
    ensures |o.errors| <= 10 ==> s.errors == Last(old_.errors, 10) + o.errors
    ensures |o.errors| >= 20 ==> s.errors == o.errors[|o.errors| - 20..]
  {
    var errors := Last(Last(old_.errors, 10) + o.errors, 20);
    LastKeepsTail(Last(old_.errors, 10), o.errors, 20);
    Stats(old_.emailsProcessed + o.processed, old_.recordsImported + o.imported, Some(now), errors)
  }

  /** The last `n` elements of `p + t` end with `t` when `t` is short enough. */
  lemma LastKeepsTail<T>(p: seq<T>, t: seq<T>, n: nat)
    ensures var r := Last(p + t, n); |t| <= n ==> |t| <= |r| && r[|r| - |t|..] == t
  {
    var r := Last(p + t, n);
    if |t| <= n {
      assert (p + t)[|p + t| - |t|..] == t;
    }
  }

  /** The last `n` of `p + [x]` are the last `n - 1` of `p` followed by `x`. */
  lemma LastAppendOne<T>(p: seq<T>, x: T, n: nat)
    requires n >= 1
    ensures var r := Last(p + [x], n);
      |r| >= 1 && r[|r| - 1] == x && r[..|r| - 1] == p[|p| - (|r| - 1)..]
  {
    var r := Last(p + [x], n);
    assert r == (p + [x])[|p| + 1 - |r|..];
    assert r[..|r| - 1] == p[|p| + 1 - |r|..];
  }

  /** The statistics after a pass that could not list the mailbox: the
      counters stay, the message becomes the newest error, and the
      last-poll time is set. */
  function AfterFailure(prev: Stats, msg: string, now: string): (s: Stats)
    ensures s.emailsProcessed == prev.emailsProcessed && s.recordsImported == prev.recordsImported
    ensures s.lastCheck == Some(now)
    ensures 1 <= |s.errors| <= 20 && s.errors[|s.errors| - 1] == "Failed to check emails: " + msg
    ensures |s.errors| - 1 <= |prev.errors| && s.errors[..|s.errors| - 1] == prev.errors[|prev.errors| - (|s.errors| - 1)..]
  {
    var kept := Last(prev.errors, 19);
    var errors := Last(kept + ["Failed to check emails: " + msg], 20);
    LastAppendOne(kept, "Failed to check emails: " + msg, 20);
    assert errors[..|errors| - 1] == prev.errors[|prev.errors| - (|errors| - 1)..];
    prev.(errors := errors, lastCheck := Some(now))
  }

  /** `checkForNewEmails`: no effect while disconnected or while a pass is
      already running; otherwise list the unread e-mails (or fail to) and
      fold the pass into the statistics. Returns the new statistics and the
      batches handed to `upsertCallData`. */
  function CheckForNewEmails(stats: Stats, connected: bool, processing: bool,
                             unread: Result<seq<Email>, string>, agents: seq<Agent>,
                             today: string, now: string): (r: (Stats, seq<CallRecord>))
    ensures !connected || processing ==> r == (stats, [])
    ensures |r.0.errors| <= 20 || r.0 == stats
    ensures r.0.recordsImported == stats.recordsImported + |r.1|
  {
    if !connected || processing then (stats, [])
    else match unread
      case Failure(msg) => (AfterFailure(stats, msg, now), [])
      case Success(emails) =>
        var o := Pass(emails, agents, today);
        (AfterPass(stats, o, now), o.upserted)
  }

  /** `resetStats`. */
  function ResetStats(): (s: Stats)
    ensures s.emailsProcessed == 0 && s.recordsImported == 0
    ensures s.lastCheck.None? && |s.errors| == 0
  {
    Stats(0, 0, None, [])
  }

  /** Auto-check is on unless the cookie holds exactly "false"; a missing
      cookie leaves it on. */
  predicate AutoCheckEnabled(cookie: Option<string>) {
    cookie != Some("false")
  }

  /** `toggleAutoCheck`: write the negation of the current setting. */
  function ToggleAutoCheck(cookie: Option<string>): (c: Option<string>)
    ensures AutoCheckEnabled(c) == !AutoCheckEnabled(cookie)
    ensures c == Some("true") || c == Some("false")
  {
    Some(if AutoCheckEnabled(cookie) then "false" else "true")
  }

  /** Toggling twice restores the setting, whatever the cookie held. */
  lemma ToggleTwice(cookie: Option<string>)
    ensures AutoCheckEnabled(ToggleAutoCheck(ToggleAutoCheck(cookie))) == AutoCheckEnabled(cookie)
  {
  }
}

=== FILE: ranking.dfy ===
/** The orders the summary screens sort their rows by. Every screen offers
    the same four: the label ascending (`localeCompare`, here the fixed
    order `StrLe`), or calls, sales or call time largest first
    (`b.total - a.total`). The sort is stable, so ties keep their original
    order, and it only rearranges rows: every grand total over the sorted
    rows is the grand total over the unsorted ones. */
module Ranking {
  import opened Totals
  import opened Sorting
  import opened Wrappers
  import Seqs
  import Groups

  datatype SortKey = ByName | ByCalls | BySales | ByTime

  /** A row as the comparators see it: its label and its figures. */
  datatype Key = Key(name: string, totals: Totals)

  /** Whether `a` may come before `b` under the chosen key. */
  predicate Precedes(k: SortKey, a: Key, b: Key) {
    match k
    case ByName => StrLe(a.name, b.name)
    case ByCalls => a.totals.calls >= b.totals.calls
    case BySales => a.totals.sales >= b.totals.sales
    case ByTime => a.totals.callTime >= b.totals.callTime
  }

  /** The comparator on rows of any kind, through their keys. */
  function Order<T>(k: SortKey, key: T -> Key): (T, T) -> bool {
    (a: T, b: T) => Precedes(k, key(a), key(b))
  }

  /** Each of the four comparators is a total preorder, so the stable sort
      is determined by it. */
  lemma OrderPreorder<T(!new)>(k: SortKey, key: T -> Key)
    ensures TotalPreorder(Order(k, key))
  {
    var le := Order(k, key);
    forall a, b ensures le(a, b) || le(b, a) {
      if k == ByName {
        StrLeTotal(key(a).name, key(b).name);
      }
    }
    forall a, b, c | le(a, b) && le(b, c) ensures le(a, c) {
      if k == ByName {
        StrLeTransitive(key(a).name, key(b).name, key(c).name);
      }
    }
  }

  /** `[...rows].sort(comparator)`. */
  function Ranked<T>(rows: seq<T>, k: SortKey, key: T -> Key): (r: seq<T>)
    ensures multiset(r) == multiset(rows)
  {
    SortBy(rows, Order(k, key))
  }

  /** The ranking holds the same rows, in the chosen order, with tied rows
      in their original order. */
  lemma RankedMeans<T(!new)>(rows: seq<T>, k: SortKey, key: T -> Key)
    ensures |Ranked(rows, k, key)| == |rows|
    ensures Sorted(Ranked(rows, k, key), Order(k, key))
    ensures forall x :: Ties(Ranked(rows, k, key), x, Order(k, key)) == Ties(rows, x, Order(k, key))
  {
    OrderPreorder(k, key);
    SortBySorted(rows, Order(k, key));
    forall x ensures Ties(Ranked(rows, k, key), x, Order(k, key)) == Ties(rows, x, Order(k, key)) {
      SortByStable(rows, x, Order(k, key));
    }
  }

  /** The figures of a ranking read largest first. */
  lemma RankedDescending<T(!new)>(rows: seq<T>, key: T -> Key)
    ensures forall i, j :: 0 <= i < j < |Ranked(rows, ByCalls, key)| ==>
      key(Ranked(rows, ByCalls, key)[i]).totals.calls >= key(Ranked(rows, ByCalls, key)[j]).totals.calls
  {
    RankedMeans(rows, ByCalls, key);
  }

  /** `rows.sort((a, b) => b.totalCalls - a.totalCalls)`: the overview
      rankings, whose positions are the ranks shown. */
  function MostCallsFirst<T>(rows: seq<T>, key: T -> Key): (r: seq<T>)
    ensures multiset(r) == multiset(rows)
  {
    Ranked(rows, ByCalls, key)
  }

  /** The ranking lists every row once, most calls first, rows with equal
      calls in their original order. */
  lemma MostCallsFirstMeans<T(!new)>(rows: seq<T>, key: T -> Key)
    ensures |MostCallsFirst(rows, key)| == |rows|
    ensures forall i, j :: 0 <= i < j < |MostCallsFirst(rows, key)| ==>
      key(MostCallsFirst(rows, key)[i]).totals.calls >= key(MostCallsFirst(rows, key)[j]).totals.calls
    ensures forall x :: Ties(MostCallsFirst(rows, key), x, Order(ByCalls, key)) == Ties(rows, x, Order(ByCalls, key))
  {
    RankedMeans(rows, ByCalls, key);
    RankedDescending(rows, key);
  }

  /** `rows.reduce((sum, row) => sum + figure(row), 0)` for all three
      figures at once. */
  function SumBy<T>(rows: seq<T>, f: T -> Totals): Totals
    decreases |rows|
  {
    if |rows| == 0 then Zero else f(rows[0]).Plus(SumBy(rows[1..], f))
  }

  lemma {:induction false} SumByAppend<T>(a: seq<T>, b: seq<T>, f: T -> Totals)
    ensures SumBy(a + b, f) == SumBy(a, f).Plus(SumBy(b, f))
    decreases |a|
  {
    if |a| == 0 {
      assert a + b == b;
    } else {
      assert (a + b)[1..] == a[1..] + b;
      SumByAppend(a[1..], b, f);
    }
  }

  lemma {:induction false} InsertSum<T>(t: seq<T>, x: T, le: (T, T) -> bool, f: T -> Totals)
    ensures SumBy(Insert(t, x, le), f) == SumBy(t, f).Plus(f(x))
    decreases |t|
  {
    if |t| > 0 && le(t[0], x) {
      InsertBehind(t, x, le);
      InsertSum(t[1..], x, le, f);
      SumByCons(t[0], Insert(t[1..], x, le), f);
    } else if |t| > 0 {
      assert Insert(t, x, le) == [x] + t;
      SumByCons(x, t, f);
    }
  }

  lemma SumByCons<T>(x: T, t: seq<T>, f: T -> Totals)
    ensures SumBy([x] + t, f) == f(x).Plus(SumBy(t, f))
  {
    assert ([x] + t)[1..] == t;
  }

  /** Sorting changes no grand total. */
  lemma {:induction false} SortSum<T>(s: seq<T>, le: (T, T) -> bool, f: T -> Totals)
    ensures SumBy(SortBy(s, le), f) == SumBy(s, f)
    decreases |s|
  {
    if |s| > 0 {
      var init := s[..|s| - 1];
      var last := s[|s| - 1];
      SortSum(init, le, f);
      SortByLast(s, le);
      InsertSum(SortBy(init, le), last, le, f);
      SumByLast(s, f);
    }
  }

  lemma SortByLast<T>(s: seq<T>, le: (T, T) -> bool)
    requires |s| > 0
    ensures SortBy(s, le) == Insert(SortBy(s[..|s| - 1], le), s[|s| - 1], le)
  {
  }

  lemma SumByLast<T>(s: seq<T>, f: T -> Totals)
    requires |s| > 0
    ensures SumBy(s, f) == SumBy(s[..|s| - 1], f).Plus(f(s[|s| - 1]))
  {
    var init := s[..|s| - 1];
    var x := s[|s| - 1];
    SumByAppend(init, [x], f);
    assert [x][1..] == [];
    assert s == init + [x];
  }

  lemma RankedSum<T>(rows: seq<T>, k: SortKey, key: T -> Key, f: T -> Totals)
    ensures SumBy(Ranked(rows, k, key), f) == SumBy(rows, f)
  {
    SortSum(rows, Order(k, key), f);
  }

  /** Summing a row figure is summing the column of that figure. */
  lemma {:induction false} SumByColumn<T>(rows: seq<T>, f: T -> Totals, column: seq<Totals>)
    requires |column| == |rows|
    requires forall i :: 0 <= i < |rows| ==> column[i] == f(rows[i])
    ensures SumBy(rows, f) == Groups.SumAll(column)
    decreases |rows|
  {
    if |rows| > 0 {
      SumByColumn(rows[1..], f, column[1..]);
    }
  }

  /** `rows.slice(0, 4)`: the compact views list the first four rows. */
  function FirstFour<T>(rows: seq<T>): (r: seq<T>)
    ensures |r| == if |rows| < 4 then |rows| else 4
    ensures forall i :: 0 <= i < |r| ==> r[i] == rows[i]
  {
    if |rows| <= 4 then rows else rows[..4]
  }

  /** Whether an entity carries the given id. */
  function IdIs<E>(eid: E -> string, id: string): E -> bool {
    (e: E) => eid(e) == id
  }

  /** How every overview draws its summaries: each summary with the entity
      `find` returns for its id, and nothing for a summary whose entity is
      not found. */
  function Joined<E(!new), S>(es: seq<E>, ss: seq<S>, eid: E -> string, sid: S -> string): (r: seq<(E, S)>)
    ensures |r| <= |ss|
    decreases |ss|
  {
    if |ss| == 0 then []
    else
      var rest := Joined(es, ss[1..], eid, sid);
      match Seqs.Find(es, IdIs(eid, sid(ss[0])))
      case None => rest
      case Some(e) => [(e, ss[0])] + rest
  }

  /** Every pair drawn is an entity of the list with a summary of the list
      carrying its id. */
  lemma {:induction false} JoinedPairs<E(!new), S>(es: seq<E>, ss: seq<S>, eid: E -> string, sid: S -> string)
    ensures forall k :: 0 <= k < |Joined(es, ss, eid, sid)| ==>
      var (e, s) := Joined(es, ss, eid, sid)[k]; e in es && s in ss && eid(e) == sid(s)
    decreases |ss|
  {
    if |ss| > 0 {
      JoinedPairs(es, ss[1..], eid, sid);
      var rest := Joined(es, ss[1..], eid, sid);
      forall k | 0 <= k < |rest| ensures rest[k].1 in ss {
        assert rest[k].1 in ss[1..];
      }
    }
  }

  /** When `find` by each summary's id returns the entity at the same
      position, nothing is skipped and each summary is drawn with its own
      entity. */
  lemma {:induction false} JoinedInOrder<E(!new), S>(es: seq<E>, ss: seq<S>, eid: E -> string, sid: S -> string, offset: nat)
    requires offset + |ss| <= |es|
    requires forall k :: 0 <= k < |ss| ==> Seqs.Find(es, IdIs(eid, sid(ss[k]))) == Some(es[offset + k])
    ensures |Joined(es, ss, eid, sid)| == |ss|
    ensures forall k :: 0 <= k < |ss| ==> Joined(es, ss, eid, sid)[k] == (es[offset + k], ss[k])
    decreases |ss|
  {
    if |ss| > 0 {
      var rest := ss[1..];
      assert forall k :: 0 <= k < |rest| ==> rest[k] == ss[k + 1];
      JoinedInOrder(es, rest, eid, sid, offset + 1);
      JoinedCons(es, ss, eid, sid, es[offset]);
      var j := Joined(es, ss, eid, sid);
      forall k | 0 <= k < |ss| ensures j[k] == (es[offset + k], ss[k]) {
        if k > 0 {
          assert j[k] == Joined(es, rest, eid, sid)[k - 1];
        }
      }
    }
  }

  /** With distinct ids, `find` by an entity's id finds that entity. */
  lemma FindById<E(!new)>(es: seq<E>, eid: E -> string, o: nat)
    requires forall i, j :: 0 <= i < j < |es| ==> eid(es[i]) != eid(es[j])
    requires o < |es|
    ensures Seqs.Find(es, IdIs(eid, eid(es[o]))) == Some(es[o])
  {
    var f := Seqs.Find(es, IdIs(eid, eid(es[o])));
    assert IdIs(eid, eid(es[o]))(es[o]);
    var m :| 0 <= m < |es| && es[m] == f.value;
    assert m == o;
  }

  lemma JoinedCons<E(!new), S>(es: seq<E>, ss: seq<S>, eid: E -> string, sid: S -> string, e: E)
    requires |ss| > 0 && Seqs.Find(es, IdIs(eid, sid(ss[0]))) == Some(e)
    ensures Joined(es, ss, eid, sid) == [(e, ss[0])] + Joined(es, ss[1..], eid, sid)
  {
  }

  /** The compact views: summaries that are the entities' own, position by
      position, with distinct entity ids, draw the first four entities in
      list order, each with its own summary. */
  lemma FirstFourJoined<E(!new), S>(es: seq<E>, ss: seq<S>, eid: E -> string, sid: S -> string)
    requires forall i, j :: 0 <= i < j < |es| ==> eid(es[i]) != eid(es[j])
    requires |ss| == |es|
    requires forall k :: 0 <= k < |ss| ==> sid(ss[k]) == eid(es[k])
    ensures var c := Joined(es, FirstFour(ss), eid, sid);
      && |c| == (if |es| < 4 then |es| else 4)
      && forall i :: 0 <= i < |c| ==> c[i] == (es[i], ss[i])
  {
    var first := FirstFour(ss);
    forall k | 0 <= k < |first| ensures Seqs.Find(es, IdIs(eid, sid(first[k]))) == Some(es[k]) {
      FindById(es, eid, k);
    }
    JoinedInOrder(es, first, eid, sid, 0);
  }
}

=== FILE: rotating_dashboard.dfy ===
/** The rotating wall screen: the campaign teams that have at least one
    agent, shown one at a time, the index advancing modulo their number;
    for the team shown, a card per agent with the day's totals and average,
    and header totals of calls and sales. */
module RotatingDashboard {
  import opened Wrappers
  import opened Domain
  import opened Totals
  import Seqs
  import Groups
  import Ranking

  /** `agent.campaign_team_id === team.id`. */
  function InCampaignTeam(teamId: string): Agent -> bool {
    (a: Agent) => a.campaignTeamId == Some(teamId)
  }

  function Staffed(agents: seq<Agent>): Team -> bool {
    (t: Team) => Seqs.Any(agents, InCampaignTeam(t.id))
  }

  /** `teamsWithAgents`: the teams, in order, that some agent belongs to. */
  function TeamsWithAgents(teams: seq<Team>, agents: seq<Agent>): (r: seq<Team>)
    ensures |r| <= |teams|
  {
    Seqs.Filter(teams, Staffed(agents))
  }

  /** A team is shown exactly when it is listed and some agent's campaign
      team is it. */
  lemma TeamsWithAgentsMeans(teams: seq<Team>, agents: seq<Agent>)
    ensures forall t :: t in TeamsWithAgents(teams, agents) <==>
      t in teams && exists a :: a in agents && a.campaignTeamId == Some(t.id)
  {
    Seqs.FilterMembers(teams, Staffed(agents));
    forall t ensures Staffed(agents)(t) <==> exists a :: a in agents && a.campaignTeamId == Some(t.id) {
      if exists a :: a in agents && a.campaignTeamId == Some(t.id) {
        var a :| a in agents && a.campaignTeamId == Some(t.id);
        var i :| 0 <= i < |agents| && agents[i] == a;
        assert InCampaignTeam(t.id)(agents[i]);
      }
    }
  }

  // Rotation.

  /** `(prev + 1) % teamsWithAgents.length`; with no team the remainder is
      NaN, which is no index. From an index in range it moves to the next
      one, and from the last back to the first. */
  function NextIndex(i: nat, n: nat): (r: Option<nat>)
    ensures r.Some? <==> n > 0
    ensures r.Some? ==> r.value < n
    ensures i < n ==> r == Some(if i + 1 == n then 0 else i + 1)
  {
    if n == 0 then None
    else
      NextMod(i, n);
      Some((i + 1) % n)
  }

  /** `(i + 1) % n` stays below `n`, and inside the range it is the next
      index, wrapping to 0 at the end. */
  lemma NextMod(i: nat, n: nat)
    requires n > 0
    ensures (i + 1) % n < n
    ensures i < n ==> (i + 1) % n == if i + 1 == n then 0 else i + 1
  {
  }

  /** The index after `k` advances. */
  function Advance(i: nat, n: nat, k: nat): nat
    requires n > 0
    decreases k
  {
    if k == 0 then i else Advance(NextIndex(i, n).value, n, k - 1)
  }

  /** Short of the end, `k` advances add `k`. */
  lemma {:induction false} AdvanceWithin(i: nat, n: nat, k: nat)
    requires i + k < n
    ensures Advance(i, n, k) == i + k
    decreases k
  {
    if k > 0 {
      AdvanceWithin(i + 1, n, k - 1);
    }
  }

  lemma {:induction false} AdvanceSplit(i: nat, n: nat, a: nat, b: nat)
    requires n > 0
    ensures Advance(i, n, a + b) == Advance(Advance(i, n, a), n, b)
    decreases a
  {
    if a > 0 {
      AdvanceSplit(NextIndex(i, n).value, n, a - 1, b);
    }
  }

  lemma {:induction false} AdvanceInRange(i: nat, n: nat, k: nat)
    requires i < n
    ensures Advance(i, n, k) < n
    decreases k
  {
    if k > 0 {
      AdvanceInRange(NextIndex(i, n).value, n, k - 1);
    }
  }

  /** The rotation stays in range, comes back to the starting team after
      one round, and shows every team in a round from the first. */
  lemma RotationCycles(i: nat, n: nat)
    requires i < n
    ensures forall k: nat :: Advance(i, n, k) < n
    ensures Advance(i, n, n) == i
    ensures forall j: nat :: j < n ==> Advance(0, n, j) == j
  {
    forall k: nat ensures Advance(i, n, k) < n {
      AdvanceInRange(i, n, k);
    }
    AdvanceSplit(i, n, n - 1 - i, i + 1);
    AdvanceWithin(i, n, n - 1 - i);
    assert Advance(n - 1, n, i + 1) == Advance(0, n, i);
    AdvanceWithin(0, n, i);
    forall j: nat | j < n ensures Advance(0, n, j) == j {
      AdvanceWithin(0, n, j);
    }
  }

  // The team shown.

  /** The team's records of the day: the record's agent, found by id, has
      the team as campaign team. */
  function TeamCallsOn(agents: seq<Agent>, teamId: string, date: string): Groups.Admits {
    (r: CallRecord) => AgentInTeam(agents, ByCampaignTeamId, teamId, r.agentId) && r.date == date
  }

  function ByAgent(id: string): CallRecord -> bool {
    (r: CallRecord) => r.agentId == id
  }

  datatype AgentCard = AgentCard(agent: Agent, totals: Totals, averageCallTime: real)

  function CardOf(a: Agent, teamCalls: seq<CallRecord>): AgentCard {
    var t := Sum(Seqs.Filter(teamCalls, ByAgent(a.id)));
    AgentCard(a, t, Average(t.callTime, t.calls))
  }

  function CardTotals(c: AgentCard): Totals {
    c.totals
  }

  datatype TeamView = TeamView(
    team: Team,
    campaignName: Option<string>,
    cards: seq<AgentCard>,
    totalCalls: int,
    totalSales: int)

  /** `campaigns.find(c => c.id === currentTeam.campaign_id)?.name`. */
  function CampaignName(campaigns: seq<Campaign>, team: Team): (r: Option<string>)
    ensures r.Some? <==> team.campaignId.Some? && exists c :: c in campaigns && c.id == team.campaignId.value
    ensures r.Some? ==> exists c :: c in campaigns && c.id == team.campaignId.value && c.name == r.value
  {
    match team.campaignId
    case None => None
    case Some(id) =>
      match Seqs.Find(campaigns, (c: Campaign) => c.id == id)
      case None => None
      case Some(c) => Some(c.name)
  }

  /** The screen for one team: its agents' cards in roster order, and the
      header sums of the cards. */
  function View(campaigns: seq<Campaign>, agents: seq<Agent>, rs: seq<CallRecord>, date: string, team: Team): (v: TeamView)
    ensures v.team == team
  {
    var members := Seqs.Filter(agents, InCampaignTeam(team.id));
    var teamCalls := Seqs.Filter(rs, TeamCallsOn(agents, team.id, date));
    var cards := seq(|members|, i requires 0 <= i < |members| => CardOf(members[i], teamCalls));
    var header := Ranking.SumBy(cards, CardTotals);
    TeamView(team, CampaignName(campaigns, team), cards, header.calls, header.sales)
  }

  /** A team agent's share of the team's records is all its own records of
      the day, once agent ids are unique. */
  lemma OwnCalls(agents: seq<Agent>, rs: seq<CallRecord>, date: string, teamId: string, a: Agent)
    requires UniqueAgentIds(agents) && a in agents && a.campaignTeamId == Some(teamId)
    ensures Seqs.Filter(Seqs.Filter(rs, TeamCallsOn(agents, teamId, date)), ByAgent(a.id)) == Seqs.Filter(rs, OfAgentOn(a.id, date))
  {
    AgentByIdUnique(agents, a);
    Seqs.FilterFilter(rs, TeamCallsOn(agents, teamId, date), ByAgent(a.id), OfAgentOn(a.id, date));
  }

  /** Every agent of the team has a card, in roster order, and no one
      else does. */
  lemma CardsRoster(campaigns: seq<Campaign>, agents: seq<Agent>, rs: seq<CallRecord>, date: string, team: Team)
    ensures var v := View(campaigns, agents, rs, date, team);
      && |v.cards| == |Seqs.Filter(agents, InCampaignTeam(team.id))|
      && forall a :: a in agents && a.campaignTeamId == Some(team.id) <==> exists i :: 0 <= i < |v.cards| && v.cards[i].agent == a
  {
    var v := View(campaigns, agents, rs, date, team);
    var members := Seqs.Filter(agents, InCampaignTeam(team.id));
    Seqs.FilterMembers(agents, InCampaignTeam(team.id));
    forall a ensures a in agents && a.campaignTeamId == Some(team.id) <==> exists i :: 0 <= i < |v.cards| && v.cards[i].agent == a {
      if a in members {
        var i :| 0 <= i < |members| && members[i] == a;
        assert v.cards[i].agent == a;
      }
    }
  }

  /** Each card holds its agent's totals of the day. */
  lemma CardsTotals(campaigns: seq<Campaign>, agents: seq<Agent>, rs: seq<CallRecord>, date: string, team: Team)
    requires UniqueAgentIds(agents)
    ensures var v := View(campaigns, agents, rs, date, team);
      forall i :: 0 <= i < |v.cards| ==> v.cards[i].totals == AgentDay(rs, v.cards[i].agent.id, date)
  {
    var v := View(campaigns, agents, rs, date, team);
    var members := Seqs.Filter(agents, InCampaignTeam(team.id));
    Seqs.FilterMembers(agents, InCampaignTeam(team.id));
    forall i | 0 <= i < |v.cards| ensures v.cards[i].totals == AgentDay(rs, v.cards[i].agent.id, date) {
      assert v.cards[i] == CardOf(members[i], Seqs.Filter(rs, TeamCallsOn(agents, team.id, date)));
      assert members[i] in members;
      OwnCalls(agents, rs, date, team.id, members[i]);
    }
  }

  /** The header totals are the team's calls and sales of the day: every
      record of a team agent lands on exactly one card. */
  lemma HeaderAddsUp(campaigns: seq<Campaign>, agents: seq<Agent>, rs: seq<CallRecord>, date: string, team: Team)
    requires UniqueAgentIds(agents)
    ensures var v := View(campaigns, agents, rs, date, team);
      var day := Sum(Seqs.Filter(rs, TeamCallsOn(agents, team.id, date)));
      v.totalCalls == day.calls && v.totalSales == day.sales
  {
    var v := View(campaigns, agents, rs, date, team);
    var members := Seqs.Filter(agents, InCampaignTeam(team.id));
    var groups := Groups.Totalled(rs, Groups.AgentGroups(Groups.Ids(members), date));
    CardsTotals(campaigns, agents, rs, date, team);
    Ranking.SumByColumn(v.cards, CardTotals, groups);
    FilterUniqueAgentIds(agents, InCampaignTeam(team.id));
    Groups.RosterTotals(rs, members, date);
    forall r | r in rs ensures Groups.RosterOn(members, date)(r) == TeamCallsOn(agents, team.id, date)(r) {
      RosterIsTeam(agents, team.id, date, r);
    }
    Seqs.FilterSame(rs, Groups.RosterOn(members, date), TeamCallsOn(agents, team.id, date));
  }

  /** With distinct agent ids, a record is on the team's roster for the
      day exactly when its agent is in the team and it is of that day. */
  lemma RosterIsTeam(agents: seq<Agent>, teamId: string, date: string, r: CallRecord)
    requires UniqueAgentIds(agents)
    ensures Groups.RosterOn(Seqs.Filter(agents, InCampaignTeam(teamId)), date)(r) == TeamCallsOn(agents, teamId, date)(r)
  {
    var members := Seqs.Filter(agents, InCampaignTeam(teamId));
    Seqs.FilterMembers(agents, InCampaignTeam(teamId));
    AgentInTeamIff(agents, ByCampaignTeamId, teamId, r.agentId);
    if r.agentId in Groups.Ids(members) {
      var i :| 0 <= i < |members| && Groups.Ids(members)[i] == r.agentId;
      assert members[i] in members;
    }
    if AgentInTeam(agents, ByCampaignTeamId, teamId, r.agentId) {
      var a :| a in agents && a.id == r.agentId && TeamOf(a, ByCampaignTeamId) == Some(teamId);
      assert a in members;
      var i :| 0 <= i < |members| && members[i] == a;
      assert Groups.Ids(members)[i] == r.agentId;
    }
  }

  // The screen.

  datatype Display = NoTeams | Showing(view: TeamView) | Crashed

  /** The screen as the component renders it: the placeholder without a
      staffed team, otherwise `teamsWithAgents[currentTeamIndex]`. The
      stored index is only reduced modulo the count when it advances, so
      after the list shrinks it can point past the end; the element is
      then undefined and reading its `id` throws. */
  function ScreenAsWritten(campaigns: seq<Campaign>, teams: seq<Team>, agents: seq<Agent>, rs: seq<CallRecord>, date: string, index: nat): Display {
    var shown := TeamsWithAgents(teams, agents);
    if |shown| == 0 then NoTeams
    else if index >= |shown| then Crashed
    else Showing(View(campaigns, agents, rs, date, shown[index]))
  }

  /** Two staffed teams, the rotation moves to the second, then the second
      team's only agent leaves the roster: the next render of the
      as-written screen throws. */
  lemma ScreenAsWrittenCrashes()
    ensures var t1 := Team("t1", "North", "#00f", None);
      var t2 := Team("t2", "South", "#f00", None);
      var a1 := Agent("a1", "Ann", "ann@example.com", None, Some("t1"), true);
      var a2 := Agent("a2", "Bob", "bob@example.com", None, Some("t2"), true);
      && NextIndex(0, |TeamsWithAgents([t1, t2], [a1, a2])|) == Some(1)
      && ScreenAsWritten([], [t1, t2], [a1], [], "2024-01-01", 1) == Crashed
  {
    var t1 := Team("t1", "North", "#00f", None);
    var t2 := Team("t2", "South", "#f00", None);
    var a1 := Agent("a1", "Ann", "ann@example.com", None, Some("t1"), true);
    var a2 := Agent("a2", "Bob", "bob@example.com", None, Some("t2"), true);
    BothStaffed(t1, t2, a1, a2);
    OneStaffed(t1, t2, a1);
  }

  lemma BothStaffed(t1: Team, t2: Team, a1: Agent, a2: Agent)
    requires a1.campaignTeamId == Some(t1.id) && a2.campaignTeamId == Some(t2.id)
    ensures TeamsWithAgents([t1, t2], [a1, a2]) == [t1, t2]
  {
    var p := Staffed([a1, a2]);
    assert p(t1) by { assert InCampaignTeam(t1.id)([a1, a2][0]); }
    assert p(t2) by { assert InCampaignTeam(t2.id)([a1, a2][1]); }
    assert [t1, t2][1..] == [t2];
    assert [t2][1..] == [];
    assert Seqs.Filter([t2], p) == [t2] + Seqs.Filter([], p);
    assert Seqs.Filter([t1, t2], p) == [t1] + Seqs.Filter([t2], p);
  }

  lemma OneStaffed(t1: Team, t2: Team, a1: Agent)
    requires a1.campaignTeamId == Some(t1.id) && t1.id != t2.id
    ensures TeamsWithAgents([t1, t2], [a1]) == [t1]
  {
    var p := Staffed([a1]);
    assert p(t1) by { assert InCampaignTeam(t1.id)([a1][0]); }
    assert !p(t2);
    assert [t1, t2][1..] == [t2];
    assert [t2][1..] == [];
    assert Seqs.Filter([t2], p) == Seqs.Filter([], p);
    assert Seqs.Filter([t1, t2], p) == [t1] + Seqs.Filter([t2], p);
  }

  /** The screen with the stored index wrapped into the current list before
      it is used. */
  function Screen(campaigns: seq<Campaign>, teams: seq<Team>, agents: seq<Agent>, rs: seq<CallRecord>, date: string, index: nat): (s: Display)
    ensures s != Crashed
  {
    var shown := TeamsWithAgents(teams, agents);
    if |shown| == 0 then NoTeams
    else Showing(View(campaigns, agents, rs, date, shown[index % |shown|]))
  }

  /** The wrapped screen shows the placeholder exactly when no team has
      an agent. */
  lemma ScreenPlaceholderIff(campaigns: seq<Campaign>, teams: seq<Team>, agents: seq<Agent>, rs: seq<CallRecord>, date: string, index: nat)
    ensures Screen(campaigns, teams, agents, rs, date, index) == NoTeams <==>
      forall t, a :: t in teams && a in agents ==> a.campaignTeamId != Some(t.id)
  {
    var shown := TeamsWithAgents(teams, agents);
    TeamsWithAgentsMeans(teams, agents);
    if |shown| > 0 {
      assert shown[0] in shown;
    }
  }

  /** Otherwise it shows a listed team that has an agent; where the stored
      index is in range it shows what the component shows. */
  lemma ScreenShowsStaffed(campaigns: seq<Campaign>, teams: seq<Team>, agents: seq<Agent>, rs: seq<CallRecord>, date: string, index: nat)
    ensures var s := Screen(campaigns, teams, agents, rs, date, index);
      && (s.Showing? ==> s.view.team in teams && exists a :: a in agents && a.campaignTeamId == Some(s.view.team.id))
      && (index < |TeamsWithAgents(teams, agents)| ==> s == ScreenAsWritten(campaigns, teams, agents, rs, date, index))
  {
    var shown := TeamsWithAgents(teams, agents);
    if |shown| > 0 {
      var t := shown[index % |shown|];
      assert t in shown;
      TeamsWithAgentsMeans(teams, agents);
      assert Screen(campaigns, teams, agents, rs, date, index) == Showing(View(campaigns, agents, rs, date, t));
      if index < |shown| {
        SmallMod(index, |shown|);
      }
    }
  }

  lemma SmallMod(i: nat, n: nat)
    requires i < n
    ensures i % n == i
  {
  }
}

=== FILE: seqs.dfy ===
/** The array operations the dashboard leans on everywhere: `find`,
    `findIndex`, `filter`, `some`, and de-duplication through a `Set`
    (which keeps first-insertion order). */
module Seqs {
  import opened Wrappers

  /** `findIndex`: the first position whose element satisfies `p`. */
  function FindIndex<T>(s: seq<T>, p: T -> bool): (r: Option<nat>)
    ensures r.Some? ==> r.value < |s| && p(s[r.value])
    ensures r.Some? ==> forall j :: 0 <= j < r.value ==> !p(s[j])
    ensures r.None? <==> forall j :: 0 <= j < |s| ==> !p(s[j])
    decreases |s|
  {
    if |s| == 0 then None
    else if p(s[0]) then Some(0)
    else match FindIndex(s[1..], p)
      case None => None
      case Some(i) => Some(i + 1)
  }

  /** `find`: the first element satisfying `p`, if any. */
  function Find<T(!new)>(s: seq<T>, p: T -> bool): (r: Option<T>)
    ensures r.Some? ==> r.value in s && p(r.value)
    ensures r.None? <==> forall x :: x in s ==> !p(x)
    ensures r.Some? ==> exists i :: 0 <= i < |s| && s[i] == r.value && forall j :: 0 <= j < i ==> !p(s[j])
  {
    match FindIndex(s, p)
    case None => None
    case Some(i) => Some(s[i])
  }

  /** `map`: `f` applied to every element, in order. */
  function Map<T, U>(s: seq<T>, f: T -> U): (r: seq<U>)
    ensures |r| == |s|
    ensures forall i :: 0 <= i < |s| ==> r[i] == f(s[i])
  {
    seq(|s|, i requires 0 <= i < |s| => f(s[i]))
  }

  /** Appending at the end leaves the head where it was. */
  lemma SnocTail<T>(s: seq<T>, x: T)
    requires |s| > 0
    ensures (s + [x])[0] == s[0] && (s + [x])[1..] == s[1..] + [x]
  {
  }

  lemma TailAt<T>(s: seq<T>, i: nat)
    requires 1 <= i < |s|
    ensures s[1..][i - 1] == s[i]
  {
  }

  /** `some`: whether any element satisfies `p`. */
  predicate Any<T>(s: seq<T>, p: T -> bool) {
    exists i :: 0 <= i < |s| && p(s[i])
  }

  /** `filter`: the elements satisfying `p`, in their original order. */
  function Filter<T(!new)>(s: seq<T>, p: T -> bool): (r: seq<T>)
    ensures |r| <= |s|
    decreases |s|
  {
    if |s| == 0 then []
    else if p(s[0]) then [s[0]] + Filter(s[1..], p)
    else Filter(s[1..], p)
  }

  /** The filtered sequence holds exactly the elements that pass. */
  lemma {:induction false} FilterMembers<T(!new)>(s: seq<T>, p: T -> bool)
    ensures forall x :: x in Filter(s, p) <==> x in s && p(x)
    decreases |s|
  {
    if |s| > 0 {
      FilterMembers(s[1..], p);
      assert s == [s[0]] + s[1..];
    }
  }

  /** Nothing passes a filter that rejects everything. */
  lemma {:induction false} FilterNone<T(!new)>(s: seq<T>, p: T -> bool)
    requires forall x :: x in s ==> !p(x)
    ensures Filter(s, p) == []
    decreases |s|
  {
    if |s| > 0 {
      assert s[0] in s;
      FilterNone(s[1..], p);
    }
  }

  lemma {:induction false} FilterAppend<T(!new)>(a: seq<T>, b: seq<T>, p: T -> bool)
    ensures Filter(a + b, p) == Filter(a, p) + Filter(b, p)
    decreases |a|
  {
    if |a| > 0 {
      assert (a + b)[1..] == a[1..] + b;
      FilterAppend(a[1..], b, p);
    } else {
      assert a + b == b;
    }
  }

  /** Filtering keeps the whole sequence exactly when every element passes. */
  lemma {:induction false} FilterAll<T(!new)>(s: seq<T>, p: T -> bool)
    ensures Filter(s, p) == s <==> forall x :: x in s ==> p(x)
    decreases |s|
  {
    if |s| > 0 {
      FilterAll(s[1..], p);
      assert forall x :: x in s[1..] ==> x in s;
      if !p(s[0]) {
        assert |Filter(s, p)| < |s|;
      } else {
        assert s == [s[0]] + s[1..];
      }
    }
  }

  /** Filtering twice is filtering once by the conjunction. */
  lemma {:induction false} FilterFilter<T(!new)>(s: seq<T>, p: T -> bool, q: T -> bool, pq: T -> bool)
    requires forall x :: pq(x) == (p(x) && q(x))
    ensures Filter(Filter(s, p), q) == Filter(s, pq)
    decreases |s|
  {
    if |s| > 0 {
      FilterFilter(s[1..], p, q, pq);
      if p(s[0]) {
        assert Filter(s, p)[1..] == Filter(s[1..], p);
      }
    }
  }

  /** Filters by pointwise-equal predicates agree. */
  lemma {:induction false} FilterSame<T(!new)>(s: seq<T>, p: T -> bool, q: T -> bool)
    requires forall x :: x in s ==> p(x) == q(x)
    ensures Filter(s, p) == Filter(s, q)
    decreases |s|
  {
    if |s| > 0 {
      FilterSame(s[1..], p, q);
    }
  }

  ghost predicate NoDuplicates<T>(s: seq<T>) {
    forall i, j :: 0 <= i < j < |s| ==> s[i] != s[j]
  }

  /** Dropping the last element keeps a sequence free of repeats, and the
      dropped element occurs nowhere before it. */
  lemma NoDuplicatesInit<T>(s: seq<T>)
    requires NoDuplicates(s) && |s| > 0
    ensures NoDuplicates(s[..|s| - 1])
    ensures s[|s| - 1] !in s[..|s| - 1]
  {
  }

  /** The elements of `s` without repeats, each at its first occurrence:
      the iteration order of `new Set(s)`. */
  function Distinct<T(==,!new)>(s: seq<T>): (r: seq<T>)
    ensures NoDuplicates(r)
    ensures forall x :: x in r <==> x in s
    ensures |r| <= |s|
    decreases |s|
  {
    if |s| == 0 then []
    else
      var rest := Distinct(s[..|s| - 1]);
      if s[|s| - 1] in rest then rest else rest + [s[|s| - 1]]
  }

  /** A sequence without repeats is its own `Distinct`. */
  lemma {:induction false} DistinctOfDistinct<T(!new)>(s: seq<T>)
    requires NoDuplicates(s)
    ensures Distinct(s) == s
    decreases |s|
  {
    if |s| > 0 {
      var init := s[..|s| - 1];
      assert NoDuplicates(init);
      DistinctOfDistinct(init);
      assert s[|s| - 1] !in init;
      assert s == init + [s[|s| - 1]];
    }
  }

  /** A sequence without repeats has as many elements as its set. */
  lemma {:induction false} NoDuplicatesCard<T(!new)>(s: seq<T>)
    requires NoDuplicates(s)
    ensures |set x | x in s| == |s|
    decreases |s|
  {
    if |s| > 0 {
      var init := s[..|s| - 1];
      var last := s[|s| - 1];
      assert NoDuplicates(init);
      NoDuplicatesCard(init);
      assert s == init + [last];
      assert last !in init;
      assert (set x | x in s) == (set x | x in init) + {last};
    }
  }

  /** Filtering keeps a sequence free of repeats. */
  lemma {:induction false} FilterNoDuplicates<T(!new)>(s: seq<T>, p: T -> bool)
    requires NoDuplicates(s)
    ensures NoDuplicates(Filter(s, p))
    decreases |s|
  {
    if |s| > 0 {
      var t := s[1..];
      assert NoDuplicates(t) by {
        forall i, j | 0 <= i < j < |t| ensures t[i] != t[j] {
          assert t[i] == s[i + 1] && t[j] == s[j + 1];
        }
      }
      FilterNoDuplicates(t, p);
      FilterMembers(t, p);
      assert s[0] !in t by {
        forall k | 0 <= k < |t| ensures t[k] != s[0] {
          assert t[k] == s[k + 1];
        }
      }
    }
  }

  /** Without repeats, no element is counted twice. */
  lemma {:induction false} NoDuplicatesAtMostOnce<T>(s: seq<T>, x: T)
    requires NoDuplicates(s)
    ensures multiset(s)[x] <= 1
    decreases |s|
  {
    if |s| > 0 {
      var init := s[..|s| - 1];
      NoDuplicatesInit(s);
      NoDuplicatesAtMostOnce(init, x);
      assert s == init + [s[|s| - 1]];
    }
  }

  /** A rearrangement of a sequence without repeats has none either. */
  lemma PermutationNoDuplicates<T>(a: seq<T>, b: seq<T>)
    requires NoDuplicates(a) && multiset(a) == multiset(b)
    ensures NoDuplicates(b)
  {
    forall i, j | 0 <= i < j < |b| ensures b[i] != b[j] {
      if b[i] == b[j] {
        assert b == b[..j] + b[j..];
        assert b[i] in b[..j] && b[j] in b[j..];
        assert multiset(b)[b[i]] >= 2;
        NoDuplicatesAtMostOnce(a, b[i]);
      }
    }
  }
}

=== FILE: sorting.dfy ===
/** The orderings the dashboard sorts by. JavaScript's `Array.prototype.sort`
    is stable, so a comparator that is a total preorder fixes the result: the
    elements in comparator order, equivalent elements in their original
    order. `SortBy` is that result, built by insertion. */
module Sorting {

  /** Lexicographic order on code units: JavaScript's `<=` on strings, and
      the fixed order this model uses where the dashboard calls
      `localeCompare`. */
  predicate StrLe(a: string, b: string)
    decreases |a|
  {
    |a| == 0 || (|b| > 0 && (a[0] < b[0] || (a[0] == b[0] && StrLe(a[1..], b[1..]))))
  }

  lemma {:induction false} StrLeTotal(a: string, b: string)
    ensures StrLe(a, b) || StrLe(b, a)
    decreases |a|
  {
    if |a| > 0 && |b| > 0 && a[0] == b[0] {
      StrLeTotal(a[1..], b[1..]);
    }
  }

  lemma {:induction false} StrLeTransitive(a: string, b: string, c: string)
    requires StrLe(a, b) && StrLe(b, c)
    ensures StrLe(a, c)
    decreases |a|
  {
    if |a| > 0 && a[0] == b[0] && b[0] == c[0] {
      StrLeTransitive(a[1..], b[1..], c[1..]);
    }
  }

  lemma {:induction false} StrLeAntisymmetric(a: string, b: string)
    requires StrLe(a, b) && StrLe(b, a)
    ensures a == b
    decreases |a|
  {
    if |a| > 0 {
      StrLeAntisymmetric(a[1..], b[1..]);
      assert a == [a[0]] + a[1..] && b == [b[0]] + b[1..];
    }
  }

  /** A comparator `le(a, b)` ("a may come before b") that is total and
      transitive. */
  ghost predicate TotalPreorder<T(!new)>(le: (T, T) -> bool) {
    && (forall a, b :: le(a, b) || le(b, a))
    && (forall a, b, c :: le(a, b) && le(b, c) ==> le(a, c))
  }

  ghost predicate Sorted<T>(s: seq<T>, le: (T, T) -> bool) {
    forall i, j :: 0 <= i < j < |s| ==> le(s[i], s[j])
  }

  /** Places `x` after every element that may precede it. */
  function Insert<T>(t: seq<T>, x: T, le: (T, T) -> bool): (r: seq<T>)
    ensures multiset(r) == multiset(t) + multiset{x}
  {
    if |t| == 0 then [x]
    else if le(t[0], x) then
      var r := [t[0]] + Insert(t[1..], x, le);
      assert t == [t[0]] + t[1..];
      r
    else [x] + t
  }

  /** The stable sort of `s` under `le`. */
  function SortBy<T>(s: seq<T>, le: (T, T) -> bool): (r: seq<T>)
    ensures multiset(r) == multiset(s)
    ensures |r| == |s|
  {
    if |s| == 0 then []
    else
      var r := Insert(SortBy(s[..|s| - 1], le), s[|s| - 1], le);
      assert s == s[..|s| - 1] + [s[|s| - 1]];
      assert |r| == |multiset(r)|;
      r
  }

  /** Every element of `Insert(t, x, le)` is `x` or an element of `t`. */
  lemma InsertElements<T>(t: seq<T>, x: T, le: (T, T) -> bool, e: T)
    requires e in Insert(t, x, le)
    ensures e == x || e in t
  {
    assert e in multiset(Insert(t, x, le));
  }

  lemma ConsSorted<T>(h: T, tail: seq<T>, le: (T, T) -> bool)
    requires Sorted(tail, le)
    requires forall e :: e in tail ==> le(h, e)
    ensures Sorted([h] + tail, le)
  {
    var r := [h] + tail;
    forall i, j | 0 <= i < j < |r| ensures le(r[i], r[j]) {
      if i == 0 {
        assert r[j] == tail[j - 1] && r[j] in tail;
      } else {
        assert r[i] == tail[i - 1] && r[j] == tail[j - 1];
      }
    }
  }

  lemma {:induction false} InsertSorted<T(!new)>(t: seq<T>, x: T, le: (T, T) -> bool)
    requires TotalPreorder(le) && Sorted(t, le)
    ensures Sorted(Insert(t, x, le), le)
    decreases |t|
  {
    if |t| > 0 && le(t[0], x) {
      var tail := Insert(t[1..], x, le);
      assert Sorted(t[1..], le) by {
        forall i, j | 0 <= i < j < |t[1..]| ensures le(t[1..][i], t[1..][j]) {
          assert t[1..][i] == t[i + 1] && t[1..][j] == t[j + 1];
        }
      }
      InsertSorted(t[1..], x, le);
      forall e | e in tail ensures le(t[0], e) {
        InsertElements(t[1..], x, le, e);
        if e != x {
          var k :| 0 <= k < |t[1..]| && t[1..][k] == e;
          assert t[k + 1] == e;
        }
      }
      ConsSorted(t[0], tail, le);
    } else if |t| > 0 {
      forall e | e in t ensures le(x, e) {
        var k :| 0 <= k < |t| && t[k] == e;
        assert le(x, t[0]);
        assert k == 0 || le(t[0], t[k]);
      }
      ConsSorted(x, t, le);
    }
  }

  lemma {:induction false} SortBySorted<T(!new)>(s: seq<T>, le: (T, T) -> bool)
    requires TotalPreorder(le)
    ensures Sorted(SortBy(s, le), le)
    decreases |s|
  {
    if |s| > 0 {
      SortBySorted(s[..|s| - 1], le);
      InsertSorted(SortBy(s[..|s| - 1], le), s[|s| - 1], le);
    }
  }

  /** The elements of `s` equivalent to `x` under `le`, in order. */
  function Ties<T>(s: seq<T>, x: T, le: (T, T) -> bool): seq<T> {
    if |s| == 0 then []
    else (if le(s[0], x) && le(x, s[0]) then [s[0]] else []) + Ties(s[1..], x, le)
  }

  lemma {:induction false} TiesAppend<T>(a: seq<T>, b: seq<T>, x: T, le: (T, T) -> bool)
    ensures Ties(a + b, x, le) == Ties(a, x, le) + Ties(b, x, le)
    decreases |a|
  {
    if |a| > 0 {
      TiesAppend(a[1..], b, x, le);
      assert (a + b)[1..] == a[1..] + b;
    } else {
      assert a + b == b;
    }
  }

  lemma {:induction false} TiesNone<T(!new)>(t: seq<T>, x: T, le: (T, T) -> bool)
    requires forall i :: 0 <= i < |t| ==> !(le(t[i], x) && le(x, t[i]))
    ensures Ties(t, x, le) == []
    decreases |t|
  {
    if |t| > 0 {
      TiesNone(t[1..], x, le);
    }
  }

  lemma {:induction false} InsertTies<T(!new)>(t: seq<T>, y: T, x: T, le: (T, T) -> bool)
    requires TotalPreorder(le) && Sorted(t, le)
    ensures Ties(Insert(t, y, le), x, le)
         == Ties(t, x, le) + (if le(y, x) && le(x, y) then [y] else [])
    decreases |t|
  {
    if |t| == 0 {
      TiesSingle(y, x, le);
    } else if le(t[0], y) {
      SortedTail(t, le);
      InsertTies(t[1..], y, x, le);
      InsertBehind(t, y, le);
      assert t == [t[0]] + t[1..];
      ConsTies(t[0], t[1..], Insert(t[1..], y, le), if le(y, x) && le(x, y) then [y] else [], x, le);
    } else {
      InsertTiesFront(t, y, x, le);
    }
  }

  lemma InsertBehind<T>(t: seq<T>, y: T, le: (T, T) -> bool)
    requires |t| > 0 && le(t[0], y)
    ensures Insert(t, y, le) == [t[0]] + Insert(t[1..], y, le)
  {
  }

  lemma SortedTail<T>(t: seq<T>, le: (T, T) -> bool)
    requires |t| > 0 && Sorted(t, le)
    ensures Sorted(t[1..], le)
  {
    forall i, j | 0 <= i < j < |t[1..]| ensures le(t[1..][i], t[1..][j]) {
      assert t[1..][i] == t[i + 1] && t[1..][j] == t[j + 1];
    }
  }

  /** Putting the same head before two sequences keeps a relation
      between their ties. */
  lemma ConsTies<T>(h: T, rest: seq<T>, u: seq<T>, tie: seq<T>, x: T, le: (T, T) -> bool)
    requires Ties(u, x, le) == Ties(rest, x, le) + tie
    ensures Ties([h] + u, x, le) == Ties([h] + rest, x, le) + tie
  {
    var hs := if le(h, x) && le(x, h) then [h] else [];
    TiesCons(h, u, x, le);
    TiesCons(h, rest, x, le);
    Assoc(hs, Ties(rest, x, le), tie);
  }

  lemma Assoc<T>(a: seq<T>, b: seq<T>, c: seq<T>)
    ensures a + (b + c) == (a + b) + c
  {
  }

  lemma TiesCons<T>(a: T, s: seq<T>, x: T, le: (T, T) -> bool)
    ensures Ties([a] + s, x, le) == (if le(a, x) && le(x, a) then [a] else []) + Ties(s, x, le)
  {
    assert ([a] + s)[1..] == s;
  }

  lemma InsertTiesFront<T(!new)>(t: seq<T>, y: T, x: T, le: (T, T) -> bool)
    requires TotalPreorder(le) && Sorted(t, le)
    requires |t| > 0 && !le(t[0], y)
    ensures Ties(Insert(t, y, le), x, le)
         == Ties(t, x, le) + (if le(y, x) && le(x, y) then [y] else [])
  {
    var r := Insert(t, y, le);
    assert r == [y] + t;
    assert r[1..] == t;
    if le(y, x) && le(x, y) {
      forall i | 0 <= i < |t| ensures !le(t[i], x) {
        if i > 0 {
          assert le(t[0], t[i]);
        }
      }
      TiesNone(t, x, le);
    }
  }

  lemma TiesSingle<T>(y: T, x: T, le: (T, T) -> bool)
    ensures Ties([y], x, le) == if le(y, x) && le(x, y) then [y] else []
  {
    assert [y][1..] == [];
  }

  /** Stability: sorting keeps every group of equivalent elements in its
      original order. */
  lemma {:induction false} SortByStable<T(!new)>(s: seq<T>, x: T, le: (T, T) -> bool)
    requires TotalPreorder(le)
    ensures Ties(SortBy(s, le), x, le) == Ties(s, x, le)
    decreases |s|
  {
    if |s| > 0 {
      var init := s[..|s| - 1];
      var last := s[|s| - 1];
      var tie := if le(last, x) && le(x, last) then [last] else [];
      calc {
        Ties(SortBy(s, le), x, le);
        Ties(Insert(SortBy(init, le), last, le), x, le);
        { SortBySorted(init, le); InsertTies(SortBy(init, le), last, x, le); }
        Ties(SortBy(init, le), x, le) + tie;
        { SortByStable(init, x, le); }
        Ties(init, x, le) + tie;
        { TiesSingle(last, x, le); }
        Ties(init, x, le) + Ties([last], x, le);
        { TiesAppend(init, [last], x, le); assert s == init + [last]; }
        Ties(s, x, le);
      }
    }
  }
}

=== FILE: store.dfy ===
/** The client side of the database hook: the call-data upsert keyed on
    agent, date and hour, and the realtime reducers that keep the local
    lists of campaigns, teams, agents and call records in step with the
    change events the database pushes. */
module Store {
  import opened Wrappers
  import opened Domain
  import Seqs
  import opened Sorting

  // The upsert.

  /** The conflict target of the call-data upsert. */
  datatype Key = Key(agentId: string, date: string, hour: int)

  function KeyOf(r: CallRecord): Key {
    Key(r.agentId, r.date, r.hour)
  }

  /** The call-data table: at most one row per key. */
  type Table = map<Key, CallRecord>

  predicate DistinctKeys(batch: seq<CallRecord>) {
    forall i, j :: 0 <= i < j < |batch| ==> KeyOf(batch[i]) != KeyOf(batch[j])
  }

  function BatchKeys(batch: seq<CallRecord>): set<Key> {
    set r | r in batch :: KeyOf(r)
  }

  /** Writes the batch row by row, each row replacing the row at its key. */
  function Write(t: Table, batch: seq<CallRecord>): Table
    decreases |batch|
  {
    if |batch| == 0 then t else Write(t[KeyOf(batch[0]) := batch[0]], batch[1..])
  }

  /** The message PostgreSQL gives when one upsert names a key twice. */
  const AffectsRowTwice := "ON CONFLICT DO UPDATE command cannot affect row a second time"

  /** `upsertCallData`: a batch naming each key once is written, replacing
      the rows at its keys; a batch naming a key twice is refused whole. */
  function Upsert(t: Table, batch: seq<CallRecord>): (r: Result<Table, string>)
    ensures r.Success? <==> DistinctKeys(batch)
    ensures r.Failure? ==> r.error == AffectsRowTwice
  {
    if DistinctKeys(batch) then Success(Write(t, batch)) else Failure(AffectsRowTwice)
  }

  /** Keys the batch does not name keep their rows, and gain none. */
  lemma {:induction false} WriteKeeps(t: Table, batch: seq<CallRecord>, k: Key)
    requires k !in BatchKeys(batch)
    ensures k in Write(t, batch) <==> k in t
    ensures k in t ==> Write(t, batch)[k] == t[k]
    decreases |batch|
  {
    if |batch| > 0 {
      assert KeyOf(batch[0]) != k;
      assert BatchKeys(batch[1..]) <= BatchKeys(batch) by {
        forall r | r in batch[1..] ensures r in batch {
        }
      }
      WriteKeeps(t[KeyOf(batch[0]) := batch[0]], batch[1..], k);
    }
  }

  /** Each row of a batch with distinct keys is what its key holds
      afterwards: the incoming row itself, never a sum with the old one. */
  lemma {:induction false} WriteSets(t: Table, batch: seq<CallRecord>, i: nat)
    requires DistinctKeys(batch) && i < |batch|
    ensures KeyOf(batch[i]) in Write(t, batch) && Write(t, batch)[KeyOf(batch[i])] == batch[i]
    decreases |batch|
  {
    var t' := t[KeyOf(batch[0]) := batch[0]];
    var rest := batch[1..];
    assert DistinctKeys(rest) by {
      forall a, b | 0 <= a < b < |rest| ensures KeyOf(rest[a]) != KeyOf(rest[b]) {
        assert rest[a] == batch[a + 1] && rest[b] == batch[b + 1];
      }
    }
    if i == 0 {
      assert KeyOf(batch[0]) !in BatchKeys(rest) by {
        forall r | r in rest ensures KeyOf(r) != KeyOf(batch[0]) {
          var j :| 0 <= j < |rest| && rest[j] == r;
          assert rest[j] == batch[j + 1];
        }
      }
      WriteKeeps(t', rest, KeyOf(batch[0]));
    } else {
      WriteSets(t', rest, i - 1);
      assert rest[i - 1] == batch[i];
    }
  }

  /** The keys after a write: the old ones and the batch's. */
  lemma WriteDomain(t: Table, batch: seq<CallRecord>)
    requires DistinctKeys(batch)
    ensures Write(t, batch).Keys == t.Keys + BatchKeys(batch)
  {
    var w := Write(t, batch);
    forall k ensures k in w <==> k in t || k in BatchKeys(batch) {
      if k in BatchKeys(batch) {
        var r :| r in batch && KeyOf(r) == k;
        var i :| 0 <= i < |batch| && batch[i] == r;
        WriteSets(t, batch, i);
      } else {
        WriteKeeps(t, batch, k);
      }
    }
  }

  /** An accepted upsert keeps every row outside the batch, sets every batch
      row, and brings in no other key. */
  lemma UpsertMeans(t: Table, batch: seq<CallRecord>)
    requires DistinctKeys(batch)
    ensures Upsert(t, batch).value.Keys == t.Keys + BatchKeys(batch)
    ensures forall k :: k in t && k !in BatchKeys(batch) ==> Upsert(t, batch).value[k] == t[k]
    ensures forall i :: 0 <= i < |batch| ==> Upsert(t, batch).value[KeyOf(batch[i])] == batch[i]
  {
    WriteDomain(t, batch);
    forall k | k in t && k !in BatchKeys(batch) ensures Write(t, batch)[k] == t[k] {
      WriteKeeps(t, batch, k);
    }
    forall i | 0 <= i < |batch| ensures Write(t, batch)[KeyOf(batch[i])] == batch[i] {
      WriteSets(t, batch, i);
    }
  }

  /** Upserting a batch twice leaves the table as upserting it once. */
  lemma UpsertIdempotent(t: Table, batch: seq<CallRecord>)
    requires DistinctKeys(batch)
    ensures Upsert(Upsert(t, batch).value, batch) == Upsert(t, batch)
  {
    var once := Write(t, batch);
    var twice := Write(once, batch);
    UpsertMeans(t, batch);
    UpsertMeans(once, batch);
    forall k | k in twice ensures twice[k] == once[k] {
      if k in BatchKeys(batch) {
        var r :| r in batch && KeyOf(r) == k;
        var i :| 0 <= i < |batch| && batch[i] == r;
      }
    }
    assert twice == once;
  }

  /** A second report for the same agent, day and hour replaces the first:
      five calls then three calls leave three. */
  lemma UpsertReplacesNotSums()
    ensures var first := CallRecord("a1", "2024-01-15", 9, 5, 20, 1);
            var second := CallRecord("a1", "2024-01-15", 9, 3, 10, 0);
            var t := Upsert(map[], [first]).value;
            var u := Upsert(t, [second]).value;
            KeyOf(second) in u && u[KeyOf(second)].callsMade == 3
  {
    var first := CallRecord("a1", "2024-01-15", 9, 5, 20, 1);
    var second := CallRecord("a1", "2024-01-15", 9, 3, 10, 0);
    WriteSets(map[], [first], 0);
    WriteSets(Write(map[], [first]), [second], 0);
  }

  // The realtime reducers for campaigns, teams and agents.

  /** The lists are ordered by name; `localeCompare` is modelled by code
      unit order. */
  function ByName<T>(name: T -> string): (T, T) -> bool {
    (a: T, b: T) => StrLe(name(a), name(b))
  }

  lemma ByNameTotal<T(!new)>(name: T -> string)
    ensures TotalPreorder(ByName(name))
  {
    forall a: T, b: T ensures StrLe(name(a), name(b)) || StrLe(name(b), name(a)) {
      StrLeTotal(name(a), name(b));
    }
    forall a: T, b: T, c: T | StrLe(name(a), name(b)) && StrLe(name(b), name(c))
      ensures StrLe(name(a), name(c))
    {
      StrLeTransitive(name(a), name(b), name(c));
    }
  }

  /** INSERT: the new row joins the list, which is sorted again. */
  function OnInsert<T>(prev: seq<T>, x: T, name: T -> string): (r: seq<T>)
    ensures |r| == |prev| + 1
    ensures multiset(r) == multiset(prev) + multiset{x}
  {
    SortBy(prev + [x], ByName(name))
  }

  /** `prev.map(e => id(e) === id(x) ? x : e)`. */
  function Replace<T>(prev: seq<T>, x: T, id: T -> string): (r: seq<T>)
    ensures |r| == |prev|
    ensures forall i :: 0 <= i < |prev| ==> r[i] == if id(prev[i]) == id(x) then x else prev[i]
  {
    seq(|prev|, i requires 0 <= i < |prev| => if id(prev[i]) == id(x) then x else prev[i])
  }

  /** UPDATE: rows with the new row's id become the new row, and the list
      is sorted again. */
  function OnUpdate<T>(prev: seq<T>, x: T, id: T -> string, name: T -> string): (r: seq<T>)
    ensures |r| == |prev|
    ensures multiset(r) == multiset(Replace(prev, x, id))
  {
    SortBy(Replace(prev, x, id), ByName(name))
  }

  /** DELETE: rows with the old row's id leave; nothing is sorted. */
  function OnDelete<T(!new)>(prev: seq<T>, oldId: string, id: T -> string): (r: seq<T>)
    ensures forall e :: e in r <==> e in prev && id(e) != oldId
  {
    Seqs.FilterMembers(prev, (e: T) => id(e) != oldId);
    Seqs.Filter(prev, (e: T) => id(e) != oldId)
  }

  /** Every reducer leaves a name-sorted list. */
  lemma ReducersSorted<T(!new)>(prev: seq<T>, x: T, oldId: string, id: T -> string, name: T -> string)
    requires Sorted(prev, ByName(name))
    ensures Sorted(OnInsert(prev, x, name), ByName(name))
    ensures Sorted(OnUpdate(prev, x, id, name), ByName(name))
    ensures Sorted(OnDelete(prev, oldId, id), ByName(name))
  {
    ByNameTotal(name);
    SortBySorted(prev + [x], ByName(name));
    SortBySorted(Replace(prev, x, id), ByName(name));
    OnDeleteKeepsOrder(prev, oldId, id, ByName(name));
  }

  /** A delete keeps the relative order of the rows that stay. */
  lemma OnDeleteKeepsOrder<T(!new)>(prev: seq<T>, oldId: string, id: T -> string, le: (T, T) -> bool)
    requires Sorted(prev, le)
    ensures Sorted(OnDelete(prev, oldId, id), le)
  {
    FilterKeepsOrder(prev, (e: T) => id(e) != oldId, le);
  }

  /** An update keeps the rows with other ids and puts the new row in place
      of the rows it replaces. */
  lemma OnUpdateContents<T>(prev: seq<T>, x: T, id: T -> string, name: T -> string, e: T)
    ensures e in OnUpdate(prev, x, id, name)
            <==> (e == x && exists i :: 0 <= i < |prev| && id(prev[i]) == id(x))
                 || (e in prev && id(e) != id(x))
  {
    var r := Replace(prev, x, id);
    assert e in OnUpdate(prev, x, id, name) <==> e in multiset(r);
    if e in r {
      var i :| 0 <= i < |r| && r[i] == e;
    }
    if e in prev && id(e) != id(x) {
      var i :| 0 <= i < |prev| && prev[i] == e;
      assert r[i] == e;
    }
    if e == x && exists i :: 0 <= i < |prev| && id(prev[i]) == id(x) {
      var i :| 0 <= i < |prev| && id(prev[i]) == id(x);
      assert r[i] == x;
    }
  }

  /** A filter keeps the relative order of what it keeps: any order the
      list was in, the filtered list is in too. */
  lemma {:induction false} FilterKeepsOrder<T(!new)>(s: seq<T>, p: T -> bool, le: (T, T) -> bool)
    requires Sorted(s, le)
    ensures Sorted(Seqs.Filter(s, p), le)
    decreases |s|
  {
    if |s| > 0 {
      var t := s[1..];
      assert Sorted(t, le) by {
        forall i, j | 0 <= i < j < |t| ensures le(t[i], t[j]) {
          assert t[i] == s[i + 1] && t[j] == s[j + 1];
        }
      }
      FilterKeepsOrder(t, p, le);
      if p(s[0]) {
        Seqs.FilterMembers(t, p);
        forall e | e in Seqs.Filter(t, p) ensures le(s[0], e) {
          var j :| 0 <= j < |t| && t[j] == e;
          assert t[j] == s[j + 1];
        }
        ConsSorted(s[0], Seqs.Filter(t, p), le);
      }
    }
  }

  // The realtime reducer for call records.

  /** A call-data row as the client holds it. */
  datatype StoredCall = StoredCall(id: string, call: CallRecord)

  function CallId(c: StoredCall): string {
    c.id
  }

  /** Newest first. Dates are `YYYY-MM-DD` strings, whose code unit order is
      the calendar order `new Date` comparisons give. */
  function NewerFirst(): (StoredCall, StoredCall) -> bool {
    (a: StoredCall, b: StoredCall) => StrLe(b.call.date, a.call.date)
  }

  lemma NewerFirstTotal()
    ensures TotalPreorder(NewerFirst())
  {
    ByNameTotal((c: StoredCall) => c.call.date);
    var byDate := ByName((c: StoredCall) => c.call.date);
    forall a: StoredCall, b: StoredCall ensures NewerFirst()(a, b) == byDate(b, a) {
    }
  }

  /** INSERT: the new row goes in front and the list is sorted again. */
  function OnCallInsert(prev: seq<StoredCall>, x: StoredCall): (r: seq<StoredCall>)
    ensures |r| == |prev| + 1
    ensures multiset(r) == multiset(prev) + multiset{x}
  {
    SortBy([x] + prev, NewerFirst())
  }

  /** UPDATE: the row with the new row's id is replaced, and the list is
      sorted again. */
  function OnCallUpdate(prev: seq<StoredCall>, x: StoredCall): (r: seq<StoredCall>)
    ensures |r| == |prev|
    ensures multiset(r) == multiset(Replace(prev, x, CallId))
  {
    SortBy(Replace(prev, x, CallId), NewerFirst())
  }

  /** DELETE: rows with the old row's id leave. */
  function OnCallDelete(prev: seq<StoredCall>, oldId: string): (r: seq<StoredCall>)
    ensures forall e :: e in r <==> e in prev && e.id != oldId
  {
    OnDelete(prev, oldId, CallId)
  }

  /** The call list stays newest first under every event. */
  lemma CallReducersSorted(prev: seq<StoredCall>, x: StoredCall, oldId: string)
    requires Sorted(prev, NewerFirst())
    ensures Sorted(OnCallInsert(prev, x), NewerFirst())
    ensures Sorted(OnCallUpdate(prev, x), NewerFirst())
    ensures Sorted(OnCallDelete(prev, oldId), NewerFirst())
  {
    SortedByDate([x] + prev);
    SortedByDate(Replace(prev, x, CallId));
    OnDeleteKeepsOrder(prev, oldId, CallId, NewerFirst());
  }

  lemma SortedByDate(s: seq<StoredCall>)
    ensures Sorted(SortBy(s, NewerFirst()), NewerFirst())
  {
    NewerFirstTotal();
    SortBySorted(s, NewerFirst());
  }

  /** A newly inserted row comes before the rows of its own date that were
      already there, which keep their order. */
  lemma OnCallInsertFirst(prev: seq<StoredCall>, x: StoredCall)
    ensures Ties(OnCallInsert(prev, x), x, NewerFirst()) == [x] + Ties(prev, x, NewerFirst())
  {
    NewerFirstTotal();
    SortByStable([x] + prev, x, NewerFirst());
    assert ([x] + prev)[1..] == prev;
  }
}

=== FILE: subject_hour.dfy ===
/** Reading the report hour out of an e-mail subject
    (`extractHourFromSubject`). Six regular expressions are tried in order;
    each is modelled as a hand-written recogniser with the regular
    expression engine's leftmost-match and greedy-first semantics:

      1. `hour\s*(\d{1,2})`, case-insensitive
      2. `^(\d{1,2})$`
      3. `(\d{1,2})\s*(?:am|pm)`, case-insensitive
      4. `(\d{1,2}):00`
      5. `time\s*(\d{1,2})`, case-insensitive
      6. `(\d{1,2})\s*o'?clock`, case-insensitive

    `\s*` is always taken maximally: what follows it is a digit or a letter,
    never white space, so no shorter choice can succeed. `(\d{1,2})` tries
    two digits before one. Case-insensitive matching of these ASCII
    literals compares ASCII-lower-cased text, which is what a non-Unicode
    regular expression does. */
module SubjectHour {
  import opened Wrappers
  import opened Text
  import Numbers

  predicate IsAsciiDigit(c: char) {
    '0' <= c <= '9'
  }

  /** `\s*` from position `i`: the first position that is not white space. */
  function SkipSpaces(s: string, i: nat): (j: nat)
    requires i <= |s|
    ensures i <= j <= |s|
    ensures forall k :: i <= k < j ==> IsSpace(s[k])
    ensures j < |s| ==> !IsSpace(s[j])
    decreases |s| - i
  {
    if i < |s| && IsSpace(s[i]) then SkipSpaces(s, i + 1) else i
  }

  /** The lower-case ASCII word `w` occurs at `i`, ignoring case. */
  predicate WordAt(s: string, i: nat, w: string) {
    i + |w| <= |s| && Lower(s[i..i + |w|]) == w
  }

  /** The literal `w` occurs at `i`, case included. */
  predicate LiteralAt(s: string, i: nat, w: string) {
    i + |w| <= |s| && s[i..i + |w|] == w
  }

  /** The ends a `(\d{1,2})` starting at `i` may take, in the order the
      engine tries them: two digits, then one. */
  function DigitEnds(s: string, i: nat): (ends: seq<nat>)
    ensures |ends| <= 2
    ensures forall k :: 0 <= k < |ends| ==> i < ends[k] <= i + 2 && ends[k] <= |s|
    ensures forall k :: 0 <= k < |ends| ==> forall m :: i <= m < ends[k] ==> IsAsciiDigit(s[m])
  {
    if i < |s| && IsAsciiDigit(s[i]) then
      if i + 1 < |s| && IsAsciiDigit(s[i + 1]) then [i + 2, i + 1] else [i + 1]
    else []
  }

  datatype Pattern = HourWord | BareNumber | Meridiem | OnTheHour | TimeWord | OClock

  /** The patterns in the order the source tries them. */
  const Patterns: seq<Pattern> := [HourWord, BareNumber, Meridiem, OnTheHour, TimeWord, OClock]

  /** Whether what follows a capture ending at `e` completes the pattern. */
  predicate Completes(s: string, e: nat, p: Pattern)
    requires e <= |s|
  {
    match p
    case HourWord => true
    case TimeWord => true
    case BareNumber => e == |s|
    case Meridiem =>
      var k := SkipSpaces(s, e);
      WordAt(s, k, "am") || WordAt(s, k, "pm")
    case OnTheHour => LiteralAt(s, e, ":00")
    case OClock =>
      var k := SkipSpaces(s, e);
      WordAt(s, k, "o") && (WordAt(s, k + 1, "clock") || (LiteralAt(s, k + 1, "'") && WordAt(s, k + 2, "clock")))
  }

  /** No end tried before position `k` completes the pattern. */
  predicate NoneCompletes(s: string, ends: seq<nat>, p: Pattern, k: nat)
    requires forall j :: 0 <= j < |ends| ==> ends[j] <= |s|
  {
    forall j :: 0 <= j < k && j < |ends| ==> !Completes(s, ends[j], p)
  }

  /** The first capture end, in engine order, that completes the pattern. */
  function FirstEnd(s: string, ends: seq<nat>, p: Pattern): (r: Option<nat>)
    requires forall k :: 0 <= k < |ends| ==> ends[k] <= |s|
    ensures r.Some? ==> r.value in ends && Completes(s, r.value, p)
    ensures r.None? ==> forall k :: 0 <= k < |ends| ==> !Completes(s, ends[k], p)
    ensures r.Some? ==> exists k :: 0 <= k < |ends| && ends[k] == r.value && NoneCompletes(s, ends, p, k)
    decreases |ends|
  {
    if |ends| == 0 then None
    else if Completes(s, ends[0], p) then Some(ends[0])
    else FirstEnd(s, ends[1..], p)
  }

  /** Where the capture group starts when the pattern is tried at `i`. */
  function CaptureStart(s: string, i: nat, p: Pattern): Option<nat>
    requires i <= |s|
  {
    match p
    case HourWord => if WordAt(s, i, "hour") then Some(SkipSpaces(s, i + 4)) else None
    case TimeWord => if WordAt(s, i, "time") then Some(SkipSpaces(s, i + 4)) else None
    case BareNumber => if i == 0 then Some(0) else None
    case _ => Some(i)
  }

  /** The captured digits when pattern `p` matches at position `i`. */
  function MatchAt(s: string, i: nat, p: Pattern): (cap: Option<string>)
    requires i <= |s|
    ensures cap.Some? ==> 1 <= |cap.value| <= 2 && forall k :: 0 <= k < |cap.value| ==> IsAsciiDigit(cap.value[k])
  {
    match CaptureStart(s, i, p)
    case None => None
    case Some(j) =>
      match FirstEnd(s, DigitEnds(s, j), p)
      case None => None
      case Some(e) => Some(s[j..e])
  }

  /** The pattern matches nowhere from `i` up to, not including, `k`. */
  predicate NoMatchBetween(s: string, p: Pattern, i: nat, k: nat) {
    forall j :: i <= j < k && j <= |s| ==> MatchAt(s, j, p).None?
  }

  /** `subject.match(pattern)`: the leftmost match at or after `i`. */
  function Leftmost(s: string, p: Pattern, i: nat): (cap: Option<string>)
    requires i <= |s|
    ensures cap.Some? ==> exists k :: i <= k <= |s| && MatchAt(s, k, p) == cap
    ensures cap.None? <==> forall k :: i <= k <= |s| ==> MatchAt(s, k, p).None?
    ensures cap.Some? ==> exists k :: i <= k <= |s| && MatchAt(s, k, p) == cap && NoMatchBetween(s, p, i, k)
    decreases |s| - i
  {
    if MatchAt(s, i, p).Some? then MatchAt(s, i, p)
    else if i == |s| then None
    else Leftmost(s, p, i + 1)
  }

  /** `parseInt` of the one or two captured digits. */
  function CapturedHour(cap: string): nat
    requires 1 <= |cap| <= 2 && forall k :: 0 <= k < |cap| ==> IsAsciiDigit(cap[k])
  {
    AsciiDigits(cap);
    Numbers.ValueOf(cap, 10)
  }

  lemma AsciiDigits(ds: string)
    requires forall k :: 0 <= k < |ds| ==> IsAsciiDigit(ds[k])
    ensures Numbers.AllDigits(ds, 10)
  {
    forall k | 0 <= k < |ds| ensures Numbers.IsDigitIn(ds[k], 10) {
      assert IsAsciiDigit(ds[k]);
    }
  }

  /** The captured digits are what `parseInt` reads, and at most 99. */
  lemma CapturedHourIsParseInt(cap: string)
    requires 1 <= |cap| <= 2 && forall k :: 0 <= k < |cap| ==> IsAsciiDigit(cap[k])
    ensures Numbers.ParseInt(cap) == Some(CapturedHour(cap) as int)
    ensures CapturedHour(cap) <= 99
  {
    AsciiDigits(cap);
    Numbers.ParseIntOfDigits(cap);
    CapturedHourBound(cap);
  }

  lemma CapturedHourBound(cap: string)
    requires 1 <= |cap| <= 2 && forall k :: 0 <= k < |cap| ==> IsAsciiDigit(cap[k])
    ensures CapturedHour(cap) <= 99
  {
    AsciiDigits(cap);
    var first := cap[..1];
    assert first[..0] == [];
    assert Numbers.ValueOf(first, 10) == Numbers.DigitValue(cap[0]) <= 9;
    if |cap| == 2 {
      assert cap[..|cap| - 1] == first;
      assert Numbers.DigitValue(cap[1]) <= 9;
    } else {
      assert cap == first;
    }
  }

  /** The am/pm adjustment: "pm" anywhere in the lower-cased subject moves
      an hour below 12 into the afternoon; otherwise "am" anywhere turns 12
      into 0. */
  function Adjust(subject: string, h: int): int {
    var lower := Lower(subject);
    if Contains(lower, "pm") && h < 12 then h + 12
    else if Contains(lower, "am") && h == 12 then 0
    else h
  }

  /** What pattern `p` contributes: its adjusted hour when it matches and the
      hour is within 8..17, and nothing otherwise. */
  function Accepted(subject: string, p: Pattern): (r: Option<int>)
    ensures r.Some? ==> 8 <= r.value <= 17
  {
    match Leftmost(subject, p, 0)
    case None => None
    case Some(cap) =>
      var h := Adjust(subject, CapturedHour(cap));
      if 8 <= h <= 17 then Some(h) else None
  }

  /** The two ways a pattern contributes: nothing when it does not match,
      and otherwise its adjusted hour if that is within 8..17. */
  lemma AcceptedCases(subject: string, p: Pattern)
    ensures Leftmost(subject, p, 0).None? ==> Accepted(subject, p).None?
    ensures Leftmost(subject, p, 0).Some? ==>
      var h := Adjust(subject, CapturedHour(Leftmost(subject, p, 0).value));
      Accepted(subject, p) == if 8 <= h <= 17 then Some(h) else None
  {
  }

  /** What each pattern contributes, in the order they are tried. */
  function Candidates(subject: string): (c: seq<Option<int>>)
    ensures |c| == |Patterns|
    ensures forall k :: 0 <= k < |c| ==> c[k] == Accepted(subject, Patterns[k])
  {
    seq(|Patterns|, k requires 0 <= k < |Patterns| => Accepted(subject, Patterns[k]))
  }

  /** The first present value of a list. */
  function FirstSome(xs: seq<Option<int>>): (r: Option<int>)
    ensures r.Some? ==> exists k :: 0 <= k < |xs| && xs[k] == r
    decreases |xs|
  {
    if |xs| == 0 then None
    else if xs[0].Some? then xs[0]
    else FirstSome(xs[1..])
  }

  /** `extractHourFromSubject(subject)`; `None` is `null`. The source's loop
      returns at the first accepted pattern, which is the first present
      candidate. */
  function ExtractHour(subject: string): (r: Option<int>)
    ensures r.Some? ==> 8 <= r.value <= 17
  {
    FirstSome(Candidates(subject))
  }

  /** `r` is the first present entry of `xs`, or nothing when none is. */
  ghost predicate IsFirstSome(xs: seq<Option<int>>, r: Option<int>) {
    match r
    case None => forall k :: 0 <= k < |xs| ==> xs[k].None?
    case Some(h) =>
      exists k :: 0 <= k < |xs| && xs[k] == Some(h) && forall j :: 0 <= j < k ==> xs[j].None?
  }

  lemma {:induction false} FirstSomeIsFirst(xs: seq<Option<int>>)
    ensures IsFirstSome(xs, FirstSome(xs))
    decreases |xs|
  {
    if |xs| > 0 && xs[0].None? {
      FirstSomeIsFirst(xs[1..]);
      if FirstSome(xs[1..]).Some? {
        var k :| 0 <= k < |xs[1..]| && xs[1..][k] == FirstSome(xs[1..])
          && forall j :: 0 <= j < k ==> xs[1..][j].None?;
        assert xs[k + 1] == FirstSome(xs);
        forall j | 0 <= j < k + 1 ensures xs[j].None? {
          if j > 0 { assert xs[j] == xs[1..][j - 1]; }
        }
      } else {
        forall j | 0 <= j < |xs| ensures xs[j].None? {
          if j > 0 { assert xs[j] == xs[1..][j - 1]; }
        }
      }
    }
  }

  /** At most one result is first. */
  lemma IsFirstSomeUnique(xs: seq<Option<int>>, a: Option<int>, b: Option<int>)
    requires IsFirstSome(xs, a) && IsFirstSome(xs, b)
    ensures a == b
  {
    if a.Some? && b.Some? {
      var i :| 0 <= i < |xs| && xs[i] == a && forall j :: 0 <= j < i ==> xs[j].None?;
      var k :| 0 <= k < |xs| && xs[k] == b && forall j :: 0 <= j < k ==> xs[j].None?;
      assert !(i < k) && !(k < i);
    }
  }

  /** The subject's hour is the one of the first pattern that is accepted;
      a pattern that matches with an hour outside 8..17 does not stop the
      search. */
  lemma ExtractHourFirst(subject: string)
    ensures IsFirstSome(Candidates(subject), ExtractHour(subject))
  {
    FirstSomeIsFirst(Candidates(subject));
  }

  lemma HourWordMatch()
    ensures Leftmost("Hour 9", HourWord, 0) == Some("9")
  {
    var s := "Hour 9";
    assert Lower(s[0..4]) == "hour";
    assert SkipSpaces(s, 4) == 5;
    assert FirstEnd(s, DigitEnds(s, 5), HourWord) == Some(6);
    assert s[5..6] == "9";
  }

  lemma NoMeridiem()
    ensures Adjust("Hour 9", 9) == 9
  {
    assert Lower("Hour 9") == "hour 9";
    if Contains("hour 9", "pm") { ContainsHead("hour 9", "pm"); }
  }

  /** "Hour 9" is read by the first pattern. */
  lemma HourWordExample()
    ensures ExtractHour("Hour 9") == Some(9)
  {
    HourWordMatch();
    NoMeridiem();
    assert CapturedHour("9") == 9 by {
      assert "9"[..0] == [];
    }
    assert Candidates("Hour 9")[0] == Some(9);
  }
  /** "2 PM" is read by the am/pm pattern and moved into the afternoon. */
  lemma MeridiemExample()
    ensures ExtractHour("2 PM") == Some(14)
  {
    var s := "2 PM";
    assert Lower(s) == "2 pm";
    forall k | 0 <= k <= |s| ensures MatchAt(s, k, HourWord).None? {
      if k == 0 {
        assert s[0..4] == s;
        assert Lower(s)[0] != 'h';
      }
    }
    assert DigitEnds(s, 0) == [1];
    assert MatchAt(s, 0, BareNumber).None?;
    assert SkipSpaces(s, 1) == 2;
    assert Lower(s[2..4]) == "pm";
    assert Completes(s, 1, Meridiem);
    assert FirstEnd(s, [1], Meridiem) == Some(1);
    assert s[0..1] == "2";
    assert MatchAt(s, 0, Meridiem) == Some("2");
    assert CapturedHour("2") == 2 by {
      assert "2"[..0] == [];
    }
    assert Contains("2 pm", "pm") by {
      assert "pm" <= "2 pm"[2..];
      assert "2 pm"[1..][1..] == "2 pm"[2..];
    }
    assert Adjust(s, 2) == 14;
    assert Candidates(s)[0] == None;
    assert Candidates(s)[1] == None;
    assert Candidates(s)[2] == Some(14);
  }
  /** "9:00" is read by the on-the-hour pattern; no "pm" or "am" moves it. */
  lemma OnTheHourExample()
    ensures ExtractHour("9:00") == Some(9)
  {
    var s := "9:00";
    OnTheHourEarlier();
    OnTheHourMatch();
    assert CapturedHour("9") == 9 by {
      assert "9"[..0] == [];
    }
    OnTheHourPlain();
    assert Accepted(s, OnTheHour) == Some(9);
    var c := Candidates(s);
    assert c[0].None? && c[1].None? && c[2].None? && c[3] == Some(9);
    assert FirstSome(c) == FirstSome(c[1..]) == FirstSome(c[2..]) == FirstSome(c[3..]);
  }

  lemma OnTheHourPlain()
    ensures Adjust("9:00", 9) == 9
  {
    var s := "9:00";
    assert Lower(s) == s;
    if Contains(s, "pm") { ContainsHead(s, "pm"); }
    if Contains(s, "am") { ContainsHead(s, "am"); }
  }

  lemma OnTheHourEarlier()
    ensures Accepted("9:00", HourWord).None? && Accepted("9:00", BareNumber).None?
    ensures Accepted("9:00", Meridiem).None?
  {
    var s := "9:00";
    assert Lower(s) == "9:00";
    forall k | 0 <= k <= |s| ensures MatchAt(s, k, HourWord).None? {
      if k == 0 {
        assert s[0..4] == s;
      }
    }
    assert DigitEnds(s, 0) == [1];
    assert MatchAt(s, 0, BareNumber).None?;
    OnTheHourNoMeridiem();
  }

  lemma OnTheHourNoMeridiem()
    ensures Leftmost("9:00", Meridiem, 0).None?
  {
    forall k | 0 <= k <= 4 ensures MatchAt("9:00", k, Meridiem).None? {
      OnTheHourNoMeridiemAt(k);
    }
  }

  lemma OnTheHourNoMeridiemAt(k: nat)
    requires k <= 4
    ensures MatchAt("9:00", k, Meridiem).None?
  {
    var s := "9:00";
    if k == 0 {
      assert DigitEnds(s, 0) == [1];
      assert SkipSpaces(s, 1) == 1;
      assert s[1..3] == ":0";
      assert !Completes(s, 1, Meridiem);
    } else if k == 2 {
      assert DigitEnds(s, 2) == [4, 3];
      assert SkipSpaces(s, 4) == 4;
      assert SkipSpaces(s, 3) == 3;
      assert !Completes(s, 4, Meridiem) && !Completes(s, 3, Meridiem);
    } else if k == 3 {
      assert DigitEnds(s, 3) == [4];
      assert SkipSpaces(s, 4) == 4;
      assert !Completes(s, 4, Meridiem);
    } else {
      assert DigitEnds(s, k) == [];
    }
  }

  lemma OnTheHourMatch()
    ensures Leftmost("9:00", OnTheHour, 0) == Some("9")
  {
    var s := "9:00";
    assert DigitEnds(s, 0) == [1];
    assert s[1..4] == ":00";
    assert Completes(s, 1, OnTheHour);
    assert FirstEnd(s, [1], OnTheHour) == Some(1);
    assert s[0..1] == "9";
    assert MatchAt(s, 0, OnTheHour) == Some("9");
  }
  /** A pattern that starts at its digits does not match where there is no
      digit. */
  lemma NoDigitNoMatch(s: string, k: nat, p: Pattern)
    requires k <= |s| && (k == |s| || !IsAsciiDigit(s[k]))
    requires p != HourWord && p != TimeWord && p != BareNumber
    ensures MatchAt(s, k, p).None?
  {
    assert DigitEnds(s, k) == [];
  }

  /** "25" matches the bare-number pattern, but 25 is outside business
      hours, and no later pattern matches: no hour. */
  lemma OutOfRangeExample()
    ensures ExtractHour("25") == None
  {
    var s := "25";
    TwentyFiveNoWords();
    TwentyFiveBare();
    TwentyFiveNoDigitPatterns();
    var c := Candidates(s);
    assert c[0].None? && c[1].None? && c[2].None? && c[3].None? && c[4].None? && c[5].None?;
    assert FirstSome(c) == FirstSome(c[1..]) == FirstSome(c[2..]) == FirstSome(c[3..]);
    assert FirstSome(c[3..]) == FirstSome(c[4..]) == FirstSome(c[5..]) == FirstSome(c[6..]);
  }

  lemma TwentyFiveNoWords()
    ensures Leftmost("25", HourWord, 0).None? && Leftmost("25", TimeWord, 0).None?
  {
    forall k | 0 <= k <= 2 ensures MatchAt("25", k, HourWord).None? && MatchAt("25", k, TimeWord).None? {
    }
  }

  lemma TwentyFiveNoDigitPatterns()
    ensures Leftmost("25", Meridiem, 0).None? && Leftmost("25", OnTheHour, 0).None?
    ensures Leftmost("25", OClock, 0).None?
  {
    forall k | 0 <= k <= 2 ensures MatchAt("25", k, Meridiem).None? && MatchAt("25", k, OnTheHour).None? {
      TwentyFiveLater(k);
    }
    forall k | 0 <= k <= 2 ensures MatchAt("25", k, OClock).None? {
      TwentyFiveNoClock(k);
    }
  }

  lemma TwentyFiveBare()
    ensures Accepted("25", BareNumber).None?
  {
    var s := "25";
    assert DigitEnds(s, 0) == [2, 1];
    assert FirstEnd(s, [2, 1], BareNumber) == Some(2);
    assert s[0..2] == "25";
    assert MatchAt(s, 0, BareNumber) == Some("25");
    assert CapturedHour("25") == 25 by {
      assert "25"[..1] == "2";
      assert "2"[..0] == [];
    }
    assert Lower(s) == s;
    if Contains(s, "pm") { ContainsHead(s, "pm"); }
    if Contains(s, "am") { ContainsHead(s, "am"); }
    assert Adjust(s, 25) == 25;
  }

  lemma TwentyFiveLater(k: nat)
    requires k <= 2
    ensures MatchAt("25", k, Meridiem).None? && MatchAt("25", k, OnTheHour).None?
  {
    var s := "25";
    if k == 0 {
      assert DigitEnds(s, 0) == [2, 1];
      assert SkipSpaces(s, 2) == 2 && SkipSpaces(s, 1) == 1;
    } else if k == 1 {
      assert DigitEnds(s, 1) == [2];
      assert SkipSpaces(s, 2) == 2;
    } else {
      NoDigitNoMatch(s, k, Meridiem);
      NoDigitNoMatch(s, k, OnTheHour);
    }
  }

  lemma TwentyFiveNoClock(k: nat)
    requires k <= 2
    ensures MatchAt("25", k, OClock).None?
  {
    var s := "25";
    if k == 0 {
      assert DigitEnds(s, 0) == [2, 1];
      assert SkipSpaces(s, 2) == 2 && SkipSpaces(s, 1) == 1;
      assert Lower(s[1..2]) == "5";
    } else if k == 1 {
      assert DigitEnds(s, 1) == [2];
      assert SkipSpaces(s, 2) == 2;
    } else {
      NoDigitNoMatch(s, k, OClock);
    }
  }
  /** "Hour 20" matches the first pattern, but 20 is outside business hours
      and no later pattern matches: no hour. */
  lemma LateHourExample()
    ensures ExtractHour("Hour 20") == None
  {
    var s := "Hour 20";
    HourTwentyAccepted();
    var c := Candidates(s);
    assert c[0].None? && c[1].None? && c[2].None? && c[3].None? && c[4].None? && c[5].None?;
    assert FirstSome(c) == FirstSome(c[1..]) == FirstSome(c[2..]) == FirstSome(c[3..]);
    assert FirstSome(c[3..]) == FirstSome(c[4..]) == FirstSome(c[5..]) == FirstSome(c[6..]);
  }

  lemma HourTwentyAccepted()
    ensures Accepted("Hour 20", HourWord).None? && Accepted("Hour 20", BareNumber).None?
    ensures Accepted("Hour 20", Meridiem).None? && Accepted("Hour 20", OnTheHour).None?
    ensures Accepted("Hour 20", TimeWord).None? && Accepted("Hour 20", OClock).None?
  {
    HourTwentyWord();
    HourTwentyNotBare();
    HourTwentyNoTime();
    HourTwentyNoDigitPatterns();
  }

  lemma HourTwentyWord()
    ensures Leftmost("Hour 20", HourWord, 0) == Some("20")
    ensures Accepted("Hour 20", HourWord).None?
  {
    var s := "Hour 20";
    assert Lower(s[0..4]) == "hour";
    assert SkipSpaces(s, 4) == 5;
    assert DigitEnds(s, 5) == [7, 6];
    assert FirstEnd(s, [7, 6], HourWord) == Some(7);
    assert s[5..7] == "20";
    assert MatchAt(s, 0, HourWord) == Some("20");
    assert CapturedHour("20") == 20 by {
      assert "20"[..1] == "2";
      assert "2"[..0] == [];
    }
    HourTwentyPlain();
  }

  lemma HourTwentyPlain()
    ensures Adjust("Hour 20", 20) == 20
  {
    var t := "hour 20";
    assert Lower("Hour 20") == t;
    if Contains(t, "pm") { ContainsHead(t, "pm"); }
    if Contains(t, "am") { ContainsHead(t, "am"); }
  }

  lemma HourTwentyNotBare()
    ensures Leftmost("Hour 20", BareNumber, 0).None?
  {
    assert DigitEnds("Hour 20", 0) == [];
    forall k | 0 <= k <= 7 ensures MatchAt("Hour 20", k, BareNumber).None? {
    }
  }

  lemma HourTwentyNoTime()
    ensures Leftmost("Hour 20", TimeWord, 0).None?
  {
    var s := "Hour 20";
    var t := "hour 20";
    assert Lower(s) == t;
    forall k | 0 <= k <= 7 ensures !WordAt(s, k, "time") {
      if k + 4 <= 7 {
        assert Lower(s[k..k + 4])[0] == t[k] != 't';
      }
    }
  }

  lemma HourTwentyNoDigitPatterns()
    ensures Leftmost("Hour 20", Meridiem, 0).None? && Leftmost("Hour 20", OnTheHour, 0).None?
    ensures Leftmost("Hour 20", OClock, 0).None?
  {
    forall k | 0 <= k <= 7
      ensures MatchAt("Hour 20", k, Meridiem).None? && MatchAt("Hour 20", k, OnTheHour).None?
      ensures MatchAt("Hour 20", k, OClock).None?
    {
      HourTwentyDigitsAt(k);
    }
  }

  lemma HourTwentyDigitsAt(k: nat)
    requires k <= 7
    ensures MatchAt("Hour 20", k, Meridiem).None? && MatchAt("Hour 20", k, OnTheHour).None?
    ensures MatchAt("Hour 20", k, OClock).None?
  {
    var s := "Hour 20";
    if k == 5 {
      assert DigitEnds(s, 5) == [7, 6];
      assert SkipSpaces(s, 7) == 7 && SkipSpaces(s, 6) == 6;
      assert Lower(s[6..7]) == "0";
    } else if k == 6 {
      assert DigitEnds(s, 6) == [7];
      assert SkipSpaces(s, 7) == 7;
    } else {
      NoDigitNoMatch(s, k, Meridiem);
      NoDigitNoMatch(s, k, OnTheHour);
      NoDigitNoMatch(s, k, OClock);
    }
  }
}

=== FILE: team_agent_view.dfy ===
/** One team's day, agent by agent and hour by hour (the older screens,
    where an agent belongs to a team through `team_id`): a row per team
    agent with ten hour cells for 8..17 and the day's totals, the rows
    sorted by a chosen key, and the colour tier of every figure. */
module TeamAgentView {
  import opened Wrappers
  import opened Domain
  import opened Totals
  import Seqs
  import Numbers
  import Sorting
  import Ranking
  import Classifier
  import DataUtils

  /** `call.agent_id === agent.id`. */
  function ByAgent(id: string): CallRecord -> bool {
    (r: CallRecord) => r.agentId == id
  }

  /** One agent's records of the day at one hour. */
  function AgentHourOn(id: string, date: string, hour: int): CallRecord -> bool {
    (r: CallRecord) => r.agentId == id && r.date == date && r.hour == hour
  }

  datatype AgentRow = AgentRow(agent: Agent, hourly: seq<HourBucket>, totals: Totals, averageCallTime: real)

  /** The team's records of the day: those whose agent, found by id, has
      the team's `team_id`. */
  function TeamCalls(team: Team, agents: seq<Agent>, rs: seq<CallRecord>, date: string): seq<CallRecord> {
    Seqs.Filter(rs, DataUtils.InTeamOn(agents, team.id, date))
  }

  function RowOf(a: Agent, teamCalls: seq<CallRecord>): AgentRow {
    var mine := Seqs.Filter(teamCalls, ByAgent(a.id));
    var t := Sum(mine);
    AgentRow(a, HourlyBuckets(mine), t, Average(t.callTime, t.calls))
  }

  /** `agentPerformance`: one row per agent of the team, in roster order,
      each with ten hour cells 8..17 ascending. */
  function Performance(team: Team, agents: seq<Agent>, rs: seq<CallRecord>, date: string): (rows: seq<AgentRow>)
    ensures |rows| == |DataUtils.TeamAgents(agents, team.id)|
    ensures forall i :: 0 <= i < |rows| ==> rows[i].agent == DataUtils.TeamAgents(agents, team.id)[i]
    ensures forall i :: 0 <= i < |rows| ==> |rows[i].hourly| == BucketCount
    ensures forall i, j :: 0 <= i < |rows| && 0 <= j < BucketCount ==> rows[i].hourly[j].hour == FirstHour + j
  {
    var members := DataUtils.TeamAgents(agents, team.id);
    var calls := TeamCalls(team, agents, rs, date);
    seq(|members|, i requires 0 <= i < |members| => RowOf(members[i], calls))
  }

  /** A team agent's share of the team's records is all of its own records
      of the day, once agent ids are unique. */
  lemma OwnCalls(team: Team, a: Agent, agents: seq<Agent>, rs: seq<CallRecord>, date: string)
    requires UniqueAgentIds(agents) && a in agents && a.teamId == Some(team.id)
    ensures Seqs.Filter(TeamCalls(team, agents, rs, date), ByAgent(a.id)) == Seqs.Filter(rs, OfAgentOn(a.id, date))
  {
    assert AgentInTeam(agents, ByTeamId, team.id, a.id) by {
      AgentInTeamIff(agents, ByTeamId, team.id, a.id);
    }
    Seqs.FilterFilter(rs, DataUtils.InTeamOn(agents, team.id, date), ByAgent(a.id), OfAgentOn(a.id, date));
  }

  /** Every hour cell of a row sums exactly that agent's records of the day
      at that hour, and the row's totals are the agent's day. */
  lemma RowCells(team: Team, agents: seq<Agent>, rs: seq<CallRecord>, date: string, i: nat, j: nat)
    requires UniqueAgentIds(agents)
    requires i < |Performance(team, agents, rs, date)| && j < BucketCount
    ensures var row := Performance(team, agents, rs, date)[i];
      && row.hourly[j].totals == Sum(Seqs.Filter(rs, AgentHourOn(row.agent.id, date, FirstHour + j)))
      && row.totals == AgentDay(rs, row.agent.id, date)
  {
    var members := DataUtils.TeamAgents(agents, team.id);
    var a := members[i];
    assert a in members;
    OwnCalls(team, a, agents, rs, date);
    var mine := Seqs.Filter(rs, OfAgentOn(a.id, date));
    Seqs.FilterFilter(rs, OfAgentOn(a.id, date), AtHour(FirstHour + j), AgentHourOn(a.id, date, FirstHour + j));
    assert HourlyBuckets(mine)[j].totals == Sum(Seqs.Filter(mine, AtHour(FirstHour + j)));
  }

  /** A row's day totals are its ten cells plus its records outside
      8..17, and exactly its ten cells when every record is inside. */
  lemma RowTotalsSplit(team: Team, agents: seq<Agent>, rs: seq<CallRecord>, date: string, i: nat)
    requires i < |Performance(team, agents, rs, date)|
    ensures var row := Performance(team, agents, rs, date)[i];
      var mine := Seqs.Filter(TeamCalls(team, agents, rs, date), ByAgent(row.agent.id));
      && row.totals == BucketSum(row.hourly).Plus(Sum(Seqs.Filter(mine, OutsideHours(FirstHour, LastHour + 1))))
      && ((forall k :: 0 <= k < |mine| ==> FirstHour <= mine[k].hour <= LastHour) ==> row.totals == BucketSum(row.hourly))
  {
    var row := Performance(team, agents, rs, date)[i];
    var mine := Seqs.Filter(TeamCalls(team, agents, rs, date), ByAgent(row.agent.id));
    DayTotalSplit(mine);
    if forall k :: 0 <= k < |mine| ==> FirstHour <= mine[k].hour <= LastHour {
      DayTotalIsBucketSum(mine);
    }
  }

  function RowKey(row: AgentRow): Ranking.Key {
    Ranking.Key(row.agent.name, row.totals)
  }

  /** `sortedAgents`: the rows by name, or by calls, sales or call time
      largest first. */
  function SortedAgents(rows: seq<AgentRow>, k: Ranking.SortKey): seq<AgentRow> {
    Ranking.Ranked(rows, k, RowKey)
  }

  // Colours.

  function CallsColumn(rows: seq<AgentRow>): (c: seq<int>)
    ensures |c| == |rows| && forall i :: 0 <= i < |rows| ==> c[i] == rows[i].totals.calls
  {
    seq(|rows|, i requires 0 <= i < |rows| => rows[i].totals.calls)
  }

  function SalesColumn(rows: seq<AgentRow>): (c: seq<int>)
    ensures |c| == |rows| && forall i :: 0 <= i < |rows| ==> c[i] == rows[i].totals.sales
  {
    seq(|rows|, i requires 0 <= i < |rows| => rows[i].totals.sales)
  }

  datatype RowColours = RowColours(hourly: seq<Classifier.Tier>, callTime: Classifier.Tier, calls: Classifier.Tier, sales: Classifier.Tier)

  /** The colours of one listed row: each cell and the day's call time
      against the target, calls and sales against the listed agents. */
  function ColoursOf(row: AgentRow, listed: seq<AgentRow>): (c: RowColours)
    ensures |c.hourly| == |row.hourly|
  {
    RowColours(
      seq(|row.hourly|, j requires 0 <= j < |row.hourly| => Classifier.CallTimeTier(row.hourly[j].totals.callTime)),
      Classifier.CallTimeTier(row.totals.callTime),
      Classifier.CallsTier(row.totals.calls, CallsColumn(listed)),
      Classifier.SalesTier(row.totals.sales, SalesColumn(listed)))
  }

  /** A listed agent with no negative sales gets the sales colour the calls
      rule would give its sales, since its own figure is in the cohort. */
  lemma SalesColourAgrees(listed: seq<AgentRow>, i: nat)
    requires i < |listed| && listed[i].totals.sales >= 0
    ensures ColoursOf(listed[i], listed).sales
         == Classifier.CallsTier(listed[i].totals.sales, SalesColumn(listed))
  {
    assert SalesColumn(listed)[i] == listed[i].totals.sales;
    Classifier.SalesMatchesCalls(listed[i].totals.sales, SalesColumn(listed));
  }

  // Column labels.

  /** `formatHour` of this screen: both ends of the hour, two digits each. */
  function HourLabel(hour: nat): string {
    Numbers.PadTwo(Numbers.NatToString(hour)) + "-" + Numbers.PadTwo(Numbers.NatToString(hour + 1))
  }

  /** For the hours of a day the label is `hh-hh`, and its two halves read
      back as the hour and the next one. */
  lemma HourLabelReadsBack(hour: nat)
    requires hour < 99
    ensures var l := HourLabel(hour);
      && |l| == 5 && l[2] == '-'
      && Numbers.AllDigits(l[..2], 10) && Numbers.ValueOf(l[..2], 10) == hour
      && Numbers.AllDigits(l[3..], 10) && Numbers.ValueOf(l[3..], 10) == hour + 1
  {
    var a := Numbers.PadTwo(Numbers.NatToString(hour));
    var b := Numbers.PadTwo(Numbers.NatToString(hour + 1));
    assert HourLabel(hour) == a + "-" + b;
    Numbers.TwoDigits(hour);
    Numbers.TwoDigits(hour + 1);
    Halves(a, b);
  }

  lemma Halves(a: string, b: string)
    requires |a| == 2 && |b| == 2
    ensures var l := a + "-" + b; |l| == 5 && l[2] == '-' && l[..2] == a && l[3..] == b
  {
  }
}

=== FILE: team_dashboard.dfy ===
/** The team grid of the older screens: for the selected date, one row per
    team with ten hour cells, the day's totals and the guarded average and
    conversion rate; the rows sorted by a chosen key; and summary cards that
    add the rows up. */
module TeamDashboard {
  import opened Domain
  import opened Totals
  import Seqs
  import Sorting
  import Groups
  import Ranking
  import DataUtils

  datatype TeamRow = TeamRow(
    team: Team,
    teamAgents: seq<Agent>,
    hourly: seq<HourBucket>,
    totals: Totals,
    averageCallTime: real,
    conversionRate: real)

  /** `agent?.team_id === team.id` for the record's agent. */
  function InTeam(agents: seq<Agent>, teamId: string): CallRecord -> bool {
    (r: CallRecord) => AgentInTeam(agents, ByTeamId, teamId, r.agentId)
  }

  /** One team's records at one hour of the day. */
  function TeamHourOn(agents: seq<Agent>, teamId: string, date: string, hour: int): CallRecord -> bool {
    (r: CallRecord) => AgentInTeam(agents, ByTeamId, teamId, r.agentId) && r.date == date && r.hour == hour
  }

  function RowOf(team: Team, agents: seq<Agent>, dayCalls: seq<CallRecord>): TeamRow {
    var calls := Seqs.Filter(dayCalls, InTeam(agents, team.id));
    var t := Sum(calls);
    TeamRow(team, DataUtils.TeamAgents(agents, team.id), HourlyBuckets(calls), t,
            Average(t.callTime, t.calls), ConversionRate(t.sales, t.calls))
  }

  /** `teamPerformance`: the records are first narrowed to the selected
      date, then one row per team in team order. */
  function Performance(teams: seq<Team>, agents: seq<Agent>, rs: seq<CallRecord>, date: string): (rows: seq<TeamRow>)
    ensures |rows| == |teams|
    ensures forall i :: 0 <= i < |teams| ==> rows[i].team == teams[i]
    ensures forall i :: 0 <= i < |teams| ==> rows[i].teamAgents == DataUtils.TeamAgents(agents, teams[i].id)
    ensures forall i :: 0 <= i < |teams| ==> |rows[i].hourly| == BucketCount
    ensures forall i, j :: 0 <= i < |teams| && 0 <= j < BucketCount ==> rows[i].hourly[j].hour == FirstHour + j
  {
    var dayCalls := Seqs.Filter(rs, OnDate(date));
    seq(|teams|, i requires 0 <= i < |teams| => RowOf(teams[i], agents, dayCalls))
  }

  /** Records of other dates never reach any team figure: the grid over all
      records is the grid over the selected date's records. */
  lemma OnlySelectedDate(teams: seq<Team>, agents: seq<Agent>, rs: seq<CallRecord>, date: string)
    ensures Performance(teams, agents, rs, date) == Performance(teams, agents, Seqs.Filter(rs, OnDate(date)), date)
  {
    Seqs.FilterFilter(rs, OnDate(date), OnDate(date), OnDate(date));
  }

  /** A team's totals sum the day's records whose agent is in the team,
      and each cell those records at its hour. */
  lemma RowFigures(teams: seq<Team>, agents: seq<Agent>, rs: seq<CallRecord>, date: string, i: nat, j: nat)
    requires i < |teams| && j < BucketCount
    ensures var row := Performance(teams, agents, rs, date)[i];
      && row.totals == Sum(Seqs.Filter(rs, DataUtils.InTeamOn(agents, teams[i].id, date)))
      && row.hourly[j].totals == Sum(Seqs.Filter(rs, TeamHourOn(agents, teams[i].id, date, FirstHour + j)))
  {
    var id := teams[i].id;
    var calls := Seqs.Filter(Seqs.Filter(rs, OnDate(date)), InTeam(agents, id));
    assert Performance(teams, agents, rs, date)[i] == RowOf(teams[i], agents, Seqs.Filter(rs, OnDate(date)));
    Seqs.FilterFilter(rs, OnDate(date), InTeam(agents, id), DataUtils.InTeamOn(agents, id, date));
    assert HourlyBuckets(calls)[j].totals == Sum(Seqs.Filter(calls, AtHour(FirstHour + j)));
    Seqs.FilterFilter(rs, DataUtils.InTeamOn(agents, id, date), AtHour(FirstHour + j), TeamHourOn(agents, id, date, FirstHour + j));
  }

  /** Average call time and conversion rate as the exact quotients they
      stand for, and zero without calls. */
  predicate Guarded(row: TeamRow) {
    var t := row.totals;
    if t.calls > 0 then
      row.averageCallTime * t.calls as real == t.callTime as real
      && row.conversionRate * t.calls as real == 100.0 * t.sales as real
    else
      row.averageCallTime == 0.0 && row.conversionRate == 0.0
  }

  lemma RowsGuarded(teams: seq<Team>, agents: seq<Agent>, rs: seq<CallRecord>, date: string)
    ensures forall row :: row in Performance(teams, agents, rs, date) ==> Guarded(row)
  {
  }

  /** The grid and the team overview show the same totals for a team. */
  lemma SameAsOverview(teams: seq<Team>, agents: seq<Agent>, rs: seq<CallRecord>, date: string, i: nat)
    requires i < |teams|
    ensures Performance(teams, agents, rs, date)[i].totals == DataUtils.TeamSummaries(teams, agents, rs, date)[i].totals
    ensures |Performance(teams, agents, rs, date)[i].teamAgents| == DataUtils.TeamSummaries(teams, agents, rs, date)[i].agentCount
  {
    RowFigures(teams, agents, rs, date, i, 0);
  }

  function RowKey(row: TeamRow): Ranking.Key {
    Ranking.Key(row.team.name, row.totals)
  }

  /** `sortedTeams`. */
  function SortedTeams(rows: seq<TeamRow>, k: Ranking.SortKey): seq<TeamRow> {
    Ranking.Ranked(rows, k, RowKey)
  }

  function RowTotals(row: TeamRow): Totals {
    row.totals
  }

  /** The three summary cards: calls, sales and time added over the sorted
      rows. */
  function Cards(sorted: seq<TeamRow>): Totals {
    Ranking.SumBy(sorted, RowTotals)
  }

  /** The cards add up the per-team totals, whatever the sort; with
      distinct team ids, and every record of the day belonging to an agent
      of a listed team, they are the day's totals. */
  lemma CardsAddUp(teams: seq<Team>, agents: seq<Agent>, rs: seq<CallRecord>, date: string, k: Ranking.SortKey)
    ensures var rows := Performance(teams, agents, rs, date);
      Cards(SortedTeams(rows, k)) == Groups.SumAll(DataUtils.TeamTotals(DataUtils.TeamSummaries(teams, agents, rs, date)))
    ensures UniqueTeamIds(teams) && DataUtils.Covered(teams, agents, rs, date) ==>
      Cards(SortedTeams(Performance(teams, agents, rs, date), k)) == Sum(Seqs.Filter(rs, OnDate(date)))
  {
    var rows := Performance(teams, agents, rs, date);
    var column := DataUtils.TeamTotals(DataUtils.TeamSummaries(teams, agents, rs, date));
    Ranking.RankedSum(rows, k, RowKey, RowTotals);
    forall i | 0 <= i < |rows| ensures column[i] == RowTotals(rows[i]) {
      SameAsOverview(teams, agents, rs, date, i);
    }
    Ranking.SumByColumn(rows, RowTotals, column);
    if UniqueTeamIds(teams) && DataUtils.Covered(teams, agents, rs, date) {
      DataUtils.TeamTotalsCover(teams, agents, rs, date);
    }
  }
}

=== FILE: team_overview.dfy ===
/** The team cards of the older screens. The per-team figures are the team
    summaries of the shared helpers (the same filter and the same guarded
    averages); the screen adds a conversion rate, a ranking by calls, and a
    compact view of the first four teams. */
module TeamOverview {
  import opened Wrappers
  import opened Domain
  import opened Totals
  import Seqs
  import Sorting
  import Ranking
  import DataUtils

  /** `summary.totalCalls > 0 ? totalSales / totalCalls * 100 : 0`. */
  function ConversionRateOf(s: DataUtils.TeamSummary): real {
    ConversionRate(s.totals.sales, s.totals.calls)
  }

  /** A card's three quotients are the exact ratios they stand for, and
      zero where their denominator is. */
  lemma CardQuotients(teams: seq<Team>, agents: seq<Agent>, rs: seq<CallRecord>, date: string, i: nat)
    requires i < |teams|
    ensures var s := DataUtils.TeamSummaries(teams, agents, rs, date)[i];
      Quotients(s.totals, s.agentCount, s.averageCallTime, s.averageCallsPerAgent, ConversionRateOf(s))
  {
    var s := DataUtils.TeamSummaries(teams, agents, rs, date)[i];
    assert s.averageCallTime == Average(s.totals.callTime, s.totals.calls) by {
      assert s == DataUtils.TeamSummaryOf(teams[i], agents, rs, date);
    }
    QuotientsOf(s.totals, s.agentCount);
  }

  function SummaryKey(s: DataUtils.TeamSummary): Ranking.Key {
    Ranking.Key(s.teamId, s.totals)
  }

  /** `teamSummaries.sort((a, b) => b.totalCalls - a.totalCalls)`; the
      position in this list is the rank shown. */
  function Rankings(ss: seq<DataUtils.TeamSummary>): seq<DataUtils.TeamSummary> {
    Ranking.MostCallsFirst(ss, SummaryKey)
  }

  function TeamId(t: Team): string {
    t.id
  }

  function SummaryTeamId(s: DataUtils.TeamSummary): string {
    s.teamId
  }

  /** The compact view: the first four summaries, in team order (it is
      drawn before the ranking sorts), each with the team found by id. */
  function Compact(teams: seq<Team>, ss: seq<DataUtils.TeamSummary>): seq<(Team, DataUtils.TeamSummary)> {
    Ranking.Joined(teams, Ranking.FirstFour(ss), TeamId, SummaryTeamId)
  }

  /** With distinct team ids the compact view shows the first four teams
      of the list, in list order, with their own summaries. */
  lemma CompactShowsFirstFour(teams: seq<Team>, agents: seq<Agent>, rs: seq<CallRecord>, date: string)
    requires UniqueTeamIds(teams)
    ensures var ss := DataUtils.TeamSummaries(teams, agents, rs, date);
      var c := Compact(teams, ss);
      && |c| == (if |teams| < 4 then |teams| else 4)
      && forall i :: 0 <= i < |c| ==> c[i] == (teams[i], ss[i])
  {
    var ss := DataUtils.TeamSummaries(teams, agents, rs, date);
    Ranking.FirstFourJoined(teams, ss, TeamId, SummaryTeamId);
  }
}

=== FILE: text.dfy ===
/** String primitives the dashboard borrows from JavaScript: `trim`,
    `toLowerCase`, `split` on one character, `join`, `includes` and
    `endsWith`. A string is a sequence of UTF-16 code units, written here as
    `char`s. */
module Text {

  /** The characters JavaScript's `trim` removes and `\s` matches: the
      WhiteSpace and LineTerminator code points of ECMAScript. */
  predicate IsSpace(c: char) {
    var n := c as int;
    (9 <= n <= 13) || n == 32 || n == 0xA0 || n == 0x1680
    || (0x2000 <= n <= 0x200A) || n == 0x2028 || n == 0x2029
    || n == 0x202F || n == 0x205F || n == 0x3000 || n == 0xFEFF
  }

  /** True when a string neither starts nor ends with whitespace. */
  predicate NoEdgeSpace(s: string) {
    |s| == 0 || (!IsSpace(s[0]) && !IsSpace(s[|s| - 1]))
  }

  function TrimStart(s: string): (r: string)
    ensures |r| <= |s| && r == s[|s| - |r|..]
    ensures forall i :: 0 <= i < |s| - |r| ==> IsSpace(s[i])
    ensures |r| > 0 ==> !IsSpace(r[0])
  {
    if |s| > 0 && IsSpace(s[0]) then TrimStart(s[1..]) else s
  }

  function TrimEnd(s: string): (r: string)
    ensures |r| <= |s| && r == s[..|r|]
    ensures forall i :: |r| <= i < |s| ==> IsSpace(s[i])
    ensures |r| > 0 ==> !IsSpace(r[|r| - 1])
  {
    if |s| > 0 && IsSpace(s[|s| - 1]) then TrimEnd(s[..|s| - 1]) else s
  }

  /** Everything before `i` and from `j` on is whitespace. */
  predicate SpaceOutside(s: string, i: nat, j: nat) {
    (forall k :: 0 <= k < i && k < |s| ==> IsSpace(s[k])) && (forall k :: j <= k < |s| ==> IsSpace(s[k]))
  }

  /** JavaScript `String.prototype.trim`: the stretch of `s` left after
      removing whitespace from both ends. */
  function Trim(s: string): (r: string)
    ensures NoEdgeSpace(r)
    ensures |r| <= |s|
    ensures exists i, j :: 0 <= i <= j <= |s| && r == s[i..j] && SpaceOutside(s, i, j)
  {
    TrimSlice(s);
    TrimEnd(TrimStart(s))
  }

  lemma TrimSlice(s: string)
    ensures var i := |s| - |TrimStart(s)|;
      var j := i + |TrimEnd(TrimStart(s))|;
      j <= |s| && TrimEnd(TrimStart(s)) == s[i..j] && SpaceOutside(s, i, j)
  {
    var t := TrimStart(s);
    var r := TrimEnd(t);
    var i := |s| - |t|;
    PrefixOfSuffix(s, i, |r|);
    forall k | i + |r| <= k < |s| ensures IsSpace(s[k]) {
      assert s[k] == t[k - i];
    }
  }

  /** The first `n` elements of the suffix from `i` are the slice from `i`
      to `i + n`. */
  lemma PrefixOfSuffix<T>(s: seq<T>, i: nat, n: nat)
    requires i + n <= |s|
    ensures s[i..][..n] == s[i..i + n]
  {
  }

  lemma {:induction false} TrimStartKeeps(s: string)
    requires |s| == 0 || !IsSpace(s[0])
    ensures TrimStart(s) == s
  {
  }

  lemma {:induction false} TrimEndKeeps(s: string)
    requires |s| == 0 || !IsSpace(s[|s| - 1])
    ensures TrimEnd(s) == s
  {
  }

  /** A string without edge whitespace is its own trim. */
  lemma TrimKeeps(s: string)
    requires NoEdgeSpace(s)
    ensures Trim(s) == s
  {
    TrimStartKeeps(s);
    TrimEndKeeps(s);
  }

  /** Trimming twice is trimming once. */
  lemma TrimIdempotent(s: string)
    ensures Trim(Trim(s)) == Trim(s)
  {
    TrimKeeps(Trim(s));
  }

  /** ASCII case folding of JavaScript `toLowerCase`. */
  function LowerChar(c: char): char {
    if 'A' <= c <= 'Z' then (c as int + 32) as char else c
  }

  function Lower(s: string): (r: string)
    ensures |r| == |s|
    ensures forall i :: 0 <= i < |s| ==> r[i] == LowerChar(s[i])
  {
    seq(|s|, i requires 0 <= i < |s| => LowerChar(s[i]))
  }

  /** JavaScript `String.prototype.includes`. */
  predicate Contains(s: string, t: string)
    decreases |s|
  {
    t <= s || (|s| > 0 && Contains(s[1..], t))
  }

  /** A string containing `t` contains the first character of `t`. */
  lemma {:induction false} ContainsHead(s: string, t: string)
    requires |t| > 0 && Contains(s, t)
    ensures t[0] in s
    decreases |s|
  {
    if !(t <= s) {
      ContainsHead(s[1..], t);
    }
  }

  /** JavaScript `String.prototype.endsWith`. */
  predicate EndsWith(s: string, t: string) {
    |t| <= |s| && s[|s| - |t|..] == t
  }

  /** Number of occurrences of `c` in `s`. */
  function Count(s: string, c: char): nat {
    if |s| == 0 then 0 else (if s[0] == c then 1 else 0) + Count(s[1..], c)
  }

  /** JavaScript `Array.prototype.join`. */
  function Join(parts: seq<string>, sep: string): string
    decreases |parts|
  {
    if |parts| == 0 then ""
    else if |parts| == 1 then parts[0]
    else parts[0] + sep + Join(parts[1..], sep)
  }

  /** Prefixing the first part prefixes the joined string. */
  lemma JoinPrefixFirst(c: string, parts: seq<string>, sep: string)
    requires |parts| >= 1
    ensures Join([c + parts[0]] + parts[1..], sep) == c + Join(parts, sep)
  {
    var q := [c + parts[0]] + parts[1..];
    assert q[1..] == parts[1..];
  }

  /** JavaScript `String.prototype.split` with a one-character separator:
      one more piece than there are separators, no piece holds the
      separator, and joining the pieces back gives the input. */
  function Split(s: string, sep: char): (parts: seq<string>)
    ensures |parts| == 1 + Count(s, sep)
    ensures forall i :: 0 <= i < |parts| ==> sep !in parts[i]
    ensures Join(parts, [sep]) == s
    decreases |s|
  {
    if |s| == 0 then [""]
    else
      var rest := Split(s[1..], sep);
      if s[0] == sep then
        var parts := [""] + rest;
        assert parts[1..] == rest;
        parts
      else
        var parts := [[s[0]] + rest[0]] + rest[1..];
        JoinPrefixFirst([s[0]], rest, [sep]);
        assert s == [s[0]] + s[1..];
        parts
  }

  /** Splitting a joined sequence of separator-free pieces gives the pieces
      back: the inverse direction of `Split`'s contract. */
  lemma {:induction false} SplitJoin(parts: seq<string>, sep: char)
    requires |parts| >= 1
    requires forall i :: 0 <= i < |parts| ==> sep !in parts[i]
    ensures Split(Join(parts, [sep]), sep) == parts
    decreases |parts|, |parts[0]|
  {
    var j := Join(parts, [sep]);
    if |parts| == 1 {
      SplitNoSep(parts[0], sep);
    } else if |parts[0]| == 0 {
      var rest := parts[1..];
      SplitJoin(rest, sep);
      assert j == [sep] + Join(rest, [sep]);
      assert j[1..] == Join(rest, [sep]);
      SplitAtSep(j, sep);
      assert parts == [""] + rest;
    } else {
      var c := parts[0][0];
      var tail := [parts[0][1..]] + parts[1..];
      ShortenFirst(parts, sep);
      SplitJoin(tail, sep);
      JoinPrefixFirst([c], tail, [sep]);
      assert [c] + parts[0][1..] == parts[0];
      assert [[c] + tail[0]] + tail[1..] == parts;
      assert j == [c] + Join(tail, [sep]);
      assert j[1..] == Join(tail, [sep]);
      SplitAtChar(j, sep);
    }
  }

  /** A leading separator ends an empty first piece. */
  lemma SplitAtSep(s: string, sep: char)
    requires |s| > 0 && s[0] == sep
    ensures Split(s, sep) == [""] + Split(s[1..], sep)
  {
  }

  /** Any other leading character starts the first piece. */
  lemma SplitAtChar(s: string, sep: char)
    requires |s| > 0 && s[0] != sep
    ensures Split(s, sep) == [[s[0]] + Split(s[1..], sep)[0]] + Split(s[1..], sep)[1..]
  {
  }

  /** Dropping the first character of the first piece keeps every piece
      free of the separator. */
  lemma ShortenFirst(parts: seq<string>, sep: char)
    requires |parts| >= 1 && |parts[0]| > 0
    requires forall i :: 0 <= i < |parts| ==> sep !in parts[i]
    ensures var tail := [parts[0][1..]] + parts[1..];
      forall i :: 0 <= i < |tail| ==> sep !in tail[i]
  {
    var tail := [parts[0][1..]] + parts[1..];
    assert sep !in tail[0];
    forall i | 0 <= i < |tail| ensures sep !in tail[i] {
      if i > 0 { assert tail[i] == parts[i]; }
    }
  }

  /** A string with no separator splits into itself. */
  lemma {:induction false} SplitNoSep(s: string, sep: char)
    requires sep !in s
    ensures Split(s, sep) == [s]
    decreases |s|
  {
    if |s| > 0 {
      SplitNoSep(s[1..], sep);
      assert [s[0]] + s[1..] == s;
    }
  }

  /** `parts.map(p => p.trim())`. */
  function TrimAll(parts: seq<string>): (r: seq<string>)
    ensures |r| == |parts|
    ensures forall i :: 0 <= i < |parts| ==> r[i] == Trim(parts[i])
  {
    seq(|parts|, i requires 0 <= i < |parts| => Trim(parts[i]))
  }

  /** Pieces that are already trimmed are left alone. */
  lemma TrimAllKeeps(parts: seq<string>)
    requires forall i :: 0 <= i < |parts| ==> NoEdgeSpace(parts[i])
    ensures TrimAll(parts) == parts
  {
    forall i | 0 <= i < |parts| ensures TrimAll(parts)[i] == parts[i] {
      TrimKeeps(parts[i]);
    }
  }

  /** A joined string starts with its first piece and ends with its last. */
  lemma JoinEdges(parts: seq<string>, sep: string)
    requires |parts| >= 1
    ensures parts[0] <= Join(parts, sep)
    ensures EndsWith(Join(parts, sep), parts[|parts| - 1])
  {
    JoinStarts(parts, sep);
    JoinEnds(parts, sep);
  }

  lemma JoinStarts(parts: seq<string>, sep: string)
    requires |parts| >= 1
    ensures parts[0] <= Join(parts, sep)
  {
    if |parts| > 1 {
      PrefixOfAppend(parts[0], sep + Join(parts[1..], sep));
    }
  }

  lemma PrefixOfAppend(a: string, b: string)
    ensures a <= a + b
  {
    assert (a + b)[..|a|] == a;
  }

  lemma {:induction false} JoinEnds(parts: seq<string>, sep: string)
    requires |parts| >= 1
    ensures EndsWith(Join(parts, sep), parts[|parts| - 1])
    decreases |parts|
  {
    if |parts| > 1 {
      JoinEnds(parts[1..], sep);
      var rest := Join(parts[1..], sep);
      var head := parts[0] + sep;
      assert Join(parts, sep) == head + rest;
      SuffixOfAppend(head, rest, parts[|parts| - 1]);
    }
  }

  lemma SuffixOfAppend(a: string, b: string, t: string)
    requires EndsWith(b, t)
    ensures EndsWith(a + b, t)
  {
    assert (a + b)[|a + b| - |b|..] == b;
    assert (a + b)[|a + b| - |t|..] == b[|b| - |t|..];
  }

  /** A character found in neither the pieces nor the separator is not in
      the joined string. */
  lemma {:induction false} JoinWithout(parts: seq<string>, sep: string, c: char)
    requires c !in sep
    requires forall i :: 0 <= i < |parts| ==> c !in parts[i]
    ensures c !in Join(parts, sep)
    decreases |parts|
  {
    if |parts| > 1 {
      JoinWithout(parts[1..], sep, c);
    }
  }

  /** A joined string whose outer pieces have no edge white space has none. */
  lemma JoinNoEdgeSpace(parts: seq<string>, sep: string)
    requires |parts| >= 1 && |parts[0]| > 0 && |parts[|parts| - 1]| > 0
    requires NoEdgeSpace(parts[0]) && NoEdgeSpace(parts[|parts| - 1])
    ensures NoEdgeSpace(Join(parts, sep))
  {
    JoinEdges(parts, sep);
    var j := Join(parts, sep);
    var last := parts[|parts| - 1];
    assert j[0] == parts[0][0];
    assert j[|j| - 1] == j[|j| - |last|..][|last| - 1] == last[|last| - 1];
  }

  /** Trimming brings in no character. */
  lemma TrimWithout(s: string, c: char)
    requires c !in s
    ensures c !in Trim(s)
  {
    var t := TrimStart(s);
    SliceWithout(s, c, |s| - |t|, |s|);
    SliceWithout(t, c, 0, |TrimEnd(t)|);
  }

  /** A slice holds only characters of the whole. */
  lemma SliceWithout(s: string, c: char, a: nat, b: nat)
    requires a <= b <= |s| && c !in s
    ensures c !in s[a..b]
  {
    forall i | 0 <= i < b - a ensures s[a..b][i] != c {
      assert s[a..b][i] == s[a + i];
    }
  }

  /** Every character of a piece shows up in the joined string. */
  lemma {:induction false} JoinHas(parts: seq<string>, sep: string, i: nat, c: char)
    requires i < |parts| && c in parts[i]
    ensures c in Join(parts, sep)
    decreases |parts|
  {
    if |parts| > 1 {
      if i > 0 {
        JoinHas(parts[1..], sep, i - 1, c);
      }
    }
  }

  /** Splitting brings in no character. */
  lemma SplitWithout(s: string, sep: char, c: char)
    requires c !in s
    ensures forall i :: 0 <= i < |Split(s, sep)| ==> c !in Split(s, sep)[i]
  {
    var parts := Split(s, sep);
    forall i | 0 <= i < |parts| ensures c !in parts[i] {
      if c in parts[i] {
        JoinHas(parts, [sep], i, c);
      }
    }
  }
}

=== FILE: totals.dfy ===
/** The roll-up every screen repeats: keep the call records a filter
    accepts, add up calls, call time and sales, and derive guarded averages
    and rates; and the fixed 8..17 hour buckets. */
module Totals {
  import opened Domain
  import Seqs

  datatype Totals = Totals(calls: int, callTime: int, sales: int) {
    function Plus(o: Totals): Totals {
      Totals(calls + o.calls, callTime + o.callTime, sales + o.sales)
    }
  }

  const Zero := Totals(0, 0, 0)

  function Of(r: CallRecord): Totals {
    Totals(r.callsMade, r.totalCallTime, r.salesMade)
  }

  ghost predicate NonNegative(r: CallRecord) {
    r.callsMade >= 0 && r.totalCallTime >= 0 && r.salesMade >= 0
  }

  ghost predicate AllNonNegative(rs: seq<CallRecord>) {
    forall i :: 0 <= i < |rs| ==> NonNegative(rs[i])
  }

  /** Componentwise `<=`. */
  ghost predicate AtMost(a: Totals, b: Totals) {
    a.calls <= b.calls && a.callTime <= b.callTime && a.sales <= b.sales
  }

  /** The three `reduce((sum, call) => sum + call.field, 0)` of a screen. */
  function Sum(rs: seq<CallRecord>): Totals
    decreases |rs|
  {
    if |rs| == 0 then Zero else Of(rs[0]).Plus(Sum(rs[1..]))
  }

  lemma {:induction false} SumAppend(a: seq<CallRecord>, b: seq<CallRecord>)
    ensures Sum(a + b) == Sum(a).Plus(Sum(b))
    decreases |a|
  {
    if |a| == 0 {
      assert a + b == b;
    } else {
      assert (a + b)[1..] == a[1..] + b;
      SumAppend(a[1..], b);
    }
  }

  lemma ZeroPlus(x: Totals)
    ensures Zero.Plus(x) == x
  {
  }

  lemma PlusAssoc(x: Totals, a: Totals, b: Totals)
    ensures x.Plus(a.Plus(b)) == x.Plus(a).Plus(b)
  {
  }

  lemma PlusSwap(x: Totals, a: Totals, b: Totals)
    ensures x.Plus(a.Plus(b)) == a.Plus(x.Plus(b))
  {
  }

  lemma SumCons(x: CallRecord, t: seq<CallRecord>)
    ensures Sum([x] + t) == Of(x).Plus(Sum(t))
  {
    assert ([x] + t)[1..] == t;
  }

  /** Sum over a filter, one record at a time: a passing head counts... */
  lemma SumFilterIn(rs: seq<CallRecord>, p: CallRecord -> bool)
    requires |rs| > 0 && p(rs[0])
    ensures Sum(Seqs.Filter(rs, p)) == Of(rs[0]).Plus(Sum(Seqs.Filter(rs[1..], p)))
  {
    var t := Seqs.Filter(rs[1..], p);
    assert Seqs.Filter(rs, p) == [rs[0]] + t;
    SumCons(rs[0], t);
  }

  /** ... and a failing head does not. */
  lemma SumFilterOut(rs: seq<CallRecord>, p: CallRecord -> bool)
    requires |rs| > 0 && !p(rs[0])
    ensures Sum(Seqs.Filter(rs, p)) == Sum(Seqs.Filter(rs[1..], p))
  {
  }

  /** Records that pass both of two exclusive filters are never counted
      twice: the sum under "p or q" is the sum under p plus the sum under q. */
  lemma {:induction false} SumFilterOr(rs: seq<CallRecord>, p: CallRecord -> bool, q: CallRecord -> bool, pq: CallRecord -> bool)
    requires forall r :: pq(r) == (p(r) || q(r))
    requires forall r :: !(p(r) && q(r))
    ensures Sum(Seqs.Filter(rs, pq)) == Sum(Seqs.Filter(rs, p)).Plus(Sum(Seqs.Filter(rs, q)))
    decreases |rs|
  {
    if |rs| > 0 {
      var x := rs[0];
      var a := Sum(Seqs.Filter(rs[1..], p));
      var b := Sum(Seqs.Filter(rs[1..], q));
      SumFilterOr(rs[1..], p, q, pq);
      assert pq(x) == (p(x) || q(x));
      assert !(p(x) && q(x));
      if p(x) {
        SumFilterIn(rs, p);
        SumFilterOut(rs, q);
        SumFilterIn(rs, pq);
        PlusAssoc(Of(x), a, b);
      } else if q(x) {
        SumFilterOut(rs, p);
        SumFilterIn(rs, q);
        SumFilterIn(rs, pq);
        PlusSwap(Of(x), a, b);
      } else {
        SumFilterOut(rs, p);
        SumFilterOut(rs, q);
        SumFilterOut(rs, pq);
      }
    } else {
      ZeroPlus(Zero);
    }
  }

  /** A sum over non-negative records only grows when the filter admits
      more. */
  lemma {:induction false} SumFilterMonotone(rs: seq<CallRecord>, p: CallRecord -> bool, q: CallRecord -> bool)
    requires AllNonNegative(rs)
    requires forall r :: p(r) ==> q(r)
    ensures AtMost(Sum(Seqs.Filter(rs, p)), Sum(Seqs.Filter(rs, q)))
    decreases |rs|
  {
    if |rs| > 0 {
      assert AllNonNegative(rs[1..]) by {
        forall i | 0 <= i < |rs[1..]| ensures NonNegative(rs[1..][i]) {
          assert rs[1..][i] == rs[i + 1];
        }
      }
      assert NonNegative(rs[0]);
      SumFilterMonotone(rs[1..], p, q);
    }
  }

  // Filters the screens share.

  function OnDate(date: string): CallRecord -> bool {
    (r: CallRecord) => r.date == date
  }

  function OfAgentOn(agentId: string, date: string): CallRecord -> bool {
    (r: CallRecord) => r.agentId == agentId && r.date == date
  }

  function AtHour(h: int): CallRecord -> bool {
    (r: CallRecord) => r.hour == h
  }

  /** Hours in the half-open range `[lo, hi)`. */
  function InHours(lo: int, hi: int): CallRecord -> bool {
    (r: CallRecord) => lo <= r.hour < hi
  }

  function OutsideHours(lo: int, hi: int): CallRecord -> bool {
    (r: CallRecord) => !(lo <= r.hour < hi)
  }

  /** One agent's figures for one day. */
  function AgentDay(rs: seq<CallRecord>, agentId: string, date: string): Totals {
    Sum(Seqs.Filter(rs, OfAgentOn(agentId, date)))
  }

  // Guarded derived metrics. The screens divide in floating point; the
  // model divides exactly.

  /** `r` is `num / den` exactly, or zero when there is nothing to divide
      by. */
  predicate IsAverage(r: real, num: int, den: int) {
    if den > 0 then r * den as real == num as real else r == 0.0
  }

  /** `den > 0 ? num / den : 0`. */
  function Average(num: int, den: int): (r: real)
    ensures IsAverage(r, num, den)
  {
    if den > 0 then num as real / den as real else 0.0
  }

  /** `calls > 0 ? sales / calls * 100 : 0`. */
  function ConversionRate(sales: int, calls: int): (r: real)
    ensures calls > 0 ==> r * calls as real == 100.0 * sales as real
    ensures calls <= 0 ==> r == 0.0
  {
    if calls > 0 then sales as real / calls as real * 100.0 else 0.0
  }

  /** The three quotients of a summary card, each the exact ratio it stands
      for and zero where its denominator is. */
  ghost predicate Quotients(t: Totals, agentCount: int, averageCallTime: real, averageCallsPerAgent: real, conversionRate: real) {
    && (if t.calls > 0 then averageCallTime * t.calls as real == t.callTime as real else averageCallTime == 0.0)
    && (if agentCount > 0 then averageCallsPerAgent * agentCount as real == t.calls as real else averageCallsPerAgent == 0.0)
    && (if t.calls > 0 then conversionRate * t.calls as real == 100.0 * t.sales as real else conversionRate == 0.0)
  }

  lemma QuotientsOf(t: Totals, agentCount: int)
    ensures Quotients(t, agentCount, Average(t.callTime, t.calls), Average(t.calls, agentCount), ConversionRate(t.sales, t.calls))
  {
  }

  /** A conversion rate lies in [0, 100] when sales never exceed calls. */
  lemma ConversionRateBounded(sales: int, calls: int)
    requires 0 <= sales <= calls
    ensures 0.0 <= ConversionRate(sales, calls) <= 100.0
  {
    if calls > 0 {
      var r := ConversionRate(sales, calls);
      assert r * calls as real == 100.0 * sales as real;
      assert r * calls as real <= 100.0 * calls as real;
    }
  }

  lemma AverageBounded(num: int, den: int, bound: int)
    requires den > 0 && 0 <= num <= bound * den
    ensures 0.0 <= Average(num, den) <= bound as real
  {
    var r := Average(num, den);
    assert r * den as real == num as real;
    assert r * den as real <= bound as real * den as real;
  }

  // Hour buckets.

  const FirstHour := 8
  const LastHour := 17
  const BucketCount := LastHour - FirstHour + 1

  datatype HourBucket = HourBucket(hour: int, totals: Totals)

  /** `count` consecutive buckets from hour `from`, each summing the
      records at its hour. */
  function Buckets(rs: seq<CallRecord>, from: int, count: nat): (b: seq<HourBucket>)
    ensures |b| == count
    ensures forall i :: 0 <= i < count ==> b[i].hour == from + i
    ensures forall i :: 0 <= i < count ==> b[i].totals == Sum(Seqs.Filter(rs, AtHour(from + i)))
  {
    seq(count, i requires 0 <= i < count => HourBucket(from + i, Sum(Seqs.Filter(rs, AtHour(from + i)))))
  }

  /** The ten buckets 8..17 of an hourly breakdown. */
  function HourlyBuckets(rs: seq<CallRecord>): (b: seq<HourBucket>)
    ensures |b| == BucketCount
    ensures forall i :: 0 <= i < |b| ==> FirstHour <= b[i].hour <= LastHour && b[i].hour == FirstHour + i
  {
    Buckets(rs, FirstHour, BucketCount)
  }

  function BucketSum(bs: seq<HourBucket>): Totals
    decreases |bs|
  {
    if |bs| == 0 then Zero else bs[0].totals.Plus(BucketSum(bs[1..]))
  }

  /** The buckets together hold exactly the records in their hour range. */
  lemma {:induction false} BucketsTotal(rs: seq<CallRecord>, from: int, count: nat)
    ensures BucketSum(Buckets(rs, from, count)) == Sum(Seqs.Filter(rs, InHours(from, from + count)))
    decreases count
  {
    if count == 0 {
      Seqs.FilterNone(rs, InHours(from, from));
    } else {
      var b := Buckets(rs, from, count);
      assert b[1..] == Buckets(rs, from + 1, count - 1);
      BucketsTotal(rs, from + 1, count - 1);
      SumFilterOr(rs, AtHour(from), InHours(from + 1, from + count), InHours(from, from + count));
    }
  }

  /** A day's total is the sum of its ten buckets plus the records outside
      8..17, which appear in no bucket. */
  lemma DayTotalSplit(rs: seq<CallRecord>)
    ensures Sum(rs) == BucketSum(HourlyBuckets(rs)).Plus(Sum(Seqs.Filter(rs, OutsideHours(FirstHour, LastHour + 1))))
  {
    var inside := InHours(FirstHour, LastHour + 1);
    var outside := OutsideHours(FirstHour, LastHour + 1);
    var all := (r: CallRecord) => true;
    BucketsTotal(rs, FirstHour, BucketCount);
    SumFilterOr(rs, inside, outside, all);
    Seqs.FilterAll(rs, all);
  }

  /** When every record is in business hours the buckets add up to the
      day's total. */
  lemma DayTotalIsBucketSum(rs: seq<CallRecord>)
    requires forall i :: 0 <= i < |rs| ==> FirstHour <= rs[i].hour <= LastHour
    ensures Sum(rs) == BucketSum(HourlyBuckets(rs))
  {
    InHoursKeepsAll(rs, FirstHour, LastHour + 1);
    BucketsTotal(rs, FirstHour, BucketCount);
  }

  lemma InHoursKeepsAll(rs: seq<CallRecord>, lo: int, hi: int)
    requires forall i :: 0 <= i < |rs| ==> lo <= rs[i].hour < hi
    ensures Seqs.Filter(rs, InHours(lo, hi)) == rs
  {
    Seqs.FilterAll(rs, InHours(lo, hi));
  }

  // Distinct agents.

  function AgentIds(rs: seq<CallRecord>): (ids: seq<string>)
    ensures |ids| == |rs|
    ensures forall i :: 0 <= i < |rs| ==> ids[i] == rs[i].agentId
  {
    seq(|rs|, i requires 0 <= i < |rs| => rs[i].agentId)
  }

  /** `new Set(records.map(r => r.agent_id)).size`. */
  function ActiveAgents(rs: seq<CallRecord>): (n: nat)
    ensures n <= |rs|
  {
    |Seqs.Distinct(AgentIds(rs))|
  }

  /** The agent ids the records carry. */
  function AgentIdSet(rs: seq<CallRecord>): set<string> {
    set r | r in rs :: r.agentId
  }

  /** The active-agent count is the number of distinct agent ids, and at
      least one when there is any record. */
  lemma ActiveAgentsCount(rs: seq<CallRecord>)
    ensures ActiveAgents(rs) == |AgentIdSet(rs)|
    ensures |rs| > 0 ==> ActiveAgents(rs) >= 1
  {
    var ids := AgentIds(rs);
    var d := Seqs.Distinct(ids);
    Seqs.NoDuplicatesCard(d);
    assert (set x | x in d) == AgentIdSet(rs) by {
      forall x | x in d ensures x in AgentIdSet(rs) {
        var i :| 0 <= i < |ids| && ids[i] == x;
        assert rs[i] in rs;
      }
      forall r | r in rs ensures r.agentId in d {
        var i :| 0 <= i < |rs| && rs[i] == r;
        assert ids[i] in ids;
      }
    }
    if |rs| > 0 {
      assert ids[0] in d;
    }
  }
}

=== FILE: wrappers.dfy ===
/** Failure-carrying values shared by every module: a JavaScript `undefined`
    or `null` is `None`, and a thrown error or rejected import is `Failure`. */
module Wrappers {

  datatype Option<+T> = None | Some(value: T) {
    function GetOr(default: T): T {
      match this
      case Some(v) => v
      case None => default
    }
  }

  datatype Result<+R, +E> = Success(value: R) | Failure(error: E)
}
